=== FILE: README.md ===
# CAR reference-motion training core, modelled in Dafny

This project models the discrete logic of CAR, a system that trains a
physics-simulated character to imitate and adapt a reference motion. Each
component is a Dafny module with immutable data and pure transitions:

- **Reference store** (`MotionValue`, `PhaseLookup`, `Contacts`, `Velocity`,
  `Generate`, `Displacement`, `AdaptiveFile`). It covers:
  - how a real-valued frame picks or blends stored frames;
  - the adaptive time-step table;
  - foot-contact flags and their gap smoothing;
  - finite-difference velocities with the single 2π wrap;
  - the cycle repetition of `GenerateMotionsFromSinglePhase`;
  - joint-by-joint displacement dispatch;
  - the text files of the adaptive motion.
- **Reference optimiser** (`ReferenceOptimizer`, `StableSort`). It covers:
  - the rollout filter of `SaveTrajectories`;
  - the rank-weighted elite recombination of `Optimize`, after a stable
    descending sort;
  - the target-update counters;
  - the regression-sample flattening.
- **Training controller** (`Controller`). It covers:
  - action decoding and frame/phase advance;
  - the sub-step loop and the torque clamp;
  - reward bookkeeping;
  - the termination decision;
  - `Reset` and the terminal state guard.
- **Regression grid primitives** (`RegressionMemory`): the lexicographic
  `std::less` on vectors, `ParamCube` and the trained ratio.
- **Orchestration**:
  - the batched environment (`SimEnv`), with slaves abstract and the
    parallel loop modelled sequentially;
  - the interactive sub-controllers (`SubController`).
- **Viewers** (`WidgetText`, `MotionWidget`, `FrameCursor`, `SplineWindow`,
  `SimWindow`). They cover the string helpers, the header copy, the frame
  cursors and the record parsing of the replay windows.
- **Python training bookkeeping**:
  - the curriculum goal sampler (`Sampler`): Metropolis pools, capped
    slopes, moving averages and stage gating;
  - the training monitor (`Monitor`): termination flags, episode and
    transition counts, summaries.

Some things cannot be modelled and become parameters of the functions that
use them:

- geometry, rigid-body transforms and spline fitting/evaluation;
- `exp`, `log` and the physics engine;
- the value networks and the random draws.

`exp` is constrained by `Numeric.ExpLike`: positive, strictly increasing and
1 at 0. Reals are exact. The one IEEE behaviour the program tests for, NaN,
is the `Numeric.Float` datatype. A Python exception, and an operation the
program leaves undefined, is an `Option` whose `None` is that case.

The adaptive-motion files print every double at the stream's default
precision of six significant digits. That rounding is the parameter `fmt` of
the `AdaptiveFile` writer: the number `atof` reads back from a printed double.
The round-trip lemmas state what comes back with `fmt` applied, so a time step
of 1/30 comes back as `fmt(1/30)`, which is 0.0333333.

One might expect the termination reason to follow a fixed priority, so that
a NaN state always reports reason 3. It does not: every test that fires writes
the reason, and later tests overwrite earlier ones (sim/Controller.cpp:696-735).
The model follows the code, and `Controller.NanReasonOverwritten` shows a NaN
state that ends with reason 1.

## Model

| member | source | states |
|---|---|---|
| MotionValue.Copy | sim/ReferenceManager.h:17-20 | A copy has the source's position and velocity. |
| MotionValue.SetPosition | sim/ReferenceManager.h:25 | Only the position changes, to the value given; the velocity is kept. |
| MotionValue.SetVelocity | sim/ReferenceManager.h:26 | Only the velocity changes, to the value given; the position is kept. |
| PhaseLookup.Select | sim/ReferenceManager.cpp:469-478 | Past frame n-1 the last frame is used. An integral t reads frame t. Otherwise frames floor t and floor t + 1 are blended with a weight strictly inside (0, 1). |
| PhaseLookup.GetPosition | sim/ReferenceManager.cpp:456-479 | The pose is the last generated frame beyond the end, frame k at integral t = k, and BlendPosition(frame ceil t, frame floor t, 1-(t-floor t)) otherwise. |
| PhaseLookup.GetMotion | sim/ReferenceManager.cpp:482-508 | As written: the bound test uses the non-adaptive sequence's length whichever sequence is read. Beyond it the chosen sequence's last frame is returned; otherwise it reads the selected frames. |
| PhaseLookup.GetMotionChecked | sim/ReferenceManager.cpp:482-508 | Corrected lookup, with bounds taken from the sequence read. Beyond its end the last frame is returned; frame k is returned at integral t = k; otherwise the positions and the velocities of frames floor t + 1 and floor t are blended with weight 1-(t-floor t). Its position is always GetPosition's. |
| PhaseLookup.GetMotionGuardAdmitsOutOfRange | sim/ReferenceManager.cpp:495 | With 3 plain frames and 1 adaptive frame, t = 1.5 passes the guard and selects adaptive frame 2, which does not exist. |
| PhaseLookup.GetMotionAgreesWhenLengthsMatch | sim/ReferenceManager.cpp:495-507 | When both sequences have the same length the guard is safe, and GetMotion equals the corrected lookup. |
| PhaseLookup.GetMotionAgreesWithinPlainRange | sim/ReferenceManager.cpp:456-508 | Up to the last non-adaptive frame, wherever GetMotion can read, it equals the corrected lookup, and its position is GetPosition's. |
| PhaseLookup.GetTimeStep | sim/ReferenceManager.cpp:668-682 | 1.0 outside adaptive mode. In adaptive mode t is reduced by fmod, then at an integral frame the table entry is returned. Otherwise the result lies between the two bracketing entries, with entry 0 after the last. |
| PhaseLookup.Interpolate | sim/ReferenceManager.cpp:673-681 | At an integral u the table entry is returned. Otherwise the value lies between entries floor u and floor u + 1, wrapping to entry 0 past the end. |
| PhaseLookup.TimeStepAtIntegralFrame | sim/ReferenceManager.cpp:670-674 | At an integral adaptive frame k the table entry k mod P is returned. |
| PhaseLookup.GetContacts | sim/ReferenceManager.cpp:604-630 | One value per contact, each in {0, 0.5, 1}. Integral t gives the 0/1 flags at t mod P. Fractional t keeps flags both neighbours agree on and gives 0.5 where they differ. |
| PhaseLookup.ContactValue | sim/ReferenceManager.cpp:615-617 | A flag reads as 1.0 when set and 0.0 when clear. |
| Contacts.Flags | sim/ReferenceManager.cpp:231-236 | A frame's flag j is on iff that body's height above the base is below the threshold. |
| Contacts.LoadFlags | sim/ReferenceManager.cpp:231-236 | A loaded frame's flag j is on iff that body's world height is below 0.04. Any such body is also in contact for the 0.07 test of `GetContactInfo` on level ground. |
| Contacts.Smooth | sim/ReferenceManager.cpp:246-253 | The in-place smoothing loop. It only turns flags on; frames 0 and P-1 are never changed; afterwards no single-frame gap remains. |
| Contacts.SmoothedHasNoGaps | sim/ReferenceManager.cpp:248-251 | Whatever the input, no interior frame is off between two on neighbours. |
| Contacts.SmoothedUnique | sim/ReferenceManager.cpp:246-253 | The pass's output is determined by its input. |
| Contacts.SmoothIdempotent | sim/ReferenceManager.cpp:246-253 | Smoothing smoothed flags changes nothing. |
| Contacts.SmoothedIsMonotone | sim/ReferenceManager.cpp:248-251 | Smoothing never clears a contact flag that was set. |
| Velocity.WrapOnce | sim/ReferenceManager.cpp:277-282 | One 2π correction: above π subtract 2π, below -π add 2π, else unchanged. Values within 3π land in [-π, π]. |
| Velocity.WrapRevolute | sim/ReferenceManager.cpp:274-285 | Only the revolute coordinates are corrected; every other coordinate is the plain difference quotient. |
| Velocity.VelocitiesFromPositions | sim/ReferenceManager.cpp:266-291 | One velocity per pose. Frame i comes from poses i+1 and i over 0.033, revolute-wrapped. The last frame reuses frame 0's. |
| Velocity.Divide | sim/ReferenceManager.cpp:271 | Each coordinate divided by the frame time: multiplying back gives the difference. |
| Velocity.RevoluteVelocitiesInRange | sim/ReferenceManager.cpp:213-223 | A revolute change of at most 3π·0.033 per frame gives a velocity in [-π, π]. |
| Generate.GenerateFromSinglePhase | sim/ReferenceManager.cpp:363-453 | The output is emptied, then exactly `frames` entries. The first P are the phase frames. A later frame i with i mod P != 0 equals phase frame i mod P from DOF 6 on. A cycle start has phase frame 0's root height (index 4). Velocities are forward differences from P-1 on. |
| Generate.NextPose | sim/ReferenceManager.cpp:403-434 | A frame of a later cycle copies the phase frame at i mod P from DOF 6 on. A cycle start keeps phase frame 0's root height. |
| Displacement.ApplyToPose | sim/ReferenceManager.cpp:861-880 | Per joint on DOF count: 6 rotates the first three coordinates and adds the translation, 3 rotates, 1 adds. Every coordinate is owned by exactly one joint. |
| Displacement.MeasureFromPose | sim/ReferenceManager.cpp:887-907 | The inverse dispatch: 6 and 3 take rotation differences, and translation and 1-DOF coordinates subtract. |
| Displacement.AdditivePartsRoundTrip | sim/ReferenceManager.cpp:872-876 | Measuring a pose against a reference and re-applying the result restores every translation and 1-DOF coordinate exactly, whatever the rotation kernels. |
| Displacement.FullRoundTrip | sim/ReferenceManager.cpp:857-908 | When the rotation kernels are mutually inverse, measure-then-apply reproduces the whole pose. |
| Displacement.AddToPhase | sim/ReferenceManager.cpp:857-881 | The output is cleared, then holds one pose per displacement: displacement i applied to phase frame i. |
| Displacement.MeasureAgainstReference | sim/ReferenceManager.cpp:884-908 | Each recorded pose is measured against the reference at fmod(t, P) and paired with that phase. |
| StableSort.SortDescSorted | sim/ReferenceManager.cpp:926 | The sorted samples are descending in trajectory reward. |
| StableSort.SortDescStable | sim/ReferenceManager.cpp:926 | For every key, the samples with that key keep their input order. This makes the result a permutation. |
| StableSort.SortDescOfSorted | sim/ReferenceManager.cpp:926 | A descending sequence is left unchanged. |
| StableSort.SortDesc | sim/ReferenceManager.cpp:926 | The sort keeps length and contents: the result is a permutation of the samples. |
| ReferenceOptimizer.InitOptimization | sim/ReferenceManager.cpp:511-601 | The knots are appended, and one zero control point per knot plus three. Time steps become 1. Counters and means become 0, and the trajectory cut-line becomes 0.5. |
| ReferenceOptimizer.InitEstablishesWellFormed | sim/ReferenceManager.cpp:513-557 | From a blank manager, InitOptimization establishes the shape invariant: 12 pose control points, and one time control point per even frame plus three. |
| ReferenceOptimizer.EvenFrames | sim/ReferenceManager.cpp:528-530 | The time knots are exactly the even frames below the phase length, in order. |
| ReferenceOptimizer.TimeDisplacementsTelescope | sim/ReferenceManager.cpp:762-772 | The time displacements of the first n-1 records sum to the phase covered minus n-1. The last displacement is 0. |
| ReferenceOptimizer.TimeDisplacements | sim/ReferenceManager.cpp:762-772 | Record i is paired with its phase fmod(t_i, P). Its time displacement is t_{i+1} - t_i - 1; the last is 0. |
| ReferenceOptimizer.SaveTrajectories | sim/ReferenceManager.cpp:692-846 | A NaN reward only increments nET. Otherwise nT grows by one and both running means move 1%, so a mean in [0, 1] stays there while the per-frame tracking reward and the target reward are in [0, 1]. At most one sample is appended, after the earlier ones. Control points, time steps, nOp and the mode are kept, and the shape invariant is preserved. |
| ReferenceOptimizer.SaveTrajectoriesStores | sim/ReferenceManager.cpp:825-831 | A sample is stored exactly when Admits holds. It holds the fitted control points, a trajectory reward in [0, per-frame tracking reward], the target reward and the parameters, after all earlier samples. |
| ReferenceOptimizer.PassesIsAdmits | sim/ReferenceManager.cpp:709-729 | The chain of early returns admits exactly: tracking/P ≥ 0.8 (≥ 0.83 while the target cut-line is 0), and target reward ≥ cut-line, and update mode on. |
| ReferenceOptimizer.AdmitsMonotone | sim/ReferenceManager.cpp:709-729 | A rollout that passes still passes with higher rewards. |
| ReferenceOptimizer.TrajectoryReward | sim/ReferenceManager.cpp:817 | (0.4·r_regul + 0.6·r_slide)·tracking/P lies between 0 and tracking/P when both rewards are in [0, 1]. |
| ReferenceOptimizer.Scored | sim/ReferenceManager.cpp:817-830 | A stored sample carries the fitted control points, slide reward and target, with a trajectory reward between 0 and the tracking reward. |
| ReferenceOptimizer.ReportEarlyTermination | sim/ReferenceManager.cpp:685-689 | nET grows by one; nothing else changes. |
| ReferenceOptimizer.RankWeights | sim/ReferenceManager.cpp:962-963 | w_i = log(mu+1) - log(i+1) for each rank i < mu. |
| ReferenceOptimizer.RankWeightsPositiveDecreasing | sim/ReferenceManager.cpp:962-963 | Under a strictly increasing log every weight is positive, and a better rank weighs more. |
| ReferenceOptimizer.MeanInHull | sim/ReferenceManager.cpp:964-988 | With positive weights, the weighted mean of values in [lo, hi] is in [lo, hi]. |
| ReferenceOptimizer.WeightedMeanInHull | sim/ReferenceManager.cpp:966-988 | Every entry of the weighted mean of control points lies between that entry's smallest and largest value among the elite. |
| ReferenceOptimizer.EliteIsBest | sim/ReferenceManager.cpp:926-962 | No sample outside the elite has a higher trajectory reward than an elite sample. |
| ReferenceOptimizer.Elite | sim/ReferenceManager.cpp:926-962 | The elite is 60 of the samples, descending in trajectory reward, drawn from the stored samples without repetition beyond their multiplicity. |
| ReferenceOptimizer.Smooth | sim/ReferenceManager.cpp:989-993 | Each blended control-point entry lies between its old value and the elite mean. |
| ReferenceOptimizer.TimeSteps | sim/ReferenceManager.cpp:1007-1009 | Time step i is 1 plus the evaluated time displacement i, for each phase frame. |
| ReferenceOptimizer.Optimize | sim/ReferenceManager.cpp:911-1056 | True exactly when update mode is on and enough samples are stored; otherwise false and no change. After an update the samples are cleared and nOp grows by one. The shape invariant holds either way. |
| ReferenceOptimizer.OptimizeStaysInHull | sim/ReferenceManager.cpp:987-994 | Every new control-point entry lies between the smallest and largest of the old entry and the stored samples' entries. |
| ReferenceOptimizer.OptimizeCutLineInRange | sim/ReferenceManager.cpp:973-996 | The new trajectory cut-line lies between the worst and best stored trajectory reward. |
| ReferenceOptimizer.Optimized | sim/ReferenceManager.cpp:926-1053 | The update after the early returns: samples cleared, nOp + 1, new control points, time steps 1 + evaluated spline, cut-lines as the rank-weighted and plain elite means, target mean recomputed; counters, knots and running means kept. |
| ReferenceOptimizer.UpdateExternalTarget | sim/ReferenceManager.cpp:1059-1069 | nT and nET are zeroed and nothing else changes. A true answer needs at least one rollout (0/0 is NaN and fails the test) and mean tracking above 0.75. |
| ReferenceOptimizer.UpdateExternalTargetByCounts | sim/ReferenceManager.cpp:1061-1065 | The survival test equals "nT > 4·nET" in integers. |
| ReferenceOptimizer.NeedUpdateSigTarget | sim/ReferenceManager.cpp:1072-1080 | 1 when mean target < 0.05 and tracking > 0.75; -1 when target > 0.8 and tracking > 0.75; 0 otherwise. |
| ReferenceOptimizer.SigTargetFollowsExternalTarget | sim/ReferenceManager.cpp:1059-1080 | A target signal needs the tracking mean above 0.75. So with more than four survivals per early termination the external target moves as well; when it does not move at that survival rate, the signal is 0. Clearing the counters leaves the signal unchanged. |
| ReferenceOptimizer.GetRegressionSamples | sim/ReferenceManager.cpp:1091-1111 | One row per sample and control point j < K+3: input (j, parameters), output control point j, reward the sample's. The stored samples are then cleared. Nothing in the program fills these samples, because the push at sim/ReferenceManager.cpp:819-822 is commented out, so the program itself always returns empty matrices; the contract is stated for any stored samples. |
| ReferenceOptimizer.FlatRowsAt | sim/ReferenceManager.cpp:1096-1106 | Row i·(K+3)+j of the output is row j of sample i. |
| ReferenceOptimizer.AppendSampleRows | sim/ReferenceManager.cpp:1098-1105 | Appending sample i's rows to the first i·(K+3) rows gives the first (i+1)·(K+3) rows of the flattening. |
| AdaptiveFile.TimeFileLayout | sim/ReferenceManager.cpp:56-65 | The time file has 1+3P numbers. It starts with the phase length, and line i names frame i twice, exactly, then its time step as printed. |
| AdaptiveFile.MotionFileLength | sim/ReferenceManager.cpp:36-41 | Under the shape invariant, the motion file has 2·dof+1 numbers per phase frame. |
| AdaptiveFile.Token | sim/ReferenceManager.cpp:99-116 | A read past the end of the file leaves the buffer's previous content. |
| AdaptiveFile.ReadVector | sim/ReferenceManager.cpp:103-110 | n consecutive reads from the position given, each with the stale-buffer rule. |
| AdaptiveFile.ReadKnots | sim/ReferenceManager.cpp:123-128 | Knot i is the truncated token 1+i. |
| AdaptiveFile.ReadRows | sim/ReferenceManager.cpp:129-136 | Row i is the d tokens after the knots at offset i·d. |
| AdaptiveFile.ReadPhase | sim/ReferenceManager.cpp:100-117 | Frames and time steps 0..P-1 are replaced by the file's records. |
| AdaptiveFile.ReadCps | sim/ReferenceManager.cpp:120-137 | A knot count beyond the control-point rows is out of range (the program writes past the vector). Otherwise only the knots and control points change, and the rows from the knot count on are kept. |
| AdaptiveFile.LoadAdaptiveMotion | sim/ReferenceManager.cpp:91-141 | A motion file that fails to open changes nothing. A load keeps the phase length, the DOF and the size of every table; what it reads is stated by LoadAfterSave. |
| AdaptiveFile.FrameRoundTrip | sim/ReferenceManager.cpp:36-41 | Frame record i of a saved motion file reads back as frame i and its time step, every number as printed (fmt applied). |
| AdaptiveFile.CpRowRoundTrip | sim/ReferenceManager.cpp:51-53 | Control-point row i of a saved cp file reads back as row i, every number as printed. |
| AdaptiveFile.PhaseRoundTrip | sim/ReferenceManager.cpp:100-117 | Reading a saved motion file sets the first P frames and time steps to the saved ones as printed, and keeps the rest. |
| AdaptiveFile.CpRoundTrip | sim/ReferenceManager.cpp:44-53 | Reading a saved cp file restores the knots exactly and the first knot-count control points as printed. |
| AdaptiveFile.LoadAfterSave | sim/ReferenceManager.cpp:91-141 | Loading what manager a saved into b of the same shape gives b a's knots, and a's phase, time steps and first knot-count control points as printed. The last three control points stay b's, because save writes knots+3 rows and load reads knots rows. |
| AdaptiveFile.LoadRestoresSaved | sim/ReferenceManager.cpp:30-141 | Saving a well-formed manager and loading into it rounds the phase frames, time steps and first knot-count control points to their printed values. The knots and the last three control points keep their exact values. |
| AdaptiveFile.SecondCycleChangesNothing | sim/ReferenceManager.cpp:30-141 | When printing is idempotent, as six-digit output is, a second save and load changes nothing. |
| Controller.Labels | sim/Controller.cpp:127-141 | Five reward labels in adaptive mode, six otherwise. |
| Controller.Create | sim/Controller.cpp:12-145 | 30/150 Hz, so 5 sub-steps. Frames 0, reason -1, flags false, zero actions of size DOF-6+1, and seven zero reward parts. |
| Controller.CreateDefaults | sim/Controller.h:22 | The default constructor is adaptive, parametric and not recording. GetReward is 0.0 before any step. |
| Controller.DecodeJoint | sim/Controller.cpp:177-179 | clip(0.2·a, -0.7π, 0.7π). |
| Controller.DecodeStep | sim/Controller.cpp:184-185 | exp(clip(1.2·a, -2, 1)): positive, in [e⁻², e], and 1 for a = 0. |
| Controller.DecodeStepMonotone | sim/Controller.cpp:184-185 | A larger action never yields a smaller step. |
| Controller.DecodeActions | sim/Controller.cpp:177-186 | Every joint action is decoded by DecodeJoint and the last by DecodeStep. |
| Controller.DefaultSubSteps | sim/Controller.cpp:220-243 | 150 Hz simulation under 30 Hz control gives mSimPerCon = 5, and the sub-step loop then runs 3 outer iterations. |
| Controller.SubSteps | sim/Controller.cpp:220-243 | The loop runs two world steps per outer iteration, each adding the step to the elapsed time. |
| Controller.ClampTorqueNorm | sim/Controller.cpp:232-235 | A joint torque's norm becomes at most 1.5× its limit, and is unchanged below it. |
| Controller.Advance | sim/Controller.cpp:177-192 | Actions are decoded in place. The step is the decoded last action (forced to 1 when not adaptive). Both frame counters advance by it, and nTotalSteps grows by 1. |
| Controller.WrapPhase | sim/Controller.cpp:246-291 | The on-phase frame drops by P only when strictly above P. In adaptive mode the cycle's rollout goes to the reference manager only while the frame is below 2P, and the cycle accumulators are cleared. |
| Controller.OnPhaseStaysInPhase | sim/Controller.cpp:189-191 | An on-phase frame in [0, P], advanced by a positive step no longer than P and wrapped, lands in (0, P]. |
| Controller.GetParamReward | sim/Controller.cpp:585-594 | 1 (setting the flag) if the flag is unset and the on-phase frame ≥ 65; else 0. |
| Controller.ParamRewardAtMostOnce | sim/Controller.cpp:588-590 | Over any sequence of calls the parameter reward is paid at most once, and never after the flag is set. |
| Controller.TotalIsConvex | sim/Controller.cpp:647 | 0.9(0.5p+0.1com+0.3ee+0.1v)+0.1time is a convex combination, so it lies in any interval holding all five terms. |
| Controller.UpdateReward | sim/Controller.cpp:636-659 | Time term exp(-40(a-1)²). Parts: total, four tracking terms, time. A NaN total gives six zeros. |
| Controller.UpdateRewardInUnit | sim/Controller.cpp:644-647 | With tracking terms in [0, 1] the total is in [0, 1]. |
| Controller.TimeTerm | sim/Controller.cpp:644 | exp(-k d²) is in (0, 1], and 1 when the step is the default one. |
| Controller.UpdateAdaptiveReward | sim/Controller.cpp:596-634 | Total 0.8·mean tracking + 0.2·exp(-75 d²); parts are total, 10·param, tracking, time, similarity. A NaN total gives five zeros. The param reward is combined in, tracking accumulates, and the count grows by one. |
| Controller.AdaptiveRewardInUnit | sim/Controller.cpp:604-608 | With tracking terms in [0, 1] the adaptive total is in [0, 1]. |
| Controller.TrackingMean | sim/Controller.cpp:604 | NaN iff some tracking term is NaN. |
| Controller.CombineParam | sim/Controller.cpp:624-631 | A paid param reward starts the cycle's when it is 0 and multiplies it otherwise. |
| Controller.TerminalInfoByPriority | sim/Controller.cpp:696-735 | Terminal iff a test fires (or it already was). NaN flag iff NaN state. Reason by last-writer-wins in the order 3, 4, 2, then the first of 1, 5, 8. |
| Controller.NanReasonOverwritten | sim/Controller.cpp:696-727 | A NaN position with the root too high ends with reason 1, not 3. |
| Controller.RecordingKeepsUpperLimit | sim/Controller.cpp:724 | The recording exemption binds to the lower height limit only (`&&` before the or): while recording, a root above the upper limit still terminates, and a root below the lower limit with no other failure does not. |
| Controller.UpdateTerminalInfo | sim/Controller.cpp:661-745 | Only the termination record (terminal, NaN flag, reason) changes. |
| Controller.PushTime | sim/Controller.cpp:312-315 | The time queue keeps the last three frames. |
| Controller.RecordPose | sim/Controller.cpp:306-319 | In adaptive mode the pose and on-phase frame are appended; the rollout is dropped once terminal. |
| Controller.UpdateModeReward | sim/Controller.cpp:292-297 | Only the reward parts and the cycle accumulators change. The accumulators change only in adaptive mode, where the tracking count grows by one. |
| Controller.Step | sim/Controller.cpp:151-321 | A terminal controller is left unchanged with no cycle. Otherwise: one more step with a positive time step (1 when not adaptive), the frame advanced by it and pushed on the time queue, the configuration kept, the rollout cleared if the step ended the episode in adaptive mode, and no cycle handed on when not adaptive. |
| Controller.TerminalIsAbsorbing | sim/Controller.cpp:154-157 | Once terminal, any number of steps leaves the controller unchanged. |
| Controller.StepsCount | sim/Controller.cpp:192 | The step count grows by one per step until the episode ends; the configuration never changes. |
| Controller.Reset | sim/Controller.cpp:821-941 | With RSI and not adaptive, the start is the truncated draw from [0, P-5). Otherwise 0, with cycle rewards cleared. Both frames equal the start, flags are cleared, step is 1, the reason is kept. |
| Controller.ResetStart | sim/Controller.cpp:831-849 | An RSI start is an integer in [0, P-5), and GetCurrentLength is 0 right after any reset. |
| Controller.ResetKeepsTimeEnd | sim/Controller.cpp:869-870 | Reset does not clear the reason, so IsTimeEnd still holds after it. |
| Controller.StateLayout | sim/Controller.cpp:1244-1255 | The features in program order, with the goal parameters appended iff parametric. |
| Controller.GetState | sim/Controller.cpp:1194-1199 | numState zeros when terminal with a reason other than 8; the features otherwise. |
| Controller.GetContactInfo | sim/Controller.cpp:448-475 | One entry per named body: its position with the base subtracted from the height, in contact iff below 0.07. |
| Controller.GroupOfName | sim/Controller.cpp:1026-1049 | Each of the six body names selects its own collision group. |
| Controller.GroupOf | sim/Controller.cpp:1026-1049 | A group is found only for its own body name. |
| Controller.CheckCollisionWithGround | sim/Controller.cpp:1021-1054 | The named body's collision group against the ground; false for any other name. |
| Controller.FootContact | sim/Controller.cpp:333-336 | Right = right foot or toe, left = left foot or toe. |
| RegressionMemory.Less | sim/RegressionMemory.h:12-22 | Scan from the front: true at the first entry below, false at the first entry above, false if none decides. Equal to the recursive lexicographic order. |
| RegressionMemory.LexIrreflexive | sim/RegressionMemory.h:12-22 | No vector is less than itself, NaN entries or not. |
| RegressionMemory.LexAsymmetric | sim/RegressionMemory.h:12-22 | Two vectors are never less than each other. |
| RegressionMemory.LexTransitive | sim/RegressionMemory.h:12-22 | Transitive on NaN-free vectors of one length. |
| RegressionMemory.LexTotal | sim/RegressionMemory.h:12-22 | On NaN-free vectors of one length, incomparable means equal. So distinct grid points are distinct map keys. |
| RegressionMemory.NaNBreaksTransitivity | sim/RegressionMemory.h:16-19 | [1,0] < [NaN,5] < [0,9], yet [0,9] < [1,0]. |
| RegressionMemory.NewCube | sim/RegressionMemory.h:45 | A new cell stores its index, holds no samples and is deactivated. |
| RegressionMemory.PutParam | sim/RegressionMemory.h:47-49 | One more sample, appended; earlier ones, index and flag kept. |
| RegressionMemory.PutAllAppends | sim/RegressionMemory.h:47-49 | Putting samples one by one keeps insertion order. |
| RegressionMemory.SetActivated | sim/RegressionMemory.h:51-52 | The flag becomes the value given; nothing else changes. |
| RegressionMemory.ActivationNotMonotone | sim/RegressionMemory.h:51 | A set flag can be cleared again. |
| RegressionMemory.GetTrainedRatio | sim/RegressionMemory.h:107 | activated/(deactivated+activated) in [0, 1]; NaN when both maps are empty. |
| RegressionMemory.TrainedRatioExtremes | sim/RegressionMemory.h:107 | 1 with nothing deactivated, 0 with nothing activated. |
| SimEnv.Create | network/SimEnv.cpp:8-22 | State and action sizes are slave 0's. |
| SimEnv.Step | network/SimEnv.cpp:39-45 | A terminal slave is untouched; any other takes one step; no other slave changes. |
| SimEnv.Steps | network/SimEnv.cpp:91-103 | Each non-terminal slave takes exactly one step; terminal slaves are unchanged. |
| SimEnv.Reset | network/SimEnv.cpp:48-51 | Only slave id is reset. |
| SimEnv.Resets | network/SimEnv.cpp:106-112 | Every slave is reset exactly once, in index order. |
| SimEnv.SetActions | network/SimEnv.cpp:140-148 | Slave id receives row id of the action matrix. |
| SimEnv.GetRewards | network/SimEnv.cpp:151-160 | N entries, entry id is slave id's reward rounded to float. |
| SimEnv.IsTerminalStates | network/SimEnv.cpp:115-125 | N flags, entry id is slave id's. |
| SimEnv.IsNanAtTerminal | network/SimEnv.cpp:54-60 | The triple (terminal, NaN, time end) of that slave. |
| SimEnv.ResetsClearTerminals | network/SimEnv.cpp:106-112 | After Resets no controller slave is terminal and every step count is 0. |
| SubController.Create | interactive/SubController.cpp:6-33 | mSimPerCon = 5 and numActions = (DOF-6)+1. |
| SubController.SameActionCountAsController | interactive/SubController.cpp:32-33 | Same action count as a training controller of the same skeleton. |
| SubController.WrapOnPhase | interactive/SubController.cpp:159-161 | One phase length off once the frame is ≥ P. |
| SubController.Step | interactive/SubController.cpp:107-164 | Decoded like Controller but the step is always exp(clip(1.2a,-2,1)); both frames advance by it; the sub-step loop runs. |
| SubController.StepRunsSixWorldSteps | interactive/SubController.cpp:151-158 | With five sub-steps a step runs six world steps. |
| SubController.StepKeepsOnPhaseInRange | interactive/SubController.cpp:126-161 | The on-phase frame stays in [0, P). |
| SubController.WrapDiffersFromController | interactive/SubController.cpp:159 | At exactly P the sub-controller wraps to 0; the training controller keeps P. |
| SubController.SynchronizableAfterWrap | interactive/SubController.cpp:284-288 | A step that wraps leaves every sub-controller synchronizable (on-phase ≤ 10). |
| SubController.NotSynchronizableMidPhase | interactive/SubController.cpp:284-328 | Strictly between 10 and P-5 only Idle is synchronizable. |
| SubController.Synchronize | interactive/SubController.cpp:62-105 | Exactly P aligned positions and P time steps; mCurrentFrame = mCurrentFrameOnPhase = mPrevFrame = frame. |
| SubController.GetState | interactive/SubController.cpp:226-277 | Goal parameters are appended iff the type is not "Idle". |
| SubController.SameLayoutAsController | interactive/SubController.cpp:264-273 | The training controller's layout, with "parametric" meaning "not Idle". |
| WidgetText.Find | render_qt/MotionWidget.cpp:1153 | The first occurrence at or after the offset, or -1 for npos. |
| WidgetText.Split | render_qt/MotionWidget.cpp:1142-1161 | [s] when the token is empty or absent; otherwise the pieces between left-to-right occurrences. Joined with the token they give s back. |
| WidgetText.SplitCount | render_qt/MotionWidget.cpp:1153-1158 | With a non-empty token, pieces plus consumed tokens account for the whole string. |
| WidgetText.JoinLength | render_qt/MotionWidget.cpp:1142-1161 | Joined pieces measure the pieces plus one token between each pair. |
| WidgetText.TrimIsSlice | render_qt/MotionWidget.cpp:1164-1181 | trim yields a slice s[i..j] with only whitespace outside, not starting or ending with whitespace. |
| WidgetText.LTrim | render_qt/MotionWidget.cpp:1164-1168 | A suffix of s that does not start with whitespace, with only whitespace cut. |
| WidgetText.RTrim | render_qt/MotionWidget.cpp:1171-1175 | A prefix of s that does not end with whitespace, with only whitespace cut. |
| WidgetText.TrimIdempotent | render_qt/MotionWidget.cpp:1178-1181 | Trimming twice equals trimming once. |
| WidgetText.InverseMap | render_qt/MotionWidget.cpp:1184-1193 | Every value becomes a key mapped to a key that held it. An insert of an existing key does nothing. |
| WidgetText.InverseKeepsSmallestKey | render_qt/MotionWidget.cpp:1187-1191 | Over ascending iteration, each value keeps the smallest key holding it. |
| WidgetText.Cmp | render_qt/MotionWidget.cpp:213-221 | Lexicographic over p1's entries: true at the first entry below, false at the first above, false if none. |
| WidgetText.CmpIsStrictOrder | render_qt/MotionWidget.cpp:213-221 | On NaN-free vectors of one length: irreflexive, asymmetric, transitive, and total up to equality. |
| WidgetText.ParseNatToString | render_qt/MotionWidget.cpp:1239 | The frame count written to the header reads back as the same number. |
| WidgetText.NatToString | render_qt/MotionWidget.cpp:1239 | Non-empty decimal digits without a leading zero. |
| WidgetText.RewriteHeader | render_qt/MotionWidget.cpp:1235-1253 | Each line is written, "Frames:" lines replaced by the count. Joint lines add their second word. The loop stops after the first "Time:" line. |
| WidgetText.CopyLine | render_qt/MotionWidget.cpp:1238-1252 | A joint line without a second word is an error; any other line is copied (with its rewrite) and ends the copy iff it contains "Time:". |
| WidgetText.CopyLines | render_qt/MotionWidget.cpp:1235-1253 | The loop outcome: a rewritten prefix ending at the first "Time:" line, no "Time:" line at all, or the first bad joint line. |
| WidgetText.VerbatimWithoutFrames | render_qt/MotionWidget.cpp:1238-1252 | Without a "Frames:" line the header is copied verbatim up to and including "Time:". |
| WidgetText.RewrittenWhenWellFormed | render_qt/MotionWidget.cpp:1235-1253 | A header with a "Time:" line and well-formed joint lines before it is always rewritten. |
| MotionWidget.UpdateMotion | render_qt/MotionWidget.cpp:1053-1081 | Rewinds the cursor. An unset total becomes the size; a larger total is lowered to the size. |
| MotionWidget.LoadAllTotalIsShortest | render_qt/MotionWidget.cpp:1075-1080 | After loading non-empty motions the total is the shortest length (or the old total if that is smaller). |
| MotionWidget.EmptyMotionKeepsTotalUnset | render_qt/MotionWidget.cpp:1076-1077 | An empty motion leaves the total unset, so the next motion sets it alone. |
| MotionWidget.NextFrame | render_qt/MotionWidget.cpp:1083-1090 | While paused, +1 with no upper bound; while playing, unchanged. |
| MotionWidget.PrevFrame | render_qt/MotionWidget.cpp:1092-1099 | While paused and above 0, -1; otherwise unchanged. |
| MotionWidget.Timer | render_qt/MotionWidget.cpp:952-961 | While playing and below the total, +1; otherwise unchanged. |
| MotionWidget.TimerStopsAtTotal | render_qt/MotionWidget.cpp:955-957 | At the total the timer leaves the cursor where it is. |
| MotionWidget.Reset | render_qt/MotionWidget.cpp:1101-1106 | The cursor goes to 0; the total and the play flag are kept. |
| MotionWidget.TogglePlay | render_qt/MotionWidget.cpp:1122-1125 | Flips the play flag only. |
| MotionWidget.CursorStaysInRange | render_qt/MotionWidget.cpp:952-1125 | Timer, PrevFrame, Reset, togglePlay and UpdateMotion keep 0 ≤ cur ≤ total. |
| MotionWidget.NextFrameLeavesRange | render_qt/MotionWidget.cpp:1086-1088 | From the last position a paused NextFrame moves past the total. |
| MotionWidget.NextThenPrev | render_qt/MotionWidget.cpp:1083-1099 | A paused NextFrame then PrevFrame returns to the same frame. |
| MotionWidget.SetFrame | render_qt/MotionWidget.cpp:769-790 | Layer i shows frame n iff it is drawn and 0 ≤ n < its size. A negative n converts to a huge size_t and fails the test. |
| MotionWidget.AsSize | render_qt/MotionWidget.cpp:771 | An int converted to size_t: kept when non-negative, plus 2^64 when negative. |
| MotionWidget.ShownBelowTotal | render_qt/MotionWidget.cpp:769-790 | Below the total, every drawn layer at least that long shows the cursor frame. |
| MotionWidget.NextParam | render_qt/MotionWidget.cpp:306-315 | With the memory running: (idx+1) mod n, undefined for n = 0. Otherwise idx is kept. |
| MotionWidget.PrevParam | render_qt/MotionWidget.cpp:293-304 | With the memory running: from 0 to n-1, otherwise idx-1. Otherwise idx is kept. |
| MotionWidget.ParamCycle | render_qt/MotionWidget.cpp:293-315 | For n > 0 both moves stay in [0, n) and each undoes the other. |
| MotionWidget.PrevParamWithoutSamples | render_qt/MotionWidget.cpp:298 | With no samples, stepping back from 0 gives -1. |
| FrameCursor.Next | render/SplineWindow.cpp:207-216 | +1, back to 0 once the total is reached. |
| FrameCursor.Prev | render/SplineWindow.cpp:217-226 | -1, to total-1 below 0. |
| FrameCursor.Cycle | render/SimWindow.cpp:239-257 | On a frame of a non-empty motion both moves stay on a frame and undo each other. |
| FrameCursor.NextRound | render/SimWindow.cpp:239-247 | k ≤ total steps on from frame cur land on cur + k, less total once past the end; total steps return to cur. |
| FrameCursor.EmptyMoves | render/SplineWindow.cpp:207-226 | With no frames: back gives -1, on gives 0, neither a frame. |
| SplineWindow.SplineRecords | render/SplineWindow.cpp:54-98 | Control points are collected five at a time. Each five give one spline segment whose frames displace the reference poses and are appended. |
| SplineWindow.PlaySegment | render/SplineWindow.cpp:73-90 | Every frame of a segment is its displacement applied to the reference pose at that frame. |
| SplineWindow.CutAllPartitions | render/SplineWindow.cpp:99-174 | The cut partitions the records in order into closed trajectories and a pending one. The pending one is non-empty for non-empty input, so the last trajectory is never closed. |
| SplineWindow.CutTrajectories | render/SplineWindow.cpp:107-173 | The first reward seeds the comparison, a reward of 0 re-seeds, and a change of reward closes the trajectory before the record. |
| SplineWindow.ZeroRewardJoinsNext | render/SplineWindow.cpp:111-114 | Rewards 1, 0, 2 cut into a closed [1] and a pending [0, 2]: the zero re-seeds the comparison and joins the next record. |
| SplineWindow.Frames | render/SplineWindow.cpp:115-139 | Frame 0 for the first record, then +1+step of the next record. |
| SplineWindow.FramesIncrease | render/SplineWindow.cpp:137-138 | With steps above -1 the frames strictly increase. |
| SplineWindow.CloseTrajectory | render/SplineWindow.cpp:113-170 | Each record is measured against the reference at its frame and the spline refit is evaluated. The first min(len, evaluated) poses go to memory 1, and the refitted ones moved 1.5 in x to memory 2. |
| SplineWindow.Beside | render/SplineWindow.cpp:166 | Only coordinate 3 changes, by +1.5. |
| SplineWindow.PositionRecords | render/SplineWindow.cpp:99-174 | Every closed trajectory is refitted and stored; the pending one never is. Both memories grow equally. |
| SplineWindow.LoadedTotal | render/SplineWindow.cpp:178-180 | The total is set when unset and lowered when the memory is shorter. |
| SplineWindow.Open | render/SplineWindow.cpp:178-188 | Frame 0; the total is the first memory's length. |
| SplineWindow.SetFrame | render/SplineWindow.cpp:191-205 | None outside [0, total); otherwise frame n of memory 1, and of memory 2 when drawn. |
| SplineWindow.NextFrame | render/SplineWindow.cpp:207-216 | The cursor moves on (wrapping) and its frame is shown. |
| SplineWindow.PrevFrame | render/SplineWindow.cpp:217-226 | The cursor moves back (wrapping) and its frame is shown. |
| SplineWindow.EmptyMemoryShowsNothing | render/SplineWindow.cpp:191-226 | With an empty memory no move shows a frame; back leaves -1. |
| SimWindow.WrapTranslation | render/SimWindow.cpp:155-158 | Root translation zeroed, height 1, orientation kept. |
| SimWindow.WrapRoot | render/SimWindow.cpp:189-192 | The whole root zeroed, then height 1. |
| SimWindow.Save | render/SimWindow.cpp:140-197 | The total grows by one. With the policy and a recorded frame n, the three poses at n are appended (wrapped in wrap mode); otherwise only the reference pose is appended. |
| SimWindow.WrapModeSavesGrounded | render/SimWindow.cpp:155-192 | In wrap mode every saved pose has a zero root translation and height 1. |
| SimWindow.SaveKeepsConsistent | render/SimWindow.cpp:140-197 | Saving keeps the memories consistent. |
| SimWindow.SetFrame | render/SimWindow.cpp:215-236 | None outside [0, total) and for a frame not in memory; otherwise the saved poses of frame n. |
| SimWindow.EveryFrameShowsReference | render/SimWindow.cpp:224-235 | On a consistent viewer every frame shows the reference, and the character where recorded. |
| SimWindow.NextFrame | render/SimWindow.cpp:239-247 | The cursor moves on, wrapping, and its frame is shown. |
| SimWindow.PrevFrame | render/SimWindow.cpp:249-257 | The cursor moves back, wrapping, and its frame is shown. |
| SimWindow.Restart | render/SimWindow.cpp:115-123 | Memories cleared, frame 0 saved: total 1, cursor 0. |
| SimWindow.Open | render/SimWindow.cpp:15-125 | Fails iff there is no network and the reference has a control point, because the regression object queried at lines 101-108 was never created. Otherwise the policy runs iff a network is given; auto-play and wrap off; frame 0 saved. |
| SimWindow.Reset | render/SimWindow.cpp:353-379 | Controller reset, memories cleared, frame 0 saved; flags kept. |
| SimWindow.ResetShowsFirstFrame | render/SimWindow.cpp:368-373 | After Reset, frame 0 and only frame 0 can be shown. |
| SimWindow.Step | render/SimWindow.cpp:472-494 | With the policy, two controller steps; then the cursor moves on and the new frame is saved and shown. |
| SimWindow.Timer | render/SimWindow.cpp:496-507 | In auto-play: on the last frame, Step; before it, the cursor moves on and shows. Otherwise nothing. |
| SimWindow.AutoPlayFollowsSimulation | render/SimWindow.cpp:501-502 | Auto-play from the last frame stays on the last frame, one frame added per tick. |
| SimWindow.AutoPlayCatchesUp | render/SimWindow.cpp:503-506 | Before the last frame, one frame per tick without touching the controller or memories. |
| SimWindow.Keyboard | render/SimWindow.cpp:381-410 | `[`/`]` stop auto-play and step; `o`/`p` move 99 then step; `r` resets; `w` toggles wrap; space toggles auto-play. |
| SimWindow.KeysKeepInvariant | render/SimWindow.cpp:381-410 | Every key keeps the memories consistent and a cursor on a frame on a frame. |
| SimWindow.TimerKeepsInvariant | render/SimWindow.cpp:496-507 | Every tick keeps the memories consistent. |
| SimWindow.HundredJumpLandsOnOppositeEnd | render/SimWindow.cpp:389-390 | From frame 50 of 120, `p` lands on frame 0 and `o` on frame 119: a jump past an end goes to the opposite end, not round by the remainder. |
| Sampler.ProbTS | network/sampler.py:39-49 | The slope is ±(v - v_prev)/v_prev·2k, capped at 10, and the weight is exp(slope) + 1e-10, so it lies in (1e-10, e^10 + 1e-10]. None for a zero previous value, where the program divides by zero. |
| Sampler.ProbTSMonotone | network/sampler.py:46-49 | With a positive previous value, the soft weight never decreases as the value grows. |
| Sampler.ProbAdaptive | network/sampler.py:31-37 | exp(∓k(v-mean)/mean)+1e-10 for a nonzero mean. A NaN mean gives a NaN weight. A zero mean gives an infinite weight, 1e-10 or NaN, as ∓v is positive, negative or zero. None only for a finite exponent past the double range, where math.exp raises. |
| Sampler.Accept | network/sampler.py:81-85 | min(1.0, pNew/pCur) on doubles: 1 exactly when the new weight is not lighter, which includes every NaN ratio, since min(1.0, nan) is 1.0. A lighter finite weight gives the ratio, in (0, 1); a finite weight over infinity gives 0. |
| Sampler.WalkSteps | network/sampler.py:75-86 | The proposal replaces the current point exactly when its coin is ≤ alpha. |
| Sampler.UphillAlwaysMoves | network/sampler.py:81-86 | A proposal that is not lighter, NaN weights included, is always taken for any coin in [0, 1). |
| Sampler.AllUndefinedWalkTakesEveryProposal | network/sampler.py:75-86 | When every weight is NaN, a walk takes every proposal: it is its start followed by all proposals but the last. |
| Sampler.Walk | network/sampler.py:75-86 | A walk of n points starts at the start point, and every point is the start or an earlier proposal. |
| Sampler.Walks | network/sampler.py:74-86 | m walks of n points, one per start. |
| Sampler.BuildPool | network/sampler.py:74-86 | m walks of int(N/m) points, every point appended before its proposal: m·n entries, equal to the walks flattened. |
| Sampler.PoolHoldsDraws | network/sampler.py:74-86 | Every pool entry is one of the drawn starts or proposals. |
| Sampler.Accumulate | network/sampler.py:108-113 | Each result is added to its goal's sum and counted. None iff an index does not address a goal (IndexError). |
| Sampler.TallyTotals | network/sampler.py:111-113 | Sums add up to the results' sum and counts to their number. |
| Sampler.TallyBounds | network/sampler.py:111-113 | Results in [lo, hi] give each goal a sum between count·lo and count·hi. |
| Sampler.UpdateGoals | network/sampler.py:115-118 | A goal that received no results is unchanged. One that did saves its value as the previous value and moves 0.4 of the way toward its results' mean. |
| Sampler.GoalValuesStayInRange | network/sampler.py:115-118 | Goal values stay in any range holding the old values and every new result. |
| Sampler.MeanOf | network/sampler.py:68 | The mean of the returns; NaN for none. |
| Sampler.Pool | network/sampler.py:74-104 | m·n entries, all drawn points; None iff a weight the walk needs does not exist. |
| Sampler.GoalPool | network/sampler.py:123-139 | Pool entry k is sample[index k], every index < len(sample). |
| Sampler.UpdateVisit | network/sampler.py:71-86 | Strategy 0 leaves the sampler unchanged. Otherwise only the pool is replaced, by m·n drawn points. |
| Sampler.UpdateSampled | network/sampler.py:105-139 | The sample values take UpdateGoals of the tally; the explore pool becomes m·n goals. Nothing else changes. |
| Sampler.UpdateExplore | network/sampler.py:87-139 | Strategy 0 changes nothing. Strategies 1 and 3 rebuild the explore pool. The sampled-goal strategies clear the pool while at most one exploring update has happened, and update sampled goals afterwards. |
| Sampler.Steps | network/sampler.py:76 | int(N/m): k·m ≤ N < (k+1)·m. |
| Sampler.UpdateGoalDistribution | network/sampler.py:64-143 | start+1, n_explore+1 when exploring, and the mean blended 0.6/0.4. Strategy 0 returns early; the sampled-goal branch returns while n_explore ≤ 1. Otherwise the pool is rebuilt with m·int(N/m) entries. The sampler invariant is kept. |
| Sampler.NoReturnsVisitTakesEveryProposal | network/sampler.py:68-86 | An adaptive visiting update with no returns completes with a NaN mean, and every walk of its pool takes every proposal. |
| Sampler.AdaptiveSample | network/sampler.py:145-174 | Random start or uniform strategy: a uniform goal and -1. The network strategies before 5 updates: uniform. The sampled-goal strategies: before 3 exploring updates a sample and its index; after, a pool entry and its index. |
| Sampler.ExploreSampleIsGoal | network/sampler.py:165-174 | With the sampled-goal strategies the goal handed out is sample[idx] with idx in range. |
| Sampler.ExploreIndicesTally | network/sampler.py:108-113 | The indices handed out are exactly ones an update can tally. |
| Sampler.PrintSummary | network/sampler.py:213-240 | Means of 200 values, of the lowest 20 and of the highest 20. None without an output path (the means are unbound). |
| Sampler.SummaryOrdered | network/sampler.py:230-234 | bottom mean ≤ mean ≤ top mean. |
| Sampler.Avg | network/sampler.py:230-234 | The mean times the count is the sum. |
| Sampler.IsEnough | network/sampler.py:196-211 | Random starts stop. On every fifth call the summary mean is compared with 6, and "enough" stops the counters. Otherwise n_iter and total_iter grow by 1. |
| Sampler.EnoughIsSticky | network/sampler.py:204-207 | Once enough, asking again with the same summary answers the same. |
| Sampler.ResetVisit | network/sampler.py:176-180 | As written: n_iter 0, random starts on, n_learning+1. v_mean is unchanged, because line 179 compares. |
| Sampler.ResetVisitCarriesOldMean | network/sampler.py:179 | A mean of 5 survives the reset, and one return of 0 then gives the new stage a mean of 3 instead of 0. |
| Sampler.ResetVisitCorrected | network/sampler.py:176-180 | Corrected: also sets v_mean to 0, changes nothing else, and keeps the sampler invariant. |
| Sampler.CorrectedResetForgetsOldMean | network/sampler.py:64-69 | After the corrected reset, the first update's mean is 0.4 times the mean of the new returns. |
| Sampler.FreshStageChecksOnFifthCall | network/sampler.py:204-211 | After a reset the first four calls are never enough, and the fifth checks. |
| Sampler.SampleGoals | network/sampler.py:182-189 | Five drawn goals, each value 1.0 and previous value 1.0. |
| Sampler.FreshGoalsWeighEqually | network/sampler.py:55-61 | Fresh goals all weigh exp(0)+1e-10. |
| Sampler.ResetExplore | network/sampler.py:191-194 | Strategies 2 and 4 draw new goals; every strategy restarts the exploring count. |
| Sampler.OperationsKeepValid | network/sampler.py:64-194 | Construction, resets, checks and every successful update keep the sampler invariant. |
| Monitor.Initial | network/monitor.py:25-48 | Nothing counted, no slave terminated, every slave on frame 0. |
| Monitor.AllTerminated | network/monitor.py:62-66 | True iff every slave is terminated. |
| Monitor.SetTerminated | network/monitor.py:56-57 | Slave idx is terminated (Python indexing); None for an index that raises. |
| Monitor.Reset | network/monitor.py:68-73 | The slave is running again on frame 0; None for an index that raises. |
| Monitor.TerminateAllThenReset | network/monitor.py:56-73 | After marking all, all are terminated; after resetting one, not. |
| Monitor.AccountOne | network/monitor.py:87-100 | A slave that is not terminated and has a reward adds that reward, its per-part row and a transition, plus an episode when done. The longest episode grows only to a finished slave's frame. Any other slave adds nothing. |
| Monitor.AccountCounts | network/monitor.py:86-100 | One transition per counted slave and one episode per ended one: episodes ≤ transitions ≤ slaves. |
| Monitor.TerminatedSlavesAddNothing | network/monitor.py:87 | Terminated slaves add nothing. |
| Monitor.LongestEpisode | network/monitor.py:99-100 | The maximum never shrinks and is one of the observed lengths. |
| Monitor.LastSlavePhase | network/monitor.py:101-104 | As written: only the last slave (the leaked loop variable) is compared; None with no slaves. |
| Monitor.PhaseWraps | network/monitor.py:101-104 | Corrected: the number of slaves whose frame went back. |
| Monitor.PhaseWrapsCounts | network/monitor.py:101-104 | No wraps iff no frame went back; all slaves wrap iff every frame went back. |
| Monitor.FirstSlaveWrapIsMissed | network/monitor.py:103 | cur [0, 3], prev [5, 2]: the code counts 0 phases, the per-slave count is 1. |
| Monitor.Step | network/monitor.py:80-109 | As written: NaN count added, each running slave with a reward accounted in order, the phase count from the last slave, frames stored. None iff there are no slaves, in either mode, because `~` rejects the empty float array of terminated flags. |
| Monitor.StepCorrected | network/monitor.py:80-109 | The phase count grows by the number of wrapping slaves. The correction concerns only the phase test: with no slaves the step still fails, and otherwise it always succeeds. |
| Monitor.OneSlaveStepsAgree | network/monitor.py:101-104 | With a single slave the two steps agree. |
| Monitor.AtLeastOneTransitionPerEpisode | network/monitor.py:163-165 | With at least as many transitions as episodes, each episode has at least one transition on average. |
| Monitor.PerEpisode | network/monitor.py:135-136 | 0 with no episodes; otherwise the count divided by the episodes. |
| Monitor.TotalPerEpisode | network/monitor.py:163-166 | 0 with no episodes; otherwise transitions per episode, at least 1. |
| Monitor.PrintSummary | network/monitor.py:131-219 | Folds the iteration counts into the totals and counts the evaluation. Records r_per_e and rt_per_e (0 when no phase), and s_per_e ≥ 1. Clears the iteration counters and num_phase. None iff no episode ended (the unguarded division). |
| Monitor.StepThenSummaryConserves | network/monitor.py:80-212 | A step then a summary add to the totals exactly the transitions and episodes of the counted slaves. |

## Left out

- Physics, rigid-body geometry, forward kinematics, IK, BVH parsing, spline fitting and evaluation, `exp`, `log`, `atan2` and norms are function parameters, because they are floating-point geometry outside the discrete logic.
- Only NaN is modelled of IEEE arithmetic. Rounding, overflow to infinity and the inexactness of `0.033`, `fmod` and `int(N / m)` are not. The one rounding that is modelled is the six-digit text output of the adaptive files, as the `fmt` parameter of `AdaptiveFile`.
- Mutexes, the OpenMP loop of `SimEnv::Steps` and the Python interpreter are not modelled. Each slave touches only its own state, so the loop is modelled as sequential.
- The file output, printing and plotting in `Optimize`, `SaveTrajectories`, `printSummary` and the viewers are left out, because they produce no state the program reads back. The exception is the adaptive-motion files, which are modelled.
- `UpdateTargetReward` (sim/ReferenceManager.cpp:1083-1087) is left out: it is one `exp`/`log`/`pow` expression with no discrete logic.
- `RescaleMotion`, `FollowBvh`, `LoadAdaptiveMotion(cps)` and the regeneration calls to `GenerateMotionsFromSinglePhase` after a load or an optimisation are left out: they are geometry pipelines over the modelled parts.
- The `blend` branch of `GenerateMotionsFromSinglePhase` is left out, because every caller passes `false`.
- Generate.GenerateFromSinglePhase: the root coordinates of later cycles are stated only through the `restart`/`carry` parameters, because they come from rigid-body transforms.
- PhaseLookup.GetPosition, PhaseLookup.GetMotion, PhaseLookup.GetTimeStep, PhaseLookup.GetContacts: negative frames are excluded by a precondition. For them the program indexes before the sequence, or with the negative result of C++ `%` and `fmod` (sim/ReferenceManager.cpp:610-617, 670-674).
- AdaptiveFile.ReadCps, AdaptiveFile.ReadKnots: files are modelled as sequences of numbers, so `atoi` on a token's text is taken as truncation of its value. The two differ on exponent-form text. For example, when the control-point file is missing, the buffer keeps the last time step printed, such as `1e-05`. `atoi` reads it as 1, while the model reads 0.
- SimWindow.Open: the control points the regression network returns, their `LoadAdaptiveMotion(cps)` and `SetTargetParameters(1.25)` are not modelled. Neither is a failure of the Python calls inside the guarded block, which leaves the regression object unset as well.
- The slide and regularity rewards and the trajectory alignment inside `SaveTrajectories` arrive through the `fit` parameter, with rewards in [0, 1].
- Controller.Step: the tracking and similarity rewards, the state features, the torques and the pose after the world steps are parameters. The `mFitness` sums, root bookkeeping (`mRootZero`, `mStartRoot`) and the position queue are not modelled.
- `Controller.cpp:266` passes a three-element tuple to `SaveTrajectories`, whose definition takes a pair (sim/ReferenceManager.cpp:692-694). The model passes the pair (tracking, target).
- `SimEnv::Steps` calls `Step(id, record)`, but only `Step(id)` is defined. The model uses `Step(id)`.
- RegressionMemory.cpp is not part of this model, so only the members the header defines are modelled.
- MotionWidget drawing, the Unreal Engine connection, `RunPPO`, `UpdateParam` and `updateIthParam` are left out, because they are rendering and network I/O.
- The viewers' camera, mouse, colour and display code, and the center-of-mass, contact and object memories of `SimWindow`, are left out, because nothing in the model reads them.
- SimWindow.Keyboard: the keys `` ` ``, `s`, `t`, `1`, `2`, `3`, `R`, `D`, `S` and Esc are left out, as is every other key the switch ignores. They rotate or track the camera, print, toggle drawing flags, write files or exit, which changes nothing the model holds.
- SplineWindow.PositionRecords, SplineWindow.SplineRecords: both record files are given already split into records. The `while (!is.eof())` loops in render/SplineWindow.cpp:54-67 can read one extra record from trailing whitespace, and that is not modelled.
- The construction of `SplineWindow` in spline mode dereferences an unset `mRef2` (render/SplineWindow.cpp:183). This is not modelled.
- Monitor: the running state normalisation (`RMS`), the environment, `stepForEval`, the per-part reward sums (plot-only), `te_per_t` and the printed total transitions per episode are left out, because they only feed printing and plots.
- Monitor.AccountOne: a slave's reward row is given as its reward, target and row.
- Monitor.PrintSummary: an iteration with no ended episode is `None`, which is what the program does when the accumulated rewards are plain Python numbers. If the environment wrapper hands back numpy reward rows, an iteration with counted transitions and no episode instead records an infinite or NaN reward per episode, with a warning. The wrapper is not part of this model. An iteration with no counted transition divides the integer 0 by 0 and raises either way.
- Sampler.ProbAdaptive: a zero mean is taken as +0, so the sign of a negative zero is not modelled. The underflow of `exp` to 0 for a very negative exponent is not modelled either.
- Sampler.ProbTS: a zero previous value is `None`. The program raises ZeroDivisionError there if the value network returns Python floats. If it returns numpy scalars, the slope becomes infinite or NaN instead. The value network is not part of this model.
- Sampler.UpdateGoalDistribution: an update that raises is `None`. The program leaves the sampler partly updated in that case. A NaN or zero running mean does not raise, and it is modelled through the weights.
- Sampler: `random_start`, `n_explore`, `sample` and the pools are set outside `__init__`; the model starts them at True, 0 and empty.
- Sampler: the count loop at network/sampler.py:140-143 is left out, because it only prints.
- Integer widths are unbounded except where the program's conversion matters (`MotionWidget.AsSize`, the `int` index range of the viewer).

## Findings

| source | as written | input that shows it | evidently intended | confidence | as-written member | corrected member |
|---|---|---|---|---|---|---|
| sim/ReferenceManager.cpp:495 | `GetMotion` tests `t` against `mMotions_gen.size()` even when reading the adaptive sequence | 3 plain frames, 1 adaptive frame, t = 1.5, adaptive: the guard passes and adaptive frame 2 is read | test against the size of the sequence actually read, as `GetPosition` does at line 469 | not executed; latent while both sequences hold 1000 frames | PhaseLookup.GetMotion, PhaseLookup.GetMotionGuardAdmitsOutOfRange | PhaseLookup.GetMotionChecked |
| network/monitor.py:101-104 | the wrap test uses the loop variable `i` after the loop, so only the last slave's wrap is counted in `num_phase` | curframes [0, 3], prevframes [5, 2]: slave 0 wrapped, but `num_phase` stays 0 | count every slave whose frame went back | not executed | Monitor.Step, Monitor.LastSlavePhase, Monitor.FirstSlaveWrapIsMissed | Monitor.StepCorrected, Monitor.PhaseWraps |
| network/sampler.py:179 | `self.v_mean == 0` compares and discards the result, so `reset_visit` keeps the running mean of the previous stage | a stage that ends with mean 5, then one update with return 0: the new stage's mean is 3 | assign `self.v_mean = 0`, so each stage's mean starts from 0 like its counters | not executed | Sampler.ResetVisit, Sampler.ResetVisitCarriesOldMean | Sampler.ResetVisitCorrected, Sampler.CorrectedResetForgetsOldMean |

=== FILE: adaptive_file.dfy ===
/**
  * The text files `SaveAdaptiveMotion` writes and `LoadAdaptiveMotion` reads
  * back.  A file is modelled as its sequence of whitespace-separated numbers,
  * each as `atof` reads it back.
  *   motion file: for each phase frame: its position, its velocity, its time step;
  *   cp file: the number of knots, the knots, then every control point;
  *   time file: the phase length, then `i i step[i]` for each frame.
  * The loader reads with `is >> buffer` into one buffer shared by both files;
  * a read past the end of a file (or from a file that failed to open) leaves
  * the buffer as it was, so it yields the last token read before.
  */
module AdaptiveFile {
  import opened Numeric
  import opened MotionValue

  /** The part of the reference manager the adaptive files hold. */
  datatype Stored = Stored(
    phaseLength: nat,
    dof: nat,
    phase: seq<Motion>,
    timeStep: seq<real>,
    knots: seq<int>,
    prevCps: seq<seq<real>>)

  /** A motion file that opened (its tokens) or failed to open. */
  datatype Source = Missing | Present(tokens: seq<real>)

  /** Loading either completes or writes a control point past the end of `mPrevCps`. */
  datatype LoadResult = Done(stored: Stored) | OutOfRange

  /** The shapes the optimizer keeps: one frame and time step per phase frame, knots plus three control points. */
  predicate WellFormed(a: Stored)
  {
    && |a.phase| == a.phaseLength
    && |a.timeStep| == a.phaseLength
    && (forall i :: 0 <= i < |a.phase| ==> |a.phase[i].position| == a.dof && |a.phase[i].velocity| == a.dof)
    && |a.prevCps| == |a.knots| + 3
    && Rectangular(a.prevCps, a.dof)
  }

  /** A slice of a stretch of `f` that holds `rec` is the matching slice of `rec`. */
  lemma SliceOfStretch(f: seq<real>, s: nat, rec: seq<real>, lo: nat, hi: nat)
    requires s + |rec| <= |f| && f[s .. s + |rec|] == rec
    requires lo <= hi <= |rec|
    ensures f[s + lo .. s + hi] == rec[lo .. hi]
  {
    forall j | 0 <= j < hi - lo
      ensures f[s + lo .. s + hi][j] == rec[lo .. hi][j]
    {
      assert f[s .. s + |rec|][lo + j] == f[s + lo + j];
    }
  }

  // ---------------------------------------------------------------- printing

  /**
    * Every double is written with `<<` at the stream's default precision, six
    * significant digits, and Eigen rows print their entries the same way.
    * `fmt` maps a double to what `atof` reads back from its printed text: with
    * six digits, 1/30 comes back as 0.0333333.  Counts, knots and frame indices
    * are integers and print exactly.
    */
  function Printed(v: seq<real>, fmt: real -> real): (r: seq<real>)
    ensures |r| == |v| && forall j :: 0 <= j < |v| ==> r[j] == fmt(v[j])
  {
    seq(|v|, j requires 0 <= j < |v| => fmt(v[j]))
  }

  function PrintedMotion(m: Motion, fmt: real -> real): (p: Motion)
    ensures |p.position| == |m.position| && |p.velocity| == |m.velocity|
  {
    Motion(Printed(m.position, fmt), Printed(m.velocity, fmt))
  }

  /** The manager as its files hold it: every stored double printed and read back, the integers kept. */
  function Rounded(a: Stored, fmt: real -> real): (r: Stored)
    ensures r.phaseLength == a.phaseLength && r.dof == a.dof && r.knots == a.knots
    ensures |r.phase| == |a.phase| && |r.timeStep| == |a.timeStep| && |r.prevCps| == |a.prevCps|
    ensures forall i :: 0 <= i < |a.phase| ==> r.phase[i] == PrintedMotion(a.phase[i], fmt)
    ensures forall i :: 0 <= i < |a.prevCps| ==> r.prevCps[i] == Printed(a.prevCps[i], fmt)
  {
    a.(phase := seq(|a.phase|, i requires 0 <= i < |a.phase| => PrintedMotion(a.phase[i], fmt)),
       timeStep := Printed(a.timeStep, fmt),
       prevCps := seq(|a.prevCps|, i requires 0 <= i < |a.prevCps| => Printed(a.prevCps[i], fmt)))
  }

  /** Printing keeps the shapes. */
  lemma RoundedWellFormed(a: Stored, fmt: real -> real)
    requires WellFormed(a)
    ensures WellFormed(Rounded(a, fmt))
  {
  }

  /** Printing a number that was already printed and read back gives the same text, as with six-digit output. */
  ghost predicate Idempotent(fmt: real -> real)
  {
    forall x :: fmt(fmt(x)) == fmt(x)
  }

  /** With an idempotent `fmt`, printing twice is printing once. */
  lemma PrintedTwice(v: seq<real>, fmt: real -> real)
    requires Idempotent(fmt)
    ensures Printed(Printed(v, fmt), fmt) == Printed(v, fmt)
  {
    forall j | 0 <= j < |v|
      ensures Printed(Printed(v, fmt), fmt)[j] == Printed(v, fmt)[j]
    {
      var x := v[j];
      assert fmt(fmt(x)) == fmt(x);
    }
  }

  // ---------------------------------------------------------------- writing

  /** One line pair and time step of the motion file. */
  function FrameTokens(m: Motion, step: real): seq<real>
  {
    m.position + m.velocity + [step]
  }

  /** The motion file: one frame record per frame of the adaptive phase, its numbers as printed. */
  function MotionFile(a: Stored, fmt: real -> real): (f: seq<real>)
    requires |a.phase| <= |a.timeStep|
  {
    Flatten(Records(Rounded(a, fmt)))
  }

  /** The frame records of the motion file, before printing. */
  function Records(a: Stored): (rs: seq<seq<real>>)
    requires |a.phase| <= |a.timeStep|
    ensures |rs| == |a.phase| && forall i :: 0 <= i < |rs| ==> rs[i] == FrameTokens(a.phase[i], a.timeStep[i])
  {
    seq(|a.phase|, i requires 0 <= i < |a.phase| => FrameTokens(a.phase[i], a.timeStep[i]))
  }

  function Reals(ks: seq<int>): (r: seq<real>)
    ensures |r| == |ks| && forall i :: 0 <= i < |ks| ==> r[i] == ks[i] as real
  {
    seq(|ks|, i requires 0 <= i < |ks| => ks[i] as real)
  }

  /** The cp file: the knot count, the knots, then all `mPrevCps` rows (knots plus three of them) as printed. */
  function CpFile(a: Stored, fmt: real -> real): (f: seq<real>)
  {
    [|a.knots| as real] + Reals(a.knots) + Flatten(Rounded(a, fmt).prevCps)
  }

  /** The time file: the phase length, then one `i i step` line per phase frame, the step as printed. */
  function TimeFile(a: Stored, fmt: real -> real): (f: seq<real>)
    requires a.phaseLength <= |a.timeStep|
  {
    [a.phaseLength as real]
      + Flatten(seq(a.phaseLength, i requires 0 <= i < a.phaseLength => [i as real, i as real, fmt(a.timeStep[i])]))
  }

  /** The time file has `1 + 3P` numbers; line `i` names frame `i` twice and then its time step. */
  lemma TimeFileLayout(a: Stored, i: nat, fmt: real -> real)
    requires a.phaseLength <= |a.timeStep| && i < a.phaseLength
    ensures |TimeFile(a, fmt)| == 1 + 3 * a.phaseLength
    ensures TimeFile(a, fmt)[0] == a.phaseLength as real
    ensures TimeFile(a, fmt)[1 + 3 * i] == i as real && TimeFile(a, fmt)[2 + 3 * i] == i as real
    ensures TimeFile(a, fmt)[3 + 3 * i] == fmt(a.timeStep[i])
  {
    var rows := seq(a.phaseLength, i requires 0 <= i < a.phaseLength => [i as real, i as real, fmt(a.timeStep[i])]);
    var flat := Flatten(rows);
    FlattenLength(rows, 3);
    FlattenSlice(rows, 3, i);
    var k := i * 3;
    assert k == 3 * i;
    assert flat[k .. k + 3] == rows[i] == [i as real, i as real, fmt(a.timeStep[i])];
    assert flat[k] == i as real && flat[k + 1] == i as real && flat[k + 2] == fmt(a.timeStep[i]) by {
      assert flat[k .. k + 3][0] == flat[k] && flat[k .. k + 3][1] == flat[k + 1] && flat[k .. k + 3][2] == flat[k + 2];
    }
    var f := TimeFile(a, fmt);
    assert f == [a.phaseLength as real] + flat;
    assert f[1 + k] == flat[k] && f[2 + k] == flat[k + 1] && f[3 + k] == flat[k + 2];
  }

  /** Under the shape invariant the motion file has `2 * dof + 1` numbers per phase frame. */
  lemma MotionFileLength(a: Stored, fmt: real -> real)
    requires WellFormed(a)
    ensures |MotionFile(a, fmt)| == a.phaseLength * (2 * a.dof + 1)
  {
    RoundedWellFormed(a, fmt);
    RecordsRectangular(Rounded(a, fmt));
    FlattenLength(Records(Rounded(a, fmt)), 2 * a.dof + 1);
  }

  // ---------------------------------------------------------------- reading

  /** What the `k`-th `is >> buffer` on file `f` leaves in the buffer, which held `stale` before the file. */
  function Token(f: seq<real>, k: nat, stale: real): (r: real)
    ensures k < |f| ==> r == f[k]
    ensures |f| == 0 ==> r == stale
    ensures |f| <= k && 0 < |f| ==> r == f[|f| - 1]
  {
    if k < |f| then f[k] else if |f| == 0 then stale else f[|f| - 1]
  }

  /** `n` numbers read from position `start` on. */
  function ReadVector(f: seq<real>, start: nat, n: nat, stale: real): (v: seq<real>)
    ensures |v| == n && forall j :: 0 <= j < n ==> v[j] == Token(f, start + j, stale)
  {
    seq(n, j requires 0 <= j < n => Token(f, start + j, stale))
  }

  /** Reading a stretch of the file that holds `v` yields `v`. */
  lemma ReadVectorOfSlice(f: seq<real>, start: nat, v: seq<real>, stale: real)
    requires start + |v| <= |f| && f[start .. start + |v|] == v
    ensures ReadVector(f, start, |v|, stale) == v
  {
    forall j | 0 <= j < |v|
      ensures ReadVector(f, start, |v|, stale)[j] == v[j]
    {
      assert f[start .. start + |v|][j] == f[start + j];
      assert Token(f, start + j, stale) == f[start + j];
    }
  }

  /** Where frame record `i` starts, records being `2 * dof + 1` numbers long. */
  function RecordStart(i: nat, dof: nat): nat
  {
    i * (2 * dof + 1)
  }

  /** Frame `i` of the motion file. */
  function ReadFrame(f: seq<real>, i: nat, dof: nat, stale: real): (m: Motion)
    ensures |m.position| == dof && |m.velocity| == dof
  {
    Motion(ReadVector(f, RecordStart(i, dof), dof, stale), ReadVector(f, RecordStart(i, dof) + dof, dof, stale))
  }

  /** The time step that closes frame record `i`. */
  function ReadStep(f: seq<real>, i: nat, dof: nat, stale: real): real
  {
    Token(f, RecordStart(i, dof) + 2 * dof, stale)
  }

  /** The first loop of `LoadAdaptiveMotion`: frames and time steps `0 .. P-1` replaced by those of the file. */
  function ReadPhase(a: Stored, f: seq<real>, stale: real): (r: Stored)
    requires a.phaseLength <= |a.phase| && a.phaseLength <= |a.timeStep|
    ensures r == a.(phase := r.phase, timeStep := r.timeStep)
    ensures |r.phase| == |a.phase| && |r.timeStep| == |a.timeStep|
    ensures r.phase[a.phaseLength..] == a.phase[a.phaseLength..]
    ensures r.timeStep[a.phaseLength..] == a.timeStep[a.phaseLength..]
    ensures forall i :: 0 <= i < a.phaseLength ==>
              r.phase[i] == ReadFrame(f, i, a.dof, stale) && r.timeStep[i] == ReadStep(f, i, a.dof, stale)
  {
    var p := a.phaseLength;
    a.(phase := seq(p, i requires 0 <= i < p => ReadFrame(f, i, a.dof, stale)) + a.phase[p..],
       timeStep := seq(p, i requires 0 <= i < p => ReadStep(f, i, a.dof, stale)) + a.timeStep[p..])
  }

  /**
    * The cp-file part: the knot count is read, then that many knots, then
    * that many control-point rows into `mPrevCps` from row 0 on; the rows
    * after them are not touched.  A negative count reads nothing.
    */
  function ReadCps(a: Stored, c: seq<real>, stale: real): (r: LoadResult)
    ensures r.Done? ==> r.stored == a.(knots := r.stored.knots, prevCps := r.stored.prevCps)
    ensures r.Done? ==> |r.stored.prevCps| == |a.prevCps| && |r.stored.knots| <= |a.prevCps|
    ensures r.Done? ==> r.stored.prevCps[|r.stored.knots|..] == a.prevCps[|r.stored.knots|..]
    ensures r.OutOfRange? <==> |a.prevCps| < Trunc(Token(c, 0, stale))
  {
    var count := Trunc(Token(c, 0, stale));
    var n := if count < 0 then 0 else count;
    if |a.prevCps| < n then OutOfRange
    else Done(a.(knots := ReadKnots(c, n, stale), prevCps := ReadRows(c, n, a.dof, stale) + a.prevCps[n..]))
  }

  /** The `n` knots that follow the count, each converted with `atoi`. */
  function ReadKnots(c: seq<real>, n: nat, stale: real): (ks: seq<int>)
    ensures |ks| == n && forall i :: 0 <= i < n ==> ks[i] == Trunc(Token(c, 1 + i, stale))
  {
    seq(n, i requires 0 <= i < n => Trunc(Token(c, 1 + i, stale)))
  }

  /** The `n` control-point rows of `d` numbers that follow the `n` knots. */
  function ReadRows(c: seq<real>, n: nat, d: nat, stale: real): (rows: seq<seq<real>>)
    ensures |rows| == n && forall i :: 0 <= i < n ==> rows[i] == ReadVector(c, 1 + n + i * d, d, stale)
  {
    seq(n, i requires 0 <= i < n => ReadVector(c, 1 + n + i * d, d, stale))
  }

  /**
    * `LoadAdaptiveMotion(postfix)`.  A motion file that fails to open leaves
    * everything as it was; otherwise the phase frames and time steps, then the
    * knots and the first knot-count control points are replaced.  A missing
    * cp file is an empty token sequence.  `garbage` is the content of the buffer
    * before the first read.
    */
  function LoadAdaptiveMotion(a: Stored, motion: Source, cp: seq<real>, garbage: real): (r: LoadResult)
    requires a.phaseLength <= |a.phase| && a.phaseLength <= |a.timeStep|
    ensures motion.Missing? ==> r == Done(a)
    ensures r.Done? ==> r.stored.phaseLength == a.phaseLength && r.stored.dof == a.dof
    ensures r.Done? ==> |r.stored.phase| == |a.phase| && |r.stored.timeStep| == |a.timeStep|
    ensures r.Done? ==> |r.stored.prevCps| == |a.prevCps|
  {
    match motion
    case Missing => Done(a)
    case Present(f) =>
      var stale := if a.phaseLength == 0 then garbage
                    else Token(f, a.phaseLength * (2 * a.dof + 1) - 1, garbage);
      ReadCps(ReadPhase(a, f, garbage), c := cp, stale := stale)
  }

  // ---------------------------------------------------------------- round trip

  /** A stretch of `f` from `s` on that holds the record of `m` reads back as `m` and `step`. */
  lemma RecordRoundTrip(f: seq<real>, s: nat, m: Motion, step: real, d: nat, stale: real)
    requires |m.position| == d && |m.velocity| == d
    requires s + 2 * d + 1 <= |f| && f[s .. s + 2 * d + 1] == FrameTokens(m, step)
    ensures Motion(ReadVector(f, s, d, stale), ReadVector(f, s + d, d, stale)) == m
    ensures Token(f, s + 2 * d, stale) == step
  {
    var rec := FrameTokens(m, step);
    SliceOfStretch(f, s, rec, 0, d);
    SliceOfStretch(f, s, rec, d, 2 * d);
    assert rec[0 .. d] == m.position && rec[d .. 2 * d] == m.velocity;
    ReadVectorOfSlice(f, s, m.position, stale);
    ReadVectorOfSlice(f, s + d, m.velocity, stale);
    assert f[s .. s + 2 * d + 1][2 * d] == f[s + 2 * d];
  }

  lemma RecordsRectangular(a: Stored)
    requires WellFormed(a)
    ensures Rectangular(Records(a), 2 * a.dof + 1)
  {
  }

  /** Frame record `i` of a saved motion file reads back as frame `i` and its time step, as printed. */
  lemma FrameRoundTrip(a: Stored, i: nat, stale: real, fmt: real -> real)
    requires WellFormed(a) && i < a.phaseLength
    ensures ReadFrame(MotionFile(a, fmt), i, a.dof, stale) == PrintedMotion(a.phase[i], fmt)
    ensures ReadStep(MotionFile(a, fmt), i, a.dof, stale) == fmt(a.timeStep[i])
  {
    var r := Rounded(a, fmt);
    var rs := Records(r);
    RoundedWellFormed(a, fmt);
    RecordsRectangular(r);
    FlattenSlice(rs, 2 * a.dof + 1, i);
    FrameRecordAt(MotionFile(a, fmt), i, r.phase[i], r.timeStep[i], a.dof, stale);
  }

  /** A motion file whose record `i` holds frame `m` and step `step` reads them back. */
  lemma FrameRecordAt(f: seq<real>, i: nat, m: Motion, step: real, d: nat, stale: real)
    requires |m.position| == d && |m.velocity| == d
    requires RecordStart(i, d) + 2 * d + 1 <= |f|
    requires f[RecordStart(i, d) .. RecordStart(i, d) + 2 * d + 1] == FrameTokens(m, step)
    ensures ReadFrame(f, i, d, stale) == m && ReadStep(f, i, d, stale) == step
  {
    RecordRoundTrip(f, RecordStart(i, d), m, step, d, stale);
  }

  /** Control-point row `i` of a saved cp file reads back as row `i`, as printed. */
  lemma CpRowRoundTrip(a: Stored, i: nat, stale: real, fmt: real -> real)
    requires WellFormed(a) && i < |a.prevCps|
    ensures ReadVector(CpFile(a, fmt), 1 + |a.knots| + i * a.dof, a.dof, stale) == Printed(a.prevCps[i], fmt)
  {
    var r := Rounded(a, fmt);
    RoundedWellFormed(a, fmt);
    var head := [|a.knots| as real] + Reals(a.knots);
    var x := i * a.dof;
    FlattenSlice(r.prevCps, a.dof, i);
    assert CpFile(a, fmt) == head + Flatten(r.prevCps);
    RowAfterHead(head, Flatten(r.prevCps), r.prevCps[i], x, stale);
  }

  /** A row that stands at `x` in the part written after `head` reads back from `|head| + x` on. */
  lemma RowAfterHead(head: seq<real>, back: seq<real>, row: seq<real>, x: nat, stale: real)
    requires x + |row| <= |back| && back[x .. x + |row|] == row
    ensures ReadVector(head + back, |head| + x, |row|, stale) == row
  {
    SliceOfBack(head, back, x, x + |row|);
    ReadVectorOfSlice(head + back, |head| + x, row, stale);
  }

  /** Reading a saved motion file replaces the first `P` frames and time steps by the saved ones, as printed. */
  lemma PhaseRoundTrip(a: Stored, b: Stored, garbage: real, fmt: real -> real)
    requires WellFormed(a)
    requires b.phaseLength == a.phaseLength && b.dof == a.dof
    requires b.phaseLength <= |b.phase| && b.phaseLength <= |b.timeStep|
    ensures ReadPhase(b, MotionFile(a, fmt), garbage)
              == b.(phase := Rounded(a, fmt).phase + b.phase[a.phaseLength..],
                    timeStep := Printed(a.timeStep, fmt) + b.timeStep[a.phaseLength..])
  {
    var p := a.phaseLength;
    var r := Rounded(a, fmt);
    var mid := ReadPhase(b, MotionFile(a, fmt), garbage);
    forall i | 0 <= i < p
      ensures mid.phase[i] == r.phase[i] && mid.timeStep[i] == r.timeStep[i]
    {
      FrameRoundTrip(a, i, garbage, fmt);
    }
    assert mid.phase == r.phase + b.phase[p..];
    assert mid.timeStep == r.timeStep + b.timeStep[p..];
  }

  /** Reading a saved cp file restores the knots exactly and the first knot-count control points as printed. */
  lemma CpRoundTrip(a: Stored, b: Stored, stale: real, fmt: real -> real)
    requires WellFormed(a) && b.dof == a.dof && |a.knots| <= |b.prevCps|
    ensures ReadCps(b, CpFile(a, fmt), stale)
              == Done(b.(knots := a.knots, prevCps := Rounded(a, fmt).prevCps[..|a.knots|] + b.prevCps[|a.knots|..]))
  {
    var k := |a.knots|;
    assert Token(CpFile(a, fmt), 0, stale) == k as real;
    KnotsRoundTrip(a, stale, fmt);
    RowsRoundTrip(a, stale, fmt);
  }

  lemma KnotsRoundTrip(a: Stored, stale: real, fmt: real -> real)
    ensures ReadKnots(CpFile(a, fmt), |a.knots|, stale) == a.knots
  {
    var c := CpFile(a, fmt);
    forall i | 0 <= i < |a.knots|
      ensures ReadKnots(c, |a.knots|, stale)[i] == a.knots[i]
    {
      assert c[1 + i] == Reals(a.knots)[i];
    }
  }

  lemma RowsRoundTrip(a: Stored, stale: real, fmt: real -> real)
    requires WellFormed(a)
    ensures ReadRows(CpFile(a, fmt), |a.knots|, a.dof, stale) == Rounded(a, fmt).prevCps[..|a.knots|]
  {
    forall i | 0 <= i < |a.knots|
      ensures ReadRows(CpFile(a, fmt), |a.knots|, a.dof, stale)[i] == Rounded(a, fmt).prevCps[i]
    {
      CpRowRoundTrip(a, i, stale, fmt);
    }
  }

  /**
    * Loading what was saved from `a` into a manager `b` of the same phase
    * length and DOF restores the knots, and the phase frames, the time steps
    * and the first knot-count control points of `a` as printed.  The cp file
    * holds three more rows than are read back, so the last three control
    * points stay those of `b`.
    */
  lemma LoadAfterSave(a: Stored, b: Stored, garbage: real, fmt: real -> real)
    requires WellFormed(a)
    requires b.phaseLength == a.phaseLength && b.dof == a.dof
    requires b.phaseLength <= |b.phase| && b.phaseLength <= |b.timeStep|
    requires |a.knots| <= |b.prevCps|
    ensures var p := Rounded(a, fmt);
            LoadAdaptiveMotion(b, Present(MotionFile(a, fmt)), CpFile(a, fmt), garbage)
              == Done(b.(phase := p.phase + b.phase[a.phaseLength..],
                         timeStep := p.timeStep + b.timeStep[a.phaseLength..],
                         knots := a.knots,
                         prevCps := p.prevCps[..|a.knots|] + b.prevCps[|a.knots|..]))
  {
    var f := MotionFile(a, fmt);
    var c := CpFile(a, fmt);
    var stale := if b.phaseLength == 0 then garbage else Token(f, b.phaseLength * (2 * b.dof + 1) - 1, garbage);
    var mid := ReadPhase(b, f, garbage);
    PhaseRoundTrip(a, b, garbage, fmt);
    var p := Rounded(a, fmt);
    var k := |a.knots|;
    assert mid == b.(phase := p.phase + b.phase[a.phaseLength..], timeStep := p.timeStep + b.timeStep[a.phaseLength..]);
    CpRoundTrip(a, mid, stale, fmt);
    LoadReadsBoth(b, f, c, garbage);
    assert mid.prevCps[k..] == b.prevCps[k..];
  }

  /** A load of a motion file that opened is the phase read followed by the cp read. */
  lemma LoadReadsBoth(b: Stored, f: seq<real>, c: seq<real>, garbage: real)
    requires b.phaseLength <= |b.phase| && b.phaseLength <= |b.timeStep|
    ensures LoadAdaptiveMotion(b, Present(f), c, garbage)
              == ReadCps(ReadPhase(b, f, garbage), c,
                         if b.phaseLength == 0 then garbage else Token(f, b.phaseLength * (2 * b.dof + 1) - 1, garbage))
  {
  }

  /** `SaveAdaptiveMotion` and then `LoadAdaptiveMotion` with the same postfix, on one manager. */
  function SaveThenLoad(a: Stored, garbage: real, fmt: real -> real): LoadResult
    requires a.phaseLength <= |a.phase| <= |a.timeStep|
  {
    LoadAdaptiveMotion(a, Present(MotionFile(a, fmt)), CpFile(a, fmt), garbage)
  }

  /**
    * Saving a well-formed manager and loading the files back into it rounds
    * the phase frames, the time steps and the first knot-count control points
    * to their printed values; the knots and the last three control points,
    * which are not read back, keep their exact values.
    */
  lemma LoadRestoresSaved(a: Stored, garbage: real, fmt: real -> real)
    requires WellFormed(a)
    ensures var p := Rounded(a, fmt);
            SaveThenLoad(a, garbage, fmt)
              == Done(a.(phase := p.phase, timeStep := p.timeStep,
                         prevCps := p.prevCps[..|a.knots|] + a.prevCps[|a.knots|..]))
  {
    LoadAfterSave(a, a, garbage, fmt);
  }

  /**
    * With an idempotent `fmt`, as six-digit output is, a second save and load
    * changes nothing: after one cycle every number the files hold prints as
    * itself.
    */
  lemma SecondCycleChangesNothing(a: Stored, garbage: real, fmt: real -> real)
    requires WellFormed(a) && Idempotent(fmt)
    ensures SaveThenLoad(a, garbage, fmt).Done?
    ensures var b := SaveThenLoad(a, garbage, fmt).stored;
            b.phaseLength <= |b.phase| <= |b.timeStep| && SaveThenLoad(b, garbage, fmt) == Done(b)
  {
    var p := Rounded(a, fmt);
    var k := |a.knots|;
    LoadRestoresSaved(a, garbage, fmt);
    var b := SaveThenLoad(a, garbage, fmt).stored;
    assert WellFormed(b);
    var q := Rounded(b, fmt);
    LoadRestoresSaved(b, garbage, fmt);
    assert q.phase == b.phase by {
      forall i | 0 <= i < |b.phase| ensures q.phase[i] == b.phase[i] {
        PrintedTwice(a.phase[i].position, fmt);
        PrintedTwice(a.phase[i].velocity, fmt);
      }
    }
    assert q.timeStep == b.timeStep by {
      PrintedTwice(a.timeStep, fmt);
    }
    assert q.prevCps[..k] + b.prevCps[k..] == b.prevCps by {
      forall i | 0 <= i < k ensures q.prevCps[i] == b.prevCps[i] {
        PrintedTwice(a.prevCps[i], fmt);
      }
    }
  }
}

=== FILE: contacts.dfy ===
/**
  * Foot-contact flags of the reference motion: detection by height threshold
  * when a BVH clip is loaded, the gap-filling pass over the loaded flags, and
  * the contact test of `GetContactInfo`.
  */
module Contacts {

  /** A reference frame is in contact when the body is lower than this (m). */
  const LOAD_CONTACT_HEIGHT: real := 0.04

  /** `GetContactInfo` reports contact below this height (m). */
  const INFO_CONTACT_HEIGHT: real := 0.07

  /** Every frame carries `k` contact flags. */
  predicate Uniform(c: seq<seq<bool>>, k: nat)
  {
    forall i :: 0 <= i < |c| ==> |c[i]| == k
  }

  /**
    * The flags of one frame: contact `j` is on when the height of its body,
    * measured from `base`, is below `threshold`.
    */
  function Flags(heights: seq<real>, base: real, threshold: real): (c: seq<bool>)
    ensures |c| == |heights|
    ensures forall j :: 0 <= j < |c| ==> (c[j] <==> heights[j] - base < threshold)
  {
    seq(|heights|, j requires 0 <= j < |heights| => heights[j] - base < threshold)
  }

  /**
    * The flags recorded for a loaded clip frame: world heights against the
    * load threshold.  The load test is the stricter one, so a body in
    * contact at load is also in contact for `GetContactInfo` on level
    * ground.
    */
  function LoadFlags(heights: seq<real>): (c: seq<bool>)
    ensures |c| == |heights|
    ensures forall j :: 0 <= j < |c| ==> (c[j] <==> heights[j] < LOAD_CONTACT_HEIGHT)
    ensures forall j :: 0 <= j < |c| && c[j] ==> Flags(heights, 0.0, INFO_CONTACT_HEIGHT)[j]
  {
    Flags(heights, 0.0, LOAD_CONTACT_HEIGHT)
  }

  /**
    * `r` is what the gap-filling pass produces from `c`: the first and last
    * frames are kept, and an interior flag is on when it was on or when the
    * already processed previous frame and the not yet processed next frame
    * both have it on.
    */
  ghost predicate SmoothedFrom(c: seq<seq<bool>>, r: seq<seq<bool>>, k: nat)
  {
    && |r| == |c| && Uniform(c, k) && Uniform(r, k)
    && (0 < |c| ==> r[0] == c[0] && r[|c| - 1] == c[|c| - 1])
    && forall i :: 0 < i < |c| - 1 ==> FrameSmoothed(c, r, i, k)
  }

  /** Interior frame `i` of `r` is frame `i` of `c` with its one-frame gaps filled. */
  ghost predicate FrameSmoothed(c: seq<seq<bool>>, r: seq<seq<bool>>, i: nat, k: nat)
    requires 0 < i < |c| - 1 && |r| == |c| && Uniform(c, k) && Uniform(r, k)
  {
    forall j :: 0 <= j < k ==> r[i][j] == (c[i][j] || (r[i - 1][j] && c[i + 1][j]))
  }

  /** No contact has a gap of a single frame between two frames that have it. */
  ghost predicate NoSingleGaps(r: seq<seq<bool>>, k: nat)
  {
    Uniform(r, k) && forall i :: 0 < i < |r| - 1 ==> GapFilled(r, i, k)
  }

  /** At interior frame `i`, a contact on at both neighbours is on. */
  ghost predicate GapFilled(r: seq<seq<bool>>, i: nat, k: nat)
    requires 0 < i < |r| - 1 && Uniform(r, k)
  {
    forall j :: 0 <= j < k && r[i - 1][j] && r[i + 1][j] ==> r[i][j]
  }

  /**
    * The smoothing loop of `LoadMotionFromBVH`, in place over the frames.
    * It only turns flags on, never touches the first or last frame, and
    * leaves no single-frame gap.
    */
  method Smooth(c: seq<seq<bool>>, k: nat) returns (r: seq<seq<bool>>)
    requires Uniform(c, k)
    ensures SmoothedFrom(c, r, k)
    ensures forall i, j :: 0 <= i < |c| && 0 <= j < k && c[i][j] ==> r[i][j]
    ensures NoSingleGaps(r, k)
  {
    r := c;
    var i := 0;
    while i < |c|
      invariant 0 <= i <= |c| && |r| == |c| && Uniform(r, k)
      invariant forall m :: i <= m < |c| ==> r[m] == c[m]
      invariant 0 < |c| ==> r[0] == c[0]
      invariant 0 < |c| ==> r[|c| - 1] == c[|c| - 1]
      invariant forall m :: 0 < m < i && m < |c| - 1 ==> FrameSmoothed(c, r, m, k)
    {
      if i != 0 && i != |c| - 1 {
        var row := r[i];
        var j := 0;
        while j < k
          invariant 0 <= j <= k && |row| == k
          invariant forall jj :: 0 <= jj < j ==> row[jj] == (c[i][jj] || (r[i - 1][jj] && c[i + 1][jj]))
          invariant forall jj :: j <= jj < k ==> row[jj] == c[i][jj]
        {
          if r[i - 1][j] && r[i + 1][j] && !row[j] {
            row := row[j := true];
          }
          j := j + 1;
        }
        ghost var before := r;
        r := r[i := row];
        forall m | 0 < m < i
          ensures FrameSmoothed(c, r, m, k)
        {
          assert FrameSmoothed(c, before, m, k);
        }
      }
      i := i + 1;
    }
    SmoothedIsMonotone(c, r, k);
    SmoothedHasNoGaps(c, r, k);
  }

  lemma SmoothedIsMonotone(c: seq<seq<bool>>, r: seq<seq<bool>>, k: nat)
    requires SmoothedFrom(c, r, k)
    ensures forall i, j :: 0 <= i < |c| && 0 <= j < k && c[i][j] ==> r[i][j]
  {
    forall i, j | 0 < i < |c| - 1 && 0 <= j < k && c[i][j]
      ensures r[i][j]
    {
      assert FrameSmoothed(c, r, i, k);
    }
  }

  /** Whatever the input, the smoothed flags have no single-frame gap. */
  lemma SmoothedHasNoGaps(c: seq<seq<bool>>, r: seq<seq<bool>>, k: nat)
    requires SmoothedFrom(c, r, k)
    ensures NoSingleGaps(r, k)
  {
    forall i | 0 < i < |r| - 1
      ensures GapFilled(r, i, k)
    {
      assert FrameSmoothed(c, r, i, k);
      if i + 1 < |r| - 1 {
        assert FrameSmoothed(c, r, i + 1, k);
      }
    }
  }

  /** The pass determines its output: two results of smoothing `c` are equal. */
  lemma {:induction false} SmoothedUnique(c: seq<seq<bool>>, r1: seq<seq<bool>>, r2: seq<seq<bool>>, k: nat)
    requires SmoothedFrom(c, r1, k) && SmoothedFrom(c, r2, k)
    ensures r1 == r2
  {
    var n := 0;
    while n < |c|
      invariant 0 <= n <= |c|
      invariant forall m :: 0 <= m < n ==> r1[m] == r2[m]
    {
      if n != 0 && n != |c| - 1 {
        assert FrameSmoothed(c, r1, n, k) && FrameSmoothed(c, r2, n, k);
        assert r1[n - 1] == r2[n - 1];
      }
      n := n + 1;
    }
  }

  /** Smoothing already smoothed flags changes nothing. */
  lemma SmoothIdempotent(c: seq<seq<bool>>, r: seq<seq<bool>>, r2: seq<seq<bool>>, k: nat)
    requires SmoothedFrom(c, r, k) && SmoothedFrom(r, r2, k)
    ensures r2 == r
  {
    SmoothedHasNoGaps(c, r, k);
    assert SmoothedFrom(r, r, k) by {
      forall i | 0 < i < |r| - 1
        ensures FrameSmoothed(r, r, i, k)
      {
        assert GapFilled(r, i, k);
      }
    }
    SmoothedUnique(r, r2, r, k);
  }
}

=== FILE: controller.dfy ===
/**
  * The discrete part of the training `Controller`: action decoding, the
  * frame and phase counters, the per-cycle hand-off to the reference
  * manager, the reward bookkeeping, the termination decision and `Reset`.
  * Everything the physics engine computes (poses after the world steps,
  * tracking rewards, root measurements, the state features) arrives as
  * parameters; `exp` is a parameter assumed `ExpLike`.
  */
module Controller {
  import opened Numeric
  import Contacts

  const CONTROL_HZ: nat := 30
  const SIMULATION_HZ: nat := 150

  /** `TERMINAL_ROOT_DIFF_THRESHOLD`. */
  const ROOT_DIFF_LIMIT: real := 0.8
  /** `TERMINAL_ROOT_DIFF_ANGLE_THRESHOLD`, 0.3π. */
  const ROOT_ANGLE_LIMIT: real := 0.3 * PI
  /** `TERMINAL_ROOT_HEIGHT_LOWER_LIMIT`. */
  const ROOT_HEIGHT_LOWER: real := 0.2
  /** `TERMINAL_ROOT_HEIGHT_UPPER_LIMIT`. */
  const ROOT_HEIGHT_UPPER: real := 2.0

  /** Decoded joint offsets are clipped to ±0.7π. */
  const JOINT_LIMIT: real := 0.7 * PI

  /** The on-phase frame from which the parameter reward is paid. */
  const PARAM_REWARD_FRAME: real := 65.0

  /** The reason code `IsTimeEnd` tests for. */
  const TIME_END: int := 8

  /** What the constructor fixes: the mode flags, the sizes and the number of world steps per control step. */
  datatype Config = Config(
    adaptive: bool,
    parametric: bool,
    record: bool,
    phaseLength: nat,
    interestedDof: nat,
    simPerCon: nat,
    numState: nat)

  /**
    * The frame counters: `frame` runs from the episode start, `onPhase` is
    * the frame within the current phase, `step` is the last time step.
    * `queue` holds the most recent frames.
    */
  datatype Clock = Clock(
    step: real,
    frame: real,
    onPhase: real,
    prevOnPhase: real,
    startFrame: real,
    elapsed: real,
    totalSteps: int,
    queue: seq<real>)

  /** Whether the episode has ended, whether NaN ended it, and the reason code (-1 before any). */
  datatype Termination = Termination(isTerminal: bool, isNan: bool, reason: int)

  /**
    * The adaptive mode's per-cycle accumulators: whether the parameter reward
    * was paid, the cycle's parameter reward, the sum of the tracking rewards
    * (a NaN poisons it) and how many were added, and the rollout records.
    */
  datatype Rollout = Rollout(
    gotParamReward: bool,
    paramTrajectory: real,
    trackingTrajectory: Float,
    countTracking: nat,
    countParam: nat,
    data: seq<(seq<real>, real)>)

  /** The controller: `actions` holds one entry per non-root DOF and one for the time step. */
  datatype State = State(
    cfg: Config,
    actions: seq<real>,
    clock: Clock,
    term: Termination,
    rewardLabels: seq<string>,
    rewardParts: seq<real>,
    rollout: Rollout)

  /** What the controller hands the reference manager at the end of an adaptive cycle; the manager receives the tracking sum divided by the count. */
  datatype Cycle = Cycle(data: seq<(seq<real>, real)>, trackingSum: Float, count: nat, paramReward: real)

  /** The root measurements `UpdateTerminalInfo` takes from the simulated skeleton. */
  datatype Measures = Measures(
    positionsNaN: bool,
    velocitiesNaN: bool,
    rootDiff: real,
    rootHeight: real,
    rootAngle: real,
    goalRaise: real)

  /** Everything one control step takes from the simulation and the reference manager. */
  datatype Sim = Sim(
    positions: seq<real>,
    tracking: seq<Float>,
    similarity: real,
    referenceStep: real,
    measures: Measures)

  function Abs(x: real): real
  {
    if x < 0.0 then -x else x
  }

  /** The labels of the reward parts, five in adaptive mode and six otherwise. */
  function Labels(adaptive: bool): (l: seq<string>)
    ensures |l| == if adaptive then 5 else 6
  {
    if adaptive then ["total_d", "total_s", "tracking", "time", "similarity"]
    else ["total", "p", "com", "ee", "v", "time"]
  }

  /** The shape every operation keeps. */
  predicate Valid(c: State)
  {
    && 1 <= c.cfg.phaseLength
    && |c.actions| == c.cfg.interestedDof + 1
    && c.rewardLabels == Labels(c.cfg.adaptive)
    && |c.clock.queue| <= 3
  }

  // ---------------------------------------------------------------- construction

  /**
    * The constructor.  The defaults are adaptive, parametric and not
    * recording.  Frame counters and flags start at 0 / false with reason -1,
    * the actions are zero, the reward parts are seven zeros.  `got` is the
    * value `gotParamReward` happens to hold: the constructor never sets it.
    */
  function Create(phaseLength: nat, dofs: nat, numState: nat, got: bool,
                  adaptive: bool := true, parametric: bool := true, record: bool := false): (c: State)
    requires 1 <= phaseLength && 6 <= dofs
    ensures Valid(c)
    ensures c.cfg == Config(adaptive, parametric, record, phaseLength, dofs - 6, 5, numState)
    ensures NumAction(c) == dofs - 5 && c.actions == Zeros(dofs - 5)
    ensures c.clock.frame == 0.0 && c.clock.onPhase == 0.0
    ensures c.term == Termination(false, false, -1)
    ensures c.rewardParts == Zeros(7)
    ensures c.rollout.countTracking == 0 && c.rollout.countParam == 0 && c.rollout.data == []
  {
    State(Config(adaptive, parametric, record, phaseLength, dofs - 6, SIMULATION_HZ / CONTROL_HZ, numState),
          Zeros(dofs - 6 + 1),
          Clock(0.0, 0.0, 0.0, 0.0, 0.0, 0.0, 0, []),
          Termination(false, false, -1),
          Labels(adaptive), Zeros(7),
          Rollout(got, 0.0, Num(0.0), 0, 0, []))
  }

  /** `GetNumAction`: one entry per non-root DOF plus the time step. */
  function NumAction(c: State): nat
  {
    c.cfg.interestedDof + 1
  }

  /** `IsTimeEnd`: the episode ended because the reference ran out. */
  predicate IsTimeEnd(c: State)
  {
    c.term.reason == TIME_END
  }

  /** `GetReward`: the first reward part. */
  function GetReward(c: State): real
    requires 0 < |c.rewardParts|
  {
    c.rewardParts[0]
  }

  /** `GetCurrentLength`: frames advanced since the start frame. */
  function GetCurrentLength(c: State): real
  {
    c.clock.frame - c.clock.startFrame
  }

  /** With the header's defaults the controller is adaptive and parametric, and its reward is 0 before any step. */
  lemma CreateDefaults(phaseLength: nat, dofs: nat, numState: nat, got: bool)
    requires 1 <= phaseLength && 6 <= dofs
    ensures var c := Create(phaseLength, dofs, numState, got);
            c.cfg.adaptive && c.cfg.parametric && !c.cfg.record && GetReward(c) == 0.0 && !IsTimeEnd(c)
  {
  }

  // ---------------------------------------------------------------- action decoding

  /** A joint action becomes a target offset `clip(0.2 a, -0.7π, 0.7π)`. */
  function DecodeJoint(a: real): (r: real)
    ensures -JOINT_LIMIT <= r <= JOINT_LIMIT
    ensures -JOINT_LIMIT <= 0.2 * a <= JOINT_LIMIT ==> r == 0.2 * a
    ensures 0.2 * a < -JOINT_LIMIT ==> r == -JOINT_LIMIT
    ensures JOINT_LIMIT < 0.2 * a ==> r == JOINT_LIMIT
  {
    Clip(a * 0.2, -JOINT_LIMIT, JOINT_LIMIT)
  }

  /** The time-step action becomes `exp(clip(1.2 a, -2, 1))`: positive, between e⁻² and e, 1 for a zero action. */
  function DecodeStep(a: real, exp: real -> real): (r: real)
    requires ExpLike(exp)
    ensures 0.0 < r
    ensures exp(-2.0) <= r <= exp(1.0)
    ensures a == 0.0 ==> r == 1.0
  {
    var x := Clip(a * 1.2, -2.0, 1.0);
    ExpNonDecreasing(exp, -2.0, x);
    ExpNonDecreasing(exp, x, 1.0);
    exp(x)
  }

  lemma ExpNonDecreasing(exp: real -> real, x: real, y: real)
    requires ExpLike(exp) && x <= y
    ensures 0.0 < exp(x) <= exp(y)
  {
    if x < y {
      assert exp(x) < exp(y);
    }
  }

  /** A larger time-step action never yields a smaller step. */
  lemma DecodeStepMonotone(a: real, b: real, exp: real -> real)
    requires ExpLike(exp) && a <= b
    ensures DecodeStep(a, exp) <= DecodeStep(b, exp)
  {
    ExpNonDecreasing(exp, Clip(a * 1.2, -2.0, 1.0), Clip(b * 1.2, -2.0, 1.0));
  }

  /** The action vector decoded in place, as `Step` leaves it in `mActions`. */
  function DecodeActions(a: seq<real>, n: nat, exp: real -> real): (r: seq<real>)
    requires ExpLike(exp) && |a| == n + 1
    ensures |r| == n + 1
    ensures forall i :: 0 <= i < n ==> r[i] == DecodeJoint(a[i])
    ensures r[n] == DecodeStep(a[n], exp)
  {
    seq(n + 1, i requires 0 <= i <= n => if i < n then DecodeJoint(a[i]) else DecodeStep(a[n], exp))
  }

  // ---------------------------------------------------------------- sub-steps

  /** Outer iterations of the sub-step loop `for (i = 0; i < simPerCon; i += 2)`. */
  function OuterIterations(simPerCon: nat): nat
  {
    (simPerCon + 1) / 2
  }

  /**
    * The sub-step loop: two world steps per outer iteration, each outer
    * iteration adding `2 * step` to the elapsed time.
    */
  method SubSteps(simPerCon: nat, step: real, elapsed0: real) returns (worldSteps: nat, elapsed: real)
    ensures worldSteps == 2 * OuterIterations(simPerCon)
    ensures elapsed == elapsed0 + 2.0 * step * OuterIterations(simPerCon) as real
  {
    worldSteps, elapsed := 0, elapsed0;
    var i := 0;
    var outer: nat := 0;
    while i < simPerCon
      invariant i == 2 * outer && outer <= OuterIterations(simPerCon)
      invariant outer < OuterIterations(simPerCon) <==> i < simPerCon
      invariant worldSteps == 2 * outer
      invariant elapsed == elapsed0 + 2.0 * step * outer as real
    {
      var j := 0;
      while j < 2
        invariant 0 <= j <= 2 && worldSteps == 2 * outer + j
      {
        worldSteps := worldSteps + 1;
        j := j + 1;
      }
      elapsed := elapsed + 2.0 * step;
      i, outer := i + 2, outer + 1;
    }
  }

  /** At 150 Hz simulation and 30 Hz control the loop runs 3 outer iterations and 6 world steps. */
  lemma DefaultSubSteps()
    ensures SIMULATION_HZ / CONTROL_HZ == 5
    ensures OuterIterations(SIMULATION_HZ / CONTROL_HZ) == 3
  {
  }

  /**
    * The torque of one joint is rescaled to norm `clamp(norm, -1.5 lim, 1.5 lim)`:
    * never above 1.5 times the joint's limit, and unchanged below it.
    */
  function ClampTorqueNorm(norm: real, limit: real): (r: real)
    requires 0.0 <= norm && 0.0 <= limit
    ensures 0.0 <= r <= 1.5 * limit && r <= norm
    ensures r == norm <==> norm <= 1.5 * limit
  {
    Max(-1.5 * limit, Min(1.5 * limit, norm))
  }

  // ---------------------------------------------------------------- Step

  /**
    * The first part of `Step`: actions decoded in place, the time step taken
    * from the last action (1 when not adaptive), both frame counters advanced
    * by it, the step counted and the elapsed time advanced by the sub-steps.
    */
  function Advance(c: State, exp: real -> real): (r: State)
    requires Valid(c) && ExpLike(exp)
    ensures Valid(r)
    ensures r.actions == DecodeActions(c.actions, c.cfg.interestedDof, exp)
    ensures r.clock.step == if c.cfg.adaptive then DecodeStep(c.actions[c.cfg.interestedDof], exp) else 1.0
    ensures r.clock.prevOnPhase == c.clock.onPhase
    ensures r.clock.frame == c.clock.frame + r.clock.step
    ensures r.clock.onPhase == c.clock.onPhase + r.clock.step
    ensures r.clock.totalSteps == c.clock.totalSteps + 1
    ensures r.clock.elapsed == c.clock.elapsed + 2.0 * r.clock.step * OuterIterations(c.cfg.simPerCon) as real
    ensures r.clock.startFrame == c.clock.startFrame && r.clock.queue == c.clock.queue
    ensures r == c.(actions := r.actions, clock := r.clock)
  {
    var actions := DecodeActions(c.actions, c.cfg.interestedDof, exp);
    var step := if c.cfg.adaptive then actions[c.cfg.interestedDof] else 1.0;
    c.(actions := actions,
       clock := c.clock.(step := step, prevOnPhase := c.clock.onPhase,
                         frame := c.clock.frame + step, onPhase := c.clock.onPhase + step,
                         totalSteps := c.clock.totalSteps + 1,
                         elapsed := c.clock.elapsed + 2.0 * step * OuterIterations(c.cfg.simPerCon) as real))
  }

  /** The phase wrap is due once the on-phase frame is strictly beyond the phase length. */
  predicate WrapDue(c: State)
  {
    c.cfg.phaseLength as real < c.clock.onPhase
  }

  /**
    * The phase wrap: the on-phase frame is reduced by one phase length.  In
    * adaptive mode the cycle's rollout is handed to the reference manager if
    * the episode is still in its first two phases, and the per-cycle
    * accumulators start over, except the parameter-reward flag.
    */
  function WrapPhase(c: State): (r: (State, Option<Cycle>))
    requires Valid(c)
    ensures Valid(r.0)
    ensures !WrapDue(c) ==> r == (c, None)
    ensures WrapDue(c) ==> r.0.clock == c.clock.(onPhase := c.clock.onPhase - c.cfg.phaseLength as real)
    ensures r.1.Some? <==> WrapDue(c) && c.cfg.adaptive && c.clock.frame < 2.0 * c.cfg.phaseLength as real
    ensures r.1.Some? ==>
              r.1.value == Cycle(c.rollout.data, c.rollout.trackingTrajectory, c.rollout.countTracking,
                                 c.rollout.paramTrajectory)
    ensures WrapDue(c) && c.cfg.adaptive ==>
              r.0.rollout == Rollout(c.rollout.gotParamReward, 0.0, Num(0.0), 0, 0, [])
    ensures !c.cfg.adaptive ==> r.0.rollout == c.rollout
    ensures r.0 == c.(clock := r.0.clock, rollout := r.0.rollout)
  {
    if !WrapDue(c) then (c, None)
    else
      var w := c.(clock := c.clock.(onPhase := c.clock.onPhase - c.cfg.phaseLength as real));
      if !c.cfg.adaptive then (w, None)
      else
        var saved := if c.clock.frame < 2.0 * c.cfg.phaseLength as real
                     then Some(Cycle(c.rollout.data, c.rollout.trackingTrajectory, c.rollout.countTracking,
                                     c.rollout.paramTrajectory))
                     else None;
        (w.(rollout := Rollout(c.rollout.gotParamReward, 0.0, Num(0.0), 0, 0, [])), saved)
  }

  /**
    * The on-phase frame stays in `[0, P]` and is positive after a step: from
    * there, advancing by a positive step no longer than the phase and
    * wrapping lands in `(0, P]` again.
    */
  lemma OnPhaseStaysInPhase(c: State, exp: real -> real)
    requires Valid(c) && ExpLike(exp)
    requires 0.0 <= c.clock.onPhase <= c.cfg.phaseLength as real
    requires c.cfg.adaptive ==> exp(1.0) <= c.cfg.phaseLength as real
    ensures var r := WrapPhase(Advance(c, exp)).0;
            0.0 < r.clock.onPhase <= c.cfg.phaseLength as real
  {
  }

  /** The reward the parameter goal pays: 1 once the on-phase frame reaches 65, the first time only. */
  function GetParamReward(c: State): (r: (real, State))
    ensures r.0 == 1.0 <==> !c.rollout.gotParamReward && PARAM_REWARD_FRAME <= c.clock.onPhase
    ensures r.0 == 0.0 || r.0 == 1.0
    ensures r.1 == c.(rollout := c.rollout.(gotParamReward := c.rollout.gotParamReward || r.0 == 1.0))
  {
    if !c.rollout.gotParamReward && PARAM_REWARD_FRAME <= c.clock.onPhase then
      (1.0, c.(rollout := c.rollout.(gotParamReward := true)))
    else (0.0, c)
  }

  /** The parameter rewards paid over successive calls at on-phase frames `frames`. */
  function ParamRewardsPaid(c: State, frames: seq<real>): real
    decreases |frames|
  {
    if |frames| == 0 then 0.0
    else
      var r := GetParamReward(c.(clock := c.clock.(onPhase := frames[0])));
      r.0 + ParamRewardsPaid(r.1, frames[1..])
  }

  /**
    * Over any sequence of calls the parameter reward is paid at most once,
    * and never once it has been paid: nothing in the controller clears the flag.
    */
  lemma {:induction false} ParamRewardAtMostOnce(c: State, frames: seq<real>)
    ensures 0.0 <= ParamRewardsPaid(c, frames) <= 1.0
    ensures c.rollout.gotParamReward ==> ParamRewardsPaid(c, frames) == 0.0
    decreases |frames|
  {
    if |frames| != 0 {
      var r := GetParamReward(c.(clock := c.clock.(onPhase := frames[0])));
      ParamRewardAtMostOnce(r.1, frames[1..]);
      if r.0 == 1.0 {
        assert r.1.rollout.gotParamReward;
      }
    }
  }

  /** A time reward `exp(-k d²)`: in (0, 1], and 1 when the step matches (`d == 0`). */
  function TimeTerm(d: real, k: real, exp: real -> real): (r: real)
    requires ExpLike(exp) && 0.0 < k
    ensures 0.0 < r <= 1.0
    ensures d == 0.0 ==> r == 1.0
  {
    SquareTimesPositive(d, k);
    ExpAtMostOne(exp, -(k * (d * d)));
    exp(-(k * (d * d)))
  }

  lemma SquareTimesPositive(d: real, k: real)
    requires 0.0 < k
    ensures -(k * (d * d)) <= 0.0
  {
    if d < 0.0 {
      ProductNonNegative(-d, -d);
      assert (-d) * (-d) == d * d;
    } else {
      ProductNonNegative(d, d);
    }
    ProductNonNegative(k, d * d);
  }

  /** The reward total of the non-adaptive mode: 0.9 of the weighted tracking terms plus 0.1 of the time term. */
  function Total(p: real, com: real, ee: real, v: real, time: real): real
  {
    0.9 * (0.5 * p + 0.1 * com + 0.3 * ee + 0.1 * v) + 0.1 * time
  }

  /** The total is a convex combination of its five terms, so it lies in any interval holding all of them. */
  lemma TotalIsConvex(p: real, com: real, ee: real, v: real, time: real, lo: real, hi: real)
    requires lo <= p <= hi && lo <= com <= hi && lo <= ee <= hi && lo <= v <= hi && lo <= time <= hi
    ensures lo <= Total(p, com, ee, v, time) <= hi
  {
    assert 0.45 + 0.09 + 0.27 + 0.09 + 0.1 == 1.0;
  }

  /**
    * `UpdateReward` (non-adaptive): the time term `exp(-40 (a - 1)²)` of the
    * decoded step action and the total of `Total`; the parts are the total,
    * the four tracking terms and the time term, or all zeros when the total
    * is NaN.
    */
  function UpdateReward(c: State, tracking: seq<Float>, exp: real -> real): (r: State)
    requires Valid(c) && ExpLike(exp) && 4 <= |tracking|
    ensures Valid(r)
    ensures r == c.(rewardParts := r.rewardParts)
    ensures 0 < |r.rewardParts|
    ensures (exists i :: 0 <= i < 4 && tracking[i].NaN?) ==> r.rewardParts == Zeros(|c.rewardLabels|)
    ensures (forall i :: 0 <= i < 4 ==> tracking[i].Num?) ==>
              var time := TimeTerm(c.actions[c.cfg.interestedDof] - 1.0, 40.0, exp);
              r.rewardParts == [Total(tracking[0].v, tracking[1].v, tracking[2].v, tracking[3].v, time),
                                tracking[0].v, tracking[1].v, tracking[2].v, tracking[3].v, time]
  {
    var time := TimeTerm(c.actions[c.cfg.interestedDof] - 1.0, 40.0, exp);
    if tracking[0].NaN? || tracking[1].NaN? || tracking[2].NaN? || tracking[3].NaN? then
      c.(rewardParts := Zeros(|c.rewardLabels|))
    else
      c.(rewardParts := [Total(tracking[0].v, tracking[1].v, tracking[2].v, tracking[3].v, time),
                         tracking[0].v, tracking[1].v, tracking[2].v, tracking[3].v, time])
  }

  /** With tracking terms in [0, 1] the non-adaptive reward total is in [0, 1]. */
  lemma UpdateRewardInUnit(c: State, tracking: seq<Float>, exp: real -> real)
    requires Valid(c) && ExpLike(exp) && 4 <= |tracking|
    requires forall i :: 0 <= i < 4 ==> tracking[i].Num? && 0.0 <= tracking[i].v <= 1.0
    ensures 0.0 <= GetReward(UpdateReward(c, tracking, exp)) <= 1.0
  {
    var time := TimeTerm(c.actions[c.cfg.interestedDof] - 1.0, 40.0, exp);
    TotalIsConvex(tracking[0].v, tracking[1].v, tracking[2].v, tracking[3].v, time, 0.0, 1.0);
  }

  /** The mean of the tracking terms, NaN if any is. */
  function TrackingMean(tracking: seq<Float>): (m: Float)
    requires 1 <= |tracking|
    ensures m.NaN? <==> exists i :: 0 <= i < |tracking| && tracking[i].NaN?
  {
    Scale(1.0 / |tracking| as real, FloatSum(tracking))
  }

  /** How a paid parameter reward enters the cycle's: it starts it when that is 0 and multiplies it otherwise. */
  function CombineParam(trajectory: real, param: real): (r: real)
    ensures param == 0.0 ==> r == trajectory
    ensures param != 0.0 && trajectory == 0.0 ==> r == param
    ensures param == 1.0 ==> r == (if trajectory == 0.0 then 1.0 else trajectory)
  {
    if param == 0.0 then trajectory
    else if trajectory == 0.0 then param
    else trajectory * param
  }

  /**
    * `UpdateAdaptiveReward`: the total is `0.8 · mean tracking + 0.2 · exp(-75 d²)`
    * with `d` the step's distance from the reference time step.  The parts
    * are the total, ten times the parameter reward, the mean tracking term,
    * the time term and the similarity, or all zeros when the total is NaN.
    * A paid parameter reward enters the cycle's; the mean tracking term is
    * added to the cycle's sum and counted.
    */
  function UpdateAdaptiveReward(c: State, tracking: seq<Float>, similarity: real, referenceStep: real,
                                exp: real -> real): (r: State)
    requires Valid(c) && ExpLike(exp) && 1 <= |tracking|
    ensures Valid(r)
    ensures var pr := GetParamReward(c);
            r.rollout == c.rollout.(gotParamReward := pr.1.rollout.gotParamReward,
                                    paramTrajectory := CombineParam(c.rollout.paramTrajectory, pr.0),
                                    trackingTrajectory := Add(c.rollout.trackingTrajectory, TrackingMean(tracking)),
                                    countTracking := c.rollout.countTracking + 1)
    ensures 0 < |r.rewardParts|
    ensures TrackingMean(tracking).NaN? ==> r.rewardParts == Zeros(|c.rewardLabels|)
    ensures TrackingMean(tracking).Num? ==>
              var time := TimeTerm(c.clock.step - referenceStep, 75.0, exp);
              var mean := TrackingMean(tracking).v;
              r.rewardParts == [0.8 * mean + 0.2 * time, 10.0 * GetParamReward(c).0, mean, time, similarity]
    ensures r == c.(rewardParts := r.rewardParts, rollout := r.rollout)
  {
    var mean := TrackingMean(tracking);
    var time := TimeTerm(c.clock.step - referenceStep, 75.0, exp);
    var pr := GetParamReward(c);
    var parts := if mean.NaN? then Zeros(|c.rewardLabels|)
                 else [0.8 * mean.v + 0.2 * time, 10.0 * pr.0, mean.v, time, similarity];
    c.(rewardParts := parts,
       rollout := pr.1.rollout.(paramTrajectory := CombineParam(c.rollout.paramTrajectory, pr.0),
                                trackingTrajectory := Add(c.rollout.trackingTrajectory, mean),
                                countTracking := c.rollout.countTracking + 1))
  }

  /** With tracking terms in [0, 1] the adaptive reward total is in [0, 1]. */
  lemma AdaptiveRewardInUnit(c: State, tracking: seq<Float>, similarity: real, referenceStep: real,
                             exp: real -> real)
    requires Valid(c) && ExpLike(exp) && 1 <= |tracking|
    requires forall i :: 0 <= i < |tracking| ==> tracking[i].Num? && 0.0 <= tracking[i].v <= 1.0
    ensures 0.0 <= GetReward(UpdateAdaptiveReward(c, tracking, similarity, referenceStep, exp)) <= 1.0
  {
    MeanInUnit(tracking);
  }

  lemma MeanInUnit(tracking: seq<Float>)
    requires 1 <= |tracking|
    requires forall i :: 0 <= i < |tracking| ==> tracking[i].Num? && 0.0 <= tracking[i].v <= 1.0
    ensures TrackingMean(tracking).Num? && 0.0 <= TrackingMean(tracking).v <= 1.0
  {
    var n := |tracking| as real;
    var s := FloatSum(tracking).v;
    SumInRange(tracking);
    assert 0.0 <= s <= n;
    ProductNonNegative(1.0 / n, s);
    ProductNonNegative(1.0 / n, n - s);
    assert (1.0 / n) * n == 1.0;
  }

  lemma {:induction false} SumInRange(tracking: seq<Float>)
    requires forall i :: 0 <= i < |tracking| ==> tracking[i].Num? && 0.0 <= tracking[i].v <= 1.0
    ensures FloatSum(tracking).Num? && 0.0 <= FloatSum(tracking).v <= |tracking| as real
    decreases |tracking|
  {
    if |tracking| != 0 {
      SumInRange(tracking[..|tracking| - 1]);
    }
  }

  // ---------------------------------------------------------------- termination

  /** The upper root-height limit, raised in adaptive mode by the goal's height over the reference's. */
  function HeightLimit(cfg: Config, m: Measures): real
  {
    ROOT_HEIGHT_UPPER + (if cfg.adaptive then m.goalRaise else 0.0)
  }

  /**
    * The height test as the program groups it: the lower limit applies only
    * when not recording, the upper limit always (`&&` binds tighter than `||`).
    */
  predicate HeightFails(cfg: Config, m: Measures)
  {
    (!cfg.record && m.rootHeight < ROOT_HEIGHT_LOWER) || HeightLimit(cfg, m) < m.rootHeight
  }

  predicate AngleFails(cfg: Config, m: Measures)
  {
    !cfg.record && ROOT_ANGLE_LIMIT < Abs(m.rootAngle)
  }

  predicate RootDiffFails(cfg: Config, m: Measures)
  {
    !cfg.record && ROOT_DIFF_LIMIT < m.rootDiff
  }

  /** The episode has run past one phase length of frames. */
  predicate TimeUp(cfg: Config, frame: real)
  {
    cfg.phaseLength as real < frame
  }

  /**
    * `UpdateTerminalInfo` as written: a sequence of tests, each of which that
    * fires sets the terminal flag and overwrites the reason — NaN positions
    * (3), NaN velocities (4), root drift (2), then the first of height (1),
    * angle (5) and time (8).
    */
  function TerminalInfo(cfg: Config, frame: real, t: Termination, m: Measures): Termination
  {
    var a := if m.positionsNaN then Termination(true, true, 3) else t;
    var b := if m.velocitiesNaN then Termination(true, true, 4) else a;
    var d := if RootDiffFails(cfg, m) then b.(isTerminal := true, reason := 2) else b;
    if HeightFails(cfg, m) then d.(isTerminal := true, reason := 1)
    else if AngleFails(cfg, m) then d.(isTerminal := true, reason := 5)
    else if TimeUp(cfg, frame) then d.(isTerminal := true, reason := TIME_END)
    else d
  }

  /** `UpdateTerminalInfo` on the controller: only the termination record changes. */
  function UpdateTerminalInfo(c: State, m: Measures): (r: State)
    ensures r == c.(term := r.term)
    ensures r.term == TerminalInfo(c.cfg, c.clock.frame, c.term, m)
    ensures c.term.isTerminal ==> r.term.isTerminal
  {
    c.(term := TerminalInfo(c.cfg, c.clock.frame, c.term, m))
  }

  /**
    * The reason the last writer leaves, stated as a priority list: height,
    * angle, time, root drift, NaN velocities, NaN positions, else unchanged.
    */
  function ReasonByPriority(cfg: Config, frame: real, t: Termination, m: Measures): int
  {
    if HeightFails(cfg, m) then 1
    else if AngleFails(cfg, m) then 5
    else if TimeUp(cfg, frame) then TIME_END
    else if RootDiffFails(cfg, m) then 2
    else if m.velocitiesNaN then 4
    else if m.positionsNaN then 3
    else t.reason
  }

  /**
    * The termination record is terminal exactly when a test fires (or it
    * already was), flags NaN exactly for NaN state, and its reason is the
    * priority list's.
    */
  lemma TerminalInfoByPriority(cfg: Config, frame: real, t: Termination, m: Measures)
    ensures var r := TerminalInfo(cfg, frame, t, m);
            && (r.isTerminal <==> t.isTerminal || m.positionsNaN || m.velocitiesNaN || RootDiffFails(cfg, m)
                                  || HeightFails(cfg, m) || AngleFails(cfg, m) || TimeUp(cfg, frame))
            && (r.isNan <==> t.isNan || m.positionsNaN || m.velocitiesNaN)
            && r.reason == ReasonByPriority(cfg, frame, t, m)
  {
  }

  /** A NaN reason does not survive a later test: NaN positions with the root too high end with reason 1. */
  lemma NanReasonOverwritten(cfg: Config, frame: real, t: Termination, m: Measures)
    requires m.positionsNaN && HeightLimit(cfg, m) < m.rootHeight
    ensures TerminalInfo(cfg, frame, t, m) == Termination(true, true, 1)
  {
  }

  /** While recording, the upper height limit still terminates; the lower one does not. */
  lemma RecordingKeepsUpperLimit(cfg: Config, frame: real, t: Termination, m: Measures)
    requires cfg.record
    ensures HeightLimit(cfg, m) < m.rootHeight ==> TerminalInfo(cfg, frame, t, m).isTerminal
    ensures m.rootHeight < ROOT_HEIGHT_LOWER && m.rootHeight <= HeightLimit(cfg, m) && !TimeUp(cfg, frame)
            && !m.positionsNaN && !m.velocitiesNaN
            ==> TerminalInfo(cfg, frame, t, m) == t
  {
  }

  /** The time queue keeps the last three frames. */
  function PushTime(q: seq<real>, t: real): (r: seq<real>)
    ensures |q| <= 3 ==> |r| <= 3
    ensures 0 < |r| && r[|r| - 1] == t
    ensures |q| < 3 ==> r == q + [t]
    ensures 3 <= |q| ==> r == q[1..] + [t]
  {
    if 3 <= |q| then q[1..] + [t] else q + [t]
  }

  /** The rollout record after a step: the pose and its on-phase frame appended in adaptive mode, dropped once terminal. */
  function RecordPose(c: State, positions: seq<real>): (data: seq<(seq<real>, real)>)
    ensures !c.cfg.adaptive ==> data == c.rollout.data
    ensures c.cfg.adaptive && c.term.isTerminal ==> data == []
    ensures c.cfg.adaptive && !c.term.isTerminal ==> data == c.rollout.data + [(positions, c.clock.onPhase)]
  {
    if !c.cfg.adaptive then c.rollout.data
    else if c.term.isTerminal then []
    else c.rollout.data + [(positions, c.clock.onPhase)]
  }

  /** The reward computation of the mode. */
  function UpdateModeReward(c: State, exp: real -> real, sim: Sim): (r: State)
    requires Valid(c) && ExpLike(exp)
    requires |sim.tracking| >= (if c.cfg.adaptive then 1 else 4)
    ensures Valid(r) && 0 < |r.rewardParts|
    ensures r == c.(rewardParts := r.rewardParts, rollout := r.rollout)
    ensures !c.cfg.adaptive ==> r.rollout == c.rollout
    ensures c.cfg.adaptive ==> r.rollout.countTracking == c.rollout.countTracking + 1
  {
    if c.cfg.adaptive then UpdateAdaptiveReward(c, sim.tracking, sim.similarity, sim.referenceStep, exp)
    else UpdateReward(c, sim.tracking, exp)
  }

  /**
    * `Step`: nothing happens in a terminal state.  Otherwise the actions are
    * decoded and the frames advanced, the phase wrapped (possibly handing the
    * cycle to the reference manager), the reward of the mode computed, the
    * termination tests run, the pose recorded, and the frame pushed on the
    * time queue.
    */
  function Step(c: State, exp: real -> real, sim: Sim): (r: (State, Option<Cycle>))
    requires Valid(c) && ExpLike(exp)
    requires |sim.tracking| >= (if c.cfg.adaptive then 1 else 4)
    ensures Valid(r.0)
    ensures c.term.isTerminal ==> r == (c, None)
    ensures !c.term.isTerminal ==>
              && r.0.cfg == c.cfg
              && r.0.clock.totalSteps == c.clock.totalSteps + 1
              && r.0.clock.frame == c.clock.frame + r.0.clock.step
              && (!c.cfg.adaptive ==> r.0.clock.step == 1.0)
              && 0.0 < r.0.clock.step
              && 0 < |r.0.rewardParts|
              && 0 < |r.0.clock.queue| && r.0.clock.queue[|r.0.clock.queue| - 1] == r.0.clock.frame
              && (c.cfg.adaptive && r.0.term.isTerminal ==> r.0.rollout.data == [])
              && (!c.cfg.adaptive ==> r.0.rollout == c.rollout && r.1.None?)
  {
    if c.term.isTerminal then (c, None)
    else
      var w := WrapPhase(Advance(c, exp));
      var t := UpdateTerminalInfo(UpdateModeReward(w.0, exp, sim), sim.measures);
      (t.(rollout := t.rollout.(data := RecordPose(t, sim.positions)),
          clock := t.clock.(queue := PushTime(t.clock.queue, t.clock.frame))), w.1)
  }

  /**
    * Every step's tracking terms are as many as the mode's reward reads: one
    * or more in adaptive mode (three in the program), four or more otherwise.
    */
  predicate TrackingFed(c: State, sims: seq<Sim>)
  {
    forall i :: 0 <= i < |sims| ==> |sims[i].tracking| >= (if c.cfg.adaptive then 1 else 4)
  }

  /** Once terminal, the controller stays as it is under any number of steps. */
  lemma {:induction false} TerminalIsAbsorbing(c: State, exp: real -> real, sims: seq<Sim>)
    requires Valid(c) && ExpLike(exp) && c.term.isTerminal
    requires TrackingFed(c, sims)
    ensures Steps(c, exp, sims) == c
    decreases |sims|
  {
    if |sims| != 0 {
      TerminalIsAbsorbing(c, exp, sims[1..]);
    }
  }

  /** The controller after one step per entry of `sims`. */
  function Steps(c: State, exp: real -> real, sims: seq<Sim>): (r: State)
    requires Valid(c) && ExpLike(exp)
    requires TrackingFed(c, sims)
    ensures Valid(r)
    decreases |sims|
  {
    if |sims| == 0 then c else Steps(Step(c, exp, sims[0]).0, exp, sims[1..])
  }

  /** The step count grows by one per step until the episode ends, and the configuration never changes. */
  lemma {:induction false} StepsCount(c: State, exp: real -> real, sims: seq<Sim>)
    requires Valid(c) && ExpLike(exp)
    requires TrackingFed(c, sims)
    ensures Steps(c, exp, sims).cfg == c.cfg
    ensures c.clock.totalSteps <= Steps(c, exp, sims).clock.totalSteps <= c.clock.totalSteps + |sims|
    ensures !Steps(c, exp, sims).term.isTerminal ==>
              Steps(c, exp, sims).clock.totalSteps == c.clock.totalSteps + |sims|
    decreases |sims|
  {
    if |sims| != 0 {
      var n := Step(c, exp, sims[0]).0;
      StepsCount(n, exp, sims[1..]);
      if c.term.isTerminal {
        TerminalIsAbsorbing(n, exp, sims[1..]);
      }
    }
  }

  // ---------------------------------------------------------------- Reset

  /**
    * `Reset(RSI)`: with reference-state initialisation outside adaptive mode
    * the episode starts at the truncated draw from `[0, P - 5)`; otherwise at
    * frame 0 with the cycle rewards cleared.  Both counters start at that
    * frame; flags, step count, elapsed time, the records, the counts and the
    * queue are cleared; the step is 1; in adaptive mode the start pose is the
    * first rollout record.  The termination reason and the parameter-reward
    * flag are left as they were.
    */
  function Reset(c: State, rsi: bool, draw: real, positions: seq<real>): (r: State)
    requires Valid(c)
    ensures Valid(r)
    ensures rsi && !c.cfg.adaptive ==> r.clock.frame == Trunc(draw) as real && r.rollout.paramTrajectory == c.rollout.paramTrajectory
    ensures !(rsi && !c.cfg.adaptive) ==>
              r.clock.frame == 0.0 && r.rollout.paramTrajectory == 0.0 && r.rollout.trackingTrajectory == Num(0.0)
    ensures r.clock == Clock(1.0, r.clock.frame, r.clock.frame, c.clock.prevOnPhase, r.clock.frame, 0.0, 0, [0.0])
    ensures r.term == Termination(false, false, c.term.reason)
    ensures r.rollout.countTracking == 0 && r.rollout.countParam == 0
    ensures r.rollout.data == if c.cfg.adaptive then [(positions, r.clock.frame)] else []
    ensures r.rollout.gotParamReward == c.rollout.gotParamReward
    ensures r == c.(clock := r.clock, term := r.term, rollout := r.rollout)
  {
    var f := if rsi && !c.cfg.adaptive then Trunc(draw) as real else 0.0;
    var kept := if rsi && !c.cfg.adaptive then c.rollout
                else c.rollout.(paramTrajectory := 0.0, trackingTrajectory := Num(0.0));
    c.(clock := Clock(1.0, f, f, c.clock.prevOnPhase, f, 0.0, 0, [0.0]),
       term := c.term.(isTerminal := false, isNan := false),
       rollout := kept.(countParam := 0, countTracking := 0,
                        data := if c.cfg.adaptive then [(positions, f)] else []))
  }

  /**
    * A reference-state start drawn from `[0, P - 5)` is a whole frame in that
    * range, and the episode length is 0 right after any reset.
    */
  lemma ResetStart(c: State, rsi: bool, draw: real, positions: seq<real>)
    requires Valid(c)
    requires 0.0 <= draw < c.cfg.phaseLength as real - 5.0
    ensures var r := Reset(c, rsi, draw, positions);
            && 0.0 <= r.clock.frame < c.cfg.phaseLength as real - 5.0
            && r.clock.frame == r.clock.frame.Floor as real
            && GetCurrentLength(r) == 0.0
  {
  }

  /** A reset does not clear a termination by time: `IsTimeEnd` still holds after it. */
  lemma ResetKeepsTimeEnd(c: State, rsi: bool, draw: real, positions: seq<real>)
    requires Valid(c) && IsTimeEnd(c)
    ensures IsTimeEnd(Reset(c, rsi, draw, positions))
    ensures !Reset(c, rsi, draw, positions).term.isTerminal
  {
  }

  // ---------------------------------------------------------------- state and contacts

  /**
    * The state vector's layout: relative body rotations, velocities, the
    * up-vector angle, the root height, the next target's end-effector
    * features, the time step, the end-effector positions, the on-phase frame,
    * and the goal parameters when parametric.
    */
  function StateLayout(c: State, p: seq<real>, v: seq<real>, upAngle: real, rootHeight: real,
                       next: seq<real>, ee: seq<real>, goal: seq<real>): (s: seq<real>)
    ensures |s| == |p| + |v| + 2 + |next| + 1 + |ee| + 1 + (if c.cfg.parametric then |goal| else 0)
    ensures s[..|p|] == p && s[|p|..|p| + |v|] == v
    ensures s[|p| + |v|] == upAngle && s[|p| + |v| + 1] == rootHeight
    ensures s[|p| + |v| + 2 + |next|] == c.clock.step
    ensures s[|p| + |v| + 2 + |next| + 1 + |ee|] == c.clock.onPhase
    ensures c.cfg.parametric ==> s[|s| - |goal|..] == goal
  {
    var base := p + v + [upAngle, rootHeight] + next + [c.clock.step] + ee + [c.clock.onPhase];
    if c.cfg.parametric then base + goal else base
  }

  /** `GetState`: `numState` zeros in a terminal state not ended by time, the features otherwise. */
  function GetState(c: State, features: seq<real>): (s: seq<real>)
    ensures c.term.isTerminal && !IsTimeEnd(c) ==> s == Zeros(c.cfg.numState)
    ensures !(c.term.isTerminal && !IsTimeEnd(c)) ==> s == features
  {
    if c.term.isTerminal && c.term.reason != TIME_END then Zeros(c.cfg.numState) else features
  }

  /**
    * `GetContactInfo(pos, names, base)`: for each named body its world
    * position with the base height subtracted from the height, flagged in
    * contact below 0.07.
    */
  function GetContactInfo(points: seq<seq<real>>, base: real): (r: seq<(bool, seq<real>)>)
    requires forall i :: 0 <= i < |points| ==> |points[i]| == 3
    ensures |r| == |points|
    ensures forall i :: 0 <= i < |r| ==> |r[i].1| == 3 && r[i].1[1] == points[i][1] - base
    ensures forall i :: 0 <= i < |r| ==> r[i].1[0] == points[i][0] && r[i].1[2] == points[i][2]
    ensures forall i :: 0 <= i < |r| ==>
              r[i].0 == Contacts.Flags(seq(|points|, j requires 0 <= j < |points| => points[j][1]), base,
                                       Contacts.INFO_CONTACT_HEIGHT)[i]
  {
    seq(|points|, i requires 0 <= i < |points| =>
      var p := points[i][1 := points[i][1] - base];
      (p[1] < Contacts.INFO_CONTACT_HEIGHT, p))
  }

  /** The bodies with a collision group against the ground. */
  datatype Body = RightFoot | LeftFoot | RightToe | LeftToe | RightHand | LeftHand

  function BodyName(b: Body): string
  {
    match b
    case RightFoot => "RightFoot"
    case LeftFoot => "LeftFoot"
    case RightToe => "RightToe"
    case LeftToe => "LeftToe"
    case RightHand => "RightHand"
    case LeftHand => "LeftHand"
  }

  /** The collision group a body name selects, if any. */
  function GroupOf(name: string): (g: Option<Body>)
    ensures g.Some? ==> BodyName(g.value) == name
  {
    if name == "RightFoot" then Some(RightFoot)
    else if name == "LeftFoot" then Some(LeftFoot)
    else if name == "RightToe" then Some(RightToe)
    else if name == "LeftToe" then Some(LeftToe)
    else if name == "RightHand" then Some(RightHand)
    else if name == "LeftHand" then Some(LeftHand)
    else None
  }

  /** Every body's name selects that body's group. */
  lemma GroupOfName(b: Body)
    ensures GroupOf(BodyName(b)) == Some(b)
  {
  }

  /**
    * `CheckCollisionWithGround(name)`: the collision test of the named
    * body's group against the ground; false for any other name.
    */
  function CheckCollisionWithGround(name: string, collides: Body -> bool): (r: bool)
    ensures (forall b :: name != BodyName(b)) ==> !r
    ensures forall b :: name == BodyName(b) ==> (r <==> collides(b))
  {
    match GroupOf(name)
    case None => false
    case Some(b) => collides(b)
  }

  /** The foot contacts `SaveStepInfo` records: right foot or toe, left foot or toe. */
  function FootContact(collides: Body -> bool): (r: (bool, bool))
    ensures r.0 <==> collides(RightFoot) || collides(RightToe)
    ensures r.1 <==> collides(LeftFoot) || collides(LeftToe)
  {
    GroupOfName(RightFoot); GroupOfName(RightToe); GroupOfName(LeftFoot); GroupOfName(LeftToe);
    (CheckCollisionWithGround("RightFoot", collides) || CheckCollisionWithGround("RightToe", collides),
     CheckCollisionWithGround("LeftFoot", collides) || CheckCollisionWithGround("LeftToe", collides))
  }
}

=== FILE: displacement.dfy ===
/**
  * Displacements of the reference motion, joint by joint.  A skeleton is the
  * list of its joints' DOF counts in body-node order; joint `j`'s coordinates
  * start at the sum of the counts before it.  Per joint the program dispatches
  * on the DOF count: a 6-DOF root rotates its first three coordinates and adds
  * its translation, a 3-DOF ball joint rotates, and a 1-DOF joint adds.
  * `rotate` is `Rotate3dVector` and `difference` is `JointPositionDifferences`.
  */
module Displacement {
  import opened Numeric
  import opened MotionValue
  import PhaseLookup

  /** The DOF counts the dispatch handles. */
  predicate ValidSkeleton(dofs: seq<nat>)
  {
    forall j :: 0 <= j < |dofs| ==> dofs[j] == 1 || dofs[j] == 3 || dofs[j] == 6
  }

  /** Index in the skeleton of the first coordinate of joint `j`. */
  function Start(dofs: seq<nat>, j: nat): (s: nat)
    requires j <= |dofs|
  {
    if j == 0 then 0 else Start(dofs, j - 1) + dofs[j - 1]
  }

  /** Number of coordinates of the skeleton. */
  function Size(dofs: seq<nat>): nat
  {
    Start(dofs, |dofs|)
  }

  /** The joints before `j` occupy coordinates below `Start(dofs, j)`. */
  lemma {:induction false} EarlierJoint(dofs: seq<nat>, i: nat, j: nat)
    requires i < j <= |dofs|
    ensures Start(dofs, i) + dofs[i] <= Start(dofs, j)
    decreases j - i
  {
    if i + 1 < j {
      EarlierJoint(dofs, i, j - 1);
    }
  }

  /** The joint whose coordinates contain coordinate `c`. */
  function Owner(dofs: seq<nat>, c: nat): (j: nat)
    requires c < Size(dofs)
    ensures j < |dofs| && Start(dofs, j) <= c < Start(dofs, j) + dofs[j]
  {
    OwnerFrom(dofs, c, |dofs|)
  }

  function {:induction false} OwnerFrom(dofs: seq<nat>, c: nat, n: nat): (j: nat)
    requires n <= |dofs| && c < Start(dofs, n)
    ensures j < n && Start(dofs, j) <= c < Start(dofs, j) + dofs[j]
  {
    if Start(dofs, n - 1) <= c then n - 1 else OwnerFrom(dofs, c, n - 1)
  }

  /** Coordinates the dispatch treats additively: root translation and 1-DOF joints. */
  predicate Additive(dofs: seq<nat>, c: nat)
    requires c < Size(dofs)
  {
    var j := Owner(dofs, c);
    (dofs[j] == 6 && Start(dofs, j) + 3 <= c) || dofs[j] == 1
  }

  /** The 3-vector operations used for rotational coordinates. */
  ghost predicate Rotational(f: (seq<real>, seq<real>) -> seq<real>)
  {
    forall a, b :: |f(a, b)| == 3
  }

  /**
    * What the dispatch writes for a joint of `kind` DOFs whose coordinates
    * start at `s`, composing `base` with displacement `d`.
    */
  ghost predicate SegmentApplied(s: nat, kind: nat, p: seq<real>, base: seq<real>, d: seq<real>,
                                 rotate: (seq<real>, seq<real>) -> seq<real>)
    requires s + kind <= |p| == |base| == |d| && (kind == 1 || kind == 3 || kind == 6) && Rotational(rotate)
  {
    && (kind != 1 ==>
          var rot := rotate(base[s..s + 3], d[s..s + 3]);
          forall c :: s <= c < s + 3 ==> p[c] == rot[c - s])
    && (kind == 6 ==> forall c :: s + 3 <= c < s + 6 ==> p[c] == d[c] + base[c])
    && (kind == 1 ==> p[s] == d[s] + base[s])
  }

  /** What the dispatch writes for a joint of `kind` DOFs at `s` when measuring `p` against `base`. */
  ghost predicate SegmentMeasured(s: nat, kind: nat, d: seq<real>, p: seq<real>, base: seq<real>,
                                  difference: (seq<real>, seq<real>) -> seq<real>)
    requires s + kind <= |p| == |base| == |d| && (kind == 1 || kind == 3 || kind == 6) && Rotational(difference)
  {
    && (kind != 1 ==>
          var rot := difference(p[s..s + 3], base[s..s + 3]);
          forall c :: s <= c < s + 3 ==> d[c] == rot[c - s])
    && (kind == 6 ==> forall c :: s + 3 <= c < s + 6 ==> d[c] == p[c] - base[c])
    && (kind == 1 ==> d[s] == p[s] - base[s])
  }

  /** What the dispatch writes for joint `j` when composing `base` with displacement `d`. */
  ghost predicate JointApplied(dofs: seq<nat>, j: nat, p: seq<real>, base: seq<real>, d: seq<real>,
                               rotate: (seq<real>, seq<real>) -> seq<real>)
    requires j < |dofs| && ValidSkeleton(dofs) && Rotational(rotate)
    requires |p| == |base| == |d| == Size(dofs)
  {
    EarlierJoint(dofs, j, |dofs|);
    SegmentApplied(Start(dofs, j), dofs[j], p, base, d, rotate)
  }

  /** What the dispatch writes for joint `j` when measuring `p` against `base`. */
  ghost predicate JointMeasured(dofs: seq<nat>, j: nat, d: seq<real>, p: seq<real>, base: seq<real>,
                                difference: (seq<real>, seq<real>) -> seq<real>)
    requires j < |dofs| && ValidSkeleton(dofs) && Rotational(difference)
    requires |p| == |base| == |d| == Size(dofs)
  {
    EarlierJoint(dofs, j, |dofs|);
    SegmentMeasured(Start(dofs, j), dofs[j], d, p, base, difference)
  }

  /** Every joint of `p` is `base` composed with `d`. */
  ghost predicate PoseApplied(dofs: seq<nat>, p: seq<real>, base: seq<real>, d: seq<real>,
                              rotate: (seq<real>, seq<real>) -> seq<real>)
    requires ValidSkeleton(dofs) && Rotational(rotate)
  {
    && |p| == |base| == |d| == Size(dofs)
    && forall j :: 0 <= j < |dofs| ==> JointApplied(dofs, j, p, base, d, rotate)
  }

  /** Every joint of `d` is `p` measured against `base`. */
  ghost predicate PoseMeasured(dofs: seq<nat>, d: seq<real>, p: seq<real>, base: seq<real>,
                               difference: (seq<real>, seq<real>) -> seq<real>)
    requires ValidSkeleton(dofs) && Rotational(difference)
  {
    && |p| == |base| == |d| == Size(dofs)
    && forall j :: 0 <= j < |dofs| ==> JointMeasured(dofs, j, d, p, base, difference)
  }

  /** The `kind` coordinates from `s` on are the same in `p` and `q`. */
  ghost predicate SameOn(s: nat, kind: nat, p: seq<real>, q: seq<real>)
  {
    forall c :: s <= c < s + kind && c < |p| && c < |q| ==> p[c] == q[c]
  }

  lemma AppliedFrame(s: nat, kind: nat, p: seq<real>, q: seq<real>, base: seq<real>, d: seq<real>,
                     rotate: (seq<real>, seq<real>) -> seq<real>)
    requires s + kind <= |p| == |q| == |base| == |d| && (kind == 1 || kind == 3 || kind == 6) && Rotational(rotate)
    requires SegmentApplied(s, kind, p, base, d, rotate) && SameOn(s, kind, p, q)
    ensures SegmentApplied(s, kind, q, base, d, rotate)
  {
  }

  lemma MeasuredFrame(s: nat, kind: nat, d: seq<real>, e: seq<real>, p: seq<real>, base: seq<real>,
                      difference: (seq<real>, seq<real>) -> seq<real>)
    requires s + kind <= |p| == |e| == |base| == |d| && (kind == 1 || kind == 3 || kind == 6)
    requires Rotational(difference)
    requires SegmentMeasured(s, kind, d, p, base, difference) && SameOn(s, kind, d, e)
    ensures SegmentMeasured(s, kind, e, p, base, difference)
  {
  }

  /** `v` with `w` written at `s`. */
  function Write(v: seq<real>, s: nat, w: seq<real>): (r: seq<real>)
    requires s + |w| <= |v|
    ensures |r| == |v|
    ensures forall c :: s <= c < s + |w| ==> r[c] == w[c - s]
    ensures forall c :: 0 <= c < |v| && !(s <= c < s + |w|) ==> r[c] == v[c]
  {
    v[..s] + w + v[s + |w|..]
  }

  /** The dispatch for one joint of `kind` DOFs at `s`, composing `base` with `d` into `p`. */
  function ApplyJoint(s: nat, kind: nat, p: seq<real>, base: seq<real>, d: seq<real>,
                      rotate: (seq<real>, seq<real>) -> seq<real>): (r: seq<real>)
    requires s + kind <= |p| == |base| == |d| && (kind == 1 || kind == 3 || kind == 6) && Rotational(rotate)
    ensures |r| == |p| && SegmentApplied(s, kind, r, base, d, rotate)
    ensures forall c :: 0 <= c < |p| && !(s <= c < s + kind) ==> r[c] == p[c]
  {
    if kind == 6 then
      var q := Write(p, s, rotate(base[s..s + 3], d[s..s + 3]));
      Write(q, s + 3, [d[s + 3] + base[s + 3], d[s + 4] + base[s + 4], d[s + 5] + base[s + 5]])
    else if kind == 3 then Write(p, s, rotate(base[s..s + 3], d[s..s + 3]))
    else Write(p, s, [d[s] + base[s]])
  }

  /** The dispatch for one joint of `kind` DOFs at `s`, measuring `p` against `base` into `d`. */
  function MeasureJoint(s: nat, kind: nat, d: seq<real>, p: seq<real>, base: seq<real>,
                        difference: (seq<real>, seq<real>) -> seq<real>): (r: seq<real>)
    requires s + kind <= |p| == |base| == |d| && (kind == 1 || kind == 3 || kind == 6) && Rotational(difference)
    ensures |r| == |d| && SegmentMeasured(s, kind, r, p, base, difference)
    ensures forall c :: 0 <= c < |d| && !(s <= c < s + kind) ==> r[c] == d[c]
  {
    if kind == 6 then
      var e := Write(d, s, difference(p[s..s + 3], base[s..s + 3]));
      Write(e, s + 3, [p[s + 3] - base[s + 3], p[s + 4] - base[s + 4], p[s + 5] - base[s + 5]])
    else if kind == 3 then Write(d, s, difference(p[s..s + 3], base[s..s + 3]))
    else Write(d, s, [p[s] - base[s]])
  }

  /**
    * One frame of `AddDisplacementToBVH` (and of the spline playback in the
    * spline viewer): the reference pose `base` displaced by `d`, joint by joint.
    */
  method ApplyToPose(dofs: seq<nat>, base: seq<real>, d: seq<real>,
                     rotate: (seq<real>, seq<real>) -> seq<real>) returns (p: seq<real>)
    requires ValidSkeleton(dofs) && Rotational(rotate)
    requires |base| == |d| == Size(dofs)
    ensures PoseApplied(dofs, p, base, d, rotate)
  {
    p := base;
    var j := 0;
    while j < |dofs|
      invariant 0 <= j <= |dofs| && |p| == Size(dofs)
      invariant forall i :: 0 <= i < j ==> JointApplied(dofs, i, p, base, d, rotate)
    {
      EarlierJoint(dofs, j, |dofs|);
      ghost var before := p;
      p := ApplyJoint(Start(dofs, j), dofs[j], p, base, d, rotate);
      forall i | 0 <= i < j
        ensures JointApplied(dofs, i, p, base, d, rotate)
      {
        EarlierJoint(dofs, i, j);
        EarlierJoint(dofs, i, |dofs|);
        assert JointApplied(dofs, i, before, base, d, rotate);
        AppliedFrame(Start(dofs, i), dofs[i], before, p, base, d, rotate);
      }
      j := j + 1;
    }
  }

  /** One frame of `GetDisplacementWithBVH`: the displacement taking `base` to `p`. */
  method MeasureFromPose(dofs: seq<nat>, p: seq<real>, base: seq<real>,
                         difference: (seq<real>, seq<real>) -> seq<real>) returns (d: seq<real>)
    requires ValidSkeleton(dofs) && Rotational(difference)
    requires |p| == |base| == Size(dofs)
    ensures PoseMeasured(dofs, d, p, base, difference)
  {
    d := base;
    var j := 0;
    while j < |dofs|
      invariant 0 <= j <= |dofs| && |d| == Size(dofs)
      invariant forall i :: 0 <= i < j ==> JointMeasured(dofs, i, d, p, base, difference)
    {
      EarlierJoint(dofs, j, |dofs|);
      ghost var before := d;
      d := MeasureJoint(Start(dofs, j), dofs[j], d, p, base, difference);
      forall i | 0 <= i < j
        ensures JointMeasured(dofs, i, d, p, base, difference)
      {
        EarlierJoint(dofs, i, j);
        EarlierJoint(dofs, i, |dofs|);
        assert JointMeasured(dofs, i, before, p, base, difference);
        MeasuredFrame(Start(dofs, i), dofs[i], before, d, p, base, difference);
      }
      j := j + 1;
    }
  }

  /**
    * Measuring a pose against a reference and applying the result to the same
    * reference gives the pose back exactly on every additive coordinate (root
    * translation and 1-DOF joints), whatever the rotation kernels are.
    */
  lemma AdditivePartsRoundTrip(dofs: seq<nat>, p: seq<real>, base: seq<real>, d: seq<real>, q: seq<real>,
                               rotate: (seq<real>, seq<real>) -> seq<real>,
                               difference: (seq<real>, seq<real>) -> seq<real>)
    requires ValidSkeleton(dofs) && Rotational(rotate) && Rotational(difference)
    requires PoseMeasured(dofs, d, p, base, difference) && PoseApplied(dofs, q, base, d, rotate)
    ensures forall c :: 0 <= c < Size(dofs) && Additive(dofs, c) ==> q[c] == p[c]
  {
    forall c | 0 <= c < Size(dofs) && Additive(dofs, c)
      ensures q[c] == p[c]
    {
      var j := Owner(dofs, c);
      assert JointMeasured(dofs, j, d, p, base, difference);
      assert JointApplied(dofs, j, q, base, d, rotate);
    }
  }

  /** The 3-vector kernels undo each other: rotating `y` by the difference of `x` from `y` gives `x`. */
  ghost predicate Inverse(rotate: (seq<real>, seq<real>) -> seq<real>, difference: (seq<real>, seq<real>) -> seq<real>)
  {
    forall x, y :: |x| == 3 && |y| == 3 ==> rotate(y, difference(x, y)) == x
  }

  /** The three rotational coordinates at `s` survive the round trip when the kernels are inverse. */
  lemma RotationRoundTrip(s: nat, p: seq<real>, base: seq<real>, d: seq<real>, q: seq<real>,
                         rotate: (seq<real>, seq<real>) -> seq<real>,
                         difference: (seq<real>, seq<real>) -> seq<real>)
    requires Rotational(rotate) && Rotational(difference) && Inverse(rotate, difference)
    requires s + 3 <= |p| == |base| == |d| == |q|
    requires forall c :: s <= c < s + 3 ==> d[c] == difference(p[s..s + 3], base[s..s + 3])[c - s]
    requires forall c :: s <= c < s + 3 ==> q[c] == rotate(base[s..s + 3], d[s..s + 3])[c - s]
    ensures forall c :: s <= c < s + 3 ==> q[c] == p[c]
  {
    var x, y := p[s..s + 3], base[s..s + 3];
    var rot := difference(x, y);
    forall k | 0 <= k < 3
      ensures d[s..s + 3][k] == rot[k]
    {
      assert d[s + k] == rot[s + k - s];
    }
    assert d[s..s + 3] == rot;
    var back := rotate(y, d[s..s + 3]);
    assert back == x;
    forall c | s <= c < s + 3
      ensures q[c] == p[c]
    {
      assert q[c] == back[c - s];
      assert x[c - s] == p[c];
    }
  }

  /** A joint of `kind` DOFs at `s` survives the measure-then-apply round trip when the kernels are inverse. */
  lemma SegmentRoundTrip(s: nat, kind: nat, p: seq<real>, base: seq<real>, d: seq<real>, q: seq<real>,
                         rotate: (seq<real>, seq<real>) -> seq<real>,
                         difference: (seq<real>, seq<real>) -> seq<real>)
    requires s + kind <= |p| == |base| == |d| == |q| && (kind == 1 || kind == 3 || kind == 6)
    requires Rotational(rotate) && Rotational(difference) && Inverse(rotate, difference)
    requires SegmentMeasured(s, kind, d, p, base, difference) && SegmentApplied(s, kind, q, base, d, rotate)
    ensures SameOn(s, kind, q, p)
  {
    if kind != 1 {
      RotationRoundTrip(s, p, base, d, q, rotate, difference);
    }
  }

  /** Joint `j` survives the measure-then-apply round trip when the kernels are inverse. */
  lemma JointRoundTrip(dofs: seq<nat>, j: nat, p: seq<real>, base: seq<real>, d: seq<real>, q: seq<real>,
                       rotate: (seq<real>, seq<real>) -> seq<real>,
                       difference: (seq<real>, seq<real>) -> seq<real>)
    requires j < |dofs| && ValidSkeleton(dofs) && Rotational(rotate) && Rotational(difference)
    requires Inverse(rotate, difference)
    requires |p| == |base| == |d| == |q| == Size(dofs)
    requires JointMeasured(dofs, j, d, p, base, difference) && JointApplied(dofs, j, q, base, d, rotate)
    ensures SameOn(Start(dofs, j), dofs[j], q, p)
  {
    EarlierJoint(dofs, j, |dofs|);
    SegmentRoundTrip(Start(dofs, j), dofs[j], p, base, d, q, rotate, difference);
  }

  /**
    * When the rotation kernels are inverse to each other, measuring and
    * re-applying reproduces the whole pose.
    */
  lemma FullRoundTrip(dofs: seq<nat>, p: seq<real>, base: seq<real>, d: seq<real>, q: seq<real>,
                      rotate: (seq<real>, seq<real>) -> seq<real>,
                      difference: (seq<real>, seq<real>) -> seq<real>)
    requires ValidSkeleton(dofs) && Rotational(rotate) && Rotational(difference)
    requires Inverse(rotate, difference)
    requires PoseMeasured(dofs, d, p, base, difference) && PoseApplied(dofs, q, base, d, rotate)
    ensures q == p
  {
    forall c | 0 <= c < Size(dofs)
      ensures q[c] == p[c]
    {
      var j := Owner(dofs, c);
      JointRoundTrip(dofs, j, p, base, d, q, rotate, difference);
    }
  }

  /**
    * `AddDisplacementToBVH`: frame `i` of the displacement applied to phase
    * frame `i`, one output pose per displacement.
    */
  method AddToPhase(dofs: seq<nat>, displacement: seq<seq<real>>, phase: seq<Motion>,
                    rotate: (seq<real>, seq<real>) -> seq<real>) returns (position: seq<seq<real>>)
    requires ValidSkeleton(dofs) && Rotational(rotate)
    requires |displacement| <= |phase|
    requires forall i :: 0 <= i < |displacement| ==> |displacement[i]| == |phase[i].position| == Size(dofs)
    ensures |position| == |displacement|
    ensures forall i :: 0 <= i < |position| ==> PoseApplied(dofs, position[i], phase[i].position, displacement[i], rotate)
  {
    position := [];
    var i := 0;
    while i < |displacement|
      invariant 0 <= i <= |displacement| && |position| == i
      invariant forall m :: 0 <= m < i ==> PoseApplied(dofs, position[m], phase[m].position, displacement[m], rotate)
    {
      var p := ApplyToPose(dofs, phase[i].position, displacement[i], rotate);
      position := position + [p];
      i := i + 1;
    }
  }

  /**
    * `GetDisplacementWithBVH`: each recorded pose is measured against the
    * reference pose at its phase `t mod P`, and paired with that phase.
    */
  method MeasureAgainstReference(dofs: seq<nat>, samples: seq<(seq<real>, real)>, gen: seq<Motion>,
                                 phaseLength: nat, blend: (seq<real>, seq<real>, real) -> seq<real>,
                                 difference: (seq<real>, seq<real>) -> seq<real>)
      returns (displacement: seq<(seq<real>, real)>)
    requires ValidSkeleton(dofs) && Rotational(difference) && 1 <= phaseLength && 1 <= |gen|
    requires forall i :: 0 <= i < |samples| ==> 0.0 <= samples[i].1 && |samples[i].0| == Size(dofs)
    requires forall t :: 0.0 <= t ==> |PhaseLookup.GetPosition(gen, gen, t, false, blend)| == Size(dofs)
    ensures |displacement| == |samples|
    ensures forall i :: 0 <= i < |samples| ==>
              var phase := FMod(samples[i].1, phaseLength as real);
              && displacement[i].1 == phase && 0.0 <= phase < phaseLength as real
              && PoseMeasured(dofs, displacement[i].0, samples[i].0,
                              PhaseLookup.GetPosition(gen, gen, phase, false, blend), difference)
  {
    displacement := [];
    var i := 0;
    while i < |samples|
      invariant 0 <= i <= |samples| && |displacement| == i
      invariant forall m :: 0 <= m < i ==>
                  var phase := FMod(samples[m].1, phaseLength as real);
                  && displacement[m].1 == phase && 0.0 <= phase < phaseLength as real
                  && PoseMeasured(dofs, displacement[m].0, samples[m].0,
                                  PhaseLookup.GetPosition(gen, gen, phase, false, blend), difference)
    {
      var phase := FMod(samples[i].1, phaseLength as real);
      var base := PhaseLookup.GetPosition(gen, gen, phase, false, blend);
      var d := MeasureFromPose(dofs, samples[i].0, base, difference);
      displacement := displacement + [(d, phase)];
      i := i + 1;
    }
  }
}

=== FILE: frame_cursor.dfy ===
/**
  * The frame cursor shared by the replay windows: stepping on wraps from
  * the last frame to frame 0, stepping back wraps from frame 0 to the last.
  */
module FrameCursor {
  /** `NextFrame`'s move: one frame on, back to 0 once the count is reached. */
  function Next(cur: int, total: int): (r: int)
    ensures cur + 1 < total ==> r == cur + 1
    ensures total <= cur + 1 ==> r == 0
  {
    var c := cur + 1;
    if c >= total then 0 else c
  }

  /** `PrevFrame`'s move: one frame back, on to the last frame below 0. */
  function Prev(cur: int, total: int): (r: int)
    ensures 0 < cur ==> r == cur - 1
    ensures cur <= 0 ==> r == total - 1
  {
    var c := cur - 1;
    if c < 0 then total - 1 else c
  }

  /** On a frame of a non-empty motion both moves stay on a frame, and each undoes the other. */
  lemma Cycle(cur: int, total: int)
    requires 0 <= cur < total
    ensures 0 <= Next(cur, total) < total && 0 <= Prev(cur, total) < total
    ensures Prev(Next(cur, total), total) == cur && Next(Prev(cur, total), total) == cur
  {
  }

  /** Going round: `total` steps on from any frame come back to it. */
  lemma {:induction false} NextRound(cur: int, total: int, k: nat)
    requires 0 <= cur < total && k <= total
    ensures NextPower(cur, total, k) == (if cur + k < total then cur + k else cur + k - total)
    decreases k
  {
    if k != 0 {
      NextRound(cur, total, k - 1);
    }
  }

  /** `k` steps on. */
  function NextPower(cur: int, total: int, k: nat): int
    decreases k
  {
    if k == 0 then cur else Next(NextPower(cur, total, k - 1), total)
  }

  /** With no frames stepping back leaves frame -1 and stepping on frame 0, neither of them a frame. */
  lemma EmptyMoves(cur: int)
    requires cur == 0
    ensures Prev(cur, 0) == -1 && Next(cur, 0) == 0
  {
  }
}

=== FILE: generate.dfy ===
/**
  * `GenerateMotionsFromSinglePhase`: a long reference motion built by
  * repeating one cycle of the clip.  The first cycle is copied; every later
  * cycle starts with a pose re-anchored by foot IK and carries the remaining
  * frames along with the root transform of that start.  The rigid-body
  * geometry is supplied as parameters:
  *   `restart(prev, p0)`: the IK pose for a cycle start, from the last
  *     generated pose and phase frame 0,
  *   `carry(t0, head)`: the root coordinates (first 6 DOFs) of a frame
  *     re-expressed relative to the current cycle start `t0`,
  *   `diff(a, b)`: `getPositionDifferences`.
  * The blending branch is not modelled: every caller passes `blend = false`.
  */
module Generate {
  import opened Numeric
  import opened MotionValue
  import Velocity

  /** Every phase frame is a pose of `dofs` coordinates, with a 6-DOF root. */
  predicate PhaseWellFormed(phase: seq<Motion>, dofs: nat)
  {
    6 <= dofs && forall i :: 0 <= i < |phase| ==> |phase[i].position| == dofs
  }

  /** The velocity stored for a frame whose successor is `next`. */
  function ForwardVelocity(next: seq<real>, cur: seq<real>, diff: (seq<real>, seq<real>) -> seq<real>): seq<real>
  {
    Velocity.Divide(diff(next, cur), Velocity.FRAME_TIME)
  }

  /** The pose generated at frame `i >= P`, given the previous pose and the cycle anchor. */
  function NextPose(phase: seq<Motion>, i: nat, prev: seq<real>, anchor: seq<real>,
                    restart: (seq<real>, seq<real>) -> seq<real>,
                    carry: (seq<real>, seq<real>) -> seq<real>): (pos: seq<real>)
    requires 1 <= |phase| && PhaseWellFormed(phase, |phase[0].position|)
    requires forall a, b :: |restart(a, b)| == |b|
    requires forall a, b :: |carry(a, b)| == 6
    ensures |pos| == |phase[0].position|
    ensures i % |phase| == 0 ==> pos[4] == phase[0].position[4]
    ensures i % |phase| != 0 ==> pos[6..] == phase[i % |phase|].position[6..]
  {
    var k := i % |phase|;
    if k == 0 then
      var q := restart(prev, phase[0].position);
      q[4 := phase[0].position[4]]
    else
      var p := phase[k].position;
      carry(anchor, p[..6]) + p[6..]
  }

  /** Every generated pose has `dofs` coordinates. */
  ghost predicate SizesOk(gen: seq<Motion>, dofs: nat)
  {
    forall m :: 0 <= m < |gen| ==> |gen[m].position| == dofs
  }

  /**
    * The first cycle is the phase; a frame of it keeps the phase velocity
    * unless it is the last frame of the phase and a successor exists.
    */
  ghost predicate FirstCycleOk(phase: seq<Motion>, gen: seq<Motion>)
  {
    && (forall m :: 0 <= m < |gen| && m < |phase| ==> gen[m].position == phase[m].position)
    && (forall m :: 0 <= m < |gen| && m < |phase| && (m + 1 < |phase| || |gen| <= |phase|) ==>
          gen[m].velocity == phase[m].velocity)
  }

  /** Later frames keep the non-root coordinates of their phase frame, and cycle starts its root height. */
  ghost predicate LaterCyclesOk(phase: seq<Motion>, gen: seq<Motion>)
    requires 1 <= |phase| && PhaseWellFormed(phase, |phase[0].position|)
    requires SizesOk(gen, |phase[0].position|)
  {
    && (forall m :: |phase| <= m < |gen| && m % |phase| != 0 ==>
          gen[m].position[6..] == phase[m % |phase|].position[6..])
    && (forall m :: |phase| <= m < |gen| && m % |phase| == 0 ==> gen[m].position[4] == phase[0].position[4])
  }

  /** From the last phase frame on, velocities are forward differences; the last one a backward one. */
  ghost predicate VelocitiesOk(phase: seq<Motion>, gen: seq<Motion>, diff: (seq<real>, seq<real>) -> seq<real>)
  {
    && (forall m :: 0 <= m && |phase| - 1 <= m < |gen| - 1 ==>
          gen[m].velocity == ForwardVelocity(gen[m + 1].position, gen[m].position, diff))
    && (1 <= |phase| < |gen| ==>
          gen[|gen| - 1].velocity == ForwardVelocity(gen[|gen| - 1].position, gen[|gen| - 2].position, diff))
  }

  /** Appending a copy of the next phase frame keeps every property. */
  lemma AppendCopy(phase: seq<Motion>, gen: seq<Motion>, diff: (seq<real>, seq<real>) -> seq<real>)
    requires 1 <= |phase| && PhaseWellFormed(phase, |phase[0].position|) && |gen| < |phase|
    requires SizesOk(gen, |phase[0].position|) && FirstCycleOk(phase, gen)
    ensures var g := gen + [Copy(phase[|gen|])];
            SizesOk(g, |phase[0].position|) && FirstCycleOk(phase, g)
            && LaterCyclesOk(phase, g) && VelocitiesOk(phase, g, diff)
  {
  }

  /** The sequence after generating frame `|gen| >= 1` with pose `pos`. */
  function Extend(gen: seq<Motion>, pos: seq<real>, diff: (seq<real>, seq<real>) -> seq<real>): (g: seq<Motion>)
    requires 1 <= |gen|
    ensures |g| == |gen| + 1
    ensures forall m :: 0 <= m < |gen| ==> g[m].position == gen[m].position
    ensures forall m :: 0 <= m < |gen| - 1 ==> g[m].velocity == gen[m].velocity
    ensures g[|gen|] == Motion(pos, ForwardVelocity(pos, gen[|gen| - 1].position, diff))
    ensures g[|gen| - 1].velocity == ForwardVelocity(pos, gen[|gen| - 1].position, diff)
  {
    var vel := ForwardVelocity(pos, gen[|gen| - 1].position, diff);
    gen[..|gen| - 1] + [SetVelocity(gen[|gen| - 1], vel), Motion(pos, vel)]
  }

  /** Generating frame `|gen| >= P` keeps every property. */
  lemma AppendNext(phase: seq<Motion>, gen: seq<Motion>, pos: seq<real>, diff: (seq<real>, seq<real>) -> seq<real>)
    requires 1 <= |phase| && PhaseWellFormed(phase, |phase[0].position|) && |phase| <= |gen|
    requires SizesOk(gen, |phase[0].position|) && FirstCycleOk(phase, gen)
    requires LaterCyclesOk(phase, gen) && VelocitiesOk(phase, gen, diff)
    requires |pos| == |phase[0].position|
    requires |gen| % |phase| == 0 ==> pos[4] == phase[0].position[4]
    requires |gen| % |phase| != 0 ==> pos[6..] == phase[|gen| % |phase|].position[6..]
    ensures var g := Extend(gen, pos, diff);
            SizesOk(g, |phase[0].position|) && FirstCycleOk(phase, g)
            && LaterCyclesOk(phase, g) && VelocitiesOk(phase, g, diff)
  {
    var g := Extend(gen, pos, diff);
    assert SizesOk(g, |phase[0].position|);
    assert FirstCycleOk(phase, g);
    LaterCyclesExtend(phase, gen, pos, g);
    VelocitiesExtend(phase, gen, pos, diff, g);
  }

  lemma LaterCyclesExtend(phase: seq<Motion>, gen: seq<Motion>, pos: seq<real>, g: seq<Motion>)
    requires 1 <= |phase| && PhaseWellFormed(phase, |phase[0].position|) && |phase| <= |gen|
    requires SizesOk(gen, |phase[0].position|) && LaterCyclesOk(phase, gen)
    requires |pos| == |phase[0].position|
    requires |gen| % |phase| == 0 ==> pos[4] == phase[0].position[4]
    requires |gen| % |phase| != 0 ==> pos[6..] == phase[|gen| % |phase|].position[6..]
    requires |g| == |gen| + 1 && g[|gen|].position == pos
    requires forall m :: 0 <= m < |gen| ==> g[m].position == gen[m].position
    ensures SizesOk(g, |phase[0].position|) && LaterCyclesOk(phase, g)
  {
  }

  lemma VelocitiesExtend(phase: seq<Motion>, gen: seq<Motion>, pos: seq<real>,
                         diff: (seq<real>, seq<real>) -> seq<real>, g: seq<Motion>)
    requires 1 <= |phase| <= |gen| && VelocitiesOk(phase, gen, diff)
    requires g == Extend(gen, pos, diff)
    ensures VelocitiesOk(phase, g, diff)
  {
    var n := |gen|;
    forall m | 0 <= m && |phase| - 1 <= m < |g| - 1
      ensures g[m].velocity == ForwardVelocity(g[m + 1].position, g[m].position, diff)
    {
      if m < n - 1 {
        assert gen[m].velocity == ForwardVelocity(gen[m + 1].position, gen[m].position, diff);
      }
    }
  }

  /**
    * The generated sequence of `frames` entries.  Positions: the first cycle
    * is the phase itself; later frames keep every non-root coordinate of their
    * phase frame, and cycle starts keep the phase root height.  Velocities:
    * a frame of the first cycle keeps its own until a successor is generated
    * after it; from then on the velocity of each frame is the forward difference to
    * its successor, and the last generated frame carries the difference from
    * its predecessor.
    */
  method GenerateFromSinglePhase(frames: int, phase: seq<Motion>,
                                 restart: (seq<real>, seq<real>) -> seq<real>,
                                 carry: (seq<real>, seq<real>) -> seq<real>,
                                 diff: (seq<real>, seq<real>) -> seq<real>) returns (gen: seq<Motion>)
    requires 1 <= |phase| && PhaseWellFormed(phase, |phase[0].position|)
    requires forall a, b :: |restart(a, b)| == |b|
    requires forall a, b :: |carry(a, b)| == 6
    ensures |gen| == if frames < 0 then 0 else frames
    ensures forall i :: 0 <= i < |gen| ==> |gen[i].position| == |phase[0].position|
    ensures forall i :: 0 <= i < |gen| && i < |phase| ==> gen[i].position == phase[i].position
    ensures forall i :: 0 <= i < |gen| && i < |phase| && (i + 1 < |phase| || |gen| <= |phase|) ==>
              gen[i].velocity == phase[i].velocity
    ensures forall i :: |phase| <= i < |gen| && i % |phase| != 0 ==>
              gen[i].position[6..] == phase[i % |phase|].position[6..]
    ensures forall i :: |phase| <= i < |gen| && i % |phase| == 0 ==> gen[i].position[4] == phase[0].position[4]
    ensures forall i :: |phase| - 1 <= i < |gen| - 1 ==>
              gen[i].velocity == ForwardVelocity(gen[i + 1].position, gen[i].position, diff)
    ensures |phase| < |gen| ==>
              gen[|gen| - 1].velocity == ForwardVelocity(gen[|gen| - 1].position, gen[|gen| - 2].position, diff)
  {
    var p := |phase|;
    var dofs := |phase[0].position|;
    gen := [];
    var anchor := phase[0].position[..6];
    var i := 0;
    while i < frames
      invariant 0 <= i && (frames < 0 ==> i == 0) && (0 <= frames ==> i <= frames)
      invariant |gen| == i
      invariant SizesOk(gen, dofs) && FirstCycleOk(phase, gen)
      invariant LaterCyclesOk(phase, gen) && VelocitiesOk(phase, gen, diff)
    {
      if i < p {
        AppendCopy(phase, gen, diff);
        gen := gen + [Copy(phase[i])];
      } else {
        var prev := gen[i - 1];
        var pos := NextPose(phase, i, prev.position, anchor, restart, carry);
        if i % p == 0 {
          anchor := pos[..6];
        }
        AppendNext(phase, gen, pos, diff);
        gen := Extend(gen, pos, diff);
      }
      i := i + 1;
    }
  }
}

=== FILE: monitor.dfy ===
/**
  * The training monitor's bookkeeping: which slaves have terminated, the
  * per-iteration counts of transitions, episodes, rewards and phases that
  * each batched step adds to, and the summary that folds them into the
  * running totals and clears them.  The environment, the running state
  * normalisation, printing and plotting are left out; what a step of the
  * environment returns is a parameter.
  */
module Monitor {
  import opened Numeric

  /** What one slave reports for one step: its total reward (absent when it produced none), target reward, reward row, end flag, elapsed time and episode length. */
  datatype Slave = Slave(reward: Option<real>, target: real, row: seq<real>, done: bool, time: real, frame: int)

  /** The counters of the current iteration. */
  datatype Iter = Iter(nan: nat, episodes: nat, transitions: nat, rewards: real, rewardsTarget: real,
                       byPart: seq<seq<real>>, elapsed: real)

  /** Every counter of an iteration at zero. */
  const Cleared: Iter := Iter(0, 0, 0, 0.0, 0.0, [], 0.0)

  /**
    * The monitor's fields: adaptive mode, the running totals, the per-
    * iteration counters, the phase count, and per slave its terminated
    * flag and the frame it was on after the previous step.
    */
  datatype Monitor = Monitor(
    adaptive: bool, numEvaluation: nat, numEpisodes: nat, numTransitions: nat, maxEpisodeLength: int,
    totalRewards: seq<real>, totalRewardsTarget: seq<real>, transitionPerEpisodes: seq<real>,
    it: Iter, numPhase: nat, terminated: seq<bool>, prevframes: seq<real>)

  /** A new monitor over `n` slaves: nothing counted, no slave terminated, every slave on frame 0. */
  function Initial(n: nat, adaptive: bool): (m: Monitor)
    ensures Valid(m) && |m.terminated| == n
    ensures forall i :: 0 <= i < n ==> !m.terminated[i] && m.prevframes[i] == 0.0
  {
    Monitor(adaptive, 0, 0, 0, 0, [], [], [], Cleared, 0, seq(n, _ => false), Zeros(n))
  }

  /**
    * The monitor's invariant: one frame per slave, and no more episodes
    * than transitions, in the iteration and in the totals, since an episode
    * is counted only with the transition that ends it.
    */
  predicate Valid(m: Monitor)
  {
    && |m.prevframes| == |m.terminated|
    && m.it.episodes <= m.it.transitions
    && m.numEpisodes <= m.numTransitions
  }

  // ---------------------------------------------------------------- terminated flags

  /** `getAllTerminated`: scans the slaves and stops at the first that is still running. */
  method AllTerminated(terminated: seq<bool>) returns (r: bool)
    ensures r <==> forall i :: 0 <= i < |terminated| ==> terminated[i]
  {
    var i := 0;
    while i < |terminated|
      invariant 0 <= i <= |terminated|
      invariant forall k :: 0 <= k < i ==> terminated[k]
    {
      if !terminated[i] {
        return false;
      }
      i := i + 1;
    }
    return true;
  }

  /** `setTerminated(idx)`; an index outside the slaves raises. */
  function SetTerminated(m: Monitor, idx: int): (r: Option<Monitor>)
    ensures r.Some? <==> PyIndex(idx, |m.terminated|).Some?
    ensures r.Some? ==> var g := PyIndex(idx, |m.terminated|).value;
                        && |r.value.terminated| == |m.terminated| && r.value.terminated[g]
                        && (forall k :: 0 <= k < |m.terminated| && k != g ==> r.value.terminated[k] == m.terminated[k])
                        && r.value == m.(terminated := r.value.terminated)
  {
    match PyIndex(idx, |m.terminated|)
    case None => None
    case Some(g) => Some(m.(terminated := m.terminated[g := true]))
  }

  /**
    * `reset(i)`: the slave's environment is reset, the slave is running
    * again and back on frame 0; an index outside the slaves raises.
    */
  function Reset(m: Monitor, i: int): (r: Option<Monitor>)
    requires Valid(m)
    ensures r.Some? <==> PyIndex(i, |m.terminated|).Some?
    ensures r.Some? ==> var g := PyIndex(i, |m.terminated|).value;
                        && Valid(r.value) && |r.value.terminated| == |m.terminated|
                        && !r.value.terminated[g] && r.value.prevframes[g] == 0.0
                        && (forall k :: 0 <= k < |m.terminated| && k != g ==>
                              r.value.terminated[k] == m.terminated[k] && r.value.prevframes[k] == m.prevframes[k])
                        && r.value == m.(terminated := r.value.terminated, prevframes := r.value.prevframes)
  {
    match PyIndex(i, |m.terminated|)
    case None => None
    case Some(g) => Some(m.(terminated := m.terminated[g := false], prevframes := m.prevframes[g := 0.0]))
  }

  /** Once every slave has been marked terminated, all have terminated; resetting any one of them undoes that. */
  method TerminateAllThenReset(m: Monitor, i: int) returns (all: bool, afterReset: bool)
    requires Valid(m) && 0 <= i < |m.terminated|
    ensures all && !afterReset
  {
    var cur := m;
    var k := 0;
    while k < |m.terminated|
      invariant 0 <= k <= |m.terminated| && Valid(cur) && |cur.terminated| == |m.terminated|
      invariant forall j :: 0 <= j < k ==> cur.terminated[j]
    {
      cur := SetTerminated(cur, k).value;
      k := k + 1;
    }
    all := AllTerminated(cur.terminated);
    var reset := Reset(cur, i).value;
    afterReset := AllTerminated(reset.terminated);
  }

  // ---------------------------------------------------------------- step accounting

  /** A slave's step is counted when the slave is running and produced a reward. */
  predicate Counted(terminated: bool, s: Slave)
  {
    !terminated && s.reward.Some?
  }

  /** One slave's step added to the iteration: its reward, its target in adaptive mode, its row, a transition, and on an episode end the episode, its time and its length. */
  function AccountOne(it: Iter, maxLen: int, adaptive: bool, s: Slave, terminated: bool): (r: (Iter, int))
    ensures !Counted(terminated, s) ==> r == (it, maxLen)
    ensures Counted(terminated, s) ==>
              && r.0.transitions == it.transitions + 1
              && r.0.rewards == it.rewards + s.reward.value
              && r.0.byPart == it.byPart + [s.row]
              && r.0.episodes == it.episodes + (if s.done then 1 else 0)
    ensures r.0.nan == it.nan && maxLen <= r.1
    ensures r.1 == maxLen || (Counted(terminated, s) && s.done && r.1 == s.frame)
  {
    if !Counted(terminated, s) then (it, maxLen)
    else
      var it1 := it.(rewards := it.rewards + s.reward.value,
                     rewardsTarget := if adaptive then it.rewardsTarget + s.target else it.rewardsTarget,
                     byPart := it.byPart + [s.row],
                     transitions := it.transitions + 1);
      if s.done then
        (it1.(episodes := it.episodes + 1, elapsed := it.elapsed + s.time), if s.frame > maxLen then s.frame else maxLen)
      else (it1, maxLen)
  }

  /** The slaves' steps added one after the other, in slave order. */
  function Account(it: Iter, maxLen: int, adaptive: bool, slaves: seq<Slave>, terminated: seq<bool>): (r: (Iter, int))
    requires |terminated| == |slaves|
    decreases |slaves|
  {
    if |slaves| == 0 then (it, maxLen)
    else
      var k := |slaves| - 1;
      var prev := Account(it, maxLen, adaptive, slaves[..k], terminated[..k]);
      AccountOne(prev.0, prev.1, adaptive, slaves[k], terminated[k])
  }

  /** The number of counted slaves, and of counted slaves whose episode ended. */
  function Transitions(slaves: seq<Slave>, terminated: seq<bool>): (c: nat)
    requires |terminated| == |slaves|
    decreases |slaves|
  {
    if |slaves| == 0 then 0
    else
      var k := |slaves| - 1;
      Transitions(slaves[..k], terminated[..k]) + (if Counted(terminated[k], slaves[k]) then 1 else 0)
  }

  function Episodes(slaves: seq<Slave>, terminated: seq<bool>): (c: nat)
    requires |terminated| == |slaves|
    decreases |slaves|
  {
    if |slaves| == 0 then 0
    else
      var k := |slaves| - 1;
      Episodes(slaves[..k], terminated[..k]) + (if Counted(terminated[k], slaves[k]) && slaves[k].done then 1 else 0)
  }

  /**
    * A step adds one transition per counted slave and one episode per
    * counted slave whose episode ended, so never more episodes than
    * transitions, and never more transitions than slaves.
    */
  lemma {:induction false} AccountCounts(it: Iter, maxLen: int, adaptive: bool, slaves: seq<Slave>, terminated: seq<bool>)
    requires |terminated| == |slaves|
    ensures var r := Account(it, maxLen, adaptive, slaves, terminated);
            && r.0.transitions == it.transitions + Transitions(slaves, terminated)
            && r.0.episodes == it.episodes + Episodes(slaves, terminated)
            && r.0.nan == it.nan
    ensures Episodes(slaves, terminated) <= Transitions(slaves, terminated) <= |slaves|
    decreases |slaves|
  {
    if |slaves| != 0 {
      var k := |slaves| - 1;
      AccountCounts(it, maxLen, adaptive, slaves[..k], terminated[..k]);
    }
  }

  /** Slaves that have all terminated add nothing. */
  lemma {:induction false} TerminatedSlavesAddNothing(it: Iter, maxLen: int, adaptive: bool, slaves: seq<Slave>, terminated: seq<bool>)
    requires |terminated| == |slaves| && forall i :: 0 <= i < |slaves| ==> terminated[i]
    ensures Account(it, maxLen, adaptive, slaves, terminated) == (it, maxLen)
    decreases |slaves|
  {
    if |slaves| != 0 {
      var k := |slaves| - 1;
      TerminatedSlavesAddNothing(it, maxLen, adaptive, slaves[..k], terminated[..k]);
    }
  }

  /**
    * The longest episode never shrinks: after a step it is at least the
    * old one and at least every episode that ended in it, and it is one of
    * those.
    */
  lemma {:induction false} LongestEpisode(it: Iter, maxLen: int, adaptive: bool, slaves: seq<Slave>, terminated: seq<bool>)
    requires |terminated| == |slaves|
    ensures var r := Account(it, maxLen, adaptive, slaves, terminated).1;
            && maxLen <= r
            && (forall i :: 0 <= i < |slaves| && Counted(terminated[i], slaves[i]) && slaves[i].done ==> slaves[i].frame <= r)
            && (r == maxLen || exists i :: 0 <= i < |slaves| && Counted(terminated[i], slaves[i]) && slaves[i].done && r == slaves[i].frame)
    decreases |slaves|
  {
    if |slaves| != 0 {
      var k := |slaves| - 1;
      LongestEpisode(it, maxLen, adaptive, slaves[..k], terminated[..k]);
      var prev := Account(it, maxLen, adaptive, slaves[..k], terminated[..k]).1;
      var r := Account(it, maxLen, adaptive, slaves, terminated).1;
      if r != maxLen && r != prev {
        assert Counted(terminated[k], slaves[k]) && slaves[k].done && r == slaves[k].frame;
      } else if r != maxLen {
        var i :| 0 <= i < k && Counted(terminated[..k][i], slaves[..k][i]) && slaves[..k][i].done && prev == slaves[..k][i].frame;
        assert slaves[i] == slaves[..k][i] && terminated[i] == terminated[..k][i];
      }
    }
  }

  /**
    * The phase count as written: after the slave loop only the last slave,
    * the one the loop variable still names, is compared with its previous
    * frame; with no slaves the loop variable does not exist and the step
    * raises.
    */
  function LastSlavePhase(curframes: seq<real>, prevframes: seq<real>): (r: Option<nat>)
    requires |prevframes| == |curframes|
    ensures r.None? <==> |curframes| == 0
    ensures r.Some? ==> (r.value == 1 <==> curframes[|curframes| - 1] < prevframes[|curframes| - 1]) && r.value <= 1
  {
    if |curframes| == 0 then None
    else
      var i := |curframes| - 1;
      Some(if curframes[i] < prevframes[i] then 1 else 0)
  }

  /** The phase count every slave contributes: one for each slave whose frame went back, that is, whose motion wrapped. */
  function PhaseWraps(curframes: seq<real>, prevframes: seq<real>): (r: nat)
    requires |prevframes| == |curframes|
    ensures r <= |curframes|
    decreases |curframes|
  {
    if |curframes| == 0 then 0
    else
      var k := |curframes| - 1;
      PhaseWraps(curframes[..k], prevframes[..k]) + (if curframes[k] < prevframes[k] then 1 else 0)
  }

  /** No slave wraps exactly when no frame went back, and every slave wraps exactly when every frame went back. */
  lemma {:induction false} PhaseWrapsCounts(curframes: seq<real>, prevframes: seq<real>)
    requires |prevframes| == |curframes|
    ensures PhaseWraps(curframes, prevframes) == 0 <==> forall i :: 0 <= i < |curframes| ==> prevframes[i] <= curframes[i]
    ensures PhaseWraps(curframes, prevframes) == |curframes| <==> forall i :: 0 <= i < |curframes| ==> curframes[i] < prevframes[i]
    decreases |curframes|
  {
    if |curframes| != 0 {
      var k := |curframes| - 1;
      PhaseWrapsCounts(curframes[..k], prevframes[..k]);
      assert forall i :: 0 <= i < k ==> curframes[..k][i] == curframes[i] && prevframes[..k][i] == prevframes[i];
    }
  }

  /**
    * Two slaves, the first wrapping from frame 5 to frame 0 and the last
    * moving on: the step as written counts no phase, one per wrapping
    * slave counts one.
    */
  lemma FirstSlaveWrapIsMissed()
    ensures LastSlavePhase([0.0, 3.0], [5.0, 2.0]) == Some(0)
    ensures PhaseWraps([0.0, 3.0], [5.0, 2.0]) == 1
  {
    assert [0.0, 3.0][..1] == [0.0] && [5.0, 2.0][..1] == [5.0];
    assert [0.0] [..0] == [] && [5.0][..0] == [];
  }

  /** What the environment's batched step returns: per slave its report and its current frame, and the number of NaN states. */
  datatype StepOut = StepOut(slaves: seq<Slave>, curframes: seq<real>, nanCount: nat)

  /**
    * `step`, as written: the NaN count is added, each running slave with a
    * reward is accounted in slave order, in adaptive mode the phase count
    * takes the last slave's wrap only, and the current frames become the
    * previous ones.  With no slaves the step fails (`None`) in either mode:
    * the terminated flags form an empty float array, which `~` rejects
    * before any slave is looked at.
    */
  method Step(m: Monitor, out: StepOut) returns (r: Option<Monitor>)
    requires Valid(m) && |out.slaves| == |m.terminated| && |out.curframes| == |m.terminated|
    ensures r.None? <==> |out.slaves| == 0
    ensures r.Some? ==> (r.value.it, r.value.maxEpisodeLength)
                        == Account(m.it.(nan := m.it.nan + out.nanCount), m.maxEpisodeLength, m.adaptive, out.slaves, m.terminated)
    ensures r.Some? ==> r.value.numPhase == m.numPhase + if m.adaptive then LastSlavePhase(out.curframes, m.prevframes).value else 0
    ensures r.Some? ==> r.value == m.(it := r.value.it, maxEpisodeLength := r.value.maxEpisodeLength,
                                      numPhase := r.value.numPhase, prevframes := out.curframes)
    ensures r.Some? ==> Valid(r.value)
  {
    if |out.slaves| == 0 {
      return None;
    }
    var it := m.it.(nan := m.it.nan + out.nanCount);
    var maxLen := m.maxEpisodeLength;
    var i := 0;
    while i < |out.slaves|
      invariant 0 <= i <= |out.slaves|
      invariant (it, maxLen) == Account(m.it.(nan := m.it.nan + out.nanCount), m.maxEpisodeLength, m.adaptive,
                                        out.slaves[..i], m.terminated[..i])
    {
      assert out.slaves[..i + 1][..i] == out.slaves[..i] && m.terminated[..i + 1][..i] == m.terminated[..i];
      var acc := AccountOne(it, maxLen, m.adaptive, out.slaves[i], m.terminated[i]);
      it, maxLen := acc.0, acc.1;
      i := i + 1;
    }
    assert out.slaves[..i] == out.slaves && m.terminated[..i] == m.terminated;
    AccountCounts(m.it.(nan := m.it.nan + out.nanCount), m.maxEpisodeLength, m.adaptive, out.slaves, m.terminated);
    var phase := 0;
    if m.adaptive {
      var last := LastSlavePhase(out.curframes, m.prevframes);
      phase := last.value;
    }
    return Some(m.(it := it, maxEpisodeLength := maxLen, numPhase := m.numPhase + phase, prevframes := out.curframes));
  }

  /**
    * `step` with the phase test made for every slave inside the loop: the
    * phase count grows by the number of slaves whose motion wrapped.  The
    * correction concerns only the phase test, so a step over no slaves
    * still fails as in `Step`.
    */
  function StepCorrected(m: Monitor, out: StepOut): (r: Option<Monitor>)
    requires Valid(m) && |out.slaves| == |m.terminated| && |out.curframes| == |m.terminated|
    ensures r.None? <==> |out.slaves| == 0
    ensures r.Some? ==> (r.value.it, r.value.maxEpisodeLength)
                        == Account(m.it.(nan := m.it.nan + out.nanCount), m.maxEpisodeLength, m.adaptive, out.slaves, m.terminated)
    ensures r.Some? ==> r.value.numPhase == m.numPhase + if m.adaptive then PhaseWraps(out.curframes, m.prevframes) else 0
    ensures r.Some? ==> r.value == m.(it := r.value.it, maxEpisodeLength := r.value.maxEpisodeLength,
                                      numPhase := r.value.numPhase, prevframes := out.curframes)
    ensures r.Some? ==> Valid(r.value)
  {
    if |out.slaves| == 0 then None
    else
      var acc := Account(m.it.(nan := m.it.nan + out.nanCount), m.maxEpisodeLength, m.adaptive, out.slaves, m.terminated);
      AccountCounts(m.it.(nan := m.it.nan + out.nanCount), m.maxEpisodeLength, m.adaptive, out.slaves, m.terminated);
      Some(m.(it := acc.0, maxEpisodeLength := acc.1,
              numPhase := m.numPhase + (if m.adaptive then PhaseWraps(out.curframes, m.prevframes) else 0),
              prevframes := out.curframes))
  }

  /** With a single slave the step as written and the corrected step agree. */
  lemma OneSlaveStepsAgree(m: Monitor, out: StepOut)
    requires Valid(m) && |out.slaves| == 1 && |m.terminated| == 1 && |out.curframes| == 1
    ensures LastSlavePhase(out.curframes, m.prevframes) == Some(PhaseWraps(out.curframes, m.prevframes))
  {
    assert out.curframes[..0] == [] && m.prevframes[..0] == [];
  }

  // ---------------------------------------------------------------- summary

  /** A count per episode, 0 when there are no episodes. */
  function PerEpisode(count: nat, episodes: nat): (r: real)
    ensures episodes == 0 ==> r == 0.0
    ensures episodes != 0 ==> r * episodes as real == count as real
  {
    if episodes == 0 then 0.0 else count as real / episodes as real
  }

  /** With at least as many transitions as episodes, each episode has at least one transition on average. */
  lemma AtLeastOneTransitionPerEpisode(transitions: nat, episodes: nat)
    requires 0 < episodes <= transitions
    ensures 1.0 <= PerEpisode(transitions, episodes)
  {
    var r := PerEpisode(transitions, episodes);
    if r < 1.0 {
      assert r * episodes as real < episodes as real;
    }
  }

  /** The total transitions per episode the summary prints, guarded against no episodes. */
  function TotalPerEpisode(m: Monitor): (r: real)
    requires Valid(m)
    ensures m.numEpisodes == 0 ==> r == 0.0
    ensures m.numEpisodes != 0 ==> 1.0 <= r && r * m.numEpisodes as real == m.numTransitions as real
  {
    if m.numEpisodes == 0 then PerEpisode(m.numTransitions, m.numEpisodes)
    else
      AtLeastOneTransitionPerEpisode(m.numTransitions, m.numEpisodes);
      PerEpisode(m.numTransitions, m.numEpisodes)
  }

  /**
    * `printSummary`: the iteration's transitions and episodes are added to
    * the totals and the evaluation is counted; the rewards per episode are
    * recorded (the division has no guard, and with no episode in the
    * iteration the model fails, as the program does on plain Python
    * numbers), and in adaptive mode the target rewards per
    * phase (0 with no phase); the transitions per episode are recorded;
    * then every per-iteration counter and the phase count are cleared.
    * The answer is the new monitor, the rewards per episode and the
    * transitions per episode.
    */
  function PrintSummary(m: Monitor): (r: Option<(Monitor, real, real)>)
    requires Valid(m)
    ensures r.None? <==> m.it.episodes == 0
    ensures r.Some? ==> var n := r.value.0;
                        && n.numTransitions == m.numTransitions + m.it.transitions
                        && n.numEpisodes == m.numEpisodes + m.it.episodes
                        && n.numEvaluation == m.numEvaluation + 1
                        && n.it == Cleared && n.numPhase == 0
                        && n.maxEpisodeLength == m.maxEpisodeLength
                        && n.terminated == m.terminated && n.prevframes == m.prevframes
    ensures r.Some? ==> && r.value.1 * m.it.episodes as real == m.it.rewards
                        && r.value.0.totalRewards == m.totalRewards + [r.value.1]
    ensures r.Some? ==> && 1.0 <= r.value.2 && r.value.2 * m.it.episodes as real == m.it.transitions as real
                        && r.value.0.transitionPerEpisodes == m.transitionPerEpisodes + [r.value.2]
    ensures r.Some? && m.adaptive ==>
              r.value.0.totalRewardsTarget
              == m.totalRewardsTarget + [if m.numPhase == 0 then 0.0 else m.it.rewardsTarget / m.numPhase as real]
    ensures r.Some? && !m.adaptive ==> r.value.0.totalRewardsTarget == m.totalRewardsTarget
    ensures r.Some? ==> Valid(r.value.0)
  {
    if m.it.episodes == 0 then None
    else
      var rPerE := m.it.rewards / m.it.episodes as real;
      var targets := if !m.adaptive then m.totalRewardsTarget
                     else m.totalRewardsTarget + [if m.numPhase == 0 then 0.0 else m.it.rewardsTarget / m.numPhase as real];
      var sPerE := PerEpisode(m.it.transitions, m.it.episodes);
      AtLeastOneTransitionPerEpisode(m.it.transitions, m.it.episodes);
      var n := m.(numTransitions := m.numTransitions + m.it.transitions,
                  numEpisodes := m.numEpisodes + m.it.episodes,
                  numEvaluation := m.numEvaluation + 1,
                  totalRewards := m.totalRewards + [rPerE],
                  totalRewardsTarget := targets,
                  transitionPerEpisodes := m.transitionPerEpisodes + [sPerE],
                  it := Cleared, numPhase := 0);
      Some((n, rPerE, sPerE))
  }

  /**
    * Nothing counted is lost: a step followed by a summary adds to the
    * totals exactly the transitions and episodes of the counted slaves.
    */
  lemma StepThenSummaryConserves(m: Monitor, out: StepOut)
    requires Valid(m) && m.it == Cleared && |out.slaves| == |m.terminated| && |out.curframes| == |m.terminated|
    requires Episodes(out.slaves, m.terminated) != 0
    ensures var s := StepCorrected(m, out);
            && s.Some?
            && var r := PrintSummary(s.value);
            && r.Some?
            && r.value.0.numTransitions == m.numTransitions + Transitions(out.slaves, m.terminated)
            && r.value.0.numEpisodes == m.numEpisodes + Episodes(out.slaves, m.terminated)
  {
    AccountCounts(m.it.(nan := m.it.nan + out.nanCount), m.maxEpisodeLength, m.adaptive, out.slaves, m.terminated);
  }
}

=== FILE: motion.dfy ===
/**
  * The `Motion` value of the reference store: a pose (generalised positions)
  * paired with the generalised velocities at that pose.
  */
module MotionValue {

  /** `DPhy::Motion`; the getters are the field selectors. */
  datatype Motion = Motion(position: seq<real>, velocity: seq<real>)

  /** The copy constructor `Motion(Motion*)`. */
  function Copy(m: Motion): (c: Motion)
    ensures c.position == m.position
    ensures c.velocity == m.velocity
  {
    Motion(m.position, m.velocity)
  }

  /** `SetPosition`: replaces the pose and nothing else. */
  function SetPosition(m: Motion, p: seq<real>): (r: Motion)
    ensures r.position == p
    ensures r.velocity == m.velocity
  {
    m.(position := p)
  }

  /** `SetVelocity`: replaces the velocity and nothing else. */
  function SetVelocity(m: Motion, v: seq<real>): (r: Motion)
    ensures r.velocity == v
    ensures r.position == m.position
  {
    m.(velocity := v)
  }
}

=== FILE: motion_widget.dfy ===
/**
  * The motion viewer's frame cursor and sample browser: the current and
  * total frame, the play flag, the per-layer frame display, and the index of
  * the regression-memory sample on show.  Drawing, the skeletons and the
  * network are left out; a layer is its draw flag and its number of frames.
  */
module MotionWidget {
  import opened Numeric

  /** The current frame, the total frame count (0 while unset) and the play flag. */
  datatype Cursor = Cursor(cur: int, total: nat, play: bool)

  /** The cursor of a new widget: frame 0, no total, paused. */
  const Initial: Cursor := Cursor(0, 0, false)

  /** The cursor is on a frame of the motion, or just past the last one. */
  predicate InRange(c: Cursor)
  {
    0 <= c.cur <= c.total
  }

  /**
    * `UpdateMotion`: loading a motion of `size` frames rewinds the cursor and
    * sets the total to the size when it was unset, otherwise lowers it to the
    * size when the motion is shorter.
    */
  function UpdateMotion(c: Cursor, size: nat): (r: Cursor)
    ensures r.cur == 0 && r.play == c.play
    ensures c.total == 0 ==> r.total == size
    ensures c.total != 0 ==> r.total <= c.total && r.total <= size && (r.total == c.total || r.total == size)
  {
    var total := if c.total == 0 then size else if c.total > size then size else c.total;
    c.(cur := 0, total := total)
  }

  /** Loading the motions of the given sizes one after the other. */
  function LoadAll(c: Cursor, sizes: seq<nat>): Cursor
    decreases |sizes|
  {
    if |sizes| == 0 then c else LoadAll(UpdateMotion(c, sizes[0]), sizes[1..])
  }

  /** The smallest of a non-empty list of sizes. */
  function MinSize(sizes: seq<nat>): (m: nat)
    requires 1 <= |sizes|
    ensures m in sizes && forall i :: 0 <= i < |sizes| ==> m <= sizes[i]
    decreases |sizes|
  {
    if |sizes| == 1 then sizes[0]
    else
      var rest := MinSize(sizes[1..]);
      if sizes[0] <= rest then sizes[0] else rest
  }

  /**
    * Loading non-empty motions lowers the total to the shortest motion's
    * length, or sets it to that length when it was unset; so after loading,
    * every layer has a frame at every cursor position below the total.
    */
  lemma {:induction false} LoadAllTotalIsShortest(c: Cursor, sizes: seq<nat>)
    requires 1 <= |sizes| && forall i :: 0 <= i < |sizes| ==> 0 < sizes[i]
    ensures var m := MinSize(sizes);
            LoadAll(c, sizes).total == if c.total == 0 || m < c.total then m else c.total
    ensures LoadAll(c, sizes).cur == 0
    decreases |sizes|
  {
    if |sizes| > 1 {
      var d := UpdateMotion(c, sizes[0]);
      assert forall i :: 0 <= i < |sizes[1..]| ==> sizes[1..][i] == sizes[i + 1];
      LoadAllTotalIsShortest(d, sizes[1..]);
    }
  }

  /**
    * A motion with no frames leaves an unset total unset, so the next motion
    * loaded sets the total on its own: the total is not the minimum over
    * all motions loaded.
    */
  lemma EmptyMotionKeepsTotalUnset(size: nat)
    ensures UpdateMotion(Initial, 0).total == 0
    ensures UpdateMotion(UpdateMotion(Initial, 0), size).total == size
  {
  }

  /** `NextFrame`: while paused the cursor moves one frame on, with no upper bound. */
  function NextFrame(c: Cursor): (r: Cursor)
    ensures c.play ==> r == c
    ensures !c.play ==> r == c.(cur := c.cur + 1)
  {
    if !c.play then c.(cur := c.cur + 1) else c
  }

  /** `PrevFrame`: while paused the cursor moves one frame back, never below 0. */
  function PrevFrame(c: Cursor): (r: Cursor)
    ensures c.play || c.cur <= 0 ==> r == c
    ensures !c.play && 0 < c.cur ==> r == c.(cur := c.cur - 1)
  {
    if !c.play && c.cur > 0 then c.(cur := c.cur - 1) else c
  }

  /** The timer: while playing the cursor moves on until it reaches the total. */
  function Timer(c: Cursor): (r: Cursor)
    ensures !c.play || c.total <= c.cur ==> r == c
    ensures c.play && c.cur < c.total ==> r == c.(cur := c.cur + 1)
  {
    if c.play && c.cur < c.total then c.(cur := c.cur + 1) else c
  }

  /** `Reset` rewinds the cursor; `togglePlay` flips the play flag. */
  function Reset(c: Cursor): (r: Cursor)
    ensures r.cur == 0 && r.total == c.total && r.play == c.play
  {
    c.(cur := 0)
  }

  function TogglePlay(c: Cursor): (r: Cursor)
    ensures r.play == !c.play && r.cur == c.cur && r.total == c.total
  {
    c.(play := !c.play)
  }

  /**
    * The timer, stepping back, rewinding, toggling and loading keep the
    * cursor in range; the timer never moves it past the total and stepping
    * back never below 0.
    */
  lemma CursorStaysInRange(c: Cursor, size: nat)
    requires InRange(c)
    ensures InRange(Timer(c)) && InRange(PrevFrame(c)) && InRange(Reset(c)) && InRange(TogglePlay(c))
    ensures InRange(UpdateMotion(c, size))
  {
  }

  /** Played to the end, the timer stops: at the total it leaves the cursor where it is. */
  lemma TimerStopsAtTotal(c: Cursor)
    requires c.cur == c.total
    ensures Timer(c) == c
  {
  }

  /** Stepping forward while paused can leave the range: from the last position the cursor passes the total. */
  lemma NextFrameLeavesRange(total: nat)
    ensures var c := Cursor(total, total, false);
            InRange(c) && !InRange(NextFrame(c)) && NextFrame(c).cur == total + 1
  {
  }

  /** Stepping forward and back while paused returns to the same frame. */
  lemma NextThenPrev(c: Cursor)
    requires !c.play && 0 <= c.cur
    ensures PrevFrame(NextFrame(c)) == c
  {
  }

  // ---------------------------------------------------------------- frame display

  const SIZE_RANGE: int := 0x1_0000_0000_0000_0000

  /** The range of the widget's `int` frame and sample indices. */
  const INT_MIN: int := -0x8000_0000
  const INT_MAX: int := 0x7FFF_FFFF

  /** A vector never holds more than `PTRDIFF_MAX` elements. */
  const MAX_ELEMENTS: int := 0x7FFF_FFFF_FFFF_FFFF

  /** An `int` frame compared with a `size_t` size: a negative frame converts to a huge unsigned value. */
  function AsSize(n: int): (u: int)
    ensures 0 <= n < SIZE_RANGE ==> u == n
    ensures -SIZE_RANGE <= n < 0 ==> u == n + SIZE_RANGE
  {
    n % SIZE_RANGE
  }

  /** A drawn motion layer: whether it is drawn and how many frames it holds. */
  datatype Layer = Layer(draw: bool, size: nat)

  /**
    * `SetFrame(n)`: each drawn layer whose motion has a frame `n` shows it;
    * the others keep their pose.  The answer lists, per layer, whether it
    * shows frame `n`.
    */
  function SetFrame(n: int, layers: seq<Layer>): (shown: seq<bool>)
    requires forall i :: 0 <= i < |layers| ==> layers[i].size <= MAX_ELEMENTS
    requires INT_MIN <= n <= INT_MAX
    ensures |shown| == |layers|
    ensures forall i :: 0 <= i < |layers| ==> (shown[i] <==> layers[i].draw && 0 <= n < layers[i].size)
  {
    seq(|layers|, i requires 0 <= i < |layers| => layers[i].draw && AsSize(n) < layers[i].size)
  }

  /**
    * On a cursor below the total, every drawn layer at least as long as the
    * total shows the cursor's frame.
    */
  lemma ShownBelowTotal(c: Cursor, layers: seq<Layer>)
    requires 0 <= c.cur < c.total <= INT_MAX
    requires forall i :: 0 <= i < |layers| ==> c.total <= layers[i].size <= MAX_ELEMENTS
    ensures forall i :: 0 <= i < |layers| ==> (SetFrame(c.cur, layers)[i] <==> layers[i].draw)
  {
  }

  // ---------------------------------------------------------------- sample browser

  /**
    * `UpdateNextParam`: with the regression memory running, the index moves
    * to the next of the `n` loaded samples, cyclically; the `size_t`
    * remainder by an empty sample list is undefined (`None`).  Otherwise
    * the index is kept.
    */
  function NextParam(idx: int, n: nat, running: bool): (r: Option<int>)
    requires INT_MIN <= idx < INT_MAX
    ensures !running ==> r == Some(idx)
    ensures running ==> (r.None? <==> n == 0)
    ensures running && 0 < n && -1 <= idx ==> r == Some((idx + 1) % n)
    ensures r.Some? && running ==> 0 <= r.value < n
  {
    if !running then Some(idx)
    else if n == 0 then None
    else Some(AsSize(idx + 1) % n)
  }

  /**
    * `UpdatePrevParam`: with the regression memory running, the index moves
    * to the previous sample, from 0 to the last; with no samples `size - 1`
    * wraps to the largest `size_t`, which reads back as -1 in the `int`
    * index.  Otherwise the index is kept.
    */
  function PrevParam(idx: int, n: nat, running: bool): (r: int)
    ensures !running ==> r == idx
    ensures running && idx != 0 ==> r == idx - 1
    ensures running && idx == 0 ==> r == n - 1
  {
    if !running then idx
    else if idx == 0 then n - 1
    else idx - 1
  }

  /** For `n > 0` both moves keep the index in `[0, n)`, and each undoes the other. */
  lemma ParamCycle(idx: int, n: nat)
    requires 0 <= idx < n <= INT_MAX
    ensures NextParam(idx, n, true).Some? && 0 <= NextParam(idx, n, true).value < n
    ensures 0 <= PrevParam(idx, n, true) < n
    ensures NextParam(PrevParam(idx, n, true), n, true) == Some(idx)
    ensures PrevParam(NextParam(idx, n, true).value, n, true) == idx
  {
    if idx + 1 < n {
      ModBelow(idx + 1, n);
    } else {
      ModSelf(n);
    }
    if idx == 0 {
      ModSelf(n);
    } else {
      ModBelow(idx, n);
    }
  }

  lemma ModBelow(x: int, n: int)
    requires 0 <= x < n
    ensures x % n == x
  {
  }

  lemma ModSelf(n: int)
    requires 0 < n
    ensures n % n == 0
  {
  }

  /** With no samples loaded stepping back from 0 leaves the index at -1, outside every sample list. */
  lemma PrevParamWithoutSamples()
    ensures PrevParam(0, 0, true) == -1
  {
  }
}

=== FILE: numeric.dfy ===
/**
  * Numeric vocabulary shared by every component of the model: a double that
  * may be NaN, clipping, floor/ceil/truncation of reals, C's `fmod`, sums and
  * the properties assumed of the transcendental functions the program calls.
  *
  * Real arithmetic is exact here; the program uses IEEE doubles.  Only the one
  * floating-point behaviour the program tests for explicitly (NaN) is modelled.
  */
module Numeric {

  /** A value that may be absent. */
  datatype Option<T> = None | Some(value: T)

  /** A double as far as the program's NaN guards can tell: a number or NaN. */
  datatype Float = Num(v: real) | NaN

  /** Addition with NaN propagation. */
  function Add(a: Float, b: Float): (r: Float)
    ensures r.NaN? <==> a.NaN? || b.NaN?
    ensures r.Num? ==> r.v == a.v + b.v
  {
    if a.NaN? || b.NaN? then NaN else Num(a.v + b.v)
  }

  /** Multiplication by a finite constant, NaN propagating. */
  function Scale(c: real, a: Float): (r: Float)
    ensures r.NaN? <==> a.NaN?
    ensures r.Num? ==> r.v == c * a.v
  {
    if a.NaN? then NaN else Num(c * a.v)
  }

  /** Sum of a sequence of doubles: NaN as soon as one summand is NaN. */
  function FloatSum(s: seq<Float>): (r: Float)
    ensures r.NaN? <==> exists i :: 0 <= i < |s| && s[i].NaN?
  {
    if |s| == 0 then Num(0.0) else Add(FloatSum(s[..|s| - 1]), s[|s| - 1])
  }

  /** The value of M_PI. */
  const PI: real := 3.141592653589793

  /** `dart::math::clip`. */
  function Clip(x: real, lo: real, hi: real): (r: real)
    requires lo <= hi
    ensures lo <= r <= hi
    ensures lo <= x <= hi ==> r == x
    ensures x < lo ==> r == lo
    ensures hi < x ==> r == hi
  {
    if x < lo then lo else if hi < x then hi else x
  }

  function Min(a: real, b: real): (r: real)
    ensures r <= a && r <= b && (r == a || r == b)
  {
    if a <= b then a else b
  }

  function Max(a: real, b: real): (r: real)
    ensures a <= r && b <= r && (r == a || r == b)
  {
    if a <= b then b else a
  }

  function MinInt(a: int, b: int): (r: int)
    ensures r <= a && r <= b && (r == a || r == b)
  {
    if a <= b then a else b
  }

  /** `std::floor` followed by a conversion to int. */
  function Floor(x: real): (k: int)
    ensures k as real <= x < k as real + 1.0
  {
    x.Floor
  }

  /** `std::ceil` followed by a conversion to int. */
  function Ceil(x: real): (k: int)
    ensures x <= k as real < x + 1.0
    ensures k == Floor(x) <==> x == Floor(x) as real
    ensures k != Floor(x) ==> k == Floor(x) + 1
  {
    if x == x.Floor as real then x.Floor else x.Floor + 1
  }

  /** A C/C++ cast of a double to int: truncation toward zero. */
  function Trunc(x: real): (k: int)
    ensures 0.0 <= x ==> 0 <= k && k as real <= x < k as real + 1.0
    ensures x < 0.0 ==> k <= 0 && x <= k as real && k as real - 1.0 < x
  {
    if 0.0 <= x then x.Floor else -((-x).Floor)
  }

  /** C's `fmod`: the remainder of truncating division, with the sign of `x`. */
  function FMod(x: real, y: real): (r: real)
    requires 0.0 < y
    ensures 0.0 <= x ==> 0.0 <= r < y
    ensures x < 0.0 ==> -y < r <= 0.0
    ensures x - r == Trunc(x / y) as real * y
  {
    FModBounds(x, y);
    x - Trunc(x / y) as real * y
  }

  lemma FModBounds(x: real, y: real)
    requires 0.0 < y
    ensures 0.0 <= x ==> 0.0 <= x - Trunc(x / y) as real * y < y
    ensures x < 0.0 ==> -y < x - Trunc(x / y) as real * y <= 0.0
  {
    var q := x / y;
    assert q * y == x;
    var k := Trunc(q) as real;
    if 0.0 <= x {
      RemainderAbove(x, y, q, k);
    } else {
      RemainderBelow(x, y, q, k);
    }
  }

  lemma RemainderAbove(x: real, y: real, q: real, k: real)
    requires 0.0 < y && q * y == x
    requires k <= q < k + 1.0
    ensures 0.0 <= x - k * y < y
  {
    var f := q - k;
    assert 0.0 <= f * y < y;
    assert f * y == q * y - k * y;
    assert x - k * y == f * y;
  }

  lemma RemainderBelow(x: real, y: real, q: real, k: real)
    requires 0.0 < y && q * y == x
    requires k - 1.0 < q <= k
    ensures -y < x - k * y <= 0.0
  {
    var f := q - k;
    assert -y < f * y <= 0.0;
    assert f * y == q * y - k * y;
    assert x - k * y == f * y;
  }

  /** Sum of a sequence of reals, folded from the front like the program's loops. */
  function Sum(s: seq<real>): (r: real)
    decreases |s|
  {
    if |s| == 0 then 0.0 else Sum(s[..|s| - 1]) + s[|s| - 1]
  }

  /** The sum of a concatenation is the sum of its parts. */
  lemma {:induction false} SumAppend(a: seq<real>, b: seq<real>)
    ensures Sum(a + b) == Sum(a) + Sum(b)
    decreases |b|
  {
    if |b| == 0 {
      assert a + b == a;
    } else {
      assert (a + b)[..|a + b| - 1] == a + b[..|b| - 1];
      SumAppend(a, b[..|b| - 1]);
    }
  }

  /** Entries bounded by `lo` and `hi` sum to between `|s|·lo` and `|s|·hi`. */
  lemma {:induction false} SumBetween(s: seq<real>, lo: real, hi: real)
    requires forall i :: 0 <= i < |s| ==> lo <= s[i] <= hi
    ensures |s| as real * lo <= Sum(s) <= |s| as real * hi
    decreases |s|
  {
    if |s| != 0 {
      var k := (|s| - 1) as real;
      SumBetween(s[..|s| - 1], lo, hi);
      assert |s| as real * lo == k * lo + lo && |s| as real * hi == k * hi + hi;
    }
  }

  /** The constant vector of `n` copies of `c` (`Eigen::VectorXd::Constant`). */
  function Constant(n: nat, c: real): (v: seq<real>)
    ensures |v| == n
    ensures forall i :: 0 <= i < n ==> v[i] == c
  {
    seq(n, _ => c)
  }

  /** `Eigen::VectorXd::Zero(n)`. */
  function Zeros(n: nat): (v: seq<real>)
    ensures |v| == n
    ensures forall i :: 0 <= i < n ==> v[i] == 0.0
  {
    Constant(n, 0.0)
  }

  /**
    * What the model assumes of `exp`: positive, strictly increasing, and 1 at 0.
    * The function itself is a parameter of every member that calls it.
    */
  ghost predicate ExpLike(exp: real -> real)
  {
    && (forall x :: 0.0 < exp(x))
    && (forall x, y :: x < y ==> exp(x) < exp(y))
    && exp(0.0) == 1.0
  }

  /** What the model assumes of `log`: strictly increasing on the positive reals. */
  ghost predicate LogLike(log: real -> real)
  {
    forall x, y :: 0.0 < x < y ==> log(x) < log(y)
  }

  /** Entry `j` of row `i` of an `n`-by-`k` row-major table lies inside it. */
  lemma RowInRange(i: nat, j: nat, n: nat, k: nat)
    requires i < n && j < k
    ensures i * k + j < n * k
  {
    assert (i + 1) * k <= n * k;
  }

  /** The product of two non-negative reals is non-negative. */
  lemma ProductNonNegative(a: real, b: real)
    requires 0.0 <= a && 0.0 <= b
    ensures 0.0 <= a * b
  {
  }

  /** An `exp` that satisfies `ExpLike` is at most 1 on the non-positive reals. */
  lemma ExpAtMostOne(exp: real -> real, x: real)
    requires ExpLike(exp)
    requires x <= 0.0
    ensures 0.0 < exp(x) <= 1.0
  {
    if x < 0.0 {
      assert exp(x) < exp(0.0);
    }
  }

  /** Python list indexing: `-len <= i < len`, a negative index counting from the end; any other index raises. */
  function PyIndex(i: int, len: nat): (r: Option<nat>)
    ensures r.Some? <==> -(len as int) <= i < len
    ensures r.Some? ==> r.value < len && (r.value - i) % len == 0
  {
    if 0 <= i < len then Some(i) else if -(len as int) <= i < 0 then Some(i + len) else None
  }

  // ---------------------------------------------------------------- sequences of rows

  /** Every row has `w` entries. */
  predicate Rectangular<T>(rows: seq<seq<T>>, w: nat)
  {
    forall i :: 0 <= i < |rows| ==> |rows[i]| == w
  }

  /** The rows joined end to end, in order. */
  function Flatten<T>(rows: seq<seq<T>>): (r: seq<T>)
    decreases |rows|
  {
    if |rows| == 0 then [] else Flatten(rows[..|rows| - 1]) + rows[|rows| - 1]
  }

  lemma {:induction false} FlattenLength<T>(rows: seq<seq<T>>, w: nat)
    requires Rectangular(rows, w)
    ensures |Flatten(rows)| == |rows| * w
    decreases |rows|
  {
    if |rows| != 0 {
      FlattenLength(rows[..|rows| - 1], w);
    }
  }

  /** Row `i` occupies positions `i * w` to `i * w + w` of the flattening. */
  lemma {:induction false} FlattenSlice<T>(rows: seq<seq<T>>, w: nat, i: nat)
    requires Rectangular(rows, w) && i < |rows|
    ensures i * w + w <= |Flatten(rows)|
    ensures Flatten(rows)[i * w .. i * w + w] == rows[i]
    decreases |rows|
  {
    var n := |rows|;
    var init := rows[..n - 1];
    var front := Flatten(init);
    assert Rectangular(init, w);
    FlattenLength(init, w);
    assert |front| == (n - 1) * w;
    assert Flatten(rows) == front + rows[n - 1];
    if i < n - 1 {
      FlattenSlice(init, w, i);
      assert init[i] == rows[i];
      SliceOfFront(front, rows[n - 1], i * w, i * w + w);
    } else {
      assert i == n - 1;
      assert i * w == |front|;
    }
  }

  /** Flattening a prefix and then one more row is flattening the longer prefix. */
  lemma FlattenSnoc<T>(rows: seq<seq<T>>, k: int)
    requires 0 <= k < |rows|
    ensures Flatten(rows[..k + 1]) == Flatten(rows[..k]) + rows[k]
  {
    assert rows[..k + 1][..k] == rows[..k];
  }

  /** Whatever is in a flattening is in one of its rows, and every row's entries are in it. */
  lemma {:induction false} FlattenMembers<T>(rows: seq<seq<T>>)
    ensures forall x :: x in Flatten(rows) ==> exists i :: 0 <= i < |rows| && x in rows[i]
    ensures forall i, x :: 0 <= i < |rows| && x in rows[i] ==> x in Flatten(rows)
    decreases |rows|
  {
    if |rows| != 0 {
      var init := rows[..|rows| - 1];
      FlattenMembers(init);
      forall x | x in Flatten(rows)
        ensures exists i :: 0 <= i < |rows| && x in rows[i]
      {
        if x !in rows[|rows| - 1] {
          assert Flatten(rows) == Flatten(init) + rows[|rows| - 1];
          assert x in Flatten(init);
          var i :| 0 <= i < |init| && x in init[i];
          assert rows[i] == init[i];
        }
      }
      forall x, i | 0 <= i < |rows| && x in rows[i]
        ensures x in Flatten(rows)
      {
        if i < |init| {
          assert init[i] == rows[i];
        }
      }
    }
  }

  /** A slice that ends inside the first part of a concatenation is a slice of that part. */
  lemma SliceOfFront<T>(front: seq<T>, back: seq<T>, lo: nat, hi: nat)
    requires lo <= hi <= |front|
    ensures (front + back)[lo .. hi] == front[lo .. hi]
  {
  }

  /** A slice that starts after the first part of a concatenation is a slice of the second part. */
  lemma SliceOfBack<T>(front: seq<T>, back: seq<T>, lo: nat, hi: nat)
    requires lo <= hi <= |back|
    ensures (front + back)[|front| + lo .. |front| + hi] == back[lo .. hi]
  {
  }
}

=== FILE: phase_lookup.dfy ===
/**
  * Phase lookup in the reference store: how a real-valued frame index picks
  * one stored frame or a pair of neighbouring frames to blend, how the
  * adaptive time-step table is interpolated, and how foot-contact flags are
  * read at a fractional frame.
  */
module PhaseLookup {
  import opened Numeric
  import opened MotionValue

  /** Which stored frames a lookup at a real-valued frame reads. */
  datatype Selection =
    | Exact(k: nat)
      /** Blend frame `hi` with frame `lo`, giving weight `w` to `lo`. */
    | Between(lo: nat, hi: nat, w: real)

  /**
    * The selection shared by `GetPosition` and `GetMotion` over `n` stored
    * frames: past the last frame the last frame is used; an integral `t` reads
    * frame `t`; otherwise the two frames around `t` are blended, the weight
    * of the lower one being its closeness `1 - (t - lo)`.
    */
  function Select(t: real, n: nat): (s: Selection)
    requires 0.0 <= t && 1 <= n
    ensures s.Exact? <==> (n - 1) as real < t || t == Floor(t) as real
    ensures s.Exact? && (n - 1) as real < t ==> s.k == n - 1
    ensures s.Exact? && t <= (n - 1) as real ==> s.k as real == t
    ensures s.Between? ==> s.hi == s.lo + 1 && s.hi < n
    ensures s.Between? ==> s.lo as real < t < s.hi as real
    ensures s.Between? ==> 0.0 < s.w < 1.0 && s.w == s.hi as real - t
  {
    if (n - 1) as real < t then Exact(n - 1)
    else
      var k0 := Floor(t);
      var k1 := Ceil(t);
      if k0 == k1 then Exact(k0)
      else Between(k0, k1, 1.0 - (t - k0 as real))
  }

  /** The frames a selection reads are stored frames. */
  predicate Reads(s: Selection, n: nat)
  {
    match s
    case Exact(k) => k < n
    case Between(lo, hi, _) => hi < n
  }

  /**
    * `GetPosition(t, adaptive)`: the pose at frame `t` of the generated
    * sequence chosen by `adaptive`.  `blend` is `DPhy::BlendPosition`.
    */
  function GetPosition(gen: seq<Motion>, genAdaptive: seq<Motion>, t: real, adaptive: bool,
                       blend: (seq<real>, seq<real>, real) -> seq<real>): (p: seq<real>)
    requires 0.0 <= t
    requires 1 <= |if adaptive then genAdaptive else gen|
    ensures var g := if adaptive then genAdaptive else gen;
            var last := |g| - 1;
            && (last as real < t ==> p == g[last].position)
            && (t <= last as real && t == Floor(t) as real ==> p == g[Floor(t)].position)
            && (t <= last as real && t != Floor(t) as real ==>
                  p == blend(g[Floor(t) + 1].position, g[Floor(t)].position, (Floor(t) + 1) as real - t))
  {
    var g := if adaptive then genAdaptive else gen;
    match Select(t, |g|)
    case Exact(k) => g[k].position
    case Between(lo, hi, w) => blend(g[hi].position, g[lo].position, w)
  }

  /**
    * `GetMotion(t, adaptive)`, as written: the bound check, and so the
    * selection, uses the length of the non-adaptive sequence, whichever
    * sequence it then reads.  Past that bound the last frame of the chosen
    * sequence is returned; otherwise the chosen sequence is read at the
    * selected frames, which must exist there.
    */
  function GetMotion(gen: seq<Motion>, genAdaptive: seq<Motion>, t: real, adaptive: bool,
                     blendPos: (seq<real>, seq<real>, real) -> seq<real>,
                     blendVel: (seq<real>, seq<real>, real) -> seq<real>): (m: Motion)
    requires 0.0 <= t && 1 <= |gen|
    requires 1 <= |if adaptive then genAdaptive else gen|
    requires Reads(Select(t, |gen|), |if adaptive then genAdaptive else gen|)
    ensures var g := if adaptive then genAdaptive else gen;
            && ((|gen| - 1) as real < t ==> m == g[|g| - 1])
            && (t <= (|gen| - 1) as real && t == Floor(t) as real ==> m == g[Floor(t)])
            && (t <= (|gen| - 1) as real && t != Floor(t) as real ==>
                  var w := (Floor(t) + 1) as real - t;
                  m == Motion(blendPos(g[Floor(t) + 1].position, g[Floor(t)].position, w),
                              blendVel(g[Floor(t) + 1].velocity, g[Floor(t)].velocity, w)))
  {
    var g := if adaptive then genAdaptive else gen;
    if (|gen| - 1) as real < t then Motion(g[|g| - 1].position, g[|g| - 1].velocity)
    else
      match Select(t, |gen|)
      case Exact(k) => Copy(g[k])
      case Between(lo, hi, w) =>
        Motion(blendPos(g[hi].position, g[lo].position, w), blendVel(g[hi].velocity, g[lo].velocity, w))
  }

  /**
    * `GetMotion` with the bound check made against the sequence it reads;
    * no precondition on the relative lengths of the two sequences is needed.
    */
  function GetMotionChecked(gen: seq<Motion>, genAdaptive: seq<Motion>, t: real, adaptive: bool,
                            blendPos: (seq<real>, seq<real>, real) -> seq<real>,
                            blendVel: (seq<real>, seq<real>, real) -> seq<real>): (m: Motion)
    requires 0.0 <= t
    requires 1 <= |if adaptive then genAdaptive else gen|
    ensures m.position == GetPosition(gen, genAdaptive, t, adaptive, blendPos)
    ensures var g := if adaptive then genAdaptive else gen;
            var last := |g| - 1;
            && (last as real < t ==> m == g[last])
            && (t <= last as real && t == Floor(t) as real ==> m == g[Floor(t)])
            && (t <= last as real && t != Floor(t) as real ==>
                  var w := (Floor(t) + 1) as real - t;
                  m == Motion(blendPos(g[Floor(t) + 1].position, g[Floor(t)].position, w),
                              blendVel(g[Floor(t) + 1].velocity, g[Floor(t)].velocity, w)))
  {
    var g := if adaptive then genAdaptive else gen;
    match Select(t, |g|)
    case Exact(k) => Copy(g[k])
    case Between(lo, hi, w) =>
      Motion(blendPos(g[hi].position, g[lo].position, w), blendVel(g[hi].velocity, g[lo].velocity, w))
  }

  /**
    * The guard of `GetMotion` admits reads beyond the adaptive sequence when
    * it is shorter than the non-adaptive one: with three plain frames and one
    * adaptive frame, `t = 1.5` passes the guard and reads adaptive frame 2.
    */
  lemma GetMotionGuardAdmitsOutOfRange()
    ensures var s := Select(1.5, 3);
            s == Between(1, 2, 0.5) && !Reads(s, 1)
  {
    assert Floor(1.5) == 1;
  }

  /**
    * When the two sequences have the same length, the guard of `GetMotion`
    * is the right one and it agrees with the corrected lookup.
    */
  lemma GetMotionAgreesWhenLengthsMatch(gen: seq<Motion>, genAdaptive: seq<Motion>, t: real, adaptive: bool,
                                        blendPos: (seq<real>, seq<real>, real) -> seq<real>,
                                        blendVel: (seq<real>, seq<real>, real) -> seq<real>)
    requires 0.0 <= t && 1 <= |gen| && |genAdaptive| == |gen|
    ensures Reads(Select(t, |gen|), |if adaptive then genAdaptive else gen|)
    ensures GetMotion(gen, genAdaptive, t, adaptive, blendPos, blendVel)
         == GetMotionChecked(gen, genAdaptive, t, adaptive, blendPos, blendVel)
  {
  }

  /**
    * Up to the last non-adaptive frame, wherever `GetMotion` can read, it
    * agrees with the corrected lookup, and so its pose is the one
    * `GetPosition` gives: both select the same frames with the same weight.
    */
  lemma GetMotionAgreesWithinPlainRange(gen: seq<Motion>, genAdaptive: seq<Motion>, t: real, adaptive: bool,
                                         blendPos: (seq<real>, seq<real>, real) -> seq<real>,
                                         blendVel: (seq<real>, seq<real>, real) -> seq<real>)
    requires 0.0 <= t && 1 <= |gen|
    requires 1 <= |if adaptive then genAdaptive else gen|
    requires Reads(Select(t, |gen|), |if adaptive then genAdaptive else gen|)
    requires t <= (|gen| - 1) as real
    ensures GetMotion(gen, genAdaptive, t, adaptive, blendPos, blendVel)
         == GetMotionChecked(gen, genAdaptive, t, adaptive, blendPos, blendVel)
    ensures GetMotion(gen, genAdaptive, t, adaptive, blendPos, blendVel).position
         == GetPosition(gen, genAdaptive, t, adaptive, blendPos)
  {
  }

  /**
    * `GetTimeStep(t, adaptive)`: 1 outside adaptive mode; otherwise `t` is
    * reduced modulo the phase length and the table is read at `t` or
    * interpolated between the entries around it, the entry after the last
    * being entry 0.
    */
  function GetTimeStep(table: seq<real>, phaseLength: nat, t: real, adaptive: bool): (r: real)
    requires adaptive ==> 1 <= phaseLength <= |table| && 0.0 <= t
    ensures !adaptive ==> r == 1.0
    ensures adaptive ==>
              var u := FMod(t, phaseLength as real);
              var lo := Floor(u);
              var hi := if lo + 1 < |table| then lo + 1 else 0;
              && (u == lo as real ==> r == table[lo])
              && Min(table[lo], table[hi]) <= r <= Max(table[lo], table[hi])
  {
    if adaptive then Interpolate(table, FMod(t, phaseLength as real)) else 1.0
  }

  /**
    * The table read at position `u`: the entry itself at an integral
    * position, otherwise the linear blend of the entries around it, the entry
    * after the last being entry 0.
    */
  function Interpolate(table: seq<real>, u: real): (r: real)
    requires 0.0 <= u < |table| as real
    ensures var lo := Floor(u);
            var hi := if lo + 1 < |table| then lo + 1 else 0;
            && 0 <= lo < |table|
            && (u == lo as real ==> r == table[lo])
            && Min(table[lo], table[hi]) <= r <= Max(table[lo], table[hi])
  {
    var k0 := Floor(u);
    var k1 := Ceil(u);
    if k0 == k1 then table[k0]
    else
      var f := u - k0 as real;
      var next := if k1 >= |table| then table[0] else table[k1];
      Between01(table[k0], next, f);
      (1.0 - f) * table[k0] + f * next
  }

  /** A convex combination of two values lies between them. */
  lemma Between01(a: real, b: real, f: real)
    requires 0.0 <= f <= 1.0
    ensures Min(a, b) <= (1.0 - f) * a + f * b <= Max(a, b)
  {
    var r := (1.0 - f) * a + f * b;
    if a <= b {
      ProductNonNegative(f, b - a);
      ProductNonNegative(1.0 - f, b - a);
      assert r == a + f * (b - a) == b - (1.0 - f) * (b - a);
    } else {
      ProductNonNegative(f, a - b);
      ProductNonNegative(1.0 - f, a - b);
      assert r == a - f * (a - b) == b + (1.0 - f) * (a - b);
    }
  }

  /** C's `fmod` of a natural number by a positive length is its remainder. */
  lemma FModOfNat(k: nat, n: nat)
    requires 1 <= n
    ensures FMod(k as real, n as real) == (k % n) as real
  {
    var q, m := k / n, k % n;
    var x := k as real / n as real;
    assert (x - q as real) * n as real == m as real by {
      assert x * n as real == k as real;
      assert k as real == q as real * n as real + m as real;
    }
    UnitFraction(x - q as real, n as real, m as real);
    assert Trunc(x) == q;
  }

  /** A real whose product with `n > 0` lies in `[0, n)` lies in `[0, 1)`. */
  lemma UnitFraction(d: real, n: real, m: real)
    requires 0.0 < n && d * n == m && 0.0 <= m < n
    ensures 0.0 <= d < 1.0
  {
    if d < 0.0 {
      ProductNonNegative(-d, n);
      assert false;
    }
    if 1.0 <= d {
      ProductNonNegative(d - 1.0, n);
      assert false;
    }
  }

  /** At an integral adaptive frame `k` the table entry `k mod P` is returned. */
  lemma TimeStepAtIntegralFrame(table: seq<real>, phaseLength: nat, k: nat)
    requires 1 <= phaseLength <= |table|
    ensures GetTimeStep(table, phaseLength, k as real, true) == table[k % phaseLength]
  {
    FModOfNat(k, phaseLength);
  }

  /** A contact value as `GetContacts` pushes it: 1 or 0 from a flag. */
  function ContactValue(b: bool): (r: real)
    ensures r == 0.0 || r == 1.0
    ensures r == 1.0 <==> b
  {
    if b then 1.0 else 0.0
  }

  /** Every frame carries `c` contact flags. */
  predicate UniformContacts(contacts: seq<seq<bool>>, c: nat)
  {
    forall i :: 0 <= i < |contacts| ==> |contacts[i]| == c
  }

  /**
    * `GetContacts(t)`: one value per contact.  An integral frame reads the
    * flags of frame `t mod P` as 0/1; a fractional frame keeps the flags on
    * which the frames around it agree and gives 0.5 where they disagree.
    */
  function GetContacts(contacts: seq<seq<bool>>, c: nat, t: real): (r: seq<real>)
    requires 1 <= |contacts| && UniformContacts(contacts, c) && 0.0 <= t
    ensures |r| == c
    ensures forall i :: 0 <= i < c ==> r[i] == 0.0 || r[i] == 0.5 || r[i] == 1.0
    ensures t == Floor(t) as real ==>
              forall i :: 0 <= i < c ==> r[i] == ContactValue(contacts[Floor(t) % |contacts|][i])
    ensures t != Floor(t) as real ==>
              var a := contacts[Floor(t) % |contacts|];
              var b := contacts[(Floor(t) + 1) % |contacts|];
              forall i :: 0 <= i < c ==> (r[i] == 0.5 <==> a[i] != b[i]) && (a[i] == b[i] ==> r[i] == ContactValue(a[i]))
  {
    var k0 := Floor(t);
    var k1 := Ceil(t);
    var p := |contacts|;
    if k0 == k1 then
      seq(c, i requires 0 <= i < c => ContactValue(contacts[k0 % p][i]))
    else
      var a := contacts[k0 % p];
      var b := contacts[k1 % p];
      seq(c, i requires 0 <= i < c => if a[i] == b[i] then ContactValue(a[i]) else 0.5)
  }
}

=== FILE: reference_optimizer.dfy ===
/**
  * The reference-motion optimiser of `ReferenceManager`: rollouts are
  * filtered into samples (`SaveTrajectories`), the best 60 of at least 300
  * samples are recombined with rank weights into new spline control points
  * (`Optimize`), and counters decide when the external target moves
  * (`UpdateExternalTarget`, `NeedUpdateSigTarget`).
  *
  * Spline fitting and evaluation, trajectory alignment, the slide and
  * regularity rewards and `log` are parameters: `fit` returns what
  * `SaveTrajectories` computes from a rollout with them, `evalT` evaluates the
  * time-displacement spline at every phase frame.  A control-point set is a
  * matrix: one row per control point.
  */
module ReferenceOptimizer {
  import opened Numeric
  import StableSort

  /** Number of elite samples recombined (`mu`). */
  const ELITE: nat := 60

  /** `Optimize` waits until this many samples are stored. */
  const MIN_SAMPLES: nat := 300

  /** The knot frames `InitOptimization` appends for the pose spline. */
  const POSE_KNOTS: seq<int> := [0, 10, 18, 24, 34, 42, 48, 58, 64]

  type Matrix = seq<seq<real>>

  /** `rows` rows of `cols` entries. */
  predicate Shaped(m: Matrix, rows: nat, cols: nat)
  {
    |m| == rows && forall j :: 0 <= j < rows ==> |m[j]| == cols
  }

  /**
    * A stored rollout: the fitted pose and time control points, the
    * trajectory reward the samples are ranked by, the slide reward, and the
    * target reward of the rollout.
    */
  datatype Sample = Sample(cps: Matrix, cpsT: Matrix, trajectoryReward: real, slide: real, target: real)

  /** What the geometric part of `SaveTrajectories` yields for one rollout. */
  datatype Fit = Fit(cps: Matrix, cpsT: Matrix, regularity: real, slide: real)

  /** A sample of `mRegressionSamples`: control points, target parameters and reward. */
  datatype RegressionSample = RegressionSample(cps: Matrix, parameters: seq<real>, reward: real)

  datatype State = State(
    phaseLength: nat,
    dof: nat,
    knots: seq<int>,
    knotsT: seq<int>,
    refUpdateMode: bool,
    nT: nat,
    nET: nat,
    meanTracking: real,
    meanTarget: real,
    prevRewardTrajectory: real,
    prevRewardTarget: real,
    samples: seq<Sample>,
    sampleTargets: seq<seq<real>>,
    prevCps: Matrix,
    prevCpsT: Matrix,
    timeStep: seq<real>,
    nOp: nat,
    targetBase: seq<real>,
    targetGoal: seq<real>,
    targetUnit: seq<real>,
    targetCurMean: seq<real>,
    regressionSamples: seq<RegressionSample>)

  /** The key `cmp` compares samples by. */
  function TrajectoryKey(s: Sample): real
  {
    s.trajectoryReward
  }

  /** The control points of a sample have the shape of the current ones. */
  predicate SampleShaped(st: State, s: Sample)
  {
    Shaped(s.cps, |st.knots| + 3, st.dof) && Shaped(s.cpsT, |st.knotsT| + 3, 1)
  }

  /**
    * The shape invariant the program keeps: one control point per knot plus
    * three, one time step per phase frame, and a target vector per sample.
    */
  predicate WellFormed(st: State)
  {
    && 1 <= st.phaseLength
    && Shaped(st.prevCps, |st.knots| + 3, st.dof)
    && Shaped(st.prevCpsT, |st.knotsT| + 3, 1)
    && |st.timeStep| == st.phaseLength
    && |st.samples| == |st.sampleTargets|
    && (forall i :: 0 <= i < |st.samples| ==> SampleShaped(st, st.samples[i]))
    && (forall i :: 0 <= i < |st.sampleTargets| ==> |st.sampleTargets[i]| == |st.targetCurMean|)
  }

  // ---------------------------------------------------------------- InitOptimization

  /** The time-spline knots: every other frame of the phase. */
  function EvenFrames(n: nat): (r: seq<int>)
    ensures forall i :: 0 <= i < |r| ==> r[i] == 2 * i
    ensures forall i :: 0 <= i < |r| ==> 0 <= r[i] < n
    ensures forall f :: 0 <= f < n && f % 2 == 0 ==> f / 2 < |r|
  {
    seq((n + 1) / 2, i => 2 * i)
  }

  /** The state of a manager before `InitOptimization`. */
  function Blank(phaseLength: nat, dof: nat): State
  {
    State(phaseLength, dof, [], [], false, 0, 0, 0.0, 0.0, 0.0, 0.0, [], [], [], [], [], 0,
          [1.0], [1.0], [1.0], [], [])
  }

  /**
    * `InitOptimization`: the knots are appended, one zero control point per
    * knot plus three is appended, the time steps become all 1, the targets
    * take their initial values and every counter and running mean starts at
    * zero, with the trajectory cut-line at 0.5.
    */
  function InitOptimization(st: State): (r: State)
    ensures r.knots == st.knots + POSE_KNOTS && r.knotsT == st.knotsT + EvenFrames(st.phaseLength)
    ensures |r.prevCps| == |st.prevCps| + |r.knots| + 3 && r.prevCps[..|st.prevCps|] == st.prevCps
    ensures forall j :: |st.prevCps| <= j < |r.prevCps| ==> r.prevCps[j] == Zeros(st.dof)
    ensures |r.prevCpsT| == |st.prevCpsT| + |r.knotsT| + 3 && r.prevCpsT[..|st.prevCpsT|] == st.prevCpsT
    ensures forall j :: |st.prevCpsT| <= j < |r.prevCpsT| ==> r.prevCpsT[j] == [0.0]
    ensures |r.timeStep| == st.phaseLength && forall i :: 0 <= i < st.phaseLength ==> r.timeStep[i] == 1.0
    ensures r.refUpdateMode && r.nOp == 0 && r.nT == 0 && r.nET == 0
    ensures r.meanTracking == 0.0 && r.meanTarget == 0.0
    ensures r.prevRewardTrajectory == 0.5 && r.prevRewardTarget == 0.0
    ensures r.targetCurMean == r.targetBase == [1.0, 1.0, 0.0, 230.0, 0.0]
    ensures r.targetGoal == [1.0, 1.0, 0.0, 240.0, 0.0] && r.targetUnit == [0.05, 0.05, 0.1]
    ensures r.samples == st.samples && r.sampleTargets == st.sampleTargets
    ensures r.phaseLength == st.phaseLength && r.dof == st.dof
  {
    var knots := st.knots + POSE_KNOTS;
    var knotsT := st.knotsT + EvenFrames(st.phaseLength);
    var base := [1.0, 1.0, 0.0, 230.0, 0.0];
    st.(knots := knots, knotsT := knotsT,
        targetBase := base, targetCurMean := base,
        targetGoal := [1.0, 1.0, 0.0, 240.0, 0.0], targetUnit := [0.05, 0.05, 0.1],
        refUpdateMode := true,
        prevCps := st.prevCps + seq(|knots| + 3, _ => Zeros(st.dof)),
        prevCpsT := st.prevCpsT + seq(|knotsT| + 3, _ => [0.0]),
        timeStep := Constant(st.phaseLength, 1.0),
        nOp := 0, prevRewardTrajectory := 0.5, prevRewardTarget := 0.0,
        meanTracking := 0.0, meanTarget := 0.0, nET := 0, nT := 0)
  }

  /**
    * On a freshly built manager with a phase, `InitOptimization` establishes
    * the shape invariant: 12 pose control points and one time control point
    * per even frame plus three.
    */
  lemma InitEstablishesWellFormed(phaseLength: nat, dof: nat)
    requires 1 <= phaseLength
    ensures var r := InitOptimization(Blank(phaseLength, dof));
            WellFormed(r) && |r.prevCps| == 12 && |r.prevCpsT| == (phaseLength + 1) / 2 + 3
  {
    var r := InitOptimization(Blank(phaseLength, dof));
    assert r.knots == POSE_KNOTS;
    assert r.prevCps == seq(12, _ => Zeros(dof));
  }

  // ---------------------------------------------------------------- SaveTrajectories

  /**
    * The time displacements of a rollout: for each recorded frame but the
    * last, how much further than one frame the phase moved before the next
    * record; 0 for the last.  The second component is the phase modulo `P`.
    */
  function TimeDisplacements(data: seq<(seq<real>, real)>, phaseLength: nat): (r: seq<(seq<real>, real)>)
    requires 1 <= phaseLength
    ensures |r| == |data|
    ensures forall i :: 0 <= i < |data| ==> r[i].1 == FMod(data[i].1, phaseLength as real)
    ensures forall i :: 0 <= i < |data| - 1 ==> r[i].0 == [data[i + 1].1 - data[i].1 - 1.0]
    ensures 0 < |data| ==> r[|data| - 1].0 == [0.0]
  {
    var steps := StepExcess(data);
    var phases := seq(|data|, i requires 0 <= i < |data| => FMod(data[i].1, phaseLength as real));
    seq(|data|, i requires 0 <= i < |data| => (steps[i], phases[i]))
  }

  /** For each record but the last, how far beyond one frame the phase moved before the next; `[0.0]` for the last. */
  function StepExcess(data: seq<(seq<real>, real)>): (s: seq<seq<real>>)
    ensures |s| == |data|
    ensures forall i :: 0 <= i < |data| - 1 ==> s[i] == [data[i + 1].1 - data[i].1 - 1.0]
    ensures 0 < |data| ==> s[|data| - 1] == [0.0]
  {
    seq(|data|, i requires 0 <= i < |data| => if i < |data| - 1 then [data[i + 1].1 - data[i].1 - 1.0] else [0.0])
  }

  /** Sum of the first components of the first `n` displacement vectors. */
  function TotalDisplacement(r: seq<(seq<real>, real)>, n: nat): real
    requires n <= |r| && forall i :: 0 <= i < n ==> |r[i].0| == 1
  {
    if n == 0 then 0.0 else TotalDisplacement(r, n - 1) + r[n - 1].0[0]
  }

  /**
    * The time displacements telescope: over a rollout of `n` records the
    * first `n - 1` add up to the phase covered minus the `n - 1` steps of one
    * frame.
    */
  lemma {:induction false} TimeDisplacementsTelescope(data: seq<(seq<real>, real)>, phaseLength: nat, n: nat)
    requires 1 <= phaseLength && 1 <= n <= |data|
    ensures TotalDisplacement(TimeDisplacements(data, phaseLength), n - 1) == data[n - 1].1 - data[0].1 - (n - 1) as real
  {
    if 1 < n {
      TimeDisplacementsTelescope(data, phaseLength, n - 1);
    }
  }

  /**
    * The filter of `SaveTrajectories`, stated directly: both rewards are
    * numbers, updating is on, the per-frame tracking reward is at least 0.8
    * (0.83 while the target cut-line is still 0), and the target reward
    * reaches the cut-line.
    */
  predicate Admits(st: State, rewards: (Float, Float))
    requires 1 <= st.phaseLength
  {
    && rewards.0.Num? && rewards.1.Num?
    && st.refUpdateMode
    && var r := rewards.0.v / st.phaseLength as real;
       && 0.8 <= r
       && st.prevRewardTarget <= rewards.1.v
       && (st.prevRewardTarget != 0.0 || 0.83 <= r)
  }

  /** What `fit` is assumed to give: control points of the current shape and rewards in [0, 1]. */
  ghost predicate FitLike(st: State, fit: (seq<(seq<real>, real)>, seq<(seq<real>, real)>) -> Fit)
  {
    forall a, b :: var f := fit(a, b);
      && Shaped(f.cps, |st.knots| + 3, st.dof) && Shaped(f.cpsT, |st.knotsT| + 3, 1)
      && 0.0 <= f.regularity <= 1.0 && 0.0 <= f.slide <= 1.0
  }

  /**
    * `SaveTrajectories(data, rewards, parameters)`.  A NaN reward counts an
    * early termination and changes nothing else.  Otherwise the rollout is
    * counted, the running means of tracking (per frame) and target reward move
    * by 1%, and when the filter admits it a sample and its target parameters
    * are appended together.
    */
  function SaveTrajectories(st: State, data: seq<(seq<real>, real)>, rewards: (Float, Float), parameters: seq<real>,
                            fit: (seq<(seq<real>, real)>, seq<(seq<real>, real)>) -> Fit): (r: State)
    requires WellFormed(st) && FitLike(st, fit) && |parameters| == |st.targetCurMean|
    ensures rewards.0.NaN? || rewards.1.NaN? ==> r == st.(nET := st.nET + 1)
    ensures rewards.0.Num? && rewards.1.Num? ==>
              && r.nT == st.nT + 1 && r.nET == st.nET
              && r.meanTracking == 0.99 * st.meanTracking + 0.01 * (rewards.0.v / st.phaseLength as real)
              && r.meanTarget == 0.99 * st.meanTarget + 0.01 * rewards.1.v
    ensures (0.0 <= st.meanTracking <= 1.0 && (rewards.0.Num? ==> 0.0 <= rewards.0.v / st.phaseLength as real <= 1.0))
            ==> 0.0 <= r.meanTracking <= 1.0
    ensures (0.0 <= st.meanTarget <= 1.0 && (rewards.1.Num? ==> 0.0 <= rewards.1.v <= 1.0))
            ==> 0.0 <= r.meanTarget <= 1.0
    ensures WellFormed(r)
    ensures |st.samples| <= |r.samples| <= |st.samples| + 1 && r.samples[..|st.samples|] == st.samples
    ensures r.prevCps == st.prevCps && r.prevCpsT == st.prevCpsT && r.timeStep == st.timeStep
    ensures r.prevRewardTarget == st.prevRewardTarget && r.nOp == st.nOp && r.refUpdateMode == st.refUpdateMode
  {
    if rewards.0.NaN? || rewards.1.NaN? then st.(nET := st.nET + 1)
    else
      var track := rewards.0.v / st.phaseLength as real;
      var target := rewards.1.v;
      var counted := st.(nT := st.nT + 1,
                         meanTracking := 0.99 * st.meanTracking + 0.01 * track,
                         meanTarget := 0.99 * st.meanTarget + 0.01 * target);
      assert WellFormed(counted) by { KeepsShape(st, counted); }
      if !Passes(st, track, target) then counted
      else
        var f := fit(data, TimeDisplacements(data, st.phaseLength));
        AddSample(counted, Scored(f, track, target), parameters)
  }

  /** The sample stored for a rollout: the fitted control points, ranked by the scaled tracking reward. */
  function Scored(f: Fit, track: real, target: real): (s: Sample)
    requires 0.0 <= f.regularity <= 1.0 && 0.0 <= f.slide <= 1.0 && 0.0 <= track
    ensures s.cps == f.cps && s.cpsT == f.cpsT && s.slide == f.slide && s.target == target
    ensures 0.0 <= s.trajectoryReward <= track
  {
    var w := TrajectoryReward(f.regularity, f.slide, track);
    Sample(f.cps, f.cpsT, w, f.slide, target)
  }

  /**
    * `SaveTrajectories` stores a sample exactly when `Admits` holds: the
    * fitted control points of the rollout, a trajectory reward between 0 and the
    * per-frame tracking reward, the target reward and the target parameters,
    * after every sample already stored.
    */
  lemma SaveTrajectoriesStores(st: State, data: seq<(seq<real>, real)>, rewards: (Float, Float), parameters: seq<real>,
                               fit: (seq<(seq<real>, real)>, seq<(seq<real>, real)>) -> Fit)
    requires WellFormed(st) && FitLike(st, fit) && |parameters| == |st.targetCurMean|
    ensures var r := SaveTrajectories(st, data, rewards, parameters, fit);
            && |r.samples| == |st.samples| + (if Admits(st, rewards) then 1 else 0)
            && r.samples[..|st.samples|] == st.samples && r.sampleTargets[..|st.sampleTargets|] == st.sampleTargets
            && (Admits(st, rewards) ==>
                  var s := r.samples[|st.samples|];
                  var f := fit(data, TimeDisplacements(data, st.phaseLength));
                  && s.cps == f.cps && s.cpsT == f.cpsT
                  && 0.0 <= s.trajectoryReward <= rewards.0.v / st.phaseLength as real && s.target == rewards.1.v
                  && r.sampleTargets[|st.samples|] == parameters)
  {
    var r := SaveTrajectories(st, data, rewards, parameters, fit);
    if rewards.0.Num? && rewards.1.Num? {
      PassesIsAdmits(st, rewards);
    }
  }

  /** The chain of early returns of `SaveTrajectories`, in the order the source tests them. */
  predicate Passes(st: State, track: real, target: real)
  {
    if st.prevRewardTarget == 0.0 && track < 0.83 then false
    else if track < 0.6 || target < st.prevRewardTarget then false
    else if track < 0.8 then false
    else st.refUpdateMode
  }

  /** For numeric rewards the chain of early returns lets through exactly what `Admits` describes. */
  lemma PassesIsAdmits(st: State, rewards: (Float, Float))
    requires 1 <= st.phaseLength && rewards.0.Num? && rewards.1.Num?
    ensures Passes(st, rewards.0.v / st.phaseLength as real, rewards.1.v) <==> Admits(st, rewards)
  {
  }

  /** A state that differs from a well-formed one only in counters and means is well-formed. */
  lemma KeepsShape(st: State, r: State)
    requires WellFormed(st)
    requires r.phaseLength == st.phaseLength && r.dof == st.dof && r.knots == st.knots && r.knotsT == st.knotsT
    requires r.prevCps == st.prevCps && r.prevCpsT == st.prevCpsT && r.timeStep == st.timeStep
    requires r.samples == st.samples && r.sampleTargets == st.sampleTargets && r.targetCurMean == st.targetCurMean
    ensures WellFormed(r)
  {
    assert forall i :: 0 <= i < |r.samples| ==> SampleShaped(st, r.samples[i]) == SampleShaped(r, r.samples[i]);
  }

  /** Storing a sample of the current shape with a target vector of the current size keeps the invariant. */
  function AddSample(st: State, s: Sample, parameters: seq<real>): (r: State)
    requires WellFormed(st) && SampleShaped(st, s) && |parameters| == |st.targetCurMean|
    ensures WellFormed(r)
    ensures r.samples == st.samples + [s] && r.sampleTargets == st.sampleTargets + [parameters]
    ensures r.(samples := st.samples, sampleTargets := st.sampleTargets) == st
  {
    st.(samples := st.samples + [s], sampleTargets := st.sampleTargets + [parameters])
  }

  /** The trajectory reward weights the per-frame tracking reward by a convex mix of two rewards in [0, 1]. */
  function TrajectoryReward(regularity: real, slide: real, track: real): (w: real)
    requires 0.0 <= regularity <= 1.0 && 0.0 <= slide <= 1.0 && 0.0 <= track
    ensures 0.0 <= w <= track
    ensures regularity == 1.0 && slide == 1.0 ==> w == track
  {
    var m := 0.4 * regularity + 0.6 * slide;
    ProductNonNegative(m, track);
    ProductNonNegative(1.0 - m, track);
    assert track - m * track == (1.0 - m) * track;
    m * track
  }

  /** A rollout that passes the filter still passes it with higher rewards. */
  lemma AdmitsMonotone(st: State, a: (Float, Float), b: (Float, Float))
    requires 1 <= st.phaseLength && Admits(st, a)
    requires b.0.Num? && b.1.Num? && a.0.v <= b.0.v && a.1.v <= b.1.v
    ensures Admits(st, b)
  {
    var p := st.phaseLength as real;
    assert a.0.v / p <= b.0.v / p;
  }

  /** `ReportEarlyTermination`: one more early termination. */
  function ReportEarlyTermination(st: State): (r: State)
    ensures r.nET == st.nET + 1 && r.nT == st.nT
    ensures r.(nET := st.nET) == st
  {
    st.(nET := st.nET + 1)
  }

  // ---------------------------------------------------------------- Optimize

  /** `w_i = log(mu + 1) - log(i + 1)` for the ranks `i < mu`. */
  function RankWeights(log: real -> real): (w: seq<real>)
    ensures |w| == ELITE
    ensures forall i :: 0 <= i < ELITE ==> w[i] == log((ELITE + 1) as real) - log((i + 1) as real)
  {
    seq(ELITE, i => log((ELITE + 1) as real) - log((i + 1) as real))
  }

  /** Under a monotone `log`, every rank weight is positive and a better rank weighs more. */
  lemma RankWeightsPositiveDecreasing(log: real -> real)
    requires LogLike(log)
    ensures forall i :: 0 <= i < ELITE ==> 0.0 < RankWeights(log)[i]
    ensures forall i, j :: 0 <= i < j < ELITE ==> RankWeights(log)[j] < RankWeights(log)[i]
  {
    var w := RankWeights(log);
    forall i | 0 <= i < ELITE
      ensures 0.0 < w[i]
    {
      assert log((i + 1) as real) < log((ELITE + 1) as real);
    }
    forall i, j | 0 <= i < j < ELITE
      ensures w[j] < w[i]
    {
      assert log((i + 1) as real) < log((j + 1) as real);
    }
  }

  /** `sum_i w_i x_i`, accumulated from the first term like the loop of the program. */
  function WeightedSum(w: seq<real>, x: seq<real>): real
    requires |w| == |x|
  {
    if |w| == 0 then 0.0 else WeightedSum(w[..|w| - 1], x[..|x| - 1]) + w[|w| - 1] * x[|x| - 1]
  }

  /** With non-negative weights, a weighted sum lies between the weight total times the bounds. */
  lemma {:induction false} WeightedSumBounds(w: seq<real>, x: seq<real>, lo: real, hi: real)
    requires |w| == |x|
    requires forall i :: 0 <= i < |w| ==> 0.0 <= w[i]
    requires forall i :: 0 <= i < |x| ==> lo <= x[i] <= hi
    ensures Scaled(lo, hi, Sum(w), WeightedSum(w, x))
    decreases |w|
  {
    if |w| != 0 {
      var n := |w| - 1;
      var w0, x0 := w[..n], x[..n];
      var total, acc := Sum(w0), WeightedSum(w0, x0);
      assert Scaled(lo, hi, total, acc) by { WeightedSumBounds(w0, x0, lo, hi); }
      assert Sum(w) == total + w[n];
      assert WeightedSum(w, x) == acc + w[n] * x[n];
      TermBounds(w[n], x[n], lo, hi, total, acc);
    }
  }

  /** `s` lies between `lo` and `hi` times `total`. */
  predicate Scaled(lo: real, hi: real, total: real, s: real)
  {
    lo * total <= s <= hi * total
  }

  lemma TermBounds(wn: real, xn: real, lo: real, hi: real, total: real, acc: real)
    requires 0.0 <= wn && lo <= xn <= hi
    requires Scaled(lo, hi, total, acc)
    ensures Scaled(lo, hi, total + wn, acc + wn * xn)
  {
    assert wn * (xn - lo) >= 0.0;
    assert wn * (hi - xn) >= 0.0;
  }

  /** The sum of positive weights is positive. */
  lemma {:induction false} SumPositive(w: seq<real>)
    requires 0 < |w| && forall i :: 0 <= i < |w| ==> 0.0 < w[i]
    ensures 0.0 < Sum(w)
    decreases |w|
  {
    if 1 < |w| {
      SumPositive(w[..|w| - 1]);
    }
  }

  lemma QuotientBounds(s: real, total: real, lo: real, hi: real)
    requires 0.0 < total && Scaled(lo, hi, total, s)
    ensures lo <= s / total <= hi
  {
    var q := s / total;
    assert q * total == s;
    assert (q - lo) * total >= 0.0;
    assert (hi - q) * total >= 0.0;
  }

  /** With positive weights, the weighted mean of values in `[lo, hi]` is in `[lo, hi]`. */
  lemma MeanInHull(w: seq<real>, x: seq<real>, lo: real, hi: real)
    requires 0 < |w| == |x|
    requires forall i :: 0 <= i < |w| ==> 0.0 < w[i]
    requires forall i :: 0 <= i < |x| ==> lo <= x[i] <= hi
    ensures 0.0 < Sum(w) && lo <= WeightedSum(w, x) / Sum(w) <= hi
  {
    SumPositive(w);
    WeightedSumBounds(w, x, lo, hi);
    QuotientBounds(WeightedSum(w, x), Sum(w), lo, hi);
  }

  /** Every matrix of `ms` has `rows` rows of `cols` entries. */
  predicate AllShaped(ms: seq<Matrix>, rows: nat, cols: nat)
  {
    forall i :: 0 <= i < |ms| ==> |ms[i]| == rows && forall j :: 0 <= j < rows ==> |ms[i][j]| == cols
  }

  /** Entry `(j, c)` of every matrix in `ms`. */
  function Column(ms: seq<Matrix>, rows: nat, cols: nat, j: nat, c: nat): (x: seq<real>)
    requires AllShaped(ms, rows, cols) && j < rows && c < cols
    ensures |x| == |ms| && forall i :: 0 <= i < |ms| ==> x[i] == ms[i][j][c]
  {
    seq(|ms|, i requires 0 <= i < |ms| => ms[i][j][c])
  }

  /** The weighted mean of the matrices `ms`, entry by entry. */
  function WeightedMean(ms: seq<Matrix>, w: seq<real>, rows: nat, cols: nat): (m: Matrix)
    requires |w| == |ms| && AllShaped(ms, rows, cols) && Sum(w) != 0.0
    ensures Shaped(m, rows, cols)
  {
    seq(rows, j requires 0 <= j < rows =>
      seq(cols, c requires 0 <= c < cols => WeightedSum(w, Column(ms, rows, cols, j, c)) / Sum(w)))
  }

  /**
    * With positive weights, every entry of the weighted mean lies between the
    * smallest and the largest value of that entry among the matrices.
    */
  lemma WeightedMeanInHull(ms: seq<Matrix>, w: seq<real>, rows: nat, cols: nat, j: nat, c: nat, lo: real, hi: real)
    requires 0 < |w| == |ms| && AllShaped(ms, rows, cols)
    requires forall i :: 0 <= i < |w| ==> 0.0 < w[i]
    requires j < rows && c < cols
    requires forall i :: 0 <= i < |ms| ==> lo <= ms[i][j][c] <= hi
    ensures 0.0 < Sum(w) && lo <= WeightedMean(ms, w, rows, cols)[j][c] <= hi
  {
    var x := Column(ms, rows, cols, j, c);
    MeanInHull(w, x, lo, hi);
    assert WeightedMean(ms, w, rows, cols)[j][c] == WeightedSum(w, x) / Sum(w);
  }

  /** `0.6 * prev + 0.4 * mean`, entry by entry. */
  function Smooth(prev: Matrix, mean: Matrix, rows: nat, cols: nat): (m: Matrix)
    requires Shaped(prev, rows, cols) && Shaped(mean, rows, cols)
    ensures Shaped(m, rows, cols)
    ensures forall j, c :: 0 <= j < rows && 0 <= c < cols ==>
              Min(prev[j][c], mean[j][c]) <= m[j][c] <= Max(prev[j][c], mean[j][c])
  {
    seq(rows, j requires 0 <= j < rows =>
      seq(cols, c requires 0 <= c < cols => prev[j][c] * 0.6 + mean[j][c] * 0.4))
  }

  /** The best `ELITE` samples: the first ones of the stable descending ranking. */
  function Elite(samples: seq<Sample>): (e: seq<Sample>)
    requires ELITE <= |samples|
    ensures |e| == ELITE
    ensures StableSort.SortedDesc(e, TrajectoryKey)
    ensures multiset(e) <= multiset(samples)
    ensures forall i :: 0 <= i < ELITE ==> exists k :: 0 <= k < |samples| && samples[k] == e[i]
  {
    var ranked := StableSort.SortDesc(samples, TrajectoryKey);
    StableSort.SortDescSorted(samples, TrajectoryKey);
    assert ranked == ranked[..ELITE] + ranked[ELITE..];
    var e := ranked[..ELITE];
    forall i | 0 <= i < ELITE
      ensures exists k :: 0 <= k < |samples| && samples[k] == e[i]
    {
      assert e[i] in multiset(samples);
    }
    e
  }

  /** No sample left out of the elite has a higher trajectory reward than an elite sample. */
  lemma EliteIsBest(samples: seq<Sample>)
    requires ELITE <= |samples|
    ensures var ranked := StableSort.SortDesc(samples, TrajectoryKey);
            && Elite(samples) == ranked[..ELITE]
            && forall i, j :: 0 <= i < ELITE <= j < |samples| ==> ranked[j].trajectoryReward <= ranked[i].trajectoryReward
  {
    StableSort.SortDescSorted(samples, TrajectoryKey);
  }

  function EliteCps(elite: seq<Sample>): (ms: seq<Matrix>)
    ensures |ms| == |elite| && forall i :: 0 <= i < |elite| ==> ms[i] == elite[i].cps
  {
    seq(|elite|, i requires 0 <= i < |elite| => elite[i].cps)
  }

  function EliteCpsT(elite: seq<Sample>): (ms: seq<Matrix>)
    ensures |ms| == |elite| && forall i :: 0 <= i < |elite| ==> ms[i] == elite[i].cpsT
  {
    seq(|elite|, i requires 0 <= i < |elite| => elite[i].cpsT)
  }

  function EliteRewards(elite: seq<Sample>): (x: seq<real>)
    ensures |x| == |elite| && forall i :: 0 <= i < |elite| ==> x[i] == elite[i].trajectoryReward
  {
    seq(|elite|, i requires 0 <= i < |elite| => elite[i].trajectoryReward)
  }

  function EliteTargets(elite: seq<Sample>): (x: seq<real>)
    ensures |x| == |elite| && forall i :: 0 <= i < |elite| ==> x[i] == elite[i].target
  {
    seq(|elite|, i requires 0 <= i < |elite| => elite[i].target)
  }

  /** The mean of the vectors `vs`, entry by entry, as `mTargetCurMean` accumulates it. */
  function VectorMean(vs: seq<seq<real>>, n: nat): (m: seq<real>)
    requires 0 < |vs| && forall i :: 0 <= i < |vs| ==> |vs[i]| == n
    ensures |m| == n
  {
    seq(n, c requires 0 <= c < n => Sum(seq(|vs|, i requires 0 <= i < |vs| => vs[i][c])) / |vs| as real)
  }

  /** The new time step of every phase frame from the evaluated time spline. */
  function TimeSteps(displacement: seq<real>, phaseLength: nat): (ts: seq<real>)
    requires phaseLength <= |displacement|
    ensures |ts| == phaseLength
    ensures forall i :: 0 <= i < phaseLength ==> ts[i] - 1.0 == displacement[i]
  {
    seq(phaseLength, i requires 0 <= i < phaseLength => 1.0 + displacement[i])
  }

  /** `Optimize` runs only in update mode and with enough samples. */
  predicate ReadyToOptimize(st: State)
  {
    st.refUpdateMode && MIN_SAMPLES <= |st.samples|
  }

  /** The control points of the elite have the current shape, and the rank weights have a positive total. */
  lemma RecombinationDefined(st: State, log: real -> real)
    requires WellFormed(st) && LogLike(log) && ReadyToOptimize(st)
    ensures var elite := Elite(st.samples);
            && AllShaped(EliteCps(elite), |st.knots| + 3, st.dof)
            && AllShaped(EliteCpsT(elite), |st.knotsT| + 3, 1)
            && 0.0 < Sum(RankWeights(log))
            && forall i :: 0 <= i < ELITE ==> 0.0 < RankWeights(log)[i]
  {
    var elite := Elite(st.samples);
    forall i | 0 <= i < ELITE
      ensures SampleShaped(st, elite[i])
    {
      var k :| 0 <= k < |st.samples| && st.samples[k] == elite[i];
    }
    RankWeightsPositiveDecreasing(log);
    SumPositive(RankWeights(log));
  }

  /** The recombined pose control points. */
  function NewCps(st: State, log: real -> real): (m: Matrix)
    requires WellFormed(st) && LogLike(log) && ReadyToOptimize(st)
    ensures Shaped(m, |st.knots| + 3, st.dof)
  {
    RecombinationDefined(st, log);
    var rows := |st.knots| + 3;
    Smooth(st.prevCps, WeightedMean(EliteCps(Elite(st.samples)), RankWeights(log), rows, st.dof), rows, st.dof)
  }

  /** The recombined time control points. */
  function NewCpsT(st: State, log: real -> real): (m: Matrix)
    requires WellFormed(st) && LogLike(log) && ReadyToOptimize(st)
    ensures Shaped(m, |st.knotsT| + 3, 1)
  {
    RecombinationDefined(st, log);
    var rows := |st.knotsT| + 3;
    Smooth(st.prevCpsT, WeightedMean(EliteCpsT(Elite(st.samples)), RankWeights(log), rows, 1), rows, 1)
  }

  /**
    * The state after a successful `Optimize`: the samples are ranked, the
    * control points of the elite are averaged with the rank weights and blended
    * 0.6/0.4 into the current ones, the time steps become 1 plus the
    * evaluated time spline, the cut-lines become the weighted
    * trajectory reward and plain mean target reward of the elite, the target mean becomes
    * the mean of the stored targets, both sample lists are emptied and the
    * optimisation count grows by one.
    */
  function Optimized(st: State, log: real -> real, evalT: Matrix -> seq<real>): (r: State)
    requires WellFormed(st) && LogLike(log) && ReadyToOptimize(st)
    requires forall m :: st.phaseLength <= |evalT(m)|
    ensures WellFormed(r)
    ensures r.samples == [] && r.sampleTargets == [] && r.nOp == st.nOp + 1
    ensures r.prevCps == NewCps(st, log) && r.prevCpsT == NewCpsT(st, log)
    ensures |r.timeStep| == st.phaseLength <= |evalT(r.prevCpsT)|
    ensures forall i :: 0 <= i < st.phaseLength ==> r.timeStep[i] == 1.0 + evalT(r.prevCpsT)[i]
    ensures 0.0 < Sum(RankWeights(log))
    ensures r.prevRewardTrajectory == WeightedSum(RankWeights(log), EliteRewards(Elite(st.samples))) / Sum(RankWeights(log))
    ensures r.prevRewardTarget == Sum(EliteTargets(Elite(st.samples))) / ELITE as real
    ensures r.targetCurMean == VectorMean(st.sampleTargets, |st.targetCurMean|)
    ensures r.nT == st.nT && r.nET == st.nET && r.meanTracking == st.meanTracking && r.meanTarget == st.meanTarget
    ensures r.knots == st.knots && r.knotsT == st.knotsT && r.refUpdateMode && r.phaseLength == st.phaseLength
  {
    var elite := Elite(st.samples);
    var w := RankWeights(log);
    RecombinationDefined(st, log);
    var prevCpsT := NewCpsT(st, log);
    st.(prevCps := NewCps(st, log), prevCpsT := prevCpsT,
        prevRewardTrajectory := WeightedSum(w, EliteRewards(elite)) / Sum(w),
        prevRewardTarget := Sum(EliteTargets(elite)) / ELITE as real,
        timeStep := TimeSteps(evalT(prevCpsT), st.phaseLength),
        nOp := st.nOp + 1, samples := [],
        targetCurMean := VectorMean(st.sampleTargets, |st.targetCurMean|), sampleTargets := [])
  }

  /**
    * `Optimize`: false and no change unless update mode is on and enough
    * samples are stored; otherwise true and the recombined state.
    */
  function Optimize(st: State, log: real -> real, evalT: Matrix -> seq<real>): (res: (bool, State))
    requires WellFormed(st) && LogLike(log)
    requires forall m :: st.phaseLength <= |evalT(m)|
    ensures res.0 <==> ReadyToOptimize(st)
    ensures !res.0 ==> res.1 == st
    ensures WellFormed(res.1)
    ensures res.0 ==> res.1.samples == [] && res.1.nOp == st.nOp + 1
  {
    if !ReadyToOptimize(st) then (false, st) else (true, Optimized(st, log, evalT))
  }

  /**
    * Every new control-point entry lies between the smallest and largest of
    * the old entry and the entries of the stored samples: the update never leaves
    * their hull.
    */
  lemma OptimizeStaysInHull(st: State, log: real -> real, j: nat, c: nat, lo: real, hi: real)
    requires WellFormed(st) && LogLike(log) && ReadyToOptimize(st)
    requires j < |st.knots| + 3 && c < st.dof
    requires lo <= st.prevCps[j][c] <= hi
    requires forall i :: 0 <= i < |st.samples| ==> lo <= st.samples[i].cps[j][c] <= hi
    ensures lo <= NewCps(st, log)[j][c] <= hi
  {
    var elite := Elite(st.samples);
    RecombinationDefined(st, log);
    var cps := EliteCps(elite);
    forall i | 0 <= i < ELITE
      ensures lo <= cps[i][j][c] <= hi
    {
      var k :| 0 <= k < |st.samples| && st.samples[k] == elite[i];
    }
    WeightedMeanInHull(cps, RankWeights(log), |st.knots| + 3, st.dof, j, c, lo, hi);
  }

  /** The new trajectory cut-line lies between the worst and best trajectory reward stored. */
  lemma OptimizeCutLineInRange(st: State, log: real -> real, evalT: Matrix -> seq<real>, lo: real, hi: real)
    requires WellFormed(st) && LogLike(log) && forall m :: st.phaseLength <= |evalT(m)|
    requires ReadyToOptimize(st)
    requires forall i :: 0 <= i < |st.samples| ==> lo <= st.samples[i].trajectoryReward <= hi
    ensures lo <= Optimized(st, log, evalT).prevRewardTrajectory <= hi
  {
    var elite := Elite(st.samples);
    var w := RankWeights(log);
    RecombinationDefined(st, log);
    var x := EliteRewards(elite);
    forall i | 0 <= i < ELITE
      ensures lo <= x[i] <= hi
    {
      var k :| 0 <= k < |st.samples| && st.samples[k] == elite[i];
    }
    MeanInHull(w, x, lo, hi);
  }

  // ---------------------------------------------------------------- external target

  /**
    * `UpdateExternalTarget`: the counters are cleared; the answer is whether
    * more than 80% of the rollouts since the last call survived and the
    * running tracking reward exceeds 0.75.  With no rollout the ratio is
    * 0/0, a NaN, and the answer is false.
    */
  function UpdateExternalTarget(st: State): (res: (bool, State))
    ensures res.1 == st.(nT := 0, nET := 0)
    ensures res.0 ==> 0 < st.nT + st.nET && st.meanTracking > 0.75
  {
    var total := st.nT + st.nET;
    var ok := total != 0 && (st.nT as real / total as real) > 0.8 && st.meanTracking > 0.75;
    (ok, st.(nT := 0, nET := 0))
  }

  /** The survival test in integers: more than four survivals per early termination. */
  lemma UpdateExternalTargetByCounts(st: State)
    ensures UpdateExternalTarget(st).0 <==> st.nT > 4 * st.nET && st.meanTracking > 0.75
  {
    if st.nT + st.nET != 0 {
      RatioAboveFourFifths(st.nT as real, st.nET as real);
    }
  }

  lemma RatioAboveFourFifths(t: real, e: real)
    requires 0.0 <= t && 0.0 <= e && 0.0 < t + e
    ensures t / (t + e) > 0.8 <==> t > 4.0 * e
  {
    QuotientAbove(t, t + e, 0.8);
  }

  lemma QuotientAbove(t: real, total: real, c: real)
    requires 0.0 < total
    ensures t / total > c <==> t > c * total
  {
    var q := t / total;
    assert q * total == t;
    if q > c {
      ProductSign(q - c, total);
      assert (q - c) * total == q * total - c * total;
    } else {
      ProductSign(c - q, total);
      assert (c - q) * total == c * total - q * total;
    }
  }

  lemma ProductSign(a: real, b: real)
    requires 0.0 <= a && 0.0 < b
    ensures 0.0 <= a * b && (0.0 < a ==> 0.0 < a * b)
  {
  }

  /**
    * `NeedUpdateSigTarget`: 1 when the target reward is too low, -1 when it is
    * too high, 0 otherwise; both need a tracking reward above 0.75.
    */
  function NeedUpdateSigTarget(st: State): (r: int)
    ensures r == 1 <==> st.meanTarget < 0.05 && st.meanTracking > 0.75
    ensures r == -1 <==> st.meanTarget > 0.8 && st.meanTracking > 0.75
    ensures r == 0 <==> st.meanTracking <= 0.75 || 0.05 <= st.meanTarget <= 0.8
  {
    if st.meanTarget < 0.05 && st.meanTracking > 0.75 then 1
    else if st.meanTarget > 0.8 && st.meanTracking > 0.75 then -1
    else 0
  }

  /**
    * The target signal and the external-target test read the same tracking
    * bar: a signal needs the tracking mean above 0.75, so with more than
    * four survivals per early termination the external target moves too;
    * and the signal reads only the means, so clearing the counters in
    * `UpdateExternalTarget` leaves it as it was.
    */
  lemma SigTargetFollowsExternalTarget(st: State)
    ensures NeedUpdateSigTarget(st) != 0 ==> st.meanTracking > 0.75
    ensures NeedUpdateSigTarget(st) != 0 && st.nT > 4 * st.nET ==> UpdateExternalTarget(st).0
    ensures !UpdateExternalTarget(st).0 && st.nT > 4 * st.nET ==> NeedUpdateSigTarget(st) == 0
    ensures NeedUpdateSigTarget(UpdateExternalTarget(st).1) == NeedUpdateSigTarget(st)
  {
    UpdateExternalTargetByCounts(st);
  }

  // ---------------------------------------------------------------- regression samples

  /**
    * `GetRegressionSamples`: one row per stored sample and control point
    * `j < K + 3`, the input being `j` followed by the parameters of the sample, the
    * output its control point `j` and the reward of the sample; the stored
    * samples are then cleared.  The three columns are those of `FlatRows`,
    * whose row `i * (K + 3) + j` `FlatRowsAt` identifies.
    */
  method GetRegressionSamples(st: State) returns (x: seq<seq<real>>, y: seq<seq<real>>, rw: seq<real>, r: State)
    requires forall i :: 0 <= i < |st.regressionSamples| ==> |st.knots| + 3 <= |st.regressionSamples[i].cps|
    ensures r == st.(regressionSamples := [])
    ensures |x| == |y| == |rw| == |st.regressionSamples| * (|st.knots| + 3)
    ensures var rows := FlatRows(st.regressionSamples, |st.knots| + 3);
            forall m :: 0 <= m < |x| ==> x[m] == rows[m].0 && y[m] == rows[m].1 && rw[m] == rows[m].2
  {
    var k := |st.knots| + 3;
    var samples := st.regressionSamples;
    ghost var rows := FlatRows(samples, k);
    x, y, rw := [], [], [];
    var i := 0;
    while i < |samples|
      invariant 0 <= i <= |samples|
      invariant |x| == |y| == |rw| == i * k
      invariant RowsMatch(x, y, rw, rows)
    {
      x, y, rw := AppendSampleRows(x, y, rw, samples, k, i, i * k, rows);
      assert i * k + k == (i + 1) * k;
      i := i + 1;
    }
    r := st.(regressionSamples := []);
  }

  /** The output columns agree with `rows` wherever they are defined. */
  ghost predicate RowsMatch(x: seq<seq<real>>, y: seq<seq<real>>, rw: seq<real>, rows: seq<(seq<real>, seq<real>, real)>)
  {
    && |x| == |y| == |rw| <= |rows|
    && forall m :: 0 <= m < |x| ==> x[m] == rows[m].0 && y[m] == rows[m].1 && rw[m] == rows[m].2
  }

  /** The inner loop of `GetRegressionSamples`: the `k` rows of sample `i`, written from row `base = i * k` on. */
  method AppendSampleRows(x0: seq<seq<real>>, y0: seq<seq<real>>, rw0: seq<real>, samples: seq<RegressionSample>,
                          k: nat, i: nat, base: nat, ghost rows: seq<(seq<real>, seq<real>, real)>)
    returns (x: seq<seq<real>>, y: seq<seq<real>>, rw: seq<real>)
    requires forall a :: 0 <= a < |samples| ==> k <= |samples[a].cps|
    requires i < |samples| && rows == FlatRows(samples, k) && base == i * k
    requires |x0| == base && RowsMatch(x0, y0, rw0, rows)
    ensures |x| == base + k && RowsMatch(x, y, rw, rows)
  {
    x, y, rw := x0, y0, rw0;
    var j := 0;
    while j < k
      invariant 0 <= j <= k
      invariant |x| == base + j && RowsMatch(x, y, rw, rows)
    {
      FlatRowsAt(samples, k, i, j);
      x := x + [[j as real] + samples[i].parameters];
      y := y + [samples[i].cps[j]];
      rw := rw + [samples[i].reward];
      j := j + 1;
    }
  }

  /** The `k` regression rows of one sample: control-point index and target parameters, control point, reward. */
  function SampleRows(s: RegressionSample, k: nat): (rows: seq<(seq<real>, seq<real>, real)>)
    requires k <= |s.cps|
    ensures |rows| == k
  {
    seq(k, j requires 0 <= j < k => ([j as real] + s.parameters, s.cps[j], s.reward))
  }

  /** The rows of every sample, sample after sample. */
  function FlatRows(samples: seq<RegressionSample>, k: nat): (rows: seq<(seq<real>, seq<real>, real)>)
    requires forall i :: 0 <= i < |samples| ==> k <= |samples[i].cps|
    ensures |rows| == |samples| * k
  {
    if |samples| == 0 then []
    else
      assert |samples| * k == (|samples| - 1) * k + k;
      FlatRows(samples[..|samples| - 1], k) + SampleRows(samples[|samples| - 1], k)
  }

  /** Row `i * k + j` of the flattening is row `j` of sample `i`. */
  lemma {:induction false} FlatRowsAt(samples: seq<RegressionSample>, k: nat, i: nat, j: nat)
    requires forall a :: 0 <= a < |samples| ==> k <= |samples[a].cps|
    requires i < |samples| && j < k
    ensures i * k + j < |samples| * k
    ensures FlatRows(samples, k)[i * k + j] == SampleRows(samples[i], k)[j]
    decreases |samples|
  {
    var n := |samples|;
    RowInRange(i, j, n, k);
    if i < n - 1 {
      RowInRange(i, j, n - 1, k);
      FlatRowsAt(samples[..n - 1], k, i, j);
    } else {
      assert i * k == (n - 1) * k;
    }
  }
}

=== FILE: regression_memory.dfy ===
/**
  * The primitives of the regression memory's parameter grid that its header
  * defines: the lexicographic `std::less` on vectors that orders the grid
  * map's keys, the `ParamCube` grid cell, and the trained ratio.  Vector
  * entries are `Float`s, since an IEEE comparison with NaN is false both ways.
  */
module RegressionMemory {
  import opened Numeric

  /** IEEE `<`: false whenever either side is NaN. */
  predicate Lt(x: Float, y: Float)
  {
    x.Num? && y.Num? && x.v < y.v
  }

  /**
    * The lexicographic order as a recursive definition: the first entry
    * where one vector is below the other decides; a vector is never below
    * one it does not differ from.
    */
  predicate LexLess(a: seq<Float>, b: seq<Float>)
    requires |a| == |b|
  {
    if |a| == 0 then false
    else if Lt(a[0], b[0]) then true
    else if Lt(b[0], a[0]) then false
    else LexLess(a[1..], b[1..])
  }

  /**
    * `std::less<VectorXd>::operator()`: scan from the front, answering true
    * at the first entry below and false at the first entry above; false when
    * no entry decides.  The sizes are asserted equal.
    */
  method Less(a: seq<Float>, b: seq<Float>) returns (r: bool)
    requires |a| == |b|
    ensures r == LexLess(a, b)
  {
    var i := 0;
    while i < |a|
      invariant 0 <= i <= |a|
      invariant LexLess(a, b) == LexLess(a[i..], b[i..])
    {
      assert a[i..][1..] == a[i + 1..] && b[i..][1..] == b[i + 1..];
      if Lt(a[i], b[i]) {
        return true;
      }
      if Lt(b[i], a[i]) {
        return false;
      }
      i := i + 1;
    }
    return false;
  }

  predicate NaNFree(a: seq<Float>)
  {
    forall i :: 0 <= i < |a| ==> a[i].Num?
  }

  /** No vector is below itself, NaN entries or not. */
  lemma {:induction false} LexIrreflexive(a: seq<Float>)
    ensures !LexLess(a, a)
    decreases |a|
  {
    if |a| != 0 {
      LexIrreflexive(a[1..]);
    }
  }

  /** Two vectors are never below each other. */
  lemma {:induction false} LexAsymmetric(a: seq<Float>, b: seq<Float>)
    requires |a| == |b|
    ensures LexLess(a, b) ==> !LexLess(b, a)
    decreases |a|
  {
    if |a| != 0 {
      LexAsymmetric(a[1..], b[1..]);
    }
  }

  /** On NaN-free vectors of one length the order is transitive. */
  lemma {:induction false} LexTransitive(a: seq<Float>, b: seq<Float>, c: seq<Float>)
    requires |a| == |b| == |c| && NaNFree(a) && NaNFree(b) && NaNFree(c)
    requires LexLess(a, b) && LexLess(b, c)
    ensures LexLess(a, c)
    decreases |a|
  {
    if !Lt(a[0], b[0]) && !Lt(b[0], c[0]) {
      assert a[0] == b[0] == c[0];
      NaNFreeTail(a); NaNFreeTail(b); NaNFreeTail(c);
      LexTransitive(a[1..], b[1..], c[1..]);
    }
  }

  lemma NaNFreeTail(a: seq<Float>)
    requires 0 < |a| && NaNFree(a)
    ensures NaNFree(a[1..])
  {
    forall i | 0 <= i < |a[1..]|
      ensures a[1..][i].Num?
    {
      assert a[1..][i] == a[i + 1];
    }
  }

  /**
    * On NaN-free vectors of one length two vectors neither of which is
    * below the other are equal: the order's equivalence is equality, so
    * distinct grid points are distinct map keys.
    */
  lemma {:induction false} LexTotal(a: seq<Float>, b: seq<Float>)
    requires |a| == |b| && NaNFree(a) && NaNFree(b)
    ensures LexLess(a, b) || LexLess(b, a) || a == b
    decreases |a|
  {
    if |a| != 0 && !Lt(a[0], b[0]) && !Lt(b[0], a[0]) {
      NaNFreeTail(a); NaNFreeTail(b);
      LexTotal(a[1..], b[1..]);
      if a[1..] == b[1..] {
        assert a == [a[0]] + a[1..] && b == [b[0]] + b[1..];
      }
    }
  }

  /**
    * With a NaN entry the order is not transitive: `[1, 0] < [NaN, 5] <
    * [0, 9]`, yet `[0, 9] < [1, 0]`, because NaN hides the first entry.
    */
  lemma NaNBreaksTransitivity()
    ensures var a, b, c := [Num(1.0), Num(0.0)], [NaN, Num(5.0)], [Num(0.0), Num(9.0)];
            LexLess(a, b) && LexLess(b, c) && LexLess(c, a)
  {
    var a, b, c := [Num(1.0), Num(0.0)], [NaN, Num(5.0)], [Num(0.0), Num(9.0)];
    assert a[1..] == [Num(0.0)] && b[1..] == [Num(5.0)] && c[1..] == [Num(9.0)];
    assert LexLess(a[1..], b[1..]);
    assert LexLess(b[1..], c[1..]);
  }

  // ---------------------------------------------------------------- grid cells

  /** A sample of the parameter space: its normalised parameter, control points, reward and update flag. */
  datatype Param = Param(normalized: seq<real>, cps: seq<seq<real>>, reward: real, update: bool)

  /** A grid cell: its index on the grid, the samples put into it, and whether it is activated. */
  datatype ParamCube = ParamCube(idx: seq<real>, params: seq<Param>, activated: bool)

  /** A new cell stores its index, holds no samples and is deactivated. */
  function NewCube(i: seq<real>): (c: ParamCube)
    ensures c.idx == i && GetNumParams(c) == 0 && !c.activated
  {
    ParamCube(i, [], false)
  }

  function GetNumParams(c: ParamCube): nat
  {
    |c.params|
  }

  /** `PutParam` appends: one more sample, the earlier ones kept in order, index and activation untouched. */
  function PutParam(c: ParamCube, p: Param): (r: ParamCube)
    ensures GetNumParams(r) == GetNumParams(c) + 1
    ensures r.params[..GetNumParams(c)] == c.params && r.params[GetNumParams(c)] == p
    ensures r.idx == c.idx && r.activated == c.activated
  {
    c.(params := c.params + [p])
  }

  /** The cell after putting the samples `ps` one by one. */
  function PutAll(c: ParamCube, ps: seq<Param>): ParamCube
    decreases |ps|
  {
    if |ps| == 0 then c else PutAll(PutParam(c, ps[0]), ps[1..])
  }

  /** Putting samples one by one keeps insertion order: the cell holds its samples followed by `ps`. */
  lemma {:induction false} PutAllAppends(c: ParamCube, ps: seq<Param>)
    ensures PutAll(c, ps) == c.(params := c.params + ps)
    decreases |ps|
  {
    if |ps| != 0 {
      PutAllAppends(PutParam(c, ps[0]), ps[1..]);
      assert c.params + [ps[0]] + ps[1..] == c.params + ps;
    }
  }

  /** `SetActivated` sets the flag to the value given and changes nothing else. */
  function SetActivated(c: ParamCube, ac: bool): (r: ParamCube)
    ensures r.activated == ac && r.idx == c.idx && r.params == c.params
  {
    c.(activated := ac)
  }

  /** The cell does not make activation one-way: a set flag can be cleared again. */
  lemma ActivationNotMonotone(c: ParamCube)
    ensures SetActivated(c, true).activated
    ensures !SetActivated(SetActivated(c, true), false).activated
  {
  }

  // ---------------------------------------------------------------- trained ratio

  /**
    * `GetTrainedRatio`: the activated share of all grid points; `0 / 0` is
    * NaN when both maps are empty.
    */
  function GetTrainedRatio<K>(activated: map<K, int>, deactivated: map<K, int>): (r: Float)
    ensures r.NaN? <==> |activated| + |deactivated| == 0
    ensures r.Num? ==> 0.0 <= r.v <= 1.0
    ensures r.Num? ==> r.v * (|activated| + |deactivated|) as real == |activated| as real
  {
    var total := |activated| + |deactivated|;
    if total == 0 then NaN
    else
      RatioInUnit(|activated|, total);
      Num(|activated| as real / total as real)
  }

  lemma RatioInUnit(a: nat, n: nat)
    requires 0 < n && a <= n
    ensures 0.0 <= a as real / n as real <= 1.0
    ensures (a as real / n as real) * n as real == a as real
  {
  }

  /** The ratio is 1 when no grid point is deactivated and 0 when none is activated. */
  lemma TrainedRatioExtremes<K>(activated: map<K, int>, deactivated: map<K, int>)
    requires 0 < |activated| + |deactivated|
    ensures |deactivated| == 0 ==> GetTrainedRatio(activated, deactivated) == Num(1.0)
    ensures |activated| == 0 ==> GetTrainedRatio(activated, deactivated) == Num(0.0)
  {
  }
}

=== FILE: sampler.dfy ===
/**
  * The goal sampler of the adaptive curriculum: it keeps a running mean of
  * the episode returns, rebuilds pools of goal parameters by Metropolis
  * walks weighted by the value network, and decides when a curriculum
  * stage has learned enough.  The value networks, `exp`, the random
  * goal draws and the uniform coins are parameters; a draw of
  * `np.random.randint(n)` is given as a number and taken modulo `n`.
  * A weight is what the program's doubles hold, a finite number, infinity
  * or NaN; a weight the program cannot compute because it raises (an
  * exponent past the double range, a zero previous value) is `None`.
  */
module Sampler {
  import opened Numeric
  import StableSort

  /** The sharpness `k` of both weightings. */
  const K: real := 10.0

  /** The cap on the slope of the time-series weighting. */
  const SLOPE_CAP: real := 10.0

  /** The floor added to every weight, `1e-10`. */
  const EPSILON: real := 0.0000000001

  /** The largest argument `math.exp` accepts: the natural log of the largest double. */
  const EXP_MAX: real := 709.782712893384

  // ---------------------------------------------------------------- weights

  /** A Metropolis weight as a double: finite, infinite, or NaN. */
  datatype Weight = Finite(r: real) | Infinite | Undefined

  /** Strictly lighter as doubles compare: only a finite weight is, than a larger one or than infinity. */
  predicate Lighter(a: Weight, b: Weight)
  {
    a.Finite? && (b.Infinite? || (b.Finite? && a.r < b.r))
  }

  /** `probTS`: the relative change of the value since the previous network, times `2k`, capped at 10, through `exp`. */
  function ProbTS(v: real, vPrev: real, hard: bool, exp: real -> real): (p: Option<Weight>)
    requires ExpLike(exp)
    ensures p.None? <==> vPrev == 0.0
    ensures p.Some? ==> p.value.Finite? && EPSILON < p.value.r <= exp(SLOPE_CAP) + EPSILON
    ensures p.Some? ==>
              var slope := (if hard then vPrev - v else v - vPrev) / vPrev * K * 2.0;
              p.value.r == exp(if slope > SLOPE_CAP then SLOPE_CAP else slope) + EPSILON
  {
    if vPrev == 0.0 then None
    else
      var slope := (if hard then vPrev - v else v - vPrev) / vPrev * K * 2.0;
      var capped := if slope > SLOPE_CAP then SLOPE_CAP else slope;
      assert capped <= SLOPE_CAP;
      assert capped == SLOPE_CAP || exp(capped) < exp(SLOPE_CAP);
      Some(Finite(exp(capped) + EPSILON))
  }

  /**
    * The soft time-series weight favours the goals whose value grew most:
    * with a positive previous value it never decreases as the value grows.
    */
  lemma ProbTSMonotone(v1: real, v2: real, vPrev: real, exp: real -> real)
    requires ExpLike(exp) && 0.0 < vPrev && v1 <= v2
    ensures ProbTS(v1, vPrev, false, exp).value.r <= ProbTS(v2, vPrev, false, exp).value.r
  {
    var s1 := (v1 - vPrev) / vPrev * K * 2.0;
    var s2 := (v2 - vPrev) / vPrev * K * 2.0;
    assert (v1 - vPrev) / vPrev <= (v2 - vPrev) / vPrev by {
      DivideMonotone(v1 - vPrev, v2 - vPrev, vPrev);
    }
    assert s1 <= s2;
    var c1 := if s1 > SLOPE_CAP then SLOPE_CAP else s1;
    var c2 := if s2 > SLOPE_CAP then SLOPE_CAP else s2;
    assert c1 <= c2;
    assert c1 == c2 || exp(c1) < exp(c2);
  }

  lemma DivideMonotone(a: real, b: real, c: real)
    requires a <= b && 0.0 < c
    ensures a / c <= b / c
  {
    assert b / c - a / c == (b - a) / c;
  }

  /** The exponent of `probAdaptive` for a nonzero mean: `∓k (v - mean) / mean`. */
  function AdaptiveExponent(v: real, mean: real, hard: bool): real
    requires mean != 0.0
  {
    (if hard then -1.0 else 1.0) * K * (v - mean) / mean
  }

  /**
    * `probAdaptive`: `exp(∓k (v - mean) / mean) + 1e-10`, the hard weighting
    * favouring goals below the mean.  The mean is a numpy double, so a NaN
    * mean gives a NaN weight and a zero mean an infinite exponent: the weight
    * is infinite for `exp(+inf)`, `1e-10` for `exp(-inf)`, NaN for `0/0`.
    * Only a finite exponent past the double range makes `math.exp` raise.
    */
  function ProbAdaptive(v: real, mean: Float, hard: bool, exp: real -> real): (p: Option<Weight>)
    requires ExpLike(exp)
    ensures p.None? <==> mean.Num? && mean.v != 0.0 && AdaptiveExponent(v, mean.v, hard) > EXP_MAX
    ensures mean.NaN? ==> p == Some(Undefined)
    ensures mean == Num(0.0) ==>
              var num := (if hard then -1.0 else 1.0) * v;
              p == Some(if 0.0 < num then Infinite else if num < 0.0 then Finite(EPSILON) else Undefined)
    ensures mean.Num? && mean.v != 0.0 && p.Some? ==>
              p.value.Finite? && EPSILON < p.value.r && p.value.r == exp(AdaptiveExponent(v, mean.v, hard)) + EPSILON
  {
    match mean
    case NaN => Some(Undefined)
    case Num(mv) =>
      if mv == 0.0 then
        var num := (if hard then -1.0 else 1.0) * K * v;
        Some(if 0.0 < num then Infinite else if num < 0.0 then Finite(EPSILON) else Undefined)
      else
        var x := AdaptiveExponent(v, mv, hard);
        if x > EXP_MAX then None else Some(Finite(exp(x) + EPSILON))
  }

  /**
    * The Metropolis acceptance `min(1.0, pNew / pCur)` on doubles: a move to
    * a weight that is not lighter is always taken, one to a lighter finite
    * weight with the ratio, or never when the current weight is infinite.
    * A NaN ratio (a NaN weight, or infinity over infinity) gives 1, because
    * Python's `min(1.0, nan)` keeps its first argument.
    */
  function Accept(pNew: Weight, pCur: Weight): (alpha: real)
    requires Sound(pNew) && Sound(pCur)
    ensures 0.0 <= alpha <= 1.0
    ensures alpha == 1.0 <==> !Lighter(pNew, pCur)
    ensures pNew.Finite? && pCur.Finite? ==> 0.0 < alpha
    ensures Lighter(pNew, pCur) && pCur.Finite? ==> alpha * pCur.r == pNew.r
    ensures Lighter(pNew, pCur) && pCur.Infinite? ==> alpha == 0.0
  {
    match (pNew, pCur)
    case (Finite(a), Finite(b)) =>
      var ratio := a / b;
      RatioBelowOne(a, b);
      if ratio < 1.0 then ratio else 1.0
    case (Finite(_), Infinite) => 0.0
    case _ => 1.0
  }

  /** The ratio of two positive numbers is positive, and below 1 exactly when the first is the smaller. */
  lemma RatioBelowOne(a: real, b: real)
    requires 0.0 < a && 0.0 < b
    ensures 0.0 < a / b
    ensures a / b < 1.0 <==> a < b
    ensures a / b * b == a
  {
    var r := a / b;
    assert r * b == a;
    if r <= 0.0 {
      ProductNonNegative(-r, b);
      assert false;
    }
    if r < 1.0 {
      ProductPositive(1.0 - r, b);
      assert (1.0 - r) * b == b - a;
    } else {
      ProductNonNegative(r - 1.0, b);
      assert (r - 1.0) * b == a - b;
    }
  }

  lemma ProductPositive(a: real, b: real)
    requires 0.0 < a && 0.0 < b
    ensures 0.0 < a * b
  {
  }

  /** A weight the program can produce: any finite one is positive, because `1e-10` is added to a value of `exp`. */
  predicate Sound(w: Weight)
  {
    w.Finite? ==> 0.0 < w.r
  }

  // ---------------------------------------------------------------- Metropolis walk

  /** A weight that was computed without an exception. */
  predicate Computed(p: Option<Weight>)
  {
    p.Some? && Sound(p.value)
  }

  /** Every point of `pts` has a positive weight. */
  predicate WeighedAll<X>(prob: X -> Option<Weight>, pts: seq<X>)
  {
    forall i :: 0 <= i < |pts| ==> Computed(prob(pts[i]))
  }

  /** What a walk of `|props|` steps from `x` weighs: the start, when it takes a step, and every proposal. */
  predicate WalkWeighed<X>(prob: X -> Option<Weight>, x: X, props: seq<X>)
  {
    (|props| == 0 || Computed(prob(x))) && WeighedAll(prob, props)
  }

  /** The points of one walk: `n` steps from `x`, proposing `props[j]` and moving when `coins[j] <= alpha`. */
  function Walk<X>(x: X, props: seq<X>, coins: seq<real>, prob: X -> Option<Weight>): (w: seq<X>)
    requires |coins| == |props| && WalkWeighed(prob, x, props)
    ensures |w| == |props| && (0 < |w| ==> w[0] == x)
    ensures forall j :: 0 <= j < |w| ==> w[j] == x || w[j] in props[..j]
    decreases |props|
  {
    if |props| == 0 then []
    else
      var next := if coins[0] <= Accept(prob(props[0]).value, prob(x).value) then props[0] else x;
      var rest := Walk(next, props[1..], coins[1..], prob);
      assert forall j :: 0 <= j < |rest| ==> props[1..][..j] == props[1..j + 1];
      [x] + rest
  }

  /** One step of the walk: the proposal replaces the current point exactly when its coin falls below the acceptance. */
  lemma {:induction false} WalkSteps<X>(x: X, props: seq<X>, coins: seq<real>, prob: X -> Option<Weight>, j: nat)
    requires |coins| == |props| && WalkWeighed(prob, x, props) && j + 1 < |props|
    ensures var w := Walk(x, props, coins, prob);
            w[j + 1] == if coins[j] <= Accept(prob(props[j]).value, prob(w[j]).value) then props[j] else w[j]
    decreases j
  {
    if j > 0 {
      var next := if coins[0] <= Accept(prob(props[0]).value, prob(x).value) then props[0] else x;
      WalkSteps(next, props[1..], coins[1..], prob, j - 1);
    }
  }

  /** A proposal that is not lighter than the current point is always taken, whatever the coin in `[0, 1)`. */
  lemma UphillAlwaysMoves<X>(x: X, props: seq<X>, coins: seq<real>, prob: X -> Option<Weight>, j: nat)
    requires |coins| == |props| && WalkWeighed(prob, x, props) && j + 1 < |props|
    requires 0.0 <= coins[j] < 1.0
    requires !Lighter(prob(props[j]).value, prob(Walk(x, props, coins, prob)[j]).value)
    ensures Walk(x, props, coins, prob)[j + 1] == props[j]
  {
    WalkSteps(x, props, coins, prob, j);
  }

  /**
    * When every weight is NaN, as with a NaN running mean, every acceptance
    * is `min(1.0, nan) == 1` and a walk takes every proposal: it visits its
    * start and then all proposals but the last.
    */
  lemma AllUndefinedWalkTakesEveryProposal<X>(x: X, props: seq<X>, coins: seq<real>, prob: X -> Option<Weight>)
    requires |coins| == |props| && 0 < |props|
    requires forall y :: prob(y) == Some(Undefined)
    requires forall j :: 0 <= j < |coins| ==> coins[j] <= 1.0
    ensures WalkWeighed(prob, x, props)
    ensures Walk(x, props, coins, prob) == [x] + props[..|props| - 1]
  {
    assert prob(x) == Some(Undefined);
    var w := Walk(x, props, coins, prob);
    forall j | 0 <= j < |w|
      ensures w[j] == ([x] + props[..|props| - 1])[j]
    {
      if j > 0 {
        WalkSteps(x, props, coins, prob, j - 1);
        assert prob(props[j - 1]) == Some(Undefined);
      }
    }
  }

  /** The random draws of one pool: `m` starting points, and per start `n` proposals and `n` coins. */
  predicate Shaped<X>(starts: seq<X>, props: seq<seq<X>>, coins: seq<seq<real>>, m: nat, n: nat)
  {
    && |starts| == m && |props| == m && |coins| == m
    && forall i :: 0 <= i < m ==> |props[i]| == n && |coins[i]| == n
  }

  /** Every weight the pool loop computes exists: with at least one step per walk, each start and each proposal is weighed. */
  predicate PoolWeighed<X>(prob: X -> Option<Weight>, starts: seq<X>, props: seq<seq<X>>, n: nat)
  {
    n == 0 || (WeighedAll(prob, starts) && forall i :: 0 <= i < |props| ==> WeighedAll(prob, props[i]))
  }

  /** The `m` walks of a pool, walk `i` from start `i` over its own proposals and coins. */
  function Walks<X>(starts: seq<X>, props: seq<seq<X>>, coins: seq<seq<real>>, m: nat, n: nat,
                          prob: X -> Option<Weight>): (rows: seq<seq<X>>)
    requires Shaped(starts, props, coins, m, n) && PoolWeighed(prob, starts, props, n)
    ensures |rows| == m && Rectangular(rows, n)
    ensures forall i :: 0 <= i < m ==> rows[i] == Walk(starts[i], props[i], coins[i], prob)
  {
    seq(m, i requires 0 <= i < m => Walk(starts[i], props[i], coins[i], prob))
  }

  /**
    * The pool loop: `m` walks of `n = int(N / m)` points each, every point
    * appended before its proposal is weighed; `m·n` entries in all.
    */
  method BuildPool<X>(starts: seq<X>, props: seq<seq<X>>, coins: seq<seq<real>>, m: nat, n: nat,
                            prob: X -> Option<Weight>) returns (pool: seq<X>)
    requires Shaped(starts, props, coins, m, n) && PoolWeighed(prob, starts, props, n)
    ensures pool == Flatten(Walks(starts, props, coins, m, n, prob))
    ensures |pool| == m * n
  {
    var rows := Walks(starts, props, coins, m, n, prob);
    pool := [];
    var i := 0;
    while i < m
      invariant 0 <= i <= m && pool == Flatten(rows[..i])
    {
      FlattenSnoc(rows, i);
      pool := pool + rows[i];
      i := i + 1;
    }
    assert rows[..m] == rows;
    FlattenLength(rows, n);
  }

  /** Every entry of a pool is one of the randomly drawn starts or proposals: the walks only repeat draws. */
  lemma PoolHoldsDraws<X>(starts: seq<X>, props: seq<seq<X>>, coins: seq<seq<real>>, m: nat, n: nat,
                                prob: X -> Option<Weight>)
    requires Shaped(starts, props, coins, m, n) && PoolWeighed(prob, starts, props, n)
    ensures forall x :: x in Flatten(Walks(starts, props, coins, m, n, prob)) ==>
              x in starts || exists i :: 0 <= i < m && x in props[i]
  {
    var rows := Walks(starts, props, coins, m, n, prob);
    FlattenMembers(rows);
    forall x | x in Flatten(rows)
      ensures x in starts || exists i :: 0 <= i < m && x in props[i]
    {
      var i :| 0 <= i < m && x in rows[i];
      var j :| 0 <= j < |rows[i]| && rows[i][j] == x;
      if x != starts[i] {
        assert x in props[i][..j];
      }
    }
  }

  // ---------------------------------------------------------------- per-goal values

  /** The weight the exponential moving averages keep of the old value, and the weight of the new mean. */
  const KEEP: real := 0.6
  const TAKE: real := 0.4

  /** Every result has an index, and every index addresses one of `len` goals. */
  predicate Indexable(results: seq<real>, idxs: seq<int>, len: nat)
  {
    |results| <= |idxs| && forall i :: 0 <= i < |results| ==> -(len as int) <= idxs[i] < len
  }

  /** The goal result `i` was obtained on. */
  function GoalOf(idxs: seq<int>, len: nat, i: nat): (g: nat)
    requires i < |idxs| && -(len as int) <= idxs[i] < len
    ensures g < len
  {
    PyIndex(idxs[i], len).value
  }

  /** The per-goal sums and counts of the results, in the order the program adds them up. */
  function Tally(results: seq<real>, idxs: seq<int>, len: nat): (t: (seq<real>, seq<nat>))
    requires Indexable(results, idxs, len)
    ensures |t.0| == len && |t.1| == len
    decreases |results|
  {
    if |results| == 0 then (Zeros(len), seq(len, _ => 0))
    else
      var k := |results| - 1;
      var prev := Tally(results[..k], idxs, len);
      var g := GoalOf(idxs, len, k);
      (prev.0[g := prev.0[g] + results[k]], prev.1[g := prev.1[g] + 1])
  }

  /** The sum of a list of counts. */
  function Total(s: seq<nat>): (r: nat)
    decreases |s|
  {
    if |s| == 0 then 0 else Total(s[..|s| - 1]) + s[|s| - 1]
  }

  lemma {:induction false} SumBump(s: seq<real>, g: nat, x: real)
    requires g < |s|
    ensures Sum(s[g := s[g] + x]) == Sum(s) + x
    decreases |s|
  {
    var k := |s| - 1;
    assert s[g := s[g] + x][..k] == if g < k then s[..k][g := s[g] + x] else s[..k];
    if g < k {
      SumBump(s[..k], g, x);
    }
  }

  lemma {:induction false} TotalBump(s: seq<nat>, g: nat)
    requires g < |s|
    ensures Total(s[g := s[g] + 1]) == Total(s) + 1
    decreases |s|
  {
    var k := |s| - 1;
    assert s[g := s[g] + 1][..k] == if g < k then s[..k][g := s[g] + 1] else s[..k];
    if g < k {
      TotalBump(s[..k], g);
    }
  }

  lemma {:induction false} ZerosSum(n: nat)
    ensures Sum(Zeros(n)) == 0.0 && Total(seq(n, _ => 0)) == 0
    decreases n
  {
    if n != 0 {
      assert Zeros(n)[..n - 1] == Zeros(n - 1);
      assert seq(n, _ => 0)[..n - 1] == seq(n - 1, _ => 0);
      ZerosSum(n - 1);
    }
  }

  /** Nothing is lost in the tally: the sums add up to the sum of the results and the counts to their number. */
  lemma {:induction false} TallyTotals(results: seq<real>, idxs: seq<int>, len: nat)
    requires Indexable(results, idxs, len)
    ensures Sum(Tally(results, idxs, len).0) == Sum(results)
    ensures Total(Tally(results, idxs, len).1) == |results|
    decreases |results|
  {
    if |results| == 0 {
      ZerosSum(len);
    } else {
      var k := |results| - 1;
      var prev := Tally(results[..k], idxs, len);
      TallyTotals(results[..k], idxs, len);
      SumBump(prev.0, GoalOf(idxs, len, k), results[k]);
      TotalBump(prev.1, GoalOf(idxs, len, k));
    }
  }

  /** Every goal's sum lies between its count times `lo` and its count times `hi`. */
  predicate SumsBetween(sums: seq<real>, counts: seq<nat>, lo: real, hi: real)
    requires |counts| == |sums|
  {
    forall g :: 0 <= g < |sums| ==> counts[g] as real * lo <= sums[g] <= counts[g] as real * hi
  }

  /** Results between `lo` and `hi` give every goal a sum between its count times `lo` and its count times `hi`. */
  lemma {:induction false} TallyBounds(results: seq<real>, idxs: seq<int>, len: nat, lo: real, hi: real)
    requires Indexable(results, idxs, len)
    requires forall i :: 0 <= i < |results| ==> lo <= results[i] <= hi
    ensures SumsBetween(Tally(results, idxs, len).0, Tally(results, idxs, len).1, lo, hi)
    decreases |results|
  {
    if |results| != 0 {
      var k := |results| - 1;
      var prev := Tally(results[..k], idxs, len);
      TallyBounds(results[..k], idxs, len, lo, hi);
      BumpKeepsBetween(prev.0, prev.1, GoalOf(idxs, len, k), results[k], lo, hi);
    }
  }

  /** Adding a result between `lo` and `hi` to one goal keeps every goal's sum within its bounds. */
  lemma BumpKeepsBetween(sums: seq<real>, counts: seq<nat>, g: nat, x: real, lo: real, hi: real)
    requires |counts| == |sums| && g < |sums| && SumsBetween(sums, counts, lo, hi) && lo <= x <= hi
    ensures SumsBetween(sums[g := sums[g] + x], counts[g := counts[g] + 1], lo, hi)
  {
    BumpBetween(counts[g], sums[g], x, lo, hi);
  }

  lemma BumpBetween(count: nat, sum: real, x: real, lo: real, hi: real)
    requires count as real * lo <= sum <= count as real * hi && lo <= x <= hi
    ensures (count + 1) as real * lo <= sum + x <= (count + 1) as real * hi
  {
    assert (count + 1) as real * lo == count as real * lo + lo;
    assert (count + 1) as real * hi == count as real * hi + hi;
  }

  /**
    * The tally loop: each result is added to its goal's sum and counted;
    * an index that does not address a goal, or a missing index, raises.
    */
  method Accumulate(results: seq<real>, idxs: seq<int>, len: nat) returns (r: Option<(seq<real>, seq<nat>)>)
    ensures r.None? <==> !Indexable(results, idxs, len)
    ensures r.Some? ==> r.value == Tally(results, idxs, len)
  {
    var sums := Zeros(len);
    var counts: seq<nat> := seq(len, _ => 0);
    var i := 0;
    while i < |results|
      invariant 0 <= i <= |results| && Indexable(results[..i], idxs, len)
      invariant (sums, counts) == Tally(results[..i], idxs, len)
    {
      if i >= |idxs| || PyIndex(idxs[i], len).None? {
        return None;
      }
      var g := PyIndex(idxs[i], len).value;
      assert results[..i + 1][..i] == results[..i];
      sums := sums[g := sums[g] + results[i]];
      counts := counts[g := counts[g] + 1];
      i := i + 1;
    }
    assert results[..i] == results;
    return Some((sums, counts));
  }

  /**
    * The per-goal update: a goal that received results saves its value as
    * the previous one, then moves it `0.4` of the way to the mean of its
    * results; a goal without results keeps both values.
    */
  function UpdateGoals(v: seq<real>, vPrev: seq<real>, sums: seq<real>, counts: seq<nat>): (r: (seq<real>, seq<real>))
    requires |vPrev| == |v| && |sums| == |v| && |counts| == |v|
    ensures |r.0| == |v| && |r.1| == |v|
    ensures forall g :: 0 <= g < |v| && counts[g] == 0 ==> r.0[g] == v[g] && r.1[g] == vPrev[g]
    ensures forall g :: 0 <= g < |v| && counts[g] != 0 ==>
              r.1[g] == v[g] && r.0[g] - v[g] == TAKE * (sums[g] / counts[g] as real - v[g])
  {
    (seq(|v|, g requires 0 <= g < |v| => if counts[g] != 0 then KEEP * v[g] + TAKE * (sums[g] / counts[g] as real) else v[g]),
     seq(|v|, g requires 0 <= g < |v| => if counts[g] != 0 then v[g] else vPrev[g]))
  }

  /**
    * The per-goal values stay in any range that holds the old values and
    * every new result: the update is a mean and a convex blend.
    */
  lemma GoalValuesStayInRange(v: seq<real>, vPrev: seq<real>, results: seq<real>, idxs: seq<int>, lo: real, hi: real)
    requires |vPrev| == |v| && Indexable(results, idxs, |v|)
    requires forall g :: 0 <= g < |v| ==> lo <= v[g] <= hi
    requires forall i :: 0 <= i < |results| ==> lo <= results[i] <= hi
    ensures var t := Tally(results, idxs, |v|);
            forall g :: 0 <= g < |v| ==> lo <= UpdateGoals(v, vPrev, t.0, t.1).0[g] <= hi
  {
    var t := Tally(results, idxs, |v|);
    TallyBounds(results, idxs, |v|, lo, hi);
    UpdateGoalsBetween(v, vPrev, t.0, t.1, lo, hi);
  }

  lemma UpdateGoalsBetween(v: seq<real>, vPrev: seq<real>, sums: seq<real>, counts: seq<nat>, lo: real, hi: real)
    requires |vPrev| == |v| && |sums| == |v| && |counts| == |v|
    requires SumsBetween(sums, counts, lo, hi)
    requires forall g :: 0 <= g < |v| ==> lo <= v[g] <= hi
    ensures forall g :: 0 <= g < |v| ==> lo <= UpdateGoals(v, vPrev, sums, counts).0[g] <= hi
  {
    var r := UpdateGoals(v, vPrev, sums, counts);
    forall g | 0 <= g < |v|
      ensures lo <= r.0[g] <= hi
    {
      if counts[g] != 0 {
        var mean := sums[g] / counts[g] as real;
        MeanBetween(sums[g], counts[g] as real, lo, hi);
        BlendBetween(v[g], mean, lo, hi);
      }
    }
  }

  lemma BlendBetween(a: real, b: real, lo: real, hi: real)
    requires lo <= a <= hi && lo <= b <= hi
    ensures lo <= KEEP * a + TAKE * b <= hi
  {
  }

  lemma MeanBetween(sum: real, count: real, lo: real, hi: real)
    requires 0.0 < count && count * lo <= sum <= count * hi
    ensures lo <= sum / count <= hi
  {
    assert sum / count - lo == (sum - count * lo) / count;
    assert hi - sum / count == (count * hi - sum) / count;
  }

  // ---------------------------------------------------------------- sampler state

  /** A goal parameter vector. */
  type Goal = seq<real>

  /**
    * The sampler's fields: the running mean of the returns, the iteration
    * counters, the visiting and exploring strategies (0 uniform, 1
    * adaptive, 2 time-series for visiting; 0 uniform, 1/3 adaptive or
    * time-series over the network, 2/4 over the sampled goals for
    * exploring), the pools, and the sampled goals with their values.
    */
  datatype State = State(
    vMean: Float, randomStart: bool, nIter: nat, totalIter: nat, nLearning: nat, start: nat,
    typeVisit: int, typeExplore: int, nExplore: nat,
    pool: seq<Goal>, poolEx: seq<Goal>, idxEx: seq<nat>,
    sample: seq<Goal>, vSample: seq<real>, vPrevSample: seq<real>)

  /** A new sampler: mean 0, time-series visiting, uniform exploring, nothing pooled or sampled. */
  const Initial: State :=
    State(Num(0.0), true, 0, 0, 0, 0, 2, 0, 0, [], [], [], [], [], [])

  /** The exploring strategies that walk over the sampled goals: every one but 0, 1 and 3. */
  predicate SamplingExplore(t: int)
  {
    t != 0 && t != 1 && t != 3
  }

  /** The exploration pool holds sampled goals, each next to its index. */
  predicate PoolOfGoals(s: State)
  {
    && |s.idxEx| == |s.poolEx|
    && forall k :: 0 <= k < |s.idxEx| ==> s.idxEx[k] < |s.sample| && s.poolEx[k] == s.sample[s.idxEx[k]]
  }

  /**
    * The sampler's invariant: one value and one previous value per sampled
    * goal, and once two exploring updates have run since the goals were
    * drawn, an exploration pool built from those goals.
    */
  predicate Valid(s: State)
  {
    && Aligned(s)
    && (SamplingExplore(s.typeExplore) && 2 <= s.nExplore ==> PoolOfGoals(s))
  }

  /** The mean of the episode returns, NaN for no returns. */
  function MeanOf(results: seq<real>): (r: Float)
    ensures r.NaN? <==> |results| == 0
    ensures r.Num? ==> r.v * |results| as real == Sum(results)
  {
    if |results| == 0 then NaN else Num(Sum(results) / |results| as real)
  }

  /** The number of steps of each walk, `int(N / m)`; never evaluated when there are no walks. */
  function Steps(n: nat, m: nat): (k: nat)
    ensures 0 < m ==> k * m <= n < (k + 1) * m
  {
    if m == 0 then 0 else n / m
  }

  /** The random draws one update consumes: goal walks, index walks over the sampled goals, and the coins. */
  datatype Draws = Draws(starts: seq<Goal>, props: seq<seq<Goal>>,
                         tStarts: seq<nat>, tProps: seq<seq<nat>>, coins: seq<seq<real>>)

  predicate DrawsFor(d: Draws, m: nat, n: nat)
  {
    Shaped(d.starts, d.props, d.coins, m, n) && Shaped(d.tStarts, d.tProps, d.coins, m, n)
  }

  /** A pool of `m` walks, or `None` when a weight the walks compute does not exist. */
  function Pool<X>(starts: seq<X>, props: seq<seq<X>>, coins: seq<seq<real>>, m: nat, n: nat,
                   prob: X -> Option<Weight>): (r: Option<seq<X>>)
    requires Shaped(starts, props, coins, m, n)
    ensures r.Some? <==> PoolWeighed(prob, starts, props, n)
    ensures r.Some? ==> |r.value| == m * n
    ensures r.Some? ==> forall x :: x in r.value ==> x in starts || exists i :: 0 <= i < m && x in props[i]
  {
    if PoolWeighed(prob, starts, props, n) then
      var rows := Walks(starts, props, coins, m, n, prob);
      FlattenLength(rows, n);
      PoolHoldsDraws(starts, props, coins, m, n, prob);
      Some(Flatten(rows))
    else None
  }

  /** The weight of a goal in a visiting walk: hard adaptive for strategy 1, hard time-series otherwise. */
  function VisitWeight(typeVisit: int, value: Goal -> real, valuePrev: Goal -> real, mean: Float,
                       exp: real -> real): (w: Goal -> Option<Weight>)
    requires ExpLike(exp)
  {
    x => if typeVisit == 1 then ProbAdaptive(value(x), mean, true, exp) else ProbTS(value(x), valuePrev(x), true, exp)
  }

  /** The weight of a goal in an exploring walk over the network: soft adaptive for strategy 1, soft time-series for 3. */
  function ExploreWeight(typeExplore: int, value: Goal -> real, valuePrev: Goal -> real, mean: Float,
                         exp: real -> real): (w: Goal -> Option<Weight>)
    requires ExpLike(exp)
  {
    x => if typeExplore == 1 then ProbAdaptive(value(x), mean, false, exp) else ProbTS(value(x), valuePrev(x), false, exp)
  }

  /**
    * The weight of sampled goal `t` (`probAdaptiveSampling` for strategy 2,
    * `probTSSampling` otherwise), from its current and previous value.
    */
  function SampleWeight(typeExplore: int, v: seq<real>, vPrev: seq<real>, mean: Float,
                        exp: real -> real): (w: nat -> Option<Weight>)
    requires ExpLike(exp) && |vPrev| == |v|
  {
    (t: nat) => if t >= |v| then None
         else if typeExplore == 2 then ProbAdaptive(v[t], mean, false, exp)
         else ProbTS(v[t], vPrev[t], false, exp)
  }

  /** Draws of `randint(len)`, each taken modulo `len`. */
  function Wrap(draws: seq<nat>, len: nat): (r: seq<nat>)
    requires 0 < len
    ensures |r| == |draws| && forall i :: 0 <= i < |r| ==> r[i] < len
  {
    seq(|draws|, i requires 0 <= i < |draws| => draws[i] % len)
  }

  /** A visiting update after the bookkeeping: strategy 0 stops; any other rebuilds the visiting pool. */
  function UpdateVisit(s: State, m: nat, n: nat, d: Draws, value: Goal -> real, valuePrev: Goal -> real,
                       exp: real -> real): (r: Option<State>)
    requires ExpLike(exp) && DrawsFor(d, m, n)
    ensures s.typeVisit == 0 ==> r == Some(s)
    ensures r.Some? ==> r.value == s.(pool := r.value.pool)
    ensures s.typeVisit != 0 && r.Some? ==> |r.value.pool| == m * n
    ensures s.typeVisit != 0 && r.Some? ==>
              forall x :: x in r.value.pool ==> x in d.starts || exists i :: 0 <= i < m && x in d.props[i]
  {
    if s.typeVisit == 0 then Some(s)
    else
      var p := Pool(d.starts, d.props, d.coins, m, n, VisitWeight(s.typeVisit, value, valuePrev, s.vMean, exp));
      if p.None? then None else Some(s.(pool := p.value))
  }

  /**
    * The index walks over `len` sampled goals: `m` walks whose starts and
    * proposals are `randint(len)` draws; the pool holds the goals walked
    * through and the index pool their indices.
    */
  function GoalPool(sample: seq<Goal>, m: nat, n: nat, d: Draws, prob: nat -> Option<Weight>): (r: Option<(seq<Goal>, seq<nat>)>)
    requires DrawsFor(d, m, n) && 0 < |sample|
    ensures r.Some? ==> |r.value.0| == m * n && |r.value.1| == m * n
    ensures r.Some? ==> forall k :: 0 <= k < m * n ==> r.value.1[k] < |sample| && r.value.0[k] == sample[r.value.1[k]]
  {
    var len := |sample|;
    var ts := Wrap(d.tStarts, len);
    var tp := seq(m, i requires 0 <= i < m => Wrap(d.tProps[i], len));
    var p := Pool<nat>(ts, tp, d.coins, m, n, prob);
    if p.None? then None
    else
      assert forall k :: 0 <= k < |p.value| ==> p.value[k] < len by {
        forall k | 0 <= k < |p.value|
          ensures p.value[k] < len
        {
          assert p.value[k] in p.value;
        }
      }
      Some((seq(|p.value|, k requires 0 <= k < |p.value| => sample[p.value[k]]), p.value))
  }

  /** One value and one previous value per sampled goal. */
  predicate Aligned(s: State)
  {
    |s.vSample| == |s.sample| && |s.vPrevSample| == |s.sample|
  }

  /** The sampled-goal branch of an exploring update, once past the second update since the goals were drawn. */
  function UpdateSampled(s: State, results: seq<real>, idxs: seq<int>, m: nat, n: nat, d: Draws,
                         exp: real -> real): (r: Option<State>)
    requires ExpLike(exp) && DrawsFor(d, m, n) && Aligned(s)
    ensures r.Some? ==> Indexable(results, idxs, |s.sample|)
    ensures r.Some? ==> r.value == s.(poolEx := r.value.poolEx, idxEx := r.value.idxEx,
                                      vSample := r.value.vSample, vPrevSample := r.value.vPrevSample)
    ensures r.Some? ==> var t := Tally(results, idxs, |s.sample|);
                        (r.value.vSample, r.value.vPrevSample) == UpdateGoals(s.vSample, s.vPrevSample, t.0, t.1)
    ensures r.Some? ==> PoolOfGoals(r.value) && |r.value.poolEx| == m * n
  {
    var len := |s.sample|;
    if !Indexable(results, idxs, len) then None
    else
      var t := Tally(results, idxs, len);
      var goals := UpdateGoals(s.vSample, s.vPrevSample, t.0, t.1);
      var s1 := s.(vSample := goals.0, vPrevSample := goals.1);
      if m == 0 then Some(s1.(poolEx := [], idxEx := []))
      else if len == 0 then None
      else
        var p := GoalPool(s.sample, m, n, d, SampleWeight(s.typeExplore, goals.0, goals.1, s.vMean, exp));
        if p.None? then None else Some(s1.(poolEx := p.value.0, idxEx := p.value.1))
  }

  /** An exploring update after the bookkeeping: strategy 0 stops; 1 and 3 walk over the network; the others over the sampled goals. */
  function UpdateExplore(s: State, results: seq<real>, idxs: seq<int>, m: nat, n: nat, d: Draws,
                         value: Goal -> real, valuePrev: Goal -> real, exp: real -> real): (r: Option<State>)
    requires ExpLike(exp) && DrawsFor(d, m, n) && Aligned(s)
    ensures s.typeExplore == 0 ==> r == Some(s)
    ensures r.Some? ==> r.value.pool == s.pool && r.value.sample == s.sample
    ensures (s.typeExplore == 1 || s.typeExplore == 3) && r.Some? ==>
              r.value == s.(poolEx := r.value.poolEx, idxEx := []) && |r.value.poolEx| == m * n
    ensures SamplingExplore(s.typeExplore) && s.nExplore <= 1 ==> r == Some(s.(poolEx := [], idxEx := []))
    ensures SamplingExplore(s.typeExplore) && 2 <= s.nExplore ==> r == UpdateSampled(s, results, idxs, m, n, d, exp)
  {
    if s.typeExplore == 0 then Some(s)
    else if s.typeExplore == 1 || s.typeExplore == 3 then
      var p := Pool(d.starts, d.props, d.coins, m, n, ExploreWeight(s.typeExplore, value, valuePrev, s.vMean, exp));
      if p.None? then None else Some(s.(poolEx := p.value, idxEx := []))
    else if s.nExplore <= 1 then Some(s.(poolEx := [], idxEx := []))
    else UpdateSampled(s, results, idxs, m, n, d, exp)
  }

  /**
    * `updateGoalDistribution`: counts the update (and the exploring ones),
    * blends the mean of the returns into the running mean, then rebuilds
    * the pool of the kind of episode that ended.  `None` when the program
    * raises: an exponent past the double range, a zero previous value of
    * the time-series weight, an index that addresses no sampled goal, or a
    * draw among no goals.  A NaN or zero running mean does not raise: the
    * weights become NaN or infinite and the walks go on.
    */
  function UpdateGoalDistribution(s: State, visited: bool, results: seq<real>, idxs: seq<int>, m: nat, bigN: nat,
                                  d: Draws, value: Goal -> real, valuePrev: Goal -> real,
                                  exp: real -> real): (r: Option<State>)
    requires ExpLike(exp) && Valid(s) && DrawsFor(d, m, Steps(bigN, m))
    ensures r.Some? ==> Valid(r.value)
    ensures r.Some? ==> r.value.start == s.start + 1
    ensures r.Some? ==> r.value.nExplore == if visited then s.nExplore else s.nExplore + 1
    ensures r.Some? ==> r.value.vMean == Add(Scale(KEEP, s.vMean), Scale(TAKE, MeanOf(results)))
    ensures r.Some? ==> && r.value.nIter == s.nIter && r.value.totalIter == s.totalIter
                        && r.value.nLearning == s.nLearning && r.value.randomStart == s.randomStart
                        && r.value.typeVisit == s.typeVisit && r.value.typeExplore == s.typeExplore
                        && r.value.sample == s.sample
    ensures visited && r.Some? ==> && r.value.poolEx == s.poolEx && r.value.idxEx == s.idxEx
                                   && r.value.vSample == s.vSample && r.value.vPrevSample == s.vPrevSample
    ensures !visited && r.Some? ==> r.value.pool == s.pool
    ensures (visited && s.typeVisit == 0) || (!visited && s.typeExplore == 0) ==>
              r.Some? && r.value.pool == s.pool && r.value.poolEx == s.poolEx && r.value.idxEx == s.idxEx
    ensures visited && s.typeVisit != 0 && r.Some? ==> |r.value.pool| == m * Steps(bigN, m)
    ensures !visited && s.typeExplore != 0 && r.Some? ==>
              |r.value.poolEx| == (if SamplingExplore(s.typeExplore) && s.nExplore == 0 then 0 else m * Steps(bigN, m))
  {
    var n := Steps(bigN, m);
    var s1 := s.(start := s.start + 1,
                 nExplore := if visited then s.nExplore else s.nExplore + 1,
                 vMean := Add(Scale(KEEP, s.vMean), Scale(TAKE, MeanOf(results))));
    assert Aligned(s1);
    if visited then UpdateVisit(s1, m, n, d, value, valuePrev, exp)
    else
      var r := UpdateExplore(s1, results, idxs, m, n, d, value, valuePrev, exp);
      assert r.Some? ==> Aligned(r.value);
      r
  }

  /**
    * An adaptive visiting update with no returns: `np.array([]).mean()` is
    * NaN, so the running mean becomes NaN, every weight is NaN, and the
    * update completes with walks that take every proposal.  Each walk of
    * the pool is its start followed by all its proposals but the last.
    */
  lemma NoReturnsVisitTakesEveryProposal(s: State, m: nat, bigN: nat, d: Draws,
                                         value: Goal -> real, valuePrev: Goal -> real, exp: real -> real)
    requires ExpLike(exp) && Valid(s) && DrawsFor(d, m, Steps(bigN, m)) && s.typeVisit == 1
    requires 0 < Steps(bigN, m)
    requires forall i, j :: 0 <= i < m && 0 <= j < Steps(bigN, m) ==> d.coins[i][j] <= 1.0
    ensures var r := UpdateGoalDistribution(s, true, [], [], m, bigN, d, value, valuePrev, exp);
            && r.Some? && r.value.vMean.NaN?
            && r.value.pool == Flatten(seq(m, i requires 0 <= i < m => [d.starts[i]] + d.props[i][..Steps(bigN, m) - 1]))
  {
    var n := Steps(bigN, m);
    var mean := Add(Scale(KEEP, s.vMean), Scale(TAKE, MeanOf([])));
    assert mean.NaN?;
    var prob := VisitWeight(1, value, valuePrev, mean, exp);
    forall y ensures prob(y) == Some(Undefined) {
      assert prob(y) == ProbAdaptive(value(y), mean, true, exp);
    }
    var rows := Walks(d.starts, d.props, d.coins, m, n, prob);
    forall i | 0 <= i < m
      ensures rows[i] == [d.starts[i]] + d.props[i][..n - 1]
    {
      AllUndefinedWalkTakesEveryProposal(d.starts[i], d.props[i], d.coins[i], prob);
    }
    assert rows == seq(m, i requires 0 <= i < m => [d.starts[i]] + d.props[i][..n - 1]);
  }

  // ---------------------------------------------------------------- drawing a goal

  /** Whether `adaptiveSample` answers with a uniform draw rather than a pool entry. */
  predicate Uniform(s: State, visited: bool)
  {
    if visited then s.randomStart || s.typeVisit == 0
    else s.typeExplore == 0 || ((s.typeExplore == 1 || s.typeExplore == 3) && s.start < 5)
  }

  /**
    * `adaptiveSample`: the goal of the next episode and its index.  A
    * uniform draw `random` comes with index -1; otherwise `draw` picks an
    * entry of the visiting pool, of the exploration pool, or, for the
    * sampled-goal strategies before the third exploring update, one of the
    * sampled goals.  `None` when the draw is among no entries.
    */
  function AdaptiveSample(s: State, visited: bool, random: Goal, draw: nat): (r: Option<(Goal, int)>)
    ensures Uniform(s, visited) ==> r == Some((random, -1))
    ensures r.Some? && !Uniform(s, visited) ==> 0 <= r.value.1
    ensures visited && !Uniform(s, visited) ==>
              (r.None? <==> |s.pool| == 0) && (r.Some? ==> r.value.1 < |s.pool| && r.value.0 == s.pool[r.value.1])
    ensures !visited && !Uniform(s, visited) && (s.typeExplore == 1 || s.typeExplore == 3) ==>
              (r.None? <==> |s.poolEx| == 0) && (r.Some? ==> r.value.1 < |s.poolEx| && r.value.0 == s.poolEx[r.value.1])
    ensures !visited && SamplingExplore(s.typeExplore) && s.nExplore < 3 ==>
              (r.None? <==> |s.sample| == 0) && (r.Some? ==> r.value.1 < |s.sample| && r.value.0 == s.sample[r.value.1])
    ensures !visited && SamplingExplore(s.typeExplore) && 3 <= s.nExplore && r.Some? ==>
              exists t :: 0 <= t < |s.poolEx| && t < |s.idxEx| && r.value == (s.poolEx[t], s.idxEx[t] as int)
  {
    if Uniform(s, visited) then Some((random, -1))
    else if visited then
      if |s.pool| == 0 then None else Some((s.pool[draw % |s.pool|], draw % |s.pool|))
    else if s.typeExplore == 1 || s.typeExplore == 3 then
      if |s.poolEx| == 0 then None else Some((s.poolEx[draw % |s.poolEx|], draw % |s.poolEx|))
    else if s.nExplore < 3 then
      if |s.sample| == 0 then None else Some((s.sample[draw % |s.sample|], draw % |s.sample|))
    else
      if |s.poolEx| == 0 then None
      else
        var t := draw % |s.poolEx|;
        if t >= |s.idxEx| then None else Some((s.poolEx[t], s.idxEx[t] as int))
  }

  /**
    * With the sampled-goal strategies every exploring episode is given one
    * of the sampled goals together with that goal's index: the pool is
    * never stale when it is read.
    */
  lemma ExploreSampleIsGoal(s: State, random: Goal, draw: nat)
    requires Valid(s) && SamplingExplore(s.typeExplore)
    requires AdaptiveSample(s, false, random, draw).Some?
    ensures var r := AdaptiveSample(s, false, random, draw).value;
            0 <= r.1 < |s.sample| && r.0 == s.sample[r.1]
  {
  }

  /** The indices the sampled-goal strategies hand out are exactly the ones an update can tally. */
  lemma ExploreIndicesTally(s: State, results: seq<real>, randoms: seq<Goal>, draws: seq<nat>)
    requires Valid(s) && SamplingExplore(s.typeExplore)
    requires |randoms| == |results| && |draws| == |results|
    requires forall i :: 0 <= i < |results| ==> AdaptiveSample(s, false, randoms[i], draws[i]).Some?
    ensures Indexable(results, seq(|results|, i requires 0 <= i < |results| =>
                                     AdaptiveSample(s, false, randoms[i], draws[i]).value.1), |s.sample|)
  {
    forall i | 0 <= i < |results|
      ensures 0 <= AdaptiveSample(s, false, randoms[i], draws[i]).value.1 < |s.sample|
    {
      ExploreSampleIsGoal(s, randoms[i], draws[i]);
    }
  }

  // ---------------------------------------------------------------- stage control

  /** `isEnough` evaluates every fifth call, and a stage has learned enough when the mean value is above 6. */
  const CHECK_EVERY: nat := 5
  const ENOUGH: real := 6.0

  /** The number of uniform goals `printSummary` evaluates, and how many of the lowest and highest it averages. */
  const SUMMARY_DRAWS: nat := 200
  const SUMMARY_TAIL: nat := 20

  /** The mean of a non-empty list. */
  function Avg(s: seq<real>): (r: real)
    requires 0 < |s|
    ensures r * |s| as real == Sum(s)
  {
    Sum(s) / |s| as real
  }

  /** The values in increasing order (`np.sort`). */
  function Ascending(values: seq<real>): (r: seq<real>)
    ensures |r| == |values| && multiset(r) == multiset(values)
    ensures forall i, j :: 0 <= i < j < |r| ==> r[i] <= r[j]
  {
    StableSort.SortDescSorted(values, x => -x);
    StableSort.SortDesc(values, x => -x)
  }

  /**
    * `printSummary`: the mean of the values of 200 uniform goals, of the 20
    * lowest and of the 20 highest.  Without an output path the means are
    * never computed and returning them raises: `None`.
    */
  function PrintSummary(values: seq<real>, hasPath: bool): (r: Option<(real, real, real)>)
    requires |values| == SUMMARY_DRAWS
    ensures r.None? <==> !hasPath
    ensures r.Some? ==> var sorted := Ascending(values);
                        r.value == (Avg(sorted), Avg(sorted[..SUMMARY_TAIL]), Avg(sorted[SUMMARY_DRAWS - SUMMARY_TAIL..]))
  {
    if !hasPath then None
    else
      var sorted := Ascending(values);
      Some((Avg(sorted), Avg(sorted[..SUMMARY_TAIL]), Avg(sorted[SUMMARY_DRAWS - SUMMARY_TAIL..])))
  }

  /** The mean of the lowest twenty is at most the mean of all, which is at most the mean of the highest twenty. */
  lemma SummaryOrdered(values: seq<real>)
    requires |values| == SUMMARY_DRAWS
    ensures var r := PrintSummary(values, true).value;
            r.1 <= r.0 <= r.2
  {
    var s := Ascending(values);
    LowTailBelowMean(s);
    MeanBelowHighTail(s);
  }

  /** In an ascending draw, the lowest twenty average at most the whole. */
  lemma LowTailBelowMean(s: seq<real>)
    requires |s| == SUMMARY_DRAWS && forall i, j :: 0 <= i < j < |s| ==> s[i] <= s[j]
    ensures Avg(s[..SUMMARY_TAIL]) <= Avg(s)
  {
    var low, rest := s[..20], s[20..];
    assert s == low + rest;
    SumAppend(low, rest);
    SumBetween(low, s[0], s[19]);
    SumBetween(rest, s[19], s[199]);
  }

  /** In an ascending draw, the whole averages at most the highest twenty. */
  lemma MeanBelowHighTail(s: seq<real>)
    requires |s| == SUMMARY_DRAWS && forall i, j :: 0 <= i < j < |s| ==> s[i] <= s[j]
    ensures Avg(s) <= Avg(s[SUMMARY_DRAWS - SUMMARY_TAIL..])
  {
    var head, high := s[..180], s[180..];
    assert s == head + high;
    SumAppend(head, high);
    SumBetween(head, s[0], s[180]);
    SumBetween(high, s[180], s[199]);
  }

  /**
    * `isEnough`: it stops random starts, and on every fifth call compares
    * the summary's mean with 6; enough stops the count, otherwise the
    * iteration counters advance.  The summary is `None` when it has
    * no output path, and reading its mean then raises.
    */
  function IsEnough(s: State, summary: Option<(real, real, real)>): (r: Option<(State, bool)>)
    ensures s.nIter % CHECK_EVERY != CHECK_EVERY - 1 ==> r.Some? && !r.value.1
    ensures s.nIter % CHECK_EVERY == CHECK_EVERY - 1 ==> (r.None? <==> summary.None?)
    ensures r.Some? && r.value.1 ==> && s.nIter % CHECK_EVERY == CHECK_EVERY - 1 && summary.value.0 > ENOUGH
                                     && r.value.0 == s.(randomStart := false)
    ensures r.Some? && !r.value.1 ==>
              r.value.0 == s.(randomStart := false, nIter := s.nIter + 1, totalIter := s.totalIter + 1)
  {
    var s1 := s.(randomStart := false);
    if s.nIter % CHECK_EVERY == CHECK_EVERY - 1 && summary.None? then None
    else if s.nIter % CHECK_EVERY == CHECK_EVERY - 1 && summary.value.0 > ENOUGH then Some((s1, true))
    else Some((s1.(nIter := s.nIter + 1, totalIter := s.totalIter + 1), false))
  }

  /** Once a stage has learned enough, asking again with the same summary answers the same: the count stays put. */
  lemma EnoughIsSticky(s: State, summary: Option<(real, real, real)>)
    requires IsEnough(s, summary).Some? && IsEnough(s, summary).value.1
    ensures IsEnough(IsEnough(s, summary).value.0, summary) == IsEnough(s, summary)
  {
  }

  /**
    * `reset_visit`: a new stage counts its iterations from 0 with random
    * starts; the running mean is compared with 0, not reset.
    */
  function ResetVisit(s: State): (r: State)
    ensures r.nIter == 0 && r.randomStart && r.nLearning == s.nLearning + 1
    ensures r.vMean == s.vMean && r.totalIter == s.totalIter
    ensures r.(nIter := s.nIter, randomStart := s.randomStart, nLearning := s.nLearning) == s
  {
    s.(nIter := 0, randomStart := true, nLearning := s.nLearning + 1)
  }

  /**
    * As written, line 179 of the sampler compares the mean with 0 instead of
    * assigning it: a stage that ended with a running mean of 5 hands it on,
    * and one update with a return of 0 leaves the new stage a mean of 3
    * where a reset mean would give 0.
    */
  lemma ResetVisitCarriesOldMean()
    ensures var s := ResetVisit(Initial.(vMean := Num(5.0)));
            && s.vMean == Num(5.0)
            && Add(Scale(KEEP, s.vMean), Scale(TAKE, MeanOf([0.0]))) == Num(3.0)
            && Add(Scale(KEEP, ResetVisitCorrected(s).vMean), Scale(TAKE, MeanOf([0.0]))) == Num(0.0)
  {
  }

  /** `reset_visit` as evidently intended: the new stage also starts its running mean again from 0. */
  function ResetVisitCorrected(s: State): (r: State)
    ensures r.nIter == 0 && r.randomStart && r.nLearning == s.nLearning + 1 && r.vMean == Num(0.0)
    ensures r.(nIter := s.nIter, randomStart := s.randomStart, nLearning := s.nLearning, vMean := s.vMean) == s
    ensures Valid(s) ==> Valid(r)
  {
    ResetVisit(s).(vMean := Num(0.0))
  }

  /**
    * After the corrected reset the first update's running mean comes from
    * the new returns alone: `0.4` times their mean, whatever the old stage
    * left behind.
    */
  lemma CorrectedResetForgetsOldMean(s: State, visited: bool, results: seq<real>, idxs: seq<int>, m: nat, bigN: nat,
                                     d: Draws, value: Goal -> real, valuePrev: Goal -> real, exp: real -> real)
    requires ExpLike(exp) && Valid(s) && DrawsFor(d, m, Steps(bigN, m))
    ensures var r := UpdateGoalDistribution(ResetVisitCorrected(s), visited, results, idxs, m, bigN, d, value, valuePrev, exp);
            r.Some? ==> r.value.vMean == Scale(TAKE, MeanOf(results))
  {
  }

  /** After a reset the first four calls are never enough, whatever the summaries, and the fifth is the first to check. */
  lemma FreshStageChecksOnFifthCall(s: State, summary: Option<(real, real, real)>)
    ensures var s0 := ResetVisit(s);
            var s1 := IsEnough(s0, summary).value;
            var s2 := IsEnough(s1.0, summary).value;
            var s3 := IsEnough(s2.0, summary).value;
            var s4 := IsEnough(s3.0, summary).value;
            && !s1.1 && !s2.1 && !s3.1 && !s4.1
            && s4.0.nIter == CHECK_EVERY - 1 && s4.0.totalIter == s.totalIter + 4
            && (IsEnough(s4.0, summary).None? <==> summary.None?)
  {
  }

  // ---------------------------------------------------------------- sampled goals

  /** `sampleGoals` draws five goals by default. */
  const GOALS: nat := 5

  /** `sampleGoals`: the drawn goals, each with value 1.0 and previous value 1.0. */
  function SampleGoals(s: State, goals: seq<Goal>): (r: State)
    ensures Aligned(r) && r.sample == goals
    ensures forall g :: 0 <= g < |goals| ==> r.vSample[g] == 1.0 && r.vPrevSample[g] == 1.0
    ensures r.(sample := s.sample, vSample := s.vSample, vPrevSample := s.vPrevSample) == s
  {
    s.(sample := goals, vSample := Constant(|goals|, 1.0), vPrevSample := Constant(|goals|, 1.0))
  }

  /** Freshly drawn goals weigh the same under the time-series weighting: `exp(0) + 1e-10` each. */
  lemma FreshGoalsWeighEqually(s: State, goals: seq<Goal>, g: nat, exp: real -> real)
    requires ExpLike(exp) && g < |goals|
    ensures var r := SampleGoals(s, goals);
            SampleWeight(3, r.vSample, r.vPrevSample, r.vMean, exp)(g) == Some(Finite(1.0 + EPSILON))
  {
  }

  /** `reset_explore`: the sampled-goal strategies 2 and 4 draw new goals; every strategy restarts the exploring count. */
  function ResetExplore(s: State, goals: seq<Goal>): (r: State)
    requires |goals| == GOALS
    ensures r.nExplore == 0
    ensures s.typeExplore == 2 || s.typeExplore == 4 ==> r == SampleGoals(s, goals).(nExplore := 0)
    ensures s.typeExplore != 2 && s.typeExplore != 4 ==> r == s.(nExplore := 0)
  {
    if s.typeExplore == 2 || s.typeExplore == 4 then SampleGoals(s, goals).(nExplore := 0) else s.(nExplore := 0)
  }

  /** The new sampler, the resets, the checks and every successful update keep the invariant. */
  lemma OperationsKeepValid(s: State, goals: seq<Goal>, summary: Option<(real, real, real)>)
    requires Valid(s) && |goals| == GOALS
    ensures Valid(Initial)
    ensures Valid(ResetVisit(s)) && Valid(ResetVisitCorrected(s)) && Valid(ResetExplore(s, goals))
    ensures IsEnough(s, summary).Some? ==> Valid(IsEnough(s, summary).value.0)
  {
  }
}

=== FILE: sim_env.dfy ===
/**
  * The batched environment the trainer drives: a fixed list of slave
  * controllers addressed by index.  The slaves are abstract (`S`), with
  * their operations passed in as functions; the parallel loop over slaves is
  * modelled as the sequential loop it is equivalent to, since each
  * iteration touches only its own slave.
  */
module SimEnv {
  import Controller

  /** The slaves and the state and action sizes read from slave 0 at construction. */
  datatype Env<S> = Env(slaves: seq<S>, numState: nat, numAction: nat)

  /** The constructor: the state and action sizes are those of slave 0. */
  function Create<S>(slaves: seq<S>, numState: S -> nat, numAction: S -> nat): (e: Env<S>)
    requires 1 <= |slaves|
    ensures e.slaves == slaves
    ensures GetNumState(e) == numState(slaves[0]) && GetNumAction(e) == numAction(slaves[0])
  {
    Env(slaves, numState(slaves[0]), numAction(slaves[0]))
  }

  function GetNumState<S>(e: Env<S>): nat
  {
    e.numState
  }

  function GetNumAction<S>(e: Env<S>): nat
  {
    e.numAction
  }

  /** `Step(id)`: a terminal slave is left untouched; any other slave takes one step; no other slave changes. */
  function Step<S>(e: Env<S>, id: nat, step: S -> S, terminal: S -> bool): (r: Env<S>)
    requires id < |e.slaves|
    ensures terminal(e.slaves[id]) ==> r == e
    ensures !terminal(e.slaves[id]) ==> r == e.(slaves := e.slaves[id := step(e.slaves[id])])
  {
    if terminal(e.slaves[id]) then e else e.(slaves := e.slaves[id := step(e.slaves[id])])
  }

  /** What one round of `Steps` leaves in slave `i`. */
  function Stepped<S>(s: S, step: S -> S, terminal: S -> bool): S
  {
    if terminal(s) then s else step(s)
  }

  /**
    * `Steps`: `Step(id)` for every slave in index order.  Each slave that is
    * not terminal takes exactly one step; terminal slaves stay as they were.
    */
  method Steps<S>(e: Env<S>, step: S -> S, terminal: S -> bool) returns (r: Env<S>)
    ensures r.numState == e.numState && r.numAction == e.numAction
    ensures |r.slaves| == |e.slaves|
    ensures forall i :: 0 <= i < |e.slaves| ==> r.slaves[i] == Stepped(e.slaves[i], step, terminal)
  {
    r := e;
    var id := 0;
    while id < |e.slaves|
      invariant 0 <= id <= |e.slaves|
      invariant r.numState == e.numState && r.numAction == e.numAction && |r.slaves| == |e.slaves|
      invariant forall i :: 0 <= i < id ==> r.slaves[i] == Stepped(e.slaves[i], step, terminal)
      invariant forall i :: id <= i < |e.slaves| ==> r.slaves[i] == e.slaves[i]
    {
      r := Step(r, id, step, terminal);
      id := id + 1;
    }
  }

  /** `Reset(id, RSI)`: slave `id` is reset with its random draw; no other slave changes. */
  function Reset<S>(e: Env<S>, id: nat, rsi: bool, draw: real, reset: (S, bool, real) -> S): (r: Env<S>)
    requires id < |e.slaves|
    ensures r == e.(slaves := e.slaves[id := reset(e.slaves[id], rsi, draw)])
  {
    e.(slaves := e.slaves[id := reset(e.slaves[id], rsi, draw)])
  }

  /** `Resets(RSI)`: every slave is reset exactly once, in index order, slave `i` with draw `i`. */
  method Resets<S>(e: Env<S>, rsi: bool, draws: seq<real>, reset: (S, bool, real) -> S) returns (r: Env<S>)
    requires |draws| == |e.slaves|
    ensures r.numState == e.numState && r.numAction == e.numAction
    ensures |r.slaves| == |e.slaves|
    ensures forall i :: 0 <= i < |e.slaves| ==> r.slaves[i] == reset(e.slaves[i], rsi, draws[i])
  {
    r := e;
    var id := 0;
    while id < |e.slaves|
      invariant 0 <= id <= |e.slaves|
      invariant r.numState == e.numState && r.numAction == e.numAction && |r.slaves| == |e.slaves|
      invariant forall i :: 0 <= i < id ==> r.slaves[i] == reset(e.slaves[i], rsi, draws[i])
      invariant forall i :: id <= i < |e.slaves| ==> r.slaves[i] == e.slaves[i]
    {
      r := Reset(r, id, rsi, draws[id], reset);
      id := id + 1;
    }
  }

  /** `SetActions`: slave `id` receives row `id` of the action matrix. */
  method SetActions<S>(e: Env<S>, rows: seq<seq<real>>, setAction: (S, seq<real>) -> S) returns (r: Env<S>)
    requires |rows| == |e.slaves|
    requires forall i :: 0 <= i < |rows| ==> |rows[i]| == e.numAction
    ensures r.numState == e.numState && r.numAction == e.numAction
    ensures |r.slaves| == |e.slaves|
    ensures forall i :: 0 <= i < |e.slaves| ==> r.slaves[i] == setAction(e.slaves[i], rows[i])
  {
    r := e;
    var id := 0;
    while id < |e.slaves|
      invariant 0 <= id <= |e.slaves|
      invariant r.numState == e.numState && r.numAction == e.numAction && |r.slaves| == |e.slaves|
      invariant forall i :: 0 <= i < id ==> r.slaves[i] == setAction(e.slaves[i], rows[i])
      invariant forall i :: id <= i < |e.slaves| ==> r.slaves[i] == e.slaves[i]
    {
      r := r.(slaves := r.slaves[id := setAction(r.slaves[id], rows[id])]);
      id := id + 1;
    }
  }

  /**
    * `GetRewards`: one entry per slave, slave `id`'s reward in entry `id`,
    * stored in a single-precision vector (`single` is the rounding to `float`).
    */
  method GetRewards<S>(e: Env<S>, reward: S -> real, single: real -> real) returns (r: seq<real>)
    ensures |r| == |e.slaves|
    ensures forall i :: 0 <= i < |e.slaves| ==> r[i] == single(reward(e.slaves[i]))
  {
    r := [];
    var id := 0;
    while id < |e.slaves|
      invariant 0 <= id <= |e.slaves| && |r| == id
      invariant forall i :: 0 <= i < id ==> r[i] == single(reward(e.slaves[i]))
    {
      r := r + [single(reward(e.slaves[id]))];
      id := id + 1;
    }
  }

  /** `IsTerminalStates`: one flag per slave, slave `id`'s in entry `id`. */
  method IsTerminalStates<S>(e: Env<S>, terminal: S -> bool) returns (r: seq<bool>)
    ensures |r| == |e.slaves|
    ensures forall i :: 0 <= i < |e.slaves| ==> r[i] == terminal(e.slaves[i])
  {
    r := [];
    var id := 0;
    while id < |e.slaves|
      invariant 0 <= id <= |e.slaves| && |r| == id
      invariant forall i :: 0 <= i < id ==> r[i] == terminal(e.slaves[i])
    {
      r := r + [terminal(e.slaves[id])];
      id := id + 1;
    }
  }

  /** `IsNanAtTerminal(id)` of a controller slave: its terminal flag, its NaN flag and whether time ran out. */
  function IsNanAtTerminal(e: Env<Controller.State>, id: nat): (r: (bool, bool, bool))
    requires id < |e.slaves|
    ensures r.0 == e.slaves[id].term.isTerminal
    ensures r.1 == e.slaves[id].term.isNan
    ensures r.2 <==> e.slaves[id].term.reason == Controller.TIME_END
  {
    var c := e.slaves[id];
    (c.term.isTerminal, c.term.isNan, Controller.IsTimeEnd(c))
  }

  /** The controller's reset as a slave operation: every slave of the environment satisfies `Valid`. */
  function ResetSlave(pose: seq<real>): (f: (Controller.State, bool, real) -> Controller.State)
  {
    (c: Controller.State, rsi: bool, draw: real) => if Controller.Valid(c) then Controller.Reset(c, rsi, draw, pose) else c
  }

  /** After `Resets` on valid controller slaves no slave is terminal, and the step counters all start at 0. */
  method ResetsClearTerminals(e: Env<Controller.State>, rsi: bool, draws: seq<real>, pose: seq<real>)
    returns (r: Env<Controller.State>, flags: seq<bool>)
    requires |draws| == |e.slaves|
    requires forall i :: 0 <= i < |e.slaves| ==> Controller.Valid(e.slaves[i])
    ensures |flags| == |e.slaves|
    ensures forall i :: 0 <= i < |flags| ==> !flags[i]
    ensures forall i :: 0 <= i < |r.slaves| ==> r.slaves[i].clock.totalSteps == 0
  {
    r := Resets(e, rsi, draws, ResetSlave(pose));
    flags := IsTerminalStates(r, (c: Controller.State) => c.term.isTerminal);
  }
}

=== FILE: sim_window.dfy ===
/**
  * The simulation viewer: it runs the policy on the controller two steps
  * per displayed frame, saves the poses of every frame it shows, and lets
  * the user scrub through them.  The controller is abstract (`C`); its
  * record, its reference and its step are the functions of `Sources`.  The
  * policy query, drawing and the center-of-mass and contact memories are
  * left out.
  */
module SimWindow {
  import opened Numeric
  import FrameCursor

  /** What the viewer reads from the controller and the reference manager. */
  datatype Sources<!C> = Sources(
    recordSize: C -> int,              // GetRecordSize
    positions: (C, int) -> seq<real>,  // GetPositions(n): the simulated character
    target: (C, int) -> seq<real>,     // GetTargetPositions(n): the adapted reference
    bvh: (C, int) -> seq<real>,        // GetBVHPositions(n): the original reference
    reference: int -> seq<real>,       // the reference manager's GetPosition(n)
    step: C -> C,                      // one policy query and controller step
    reset: C -> C)                     // the controller's Reset(false)

  /** Every pose any source hands out has at least the root's six coordinates. */
  ghost predicate Posed<C(!new)>(src: Sources<C>)
  {
    && (forall c, n :: 6 <= |src.positions(c, n)|)
    && (forall c, n :: 6 <= |src.target(c, n)|)
    && (forall c, n :: 6 <= |src.bvh(c, n)|)
    && (forall n :: 6 <= |src.reference(n)|)
  }

  /**
    * The viewer: the controller, the frame on show and the frame count, the
    * auto-play, wrap and run-policy flags, and the memories of the simulated
    * character, the original reference and the adapted reference.
    */
  datatype Sim<C> = Sim(
    ctl: C,
    cur: int,
    total: int,
    auto: bool,
    wrap: bool,
    runPPO: bool,
    memory: seq<seq<real>>,
    memRef: seq<seq<real>>,
    memRef2: seq<seq<real>>)

  /**
    * The wrap of a simulated pose: the root translation is zeroed and the
    * root height set to 1, the root orientation kept.
    */
  function WrapTranslation(p: seq<real>): (q: seq<real>)
    requires 6 <= |p|
    ensures |q| == |p| && q[3] == 0.0 && q[4] == 1.0 && q[5] == 0.0
    ensures forall i :: 0 <= i < |p| && !(3 <= i < 6) ==> q[i] == p[i]
  {
    p[3 := 0.0][4 := 1.0][5 := 0.0]
  }

  /**
    * The wrap of a reference pose: the whole root (orientation and
    * translation) is zeroed, then the root height set to 1.
    */
  function WrapRoot(p: seq<real>): (q: seq<real>)
    requires 6 <= |p|
    ensures |q| == |p| && q[4] == 1.0 && forall i :: 0 <= i < 6 && i != 4 ==> q[i] == 0.0
    ensures forall i :: 6 <= i < |p| ==> q[i] == p[i]
  {
    [0.0, 0.0, 0.0, 0.0, 1.0, 0.0] + p[6..]
  }

  /** A recorded pose as saved: translation-wrapped in wrap mode. */
  function SavedPose(wrap: bool, p: seq<real>): seq<real>
    requires 6 <= |p|
  {
    if wrap then WrapTranslation(p) else p
  }

  /** A reference-manager pose as saved: root-wrapped in wrap mode. */
  function SavedReference(wrap: bool, p: seq<real>): seq<real>
    requires 6 <= |p|
  {
    if wrap then WrapRoot(p) else p
  }

  /**
    * `Save(n)`: the frame count grows by one; while the policy runs and the
    * controller has recorded frame `n`, the character's, the adapted
    * reference's and the original reference's poses at `n` are saved
    * (translation wrapped); otherwise only the reference manager's pose at
    * `n` (root wrapped).
    */
  function Save<C(!new)>(s: Sim<C>, n: int, src: Sources<C>): (r: Sim<C>)
    requires Posed(src)
    ensures r.total == s.total + 1 && |r.memRef| == |s.memRef| + 1
    ensures |r.memRef2| - |r.memory| == |s.memRef2| - |s.memory|
    ensures r == s.(total := r.total, memory := r.memory, memRef := r.memRef, memRef2 := r.memRef2)
    ensures var recorded := s.runPPO && n < src.recordSize(s.ctl);
            && r.memRef[..|s.memRef|] == s.memRef
            && (recorded ==>
                  && r.memory == s.memory + [SavedPose(s.wrap, src.positions(s.ctl, n))]
                  && r.memRef2 == s.memRef2 + [SavedPose(s.wrap, src.target(s.ctl, n))]
                  && r.memRef[|s.memRef|] == SavedPose(s.wrap, src.bvh(s.ctl, n)))
            && (!recorded ==>
                  && r.memory == s.memory && r.memRef2 == s.memRef2
                  && r.memRef[|s.memRef|] == SavedReference(s.wrap, src.reference(n)))
  {
    var s := s.(total := s.total + 1);
    if s.runPPO && n < src.recordSize(s.ctl) then
      s.(memory := s.memory + [SavedPose(s.wrap, src.positions(s.ctl, n))],
         memRef2 := s.memRef2 + [SavedPose(s.wrap, src.target(s.ctl, n))],
         memRef := s.memRef + [SavedPose(s.wrap, src.bvh(s.ctl, n))])
    else
      s.(memRef := s.memRef + [SavedReference(s.wrap, src.reference(n))])
  }

  /** In wrap mode every saved pose has its root translation zeroed and its root height at 1. */
  lemma WrapModeSavesGrounded<C(!new)>(s: Sim<C>, n: int, src: Sources<C>)
    requires Posed(src) && s.wrap
    ensures var r := Save(s, n, src);
            && r.memRef[|s.memRef|][3] == 0.0 && r.memRef[|s.memRef|][4] == 1.0 && r.memRef[|s.memRef|][5] == 0.0
            && (|r.memory| > |s.memory| ==>
                  var p := r.memory[|s.memory|];
                  p[3] == 0.0 && p[4] == 1.0 && p[5] == 0.0)
  {
  }

  /**
    * The memories agree with the frame count: one original-reference pose
    * per frame, and as many adapted-reference poses as character poses,
    * which cover at most every frame.
    */
  predicate Consistent<C>(s: Sim<C>)
  {
    |s.memRef| == s.total && |s.memRef2| == |s.memory| <= s.total
  }

  /** Saving keeps the memories consistent. */
  lemma SaveKeepsConsistent<C(!new)>(s: Sim<C>, n: int, src: Sources<C>)
    requires Posed(src) && Consistent(s)
    ensures Consistent(Save(s, n, src))
  {
  }

  /** What `SetFrame` puts on the screen: the character and the adapted reference only while the policy runs. */
  datatype Shown = Shown(character: Option<seq<real>>, ref2: Option<seq<real>>, ref: seq<real>)

  /**
    * `SetFrame(n)`: `None` outside `[0, total)` ("Frame exceeds limits") and
    * for a frame not yet in memory; otherwise the saved poses of frame `n`.
    */
  function SetFrame<C(!new)>(s: Sim<C>, n: int): (r: Option<Shown>)
    requires |s.memRef2| == |s.memory|
    ensures r.Some? <==> 0 <= n < s.total && n < |s.memRef| && (s.runPPO ==> n < |s.memory|)
    ensures r.Some? ==> r.value.ref == s.memRef[n]
    ensures r.Some? ==> (r.value.character.Some? <==> s.runPPO) && (r.value.ref2.Some? <==> s.runPPO)
    ensures r.Some? && s.runPPO ==> r.value.character == Some(s.memory[n]) && r.value.ref2 == Some(s.memRef2[n])
  {
    if n < 0 || n >= s.total then None
    else if (s.runPPO && |s.memory| <= n) || |s.memRef| <= n then None
    else if s.runPPO then Some(Shown(Some(s.memory[n]), Some(s.memRef2[n]), s.memRef[n]))
    else Some(Shown(None, None, s.memRef[n]))
  }

  /** On a consistent viewer every frame shows the original reference; the character exactly where it was recorded. */
  lemma EveryFrameShowsReference<C(!new)>(s: Sim<C>, n: int)
    requires Consistent(s) && 0 <= n < s.total
    ensures SetFrame(s, n).Some? <==> (s.runPPO ==> n < |s.memory|)
    ensures !s.runPPO ==> SetFrame(s, n) == Some(Shown(None, None, s.memRef[n]))
  {
  }

  /** `NextFrame` and `PrevFrame`: the cursor moves, wrapping at both ends, and its frame is shown. */
  function NextFrame<C(!new)>(s: Sim<C>): (r: (Sim<C>, Option<Shown>))
    requires |s.memRef2| == |s.memory|
    ensures r.0 == s.(cur := FrameCursor.Next(s.cur, s.total)) && r.1 == SetFrame(r.0, r.0.cur)
    ensures Consistent(s) && !s.runPPO && 0 <= s.cur < s.total ==> r.1.Some?
  {
    var t := s.(cur := FrameCursor.Next(s.cur, s.total));
    (t, SetFrame(t, t.cur))
  }

  function PrevFrame<C(!new)>(s: Sim<C>): (r: (Sim<C>, Option<Shown>))
    requires |s.memRef2| == |s.memory|
    ensures r.0 == s.(cur := FrameCursor.Prev(s.cur, s.total)) && r.1 == SetFrame(r.0, r.0.cur)
    ensures Consistent(s) && !s.runPPO && 0 <= s.cur < s.total ==> r.1.Some?
  {
    var t := s.(cur := FrameCursor.Prev(s.cur, s.total));
    (t, SetFrame(t, t.cur))
  }

  /**
    * The viewer after the memories are cleared and frame 0 saved: what the
    * constructor and `Reset` leave behind.
    */
  function Restart<C(!new)>(s: Sim<C>, src: Sources<C>): (r: Sim<C>)
    requires Posed(src)
    ensures r.cur == 0 && r.total == 1 && |r.memRef| == 1 && Consistent(r)
    ensures r.ctl == s.ctl && r.auto == s.auto && r.wrap == s.wrap && r.runPPO == s.runPPO
    ensures |r.memory| == (if s.runPPO && 0 < src.recordSize(s.ctl) then 1 else 0)
  {
    Save(s.(cur := 0, total := 0, memory := [], memRef := [], memRef2 := []), 0, src)
  }

  /**
    * The constructor: the policy runs exactly when a network is given;
    * auto-play and wrap start off; the controller is reset and frame 0 saved.
    * The regression network is then asked for each of the reference's
    * `numCps` control points outside the guarded block: without a network
    * it was never created, so the constructor fails (`None`) as soon as
    * there is a control point to ask for.
    */
  function Open<C(!new)>(ctl: C, withNetwork: bool, numCps: nat, src: Sources<C>): (r: Option<Sim<C>>)
    requires Posed(src)
    ensures r.None? <==> !withNetwork && 0 < numCps
    ensures r.Some? ==> r.value.runPPO == withNetwork && !r.value.auto && !r.value.wrap && r.value.ctl == src.reset(ctl)
    ensures r.Some? ==> r.value.cur == 0 && r.value.total == 1 && Consistent(r.value)
  {
    if !withNetwork && 0 < numCps then None
    else Some(Restart(Sim(src.reset(ctl), 0, 0, false, false, withNetwork, [], [], []), src))
  }

  /** `Reset`: the controller is reset, the memories cleared and frame 0 saved; the flags are kept. */
  function Reset<C(!new)>(s: Sim<C>, src: Sources<C>): (r: Sim<C>)
    requires Posed(src)
    ensures r.ctl == src.reset(s.ctl) && r.cur == 0 && r.total == 1 && Consistent(r)
    ensures r.auto == s.auto && r.wrap == s.wrap && r.runPPO == s.runPPO
  {
    Restart(s.(ctl := src.reset(s.ctl)), src)
  }

  /** After `Reset` frame 0, and only frame 0, can be shown. */
  lemma ResetShowsFirstFrame<C(!new)>(s: Sim<C>, src: Sources<C>, n: int)
    requires Posed(src)
    ensures var r := Reset(s, src);
            (SetFrame(r, n).Some? ==> n == 0)
            && (SetFrame(r, 0).Some? <==> (s.runPPO ==> 0 < src.recordSize(src.reset(s.ctl))))
  {
  }

  /**
    * `Step`: while the policy runs, the controller takes two policy steps;
    * then the cursor moves on, the new frame is saved and shown.
    */
  function Step<C(!new)>(s: Sim<C>, src: Sources<C>): (r: (Sim<C>, Option<Shown>))
    requires Posed(src) && |s.memRef2| == |s.memory|
    ensures r.0.ctl == (if s.runPPO then src.step(src.step(s.ctl)) else s.ctl)
    ensures r.0.cur == s.cur + 1 && r.0.total == s.total + 1 && |r.0.memRef| == |s.memRef| + 1
    ensures |r.0.memRef2| == |r.0.memory| && r.1 == SetFrame(r.0, r.0.cur)
  {
    var ctl := if s.runPPO then src.step(src.step(s.ctl)) else s.ctl;
    var t := Save(s.(ctl := ctl, cur := s.cur + 1), s.cur + 1, src);
    (t, SetFrame(t, t.cur))
  }

  /**
    * `Timer`: in auto-play, on the last frame the viewer steps the
    * simulation; before it, it only moves the cursor on and shows that
    * frame; otherwise nothing happens.
    */
  function Timer<C(!new)>(s: Sim<C>, src: Sources<C>): (r: (Sim<C>, Option<Shown>))
    requires Posed(src) && |s.memRef2| == |s.memory|
    ensures s.auto && s.cur == s.total - 1 ==> r == Step(s, src)
    ensures s.auto && s.cur < s.total - 1 ==> r.0 == s.(cur := s.cur + 1) && r.1 == SetFrame(r.0, r.0.cur)
    ensures !s.auto || s.total - 1 < s.cur ==> r == (s, None)
  {
    if s.auto && s.cur == s.total - 1 then Step(s, src)
    else if s.auto && s.cur < s.total - 1 then
      var t := s.(cur := s.cur + 1);
      (t, SetFrame(t, t.cur))
    else (s, None)
  }

  /**
    * Auto-play from the last frame stays on the last frame: each tick adds
    * one frame and shows it, and the memories stay consistent.
    */
  lemma AutoPlayFollowsSimulation<C(!new)>(s: Sim<C>, src: Sources<C>)
    requires Posed(src) && Consistent(s) && s.auto && s.cur == s.total - 1
    ensures var r := Timer(s, src).0;
            r.cur == r.total - 1 && r.total == s.total + 1 && Consistent(r)
    ensures Timer(s, src).1.Some? <==> (s.runPPO ==> |s.memory| == s.total && s.total < src.recordSize(Timer(s, src).0.ctl))
  {
    SaveKeepsConsistent(s.(ctl := Timer(s, src).0.ctl, cur := s.cur + 1), s.cur + 1, src);
  }

  /** Auto-play before the last frame catches up one frame per tick without touching the controller or the memories. */
  lemma AutoPlayCatchesUp<C(!new)>(s: Sim<C>, src: Sources<C>)
    requires Posed(src) && Consistent(s) && s.auto && 0 <= s.cur < s.total - 1
    ensures var r := Timer(s, src);
            r.0 == s.(cur := s.cur + 1) && r.1.Some? == (s.runPPO ==> s.cur + 1 < |s.memory|)
  {
  }

  /** The keys that move the cursor or change the viewer's state. */
  datatype Key = PrevKey | NextKey | BackHundred | OnHundred | ResetKey | WrapKey | AutoKey

  /**
    * `Keyboard`: `[` and `]` stop auto-play and step back or on; `o` and `p`
    * jump a hundred frames back or on (the jump wraps only past the ends
    * like a single step); `r` resets; `w` toggles wrap mode; space toggles
    * auto-play.
    */
  function Keyboard<C(!new)>(s: Sim<C>, key: Key, src: Sources<C>): (r: Sim<C>)
    requires Posed(src) && |s.memRef2| == |s.memory|
    ensures key == PrevKey ==> r == PrevFrame(s.(auto := false)).0
    ensures key == NextKey ==> r == NextFrame(s.(auto := false)).0
    ensures key == BackHundred ==> r == s.(cur := FrameCursor.Prev(s.cur - 99, s.total))
    ensures key == OnHundred ==> r == s.(cur := FrameCursor.Next(s.cur + 99, s.total))
    ensures key == ResetKey ==> r == Reset(s, src)
    ensures key == WrapKey ==> r == s.(wrap := !s.wrap)
    ensures key == AutoKey ==> r == s.(auto := !s.auto)
  {
    match key
    case PrevKey => PrevFrame(s.(auto := false)).0
    case NextKey => NextFrame(s.(auto := false)).0
    case BackHundred => PrevFrame(s.(cur := s.cur - 99)).0
    case OnHundred => NextFrame(s.(cur := s.cur + 99)).0
    case ResetKey => Reset(s, src)
    case WrapKey => s.(wrap := !s.wrap)
    case AutoKey => s.(auto := !s.auto)
  }

  /** Every key keeps the memories consistent, and a cursor on a frame stays on a frame. */
  lemma KeysKeepInvariant<C(!new)>(s: Sim<C>, key: Key, src: Sources<C>)
    requires Posed(src) && Consistent(s)
    ensures Consistent(Keyboard(s, key, src))
    ensures 0 <= s.cur < s.total ==> 0 <= Keyboard(s, key, src).cur < Keyboard(s, key, src).total
  {
    match key
    case PrevKey =>
      if 0 <= s.cur < s.total { FrameCursor.Cycle(s.cur, s.total); }
    case NextKey =>
      if 0 <= s.cur < s.total { FrameCursor.Cycle(s.cur, s.total); }
    case _ =>
  }

  /** Every tick keeps the memories consistent. */
  lemma TimerKeepsInvariant<C(!new)>(s: Sim<C>, src: Sources<C>)
    requires Posed(src) && Consistent(s)
    ensures Consistent(Timer(s, src).0)
  {
    if s.auto && s.cur == s.total - 1 {
      AutoPlayFollowsSimulation(s, src);
    }
  }

  /**
    * A hundred-frame jump does not go round: from frame 50 of 120, `p` lands
    * on 0 (not on 30) and `o` on 119 (not on 70).
    */
  lemma HundredJumpLandsOnOppositeEnd<C(!new)>(s: Sim<C>, src: Sources<C>)
    requires Posed(src) && |s.memRef2| == |s.memory| && s.cur == 50 && s.total == 120
    ensures Keyboard(s, OnHundred, src).cur == 0 && Keyboard(s, BackHundred, src).cur == 119
  {
  }
}

=== FILE: spline_window.dfy ===
/**
  * The spline viewer: it replays a record file either as spline control
  * points (every five points make one spline segment that displaces the
  * reference motion) or as recorded positions (cut into trajectories where
  * the reward changes, each refitted through a spline and shown next to the
  * original).  The reference pose at a frame (`refAt`), the spline
  * evaluation (`evalSpline`), the spline refit of a trajectory (`refit`) and
  * the rotation kernels are parameters; the record file is given already
  * split into records.
  */
module SplineWindow {
  import opened Numeric
  import Displacement
  import FrameCursor

  /** Control points per spline segment: the knots are 0, 9, 20, 27 and 35. */
  const BATCH: nat := 5

  /** Every reference pose has one coordinate per skeleton DOF. */
  ghost predicate PoseSource(refAt: real -> seq<real>, n: nat)
  {
    forall t :: |refAt(t)| == n
  }

  /** Every evaluated spline frame has one coordinate per skeleton DOF. */
  ghost predicate FrameSource<A(!new)>(eval: A -> seq<seq<real>>, n: nat)
  {
    forall a, i :: 0 <= i < |eval(a)| ==> |eval(a)[i]| == n
  }

  /** The `k`-th batch of five control points. */
  function Batch(records: seq<seq<real>>, k: nat): seq<seq<real>>
    requires BATCH * (k + 1) <= |records|
  {
    records[BATCH * k..BATCH * (k + 1)]
  }

  /** `position` is the reference poses `0 .. |displacement|`, each displaced by the frame of the same index. */
  ghost predicate Played(dofs: seq<nat>, position: seq<seq<real>>, displacement: seq<seq<real>>,
                         refAt: real -> seq<real>, rotate: (seq<real>, seq<real>) -> seq<real>)
    requires Displacement.ValidSkeleton(dofs) && Displacement.Rotational(rotate)
  {
    && |position| == |displacement|
    && forall i :: 0 <= i < |position| ==>
         Displacement.PoseApplied(dofs, position[i], refAt(i as real), displacement[i], rotate)
  }

  /** One spline segment played over the reference. */
  method PlaySegment(dofs: seq<nat>, displacement: seq<seq<real>>, refAt: real -> seq<real>,
                     rotate: (seq<real>, seq<real>) -> seq<real>) returns (position: seq<seq<real>>)
    requires Displacement.ValidSkeleton(dofs) && Displacement.Rotational(rotate)
    requires PoseSource(refAt, Displacement.Size(dofs))
    requires forall i :: 0 <= i < |displacement| ==> |displacement[i]| == Displacement.Size(dofs)
    ensures Played(dofs, position, displacement, refAt, rotate)
  {
    position := [];
    var i := 0;
    while i < |displacement|
      invariant 0 <= i <= |displacement| && |position| == i
      invariant forall m :: 0 <= m < i ==>
                  Displacement.PoseApplied(dofs, position[m], refAt(m as real), displacement[m], rotate)
    {
      var p := Displacement.ApplyToPose(dofs, refAt(i as real), displacement[i], rotate);
      position := position + [p];
      i := i + 1;
    }
  }

  /**
    * Spline mode of the constructor: control points are collected until there
    * are five; then the spline through them is evaluated, every evaluated
    * frame displaces the reference pose of the same index, the poses are
    * appended to the memory, and the batch is cleared.  A last batch of fewer
    * than five points is dropped.  `segments` lists the poses each batch added.
    */
  method SplineRecords(dofs: seq<nat>, records: seq<seq<real>>, evalSpline: seq<seq<real>> -> seq<seq<real>>,
                       refAt: real -> seq<real>, rotate: (seq<real>, seq<real>) -> seq<real>)
      returns (memRef: seq<seq<real>>, segments: seq<seq<seq<real>>>)
    requires Displacement.ValidSkeleton(dofs) && Displacement.Rotational(rotate)
    requires PoseSource(refAt, Displacement.Size(dofs)) && FrameSource(evalSpline, Displacement.Size(dofs))
    ensures |segments| == |records| / BATCH && memRef == Flatten(segments)
    ensures forall k :: 0 <= k < |segments| ==> Played(dofs, segments[k], evalSpline(Batch(records, k)), refAt, rotate)
  {
    memRef, segments := [], [];
    var cps: seq<seq<real>> := [];
    var n := 0;
    while n < |records|
      invariant 0 <= n <= |records| && |segments| == n / BATCH && memRef == Flatten(segments)
      invariant cps == records[BATCH * |segments|..n] && |cps| < BATCH
      invariant forall k :: 0 <= k < |segments| ==> Played(dofs, segments[k], evalSpline(Batch(records, k)), refAt, rotate)
    {
      cps := cps + [records[n]];
      if |cps| == BATCH {
        assert cps == Batch(records, |segments|);
        var position := PlaySegment(dofs, evalSpline(cps), refAt, rotate);
        assert (segments + [position])[..|segments|] == segments;
        memRef := memRef + position;
        segments := segments + [position];
        cps := [];
      }
      n := n + 1;
    }
  }

  // ---------------------------------------------------------------- position mode

  /** One record of position mode: the pose, the time step and the reward of the rollout it came from. */
  datatype Record = Record(pose: seq<real>, step: real, reward: real)

  /** The reward a trajectory is compared with: its first non-zero reward, or 0 while it has none. */
  function RunReward(run: seq<Record>): real
    decreases |run|
  {
    if |run| == 0 then 0.0 else if run[0].reward != 0.0 then run[0].reward else RunReward(run[1..])
  }

  lemma {:induction false} RunRewardAppend(run: seq<Record>, r: Record)
    ensures RunReward(run + [r]) == if RunReward(run) != 0.0 then RunReward(run) else r.reward
    decreases |run|
  {
    if |run| != 0 {
      assert (run + [r])[1..] == run[1..] + [r];
      RunRewardAppend(run[1..], r);
    }
  }

  /**
    * A trajectory that the reward rule keeps together: every record after
    * the first either arrives while the trajectory has no non-zero reward
    * yet, or carries the reward of the trajectory.
    */
  predicate Coherent(run: seq<Record>)
  {
    forall j :: 0 < j < |run| ==> RunReward(run[..j]) == 0.0 || run[j].reward == RunReward(run[..j])
  }

  /**
    * Trajectory `k` is non-empty, has a non-zero reward, and is followed by a
    * record (the first of the next trajectory, or of the pending one) with a
    * different reward.
    */
  predicate ChangeAt(runs: seq<seq<Record>>, pending: seq<Record>, k: int)
    requires 0 <= k < |runs|
  {
    var next := if k + 1 < |runs| then runs[k + 1] else pending;
    1 <= |runs[k]| && 1 <= |next| && RunReward(runs[k]) != 0.0 && next[0].reward != RunReward(runs[k])
  }

  /** Every closed trajectory ends at a reward change. */
  predicate EndsAtChange(runs: seq<seq<Record>>, pending: seq<Record>)
  {
    forall k :: 0 <= k < |runs| ==> ChangeAt(runs, pending, k)
  }

  /** The closed trajectories and the pending one. */
  datatype Cut = Cut(runs: seq<seq<Record>>, pending: seq<Record>)

  /**
    * One record of the cut: the current reward is that of the pending trajectory
    * (re-seeded by this record while it is 0); a record with a different
    * reward closes the pending trajectory and starts the next one.
    */
  function CutStep(c: Cut, r: Record): Cut
  {
    var seeded := if RunReward(c.pending) == 0.0 then r.reward else RunReward(c.pending);
    if r.reward != seeded then Cut(c.runs + [c.pending], [r]) else Cut(c.runs, c.pending + [r])
  }

  /** The cut of a whole record list, record by record. */
  function CutAll(records: seq<Record>): Cut
    decreases |records|
  {
    if |records| == 0 then Cut([], [])
    else CutStep(CutAll(records[..|records| - 1]), records[|records| - 1])
  }

  /** What every cut keeps: coherent trajectories, each closed one ending at a reward change. */
  predicate WellCut(c: Cut)
  {
    && (|c.pending| == 0 ==> |c.runs| == 0)
    && Coherent(c.pending) && (forall k :: 0 <= k < |c.runs| ==> Coherent(c.runs[k]))
    && EndsAtChange(c.runs, c.pending)
  }

  /** One more record keeps the cut well formed, and the records in order. */
  lemma CutStepKeeps(c: Cut, r: Record)
    requires WellCut(c)
    ensures WellCut(CutStep(c, r)) && 1 <= |CutStep(c, r).pending|
    ensures Flatten(CutStep(c, r).runs) + CutStep(c, r).pending == Flatten(c.runs) + c.pending + [r]
  {
    var d := CutStep(c, r);
    var reward := RunReward(c.pending);
    var seeded := if reward == 0.0 then r.reward else reward;
    if r.reward != seeded {
      assert reward != 0.0 && r.reward != reward && d == Cut(c.runs + [c.pending], [r]);
      assert 1 <= |c.pending|;
      assert (c.runs + [c.pending])[..|c.runs|] == c.runs;
      assert RunReward([r]) == r.reward;
      forall k | 0 <= k < |d.runs|
        ensures ChangeAt(d.runs, d.pending, k)
      {
        if k < |c.runs| {
          assert d.runs[k] == c.runs[k];
          if k + 1 < |c.runs| { assert d.runs[k + 1] == c.runs[k + 1]; }
          assert ChangeAt(c.runs, c.pending, k);
        } else {
          assert d.runs[k] == c.pending && d.pending == [r];
        }
      }
    } else {
      var p := c.pending + [r];
      assert d.pending == p && d.runs == c.runs;
      RunRewardAppend(c.pending, r);
      forall j | 0 < j < |p|
        ensures RunReward(p[..j]) == 0.0 || p[j].reward == RunReward(p[..j])
      {
        assert p[..j] == c.pending[..j];
        if j < |c.pending| { assert p[j] == c.pending[j]; }
      }
      if 1 <= |c.pending| {
        assert p[0] == c.pending[0];
        forall k | 0 <= k < |d.runs|
          ensures ChangeAt(d.runs, d.pending, k)
        {
          assert ChangeAt(c.runs, c.pending, k);
        }
      }
    }
  }

  /**
    * The cut partitions the records in order into closed trajectories and a
    * pending one, which is non-empty for any non-empty list: the last
    * trajectory is never closed.
    */
  lemma {:induction false} CutAllPartitions(records: seq<Record>)
    ensures var c := CutAll(records);
            Flatten(c.runs) + c.pending == records && WellCut(c)
            && (1 <= |records| ==> 1 <= |c.pending|)
    decreases |records|
  {
    if |records| != 0 {
      var front := records[..|records| - 1];
      CutAllPartitions(front);
      CutStepKeeps(CutAll(front), records[|records| - 1]);
      assert front + [records[|records| - 1]] == records;
    }
  }

  /**
    * The trajectory cut of position mode as the constructor runs it, with
    * the reward kept in a variable of its own: the first reward seeds the
    * comparison, a reward of 0 is re-seeded by the next record, and a record
    * whose reward differs closes the trajectory before it.
    */
  method CutTrajectories(records: seq<Record>) returns (runs: seq<seq<Record>>, pending: seq<Record>)
    ensures Cut(runs, pending) == CutAll(records)
    ensures Flatten(runs) + pending == records
    ensures 1 <= |records| ==> 1 <= |pending|
    ensures Coherent(pending) && forall k :: 0 <= k < |runs| ==> Coherent(runs[k])
    ensures EndsAtChange(runs, pending)
  {
    runs, pending := [], [];
    var reward := 0.0;
    var n := 0;
    while n < |records|
      invariant 0 <= n <= |records| && Cut(runs, pending) == CutAll(records[..n])
      invariant reward == RunReward(pending)
    {
      var r := records[n];
      assert records[..n + 1][..n] == records[..n];
      if reward == 0.0 {
        reward := r.reward;
      }
      if r.reward != reward {
        reward := r.reward;
        runs, pending := runs + [pending], [];
        assert RunReward([r]) == r.reward;
      } else {
        RunRewardAppend(pending, r);
      }
      pending := pending + [r];
      n := n + 1;
    }
    assert records[..n] == records;
    CutAllPartitions(records);
  }

  /**
    * A zero reward closes the trajectory before it like any other change,
    * and the record after it re-seeds the reward and joins it: rewards
    * 1, 0, 2 cut into the closed trajectory [1] and the pending [0, 2].
    */
  lemma ZeroRewardJoinsNext(p: seq<real>)
    ensures var a, b, c := Record(p, 1.0, 1.0), Record(p, 1.0, 0.0), Record(p, 1.0, 2.0);
            CutAll([a, b, c]) == Cut([[a]], [b, c])
  {
    var a, b, c := Record(p, 1.0, 1.0), Record(p, 1.0, 0.0), Record(p, 1.0, 2.0);
    assert [a, b, c][..2] == [a, b] && [a, b][..1] == [a] && [a][..0] == [];
    assert CutAll([a]) == Cut([], [a]);
    assert RunReward([a]) == 1.0;
    assert CutAll([a, b]) == Cut([[a]], [b]);
    assert RunReward([b]) == 0.0;
  }

  /**
    * The frames of the records of a trajectory: 0 for the first, then one frame
    * plus the time step of the next record for each following record.
    */
  function Frames(steps: seq<real>): (f: seq<real>)
    ensures |f| == |steps|
    ensures 0 < |f| ==> f[0] == 0.0
    ensures forall i :: 0 < i < |f| ==> f[i] == f[i - 1] + 1.0 + steps[i]
    decreases |steps|
  {
    if |steps| == 0 then []
    else if |steps| == 1 then [0.0]
    else
      var f := Frames(steps[..|steps| - 1]);
      f + [f[|f| - 1] + 1.0 + steps[|steps| - 1]]
  }

  /** With time steps above -1 the frames strictly increase, so no two records share a frame. */
  lemma FramesIncrease(steps: seq<real>)
    requires forall i :: 0 <= i < |steps| ==> -1.0 < steps[i]
    ensures forall i, j :: 0 <= i < j < |steps| ==> Frames(steps)[i] < Frames(steps)[j]
  {
    var f := Frames(steps);
    forall i, j | 0 <= i < j < |steps|
      ensures f[i] < f[j]
    {
      var k := i + 1;
      while k < j
        invariant i < k <= j && f[i] < f[k]
      {
        k := k + 1;
      }
    }
  }

  /** The pose on the second character: the refitted pose moved 1.5 along the x axis of the root. */
  function Beside(p: seq<real>): (q: seq<real>)
    requires 4 <= |p|
    ensures |q| == |p| && q[3] == p[3] + 1.5
    ensures forall c :: 0 <= c < |p| && c != 3 ==> q[c] == p[c]
  {
    p[3 := p[3] + 1.5]
  }

  /** The time steps of the records of a trajectory. */
  function Steps(run: seq<Record>): (s: seq<real>)
    ensures |s| == |run| && forall i :: 0 <= i < |run| ==> s[i] == run[i].step
  {
    seq(|run|, i requires 0 <= i < |run| => run[i].step)
  }

  /**
    * Closing one trajectory: every record is measured against the reference
    * at its frame (`samples`), the spline refit of those samples is
    * evaluated, and the first `l = min(|run|, |refit|)` frames go to memory:
    * the recorded pose in the first memory (`shown`), and the refitted
    * displacement applied to the reference pose of the same index
    * (`displaced`), moved beside it, in the second (`refitted`).
    */
  method CloseTrajectory(dofs: seq<nat>, run: seq<Record>, refAt: real -> seq<real>,
                         refit: seq<(seq<real>, real)> -> seq<seq<real>>,
                         rotate: (seq<real>, seq<real>) -> seq<real>,
                         difference: (seq<real>, seq<real>) -> seq<real>)
      returns (samples: seq<(seq<real>, real)>, shown: seq<seq<real>>, displaced: seq<seq<real>>,
               refitted: seq<seq<real>>)
    requires Displacement.ValidSkeleton(dofs) && Displacement.Rotational(rotate) && Displacement.Rotational(difference)
    requires 4 <= Displacement.Size(dofs)
    requires PoseSource(refAt, Displacement.Size(dofs)) && FrameSource(refit, Displacement.Size(dofs))
    requires PosesSized(run, Displacement.Size(dofs))
    ensures |samples| == |run|
    ensures forall i :: 0 <= i < |run| ==>
              samples[i].1 == Frames(Steps(run))[i]
              && Displacement.PoseMeasured(dofs, samples[i].0, run[i].pose, refAt(samples[i].1), difference)
    ensures |shown| == |displaced| == |refitted| == MinInt(|run|, |refit(samples)|)
    ensures Played(dofs, displaced, refit(samples)[..|displaced|], refAt, rotate)
    ensures forall i :: 0 <= i < |shown| ==> shown[i] == run[i].pose && refitted[i] == Beside(displaced[i])
  {
    var frames := Frames(Steps(run));
    samples := [];
    var i := 0;
    while i < |run|
      invariant 0 <= i <= |run| && |samples| == i
      invariant forall m :: 0 <= m < i ==>
                  samples[m].1 == frames[m]
                  && Displacement.PoseMeasured(dofs, samples[m].0, run[m].pose, refAt(samples[m].1), difference)
    {
      var d := Displacement.MeasureFromPose(dofs, run[i].pose, refAt(frames[i]), difference);
      samples := samples + [(d, frames[i])];
      i := i + 1;
    }
    var displacement := refit(samples);
    var l := MinInt(|run|, |displacement|);
    displaced := PlaySegment(dofs, displacement[..l], refAt, rotate);
    shown := seq(l, m requires 0 <= m < l => run[m].pose);
    refitted := seq(l, m requires 0 <= m < l => Beside(displaced[m]));
  }

  /**
    * Position mode of the constructor: the records are cut into
    * trajectories and every closed trajectory is refitted and put in memory;
    * the pending one never is.  Both memories grow together, by at most one
    * frame per record.
    */
  method PositionRecords(dofs: seq<nat>, records: seq<Record>, refAt: real -> seq<real>,
                         refit: seq<(seq<real>, real)> -> seq<seq<real>>,
                         rotate: (seq<real>, seq<real>) -> seq<real>,
                         difference: (seq<real>, seq<real>) -> seq<real>)
      returns (memRef: seq<seq<real>>, memRef2: seq<seq<real>>)
    requires Displacement.ValidSkeleton(dofs) && Displacement.Rotational(rotate) && Displacement.Rotational(difference)
    requires 4 <= Displacement.Size(dofs)
    requires PoseSource(refAt, Displacement.Size(dofs)) && FrameSource(refit, Displacement.Size(dofs))
    requires PosesSized(records, Displacement.Size(dofs))
    ensures |memRef| == |memRef2| <= |records| - |CutAll(records).pending|
    ensures 1 <= |records| ==> |memRef| < |records|
    ensures forall i :: 0 <= i < |memRef2| ==> |memRef2[i]| == Displacement.Size(dofs)
  {
    var runs, pending := CutTrajectories(records);
    RunsSized(runs, pending, records, Displacement.Size(dofs));
    memRef, memRef2 := [], [];
    var k := 0;
    while k < |runs|
      invariant 0 <= k <= |runs| && |memRef| == |memRef2| <= |Flatten(runs[..k])|
      invariant forall i :: 0 <= i < |memRef2| ==> |memRef2[i]| == Displacement.Size(dofs)
    {
      FlattenSnoc(runs, k);
      var _, shown, _, refitted := CloseTrajectory(dofs, runs[k], refAt, refit, rotate, difference);
      assert runs[..k + 1][..k] == runs[..k];
      memRef, memRef2 := memRef + shown, memRef2 + refitted;
      k := k + 1;
    }
    assert runs[..k] == runs;
  }

  /** The pose of every record has `n` coordinates. */
  predicate PosesSized(run: seq<Record>, n: nat)
  {
    forall i :: 0 <= i < |run| ==> |run[i].pose| == n
  }

  /** The trajectories of a list of records with `n`-coordinate poses have `n`-coordinate poses. */
  lemma RunsSized(runs: seq<seq<Record>>, pending: seq<Record>, records: seq<Record>, n: nat)
    requires Flatten(runs) + pending == records && PosesSized(records, n)
    ensures forall k :: 0 <= k < |runs| ==> PosesSized(runs[k], n)
  {
    forall k, i | 0 <= k < |runs| && 0 <= i < |runs[k]|
      ensures |runs[k][i].pose| == n
    {
      FlattenMembers(runs);
      assert runs[k][i] in runs[k];
      assert runs[k][i] in records;
    }
  }

  // ---------------------------------------------------------------- frame cursor

  /** The viewer: the frame on show, the frame count, both memories and whether the second character is drawn. */
  datatype Viewer = Viewer(cur: int, total: int, memRef: seq<seq<real>>, memRef2: seq<seq<real>>, drawRef2: bool)

  /** The frame count after loading `length` frames: set when unset, lowered when the memory is shorter. */
  function LoadedTotal(total: int, length: int): (r: int)
    ensures total == 0 ==> r == length
    ensures total != 0 ==> r == length || r == total
    ensures total != 0 ==> r <= total && (r < total <==> length < total)
  {
    if total == 0 || length < total then length else total
  }

  /** The viewer the constructor leaves: frame 0, as many frames as the first memory holds. */
  function Open(memRef: seq<seq<real>>, memRef2: seq<seq<real>>, drawRef2: bool): (v: Viewer)
    ensures v.cur == 0 && v.total == |memRef| && v.memRef == memRef && v.memRef2 == memRef2 && v.drawRef2 == drawRef2
  {
    Viewer(0, LoadedTotal(0, |memRef|), memRef, memRef2, drawRef2)
  }

  /** Both memories hold every frame below the count. */
  predicate Backed(v: Viewer)
  {
    v.total <= |v.memRef| && (v.drawRef2 ==> v.total <= |v.memRef2|)
  }

  /**
    * `SetFrame(n)`: frame `n` of the first memory, and of the second when it
    * is drawn; `None` (the program reports that the frame exceeds its limits) outside `[0, total)`.
    */
  function SetFrame(v: Viewer, n: int): (r: Option<(seq<real>, Option<seq<real>>)>)
    requires Backed(v)
    ensures r.Some? <==> 0 <= n < v.total
    ensures r.Some? ==> r.value.0 == v.memRef[n] && (r.value.1.Some? <==> v.drawRef2)
    ensures r.Some? && v.drawRef2 ==> r.value.1 == Some(v.memRef2[n])
  {
    if n < 0 || n >= v.total then None
    else Some((v.memRef[n], if v.drawRef2 then Some(v.memRef2[n]) else None))
  }

  /** `NextFrame`: the cursor moves on and the frame it lands on is shown, if there is one. */
  function NextFrame(v: Viewer): (r: (Viewer, Option<(seq<real>, Option<seq<real>>)>))
    requires Backed(v)
    ensures r.0 == v.(cur := FrameCursor.Next(v.cur, v.total)) && r.1 == SetFrame(r.0, r.0.cur)
    ensures 0 <= v.cur < v.total ==> r.1.Some?
  {
    var w := v.(cur := FrameCursor.Next(v.cur, v.total));
    (w, SetFrame(w, w.cur))
  }

  /** `PrevFrame`: the cursor moves back and the frame it lands on is shown, if there is one. */
  function PrevFrame(v: Viewer): (r: (Viewer, Option<(seq<real>, Option<seq<real>>)>))
    requires Backed(v)
    ensures r.0 == v.(cur := FrameCursor.Prev(v.cur, v.total)) && r.1 == SetFrame(r.0, r.0.cur)
    ensures 0 <= v.cur < v.total ==> r.1.Some?
  {
    var w := v.(cur := FrameCursor.Prev(v.cur, v.total));
    (w, SetFrame(w, w.cur))
  }

  /** With an empty memory neither move shows a frame: stepping back leaves the cursor at -1. */
  lemma EmptyMemoryShowsNothing(v: Viewer)
    requires v.cur == 0 && v.total == 0
    ensures PrevFrame(v).0.cur == -1 && PrevFrame(v).1.None?
    ensures NextFrame(v).0.cur == 0 && NextFrame(v).1.None?
  {
  }
}

=== FILE: stable_sort.dfy ===
/**
  * `std::stable_sort` with a descending comparator on a real key, as
  * `Optimize` uses it to rank the rollout samples by trajectory reward:
  * insertion sort on sequences, with the three facts the sort guarantees —
  * the result is ordered, it is a permutation of the input, and elements
  * with equal keys keep their relative order.
  */
module StableSort {

  /** Keys never increase along `s`. */
  predicate SortedDesc<T>(s: seq<T>, key: T -> real)
  {
    forall i, j :: 0 <= i < j < |s| ==> key(s[i]) >= key(s[j])
  }

  /** The elements of `s` whose key is `k`, in their order in `s`. */
  function WithKey<T>(s: seq<T>, key: T -> real, k: real): (r: seq<T>)
    ensures |r| <= |s|
    ensures forall i :: 0 <= i < |r| ==> key(r[i]) == k
  {
    if |s| == 0 then []
    else WithKey(s[..|s| - 1], key, k) + (if key(s[|s| - 1]) == k then [s[|s| - 1]] else [])
  }

  /**
    * `x` placed after every element whose key is at least its own: the
    * comparator `key(a) > key(b)` never moves a later element ahead of an
    * earlier one with the same key.
    */
  function Insert<T>(x: T, s: seq<T>, key: T -> real): (r: seq<T>)
    ensures |r| == |s| + 1
    ensures multiset(r) == multiset(s) + multiset{x}
  {
    if |s| == 0 then [x]
    else if key(s[0]) >= key(x) then
      assert s == [s[0]] + s[1..];
      [s[0]] + Insert(x, s[1..], key)
    else [x] + s
  }

  /** The stable descending sort of `s`: its elements inserted one after the other. */
  function SortDesc<T>(s: seq<T>, key: T -> real): (r: seq<T>)
    ensures |r| == |s|
    ensures multiset(r) == multiset(s)
  {
    if |s| == 0 then []
    else
      assert s == s[..|s| - 1] + [s[|s| - 1]];
      Insert(s[|s| - 1], SortDesc(s[..|s| - 1], key), key)
  }

  lemma WithKeyAppend<T>(a: seq<T>, b: seq<T>, key: T -> real, k: real)
    ensures WithKey(a + b, key, k) == WithKey(a, key, k) + WithKey(b, key, k)
    decreases |b|
  {
    if |b| == 0 {
      assert a + b == a;
    } else {
      assert (a + b)[..|a + b| - 1] == a + b[..|b| - 1];
      WithKeyAppend(a, b[..|b| - 1], key, k);
    }
  }

  lemma WithKeySingle<T>(x: T, key: T -> real, k: real)
    ensures WithKey([x], key, k) == if key(x) == k then [x] else []
  {
    assert [x][..0] == [];
  }

  /** In a descending sequence that starts below `k`, no element has key `k`. */
  lemma {:induction false} NoneWithKeyBelow<T>(s: seq<T>, key: T -> real, k: real)
    requires SortedDesc(s, key) && 0 < |s| && key(s[0]) < k
    ensures WithKey(s, key, k) == []
    decreases |s|
  {
    if 1 < |s| {
      assert key(s[|s| - 1]) <= key(s[0]);
      NoneWithKeyBelow(s[..|s| - 1], key, k);
    }
  }

  lemma {:induction false} InsertSorted<T>(x: T, s: seq<T>, key: T -> real)
    requires SortedDesc(s, key)
    ensures SortedDesc(Insert(x, s, key), key)
    decreases |s|
  {
    if |s| != 0 && key(s[0]) >= key(x) {
      InsertSorted(x, s[1..], key);
      var t := Insert(x, s[1..], key);
      assert multiset(t) == multiset(s[1..]) + multiset{x};
      forall j | 0 <= j < |t|
        ensures key(s[0]) >= key(t[j])
      {
        assert t[j] in multiset(t);
        if t[j] != x {
          assert t[j] in multiset(s[1..]);
          var m :| 0 <= m < |s[1..]| && s[1..][m] == t[j];
          assert s[m + 1] == t[j];
        }
      }
    }
  }

  /** Inserting `x` appends it to the elements of its own key and leaves the other keys' order alone. */
  lemma {:induction false} InsertWithKey<T>(x: T, s: seq<T>, key: T -> real, k: real)
    requires SortedDesc(s, key)
    ensures WithKey(Insert(x, s, key), key, k) == WithKey(s, key, k) + WithKey([x], key, k)
    decreases |s|
  {
    if |s| == 0 {
      assert Insert(x, s, key) == [x];
      assert WithKey(s, key, k) == [];
    } else if key(s[0]) >= key(x) {
      InsertWithKey(x, s[1..], key, k);
      InsertBehind(x, s, key, k);
    } else {
      InsertInFront(x, s, key, k);
    }
  }

  lemma InsertBehind<T>(x: T, s: seq<T>, key: T -> real, k: real)
    requires 0 < |s| && key(s[0]) >= key(x)
    requires WithKey(Insert(x, s[1..], key), key, k) == WithKey(s[1..], key, k) + WithKey([x], key, k)
    ensures WithKey(Insert(x, s, key), key, k) == WithKey(s, key, k) + WithKey([x], key, k)
  {
    var t := Insert(x, s[1..], key);
    var head, rest, last := WithKey([s[0]], key, k), WithKey(s[1..], key, k), WithKey([x], key, k);
    calc {
      WithKey(Insert(x, s, key), key, k);
    == { assert Insert(x, s, key) == [s[0]] + t; }
      WithKey([s[0]] + t, key, k);
    == { WithKeyAppend([s[0]], t, key, k); }
      head + (rest + last);
    == 
      (head + rest) + last;
    == { WithKeyAppend([s[0]], s[1..], key, k); assert [s[0]] + s[1..] == s; }
      WithKey(s, key, k) + last;
    }
  }

  lemma InsertInFront<T>(x: T, s: seq<T>, key: T -> real, k: real)
    requires SortedDesc(s, key) && 0 < |s| && key(s[0]) < key(x)
    ensures WithKey(Insert(x, s, key), key, k) == WithKey(s, key, k) + WithKey([x], key, k)
  {
    assert Insert(x, s, key) == [x] + s;
    WithKeyAppend([x], s, key, k);
    WithKeySingle(x, key, k);
    if key(x) == k {
      NoneWithKeyBelow(s, key, k);
    } else {
      assert WithKey([x], key, k) == [];
    }
  }

  /** The sorted sequence is descending. */
  lemma {:induction false} SortDescSorted<T>(s: seq<T>, key: T -> real)
    ensures SortedDesc(SortDesc(s, key), key)
    decreases |s|
  {
    if |s| != 0 {
      SortDescSorted(s[..|s| - 1], key);
      InsertSorted(s[|s| - 1], SortDesc(s[..|s| - 1], key), key);
    }
  }

  /** Stability: for every key, the elements with that key come out in input order. */
  lemma {:induction false} SortDescStable<T>(s: seq<T>, key: T -> real, k: real)
    ensures WithKey(SortDesc(s, key), key, k) == WithKey(s, key, k)
    decreases |s|
  {
    if |s| != 0 {
      var init, x := s[..|s| - 1], s[|s| - 1];
      var sorted := SortDesc(init, key);
      assert SortDesc(s, key) == Insert(x, sorted, key);
      SortDescStable(init, key, k);
      SortDescSorted(init, key);
      InsertWithKey(x, sorted, key, k);
      WithKeySingle(x, key, k);
    }
  }

  /** A sequence already descending is left as it is. */
  lemma {:induction false} SortDescOfSorted<T>(s: seq<T>, key: T -> real)
    requires SortedDesc(s, key)
    ensures SortDesc(s, key) == s
    decreases |s|
  {
    if |s| != 0 {
      var init := s[..|s| - 1];
      var x := s[|s| - 1];
      SortDescOfSorted(init, key);
      AppendAtEnd(x, init, key);
      assert init + [x] == s;
    }
  }

  /** An element no larger than every key of a descending sequence is inserted at its end. */
  lemma {:induction false} AppendAtEnd<T>(x: T, s: seq<T>, key: T -> real)
    requires forall i :: 0 <= i < |s| ==> key(s[i]) >= key(x)
    ensures Insert(x, s, key) == s + [x]
    decreases |s|
  {
    if |s| != 0 {
      AppendAtEnd(x, s[1..], key);
      assert [s[0]] + (s[1..] + [x]) == s + [x];
    }
  }
}

=== FILE: sub_controller.dfy ===
/**
  * The interactive scene's sub-controllers: one policy per motion type
  * (punch, idle, block, kick, pivot), each stepping its own phase counter
  * with the same action decoding as the training controller.  The policy,
  * the skeleton and the pose alignment are parameters.
  */
module SubController {
  import opened Numeric
  import Controller

  datatype Kind = Punch | Idle | Block | Kick | Pivot

  /** The type string each sub-controller passes to the base constructor. */
  function TypeName(k: Kind): string
  {
    match k
    case Punch => "Punch"
    case Idle => "Idle"
    case Block => "Block"
    case Kick => "Kick"
    case Pivot => "Pivot"
  }

  /**
    * A sub-controller: its type, the reference's phase length, the number of
    * non-root DOFs, the last time step, the frame counters and the frame of
    * the previous step.
    */
  datatype Sub = Sub(
    kind: Kind,
    phaseLength: nat,
    interestedDof: nat,
    numActions: nat,
    simPerCon: nat,
    step: real,
    frame: real,
    onPhase: real,
    prevFrame: real)

  /**
    * The constructor: five sub-steps per control step and one action per
    * non-root DOF plus the time step.  The constructor leaves the frame
    * counters and the step unset; `unset` is what they happen to hold.
    */
  function Create(kind: Kind, dofs: nat, phaseLength: nat, unset: real): (s: Sub)
    requires 6 <= dofs
    ensures s.kind == kind && s.phaseLength == phaseLength
    ensures s.interestedDof == dofs - 6 && s.numActions == dofs - 5 && s.simPerCon == 5
  {
    Sub(kind, phaseLength, dofs - 6, dofs - 6 + 1, 5, unset, unset, unset, unset)
  }

  /** A sub-controller and a training controller built for the same skeleton expect the same number of actions. */
  lemma SameActionCountAsController(kind: Kind, dofs: nat, phaseLength: nat, unset: real, numState: nat, got: bool)
    requires 6 <= dofs && 1 <= phaseLength
    ensures Create(kind, dofs, phaseLength, unset).numActions
            == Controller.NumAction(Controller.Create(phaseLength, dofs, numState, got))
  {
  }

  /** The on-phase wrap of a sub-controller: one phase length off once the frame reaches the phase length. */
  function WrapOnPhase(x: real, phaseLength: nat): (r: real)
    ensures phaseLength as real <= x ==> r == x - phaseLength as real
    ensures x < phaseLength as real ==> r == x
  {
    if phaseLength as real <= x then x - phaseLength as real else x
  }

  /** What one `Step` produces: the sub-controller, the decoded actions, the world steps taken, and the value returned. */
  datatype StepResult = StepResult(sub: Sub, actions: seq<real>, worldSteps: nat, returned: Option<bool>)

  /**
    * `Step`: the policy's action is decoded as in the training controller,
    * except that the time step is always the decoded one; both frame
    * counters advance by it; the sub-step loop runs its world steps; the
    * on-phase frame wraps; the frame is remembered.  The function is
    * declared to return a `bool` but ends without a `return`, so no value is
    * defined.
    */
  function Step(s: Sub, action: seq<real>, exp: real -> real): (r: StepResult)
    requires ExpLike(exp) && |action| == s.interestedDof + 1
    ensures r.actions == Controller.DecodeActions(action, s.interestedDof, exp)
    ensures r.sub.step == Controller.DecodeStep(action[s.interestedDof], exp)
    ensures r.sub.frame == s.frame + r.sub.step && r.sub.prevFrame == r.sub.frame
    ensures r.sub.onPhase == WrapOnPhase(s.onPhase + r.sub.step, s.phaseLength)
    ensures r.worldSteps == 2 * Controller.OuterIterations(s.simPerCon)
    ensures r.returned.None?
    ensures r.sub == s.(step := r.sub.step, frame := r.sub.frame, onPhase := r.sub.onPhase, prevFrame := r.sub.prevFrame)
  {
    var actions := Controller.DecodeActions(action, s.interestedDof, exp);
    var step := actions[s.interestedDof];
    var frame := s.frame + step;
    StepResult(s.(step := step, frame := frame, onPhase := WrapOnPhase(s.onPhase + step, s.phaseLength),
                  prevFrame := frame),
               actions, 2 * Controller.OuterIterations(s.simPerCon), None)
  }

  /** With five sub-steps a step runs six world steps. */
  lemma StepRunsSixWorldSteps(s: Sub, action: seq<real>, exp: real -> real)
    requires ExpLike(exp) && |action| == s.interestedDof + 1 && s.simPerCon == 5
    ensures Step(s, action, exp).worldSteps == 6
  {
  }

  /**
    * The on-phase frame stays in `[0, P)`: from there a step no longer than
    * the phase lands in it again.
    */
  lemma StepKeepsOnPhaseInRange(s: Sub, action: seq<real>, exp: real -> real)
    requires ExpLike(exp) && |action| == s.interestedDof + 1
    requires 0.0 <= s.onPhase < s.phaseLength as real
    requires exp(1.0) <= s.phaseLength as real
    ensures var r := Step(s, action, exp).sub;
            0.0 <= r.onPhase < s.phaseLength as real
  {
  }

  /**
    * At exactly one phase length the two controllers part: the
    * sub-controller wraps to 0, the training controller keeps the frame at
    * the phase length until it is strictly beyond it.
    */
  lemma WrapDiffersFromController(c: Controller.State)
    requires Controller.Valid(c) && c.clock.onPhase == c.cfg.phaseLength as real
    ensures WrapOnPhase(c.clock.onPhase, c.cfg.phaseLength) == 0.0
    ensures Controller.WrapPhase(c).0.clock.onPhase == c.cfg.phaseLength as real
  {
  }

  /**
    * `Synchronizable`: the idle controller can hand over at any frame; the
    * others only in the first ten frames of the phase or the last five.
    */
  predicate Synchronizable(s: Sub)
  {
    s.kind == Idle || s.onPhase <= 10.0 || s.phaseLength as real - 5.0 <= s.onPhase
  }

  /**
    * A step that wraps the phase leaves every sub-controller synchronizable:
    * the new on-phase frame is below the step, and a step is at most `e < 10`.
    */
  lemma SynchronizableAfterWrap(s: Sub, action: seq<real>, exp: real -> real)
    requires ExpLike(exp) && |action| == s.interestedDof + 1
    requires s.onPhase < s.phaseLength as real && exp(1.0) <= 10.0
    requires s.phaseLength as real <= s.onPhase + Step(s, action, exp).sub.step
    ensures Synchronizable(Step(s, action, exp).sub)
  {
  }

  /** Away from both windows only the idle controller is synchronizable. */
  lemma NotSynchronizableMidPhase(s: Sub)
    requires 10.0 < s.onPhase < s.phaseLength as real - 5.0
    ensures Synchronizable(s) <==> s.kind == Idle
  {
  }

  /** What `Synchronize` hands the reference manager: one aligned pose and one time step per phase frame. */
  datatype Handover = Handover(positions: seq<seq<real>>, steps: seq<real>)

  /**
    * `Synchronize(frame)`: every phase frame's reference pose, moved by the
    * alignment that puts the reference's pose at `frame` onto the character,
    * and its time step, collected for the reference manager; the frame
    * counters restart at `frame` and the step is read back at `frame`.
    * `positionAt` and `stepAt` are the reference's adaptive pose and time
    * step at a frame.
    */
  function Synchronize(s: Sub, frame: real, positionAt: real -> seq<real>, stepAt: real -> real,
                       align: seq<real> -> seq<real>): (r: (Sub, Handover))
    ensures |r.1.positions| == s.phaseLength && |r.1.steps| == s.phaseLength
    ensures forall i :: 0 <= i < s.phaseLength ==>
              r.1.positions[i] == align(positionAt(i as real)) && r.1.steps[i] == stepAt(i as real)
    ensures r.0.frame == frame && r.0.onPhase == frame && r.0.prevFrame == frame
    ensures r.0.step == stepAt(frame)
    ensures r.0 == s.(frame := frame, onPhase := frame, prevFrame := frame, step := r.0.step)
  {
    var positions := seq(s.phaseLength, i => align(positionAt(i as real)));
    var steps := seq(s.phaseLength, i => stepAt(i as real));
    (s.(frame := frame, onPhase := frame, prevFrame := frame, step := stepAt(frame)), Handover(positions, steps))
  }

  /**
    * `GetState`: the training controller's layout, with the goal parameters
    * appended exactly when the type is not idle.
    */
  function GetState(s: Sub, p: seq<real>, v: seq<real>, upAngle: real, rootHeight: real,
                    next: seq<real>, ee: seq<real>, goal: seq<real>): (st: seq<real>)
    ensures |st| == |p| + |v| + 2 + |next| + 1 + |ee| + 1 + (if s.kind != Idle then |goal| else 0)
    ensures s.kind != Idle ==> st[|st| - |goal|..] == goal
    ensures st[|p| + |v| + 2 + |next|] == s.step
    ensures st[|p| + |v| + 2 + |next| + 1 + |ee|] == s.onPhase
  {
    var base := p + v + [upAngle, rootHeight] + next + [s.step] + ee + [s.onPhase];
    if s.kind != Idle then base + goal else base
  }

  /** The layout is the training controller's, with "parametric" meaning "not idle". */
  lemma SameLayoutAsController(s: Sub, c: Controller.State, p: seq<real>, v: seq<real>, upAngle: real,
                               rootHeight: real, next: seq<real>, ee: seq<real>, goal: seq<real>)
    requires c.cfg.parametric == (s.kind != Idle)
    requires c.clock.step == s.step && c.clock.onPhase == s.onPhase
    ensures GetState(s, p, v, upAngle, rootHeight, next, ee, goal)
            == Controller.StateLayout(c, p, v, upAngle, rootHeight, next, ee, goal)
  {
  }
}

=== FILE: velocity.dfy ===
/**
  * Reference velocities: finite differences of consecutive poses over the
  * 0.033 s frame time, with a single 2π correction on revolute joints.
  */
module Velocity {
  import opened Numeric

  /** The frame time the differences are divided by. */
  const FRAME_TIME: real := 0.033

  /**
    * One 2π correction toward [-π, π] (both ends are kept as they are):
    * applied once, so values further than 3π from zero are not brought into
    * range.
    */
  function WrapOnce(x: real): (r: real)
    ensures -PI <= x <= PI ==> r == x
    ensures PI < x ==> r == x - 2.0 * PI
    ensures x < -PI ==> r == x + 2.0 * PI
    ensures -3.0 * PI <= x <= 3.0 * PI ==> -PI <= r <= PI
    ensures 3.0 * PI < x ==> PI < r
    ensures x < -3.0 * PI ==> r < -PI
  {
    if x > PI then x - 2.0 * PI
    else if x < -PI then x + 2.0 * PI
    else x
  }

  /** The correction applied to the revolute coordinates `revolute` of `v` only. */
  function WrapRevolute(v: seq<real>, revolute: set<nat>): (r: seq<real>)
    ensures |r| == |v|
    ensures forall i :: 0 <= i < |v| && i !in revolute ==> r[i] == v[i]
    ensures forall i :: 0 <= i < |v| && i in revolute ==> r[i] == WrapOnce(v[i])
  {
    seq(|v|, i requires 0 <= i < |v| => if i in revolute then WrapOnce(v[i]) else v[i])
  }

  /** `v / c` componentwise. */
  function Divide(v: seq<real>, c: real): (r: seq<real>)
    requires c != 0.0
    ensures |r| == |v|
    ensures forall i :: 0 <= i < |v| ==> r[i] * c == v[i]
  {
    seq(|v|, i requires 0 <= i < |v| => v[i] / c)
  }

  /** The velocity between two consecutive poses, `diff` being `getPositionDifferences`. */
  function FrameVelocity(next: seq<real>, cur: seq<real>, diff: (seq<real>, seq<real>) -> seq<real>,
                         revolute: set<nat>): seq<real>
  {
    WrapRevolute(Divide(diff(next, cur), FRAME_TIME), revolute)
  }

  /**
    * `GetVelocityFromPositions` (and the velocity pass of `LoadMotionFromBVH`):
    * one velocity per pose, frame `i` from poses `i+1` and `i`, the last
    * frame reusing the first frame's velocity so that the clip closes into a
    * cycle.  The source needs two poses at least: with one the first velocity
    * does not exist, with none the loop bound underflows.
    */
  method VelocitiesFromPositions(pos: seq<seq<real>>, diff: (seq<real>, seq<real>) -> seq<real>,
                                 revolute: set<nat>) returns (vel: seq<seq<real>>)
    requires 2 <= |pos|
    ensures |vel| == |pos|
    ensures forall i :: 0 <= i < |pos| - 1 ==> vel[i] == FrameVelocity(pos[i + 1], pos[i], diff, revolute)
    ensures vel[|pos| - 1] == vel[0]
  {
    vel := [];
    var i := 0;
    while i < |pos| - 1
      invariant 0 <= i <= |pos| - 1 && |vel| == i
      invariant forall m :: 0 <= m < i ==> vel[m] == FrameVelocity(pos[m + 1], pos[m], diff, revolute)
    {
      vel := vel + [FrameVelocity(pos[i + 1], pos[i], diff, revolute)];
      i := i + 1;
    }
    vel := vel + [vel[0]];
  }

  /**
    * When a revolute coordinate changes by at most 3π·0.033 between two
    * consecutive poses, its velocity lands in [-π, π].
    */
  lemma RevoluteVelocitiesInRange(pos: seq<seq<real>>, vel: seq<seq<real>>,
                                  diff: (seq<real>, seq<real>) -> seq<real>, revolute: set<nat>, i: nat, j: nat)
    requires 2 <= |pos| && |vel| == |pos| && i < |pos| - 1
    requires vel[i] == FrameVelocity(pos[i + 1], pos[i], diff, revolute)
    requires j < |diff(pos[i + 1], pos[i])| && j in revolute
    requires -3.0 * PI * FRAME_TIME <= diff(pos[i + 1], pos[i])[j] <= 3.0 * PI * FRAME_TIME
    ensures -PI <= vel[i][j] <= PI
  {
    var d := diff(pos[i + 1], pos[i])[j];
    var q := Divide(diff(pos[i + 1], pos[i]), FRAME_TIME)[j];
    assert q * FRAME_TIME == d;
    assert -3.0 * PI <= q <= 3.0 * PI;
  }
}

=== FILE: widget_text.dfy ===
/**
  * The string helpers of the motion viewer and the header copy of its
  * motion-saving routine: `split` on a token, whitespace trimming, map
  * inversion, the lexicographic `cmp` on vectors, and the loop that copies a
  * motion file's header up to its "Time:" line.  Strings are character
  * sequences; whitespace is the C locale's `isspace`.
  */
module WidgetText {
  import opened Numeric
  import RegressionMemory

  // ---------------------------------------------------------------- search

  /** `tok` occurs in `s` starting at `q`. */
  predicate MatchAt(s: string, tok: string, q: nat)
  {
    q + |tok| <= |s| && s[q..q + |tok|] == tok
  }

  /**
    * `std::string::find(tok, from)`: the first position at or after `from`
    * where `tok` occurs, or -1 for `npos`.
    */
  function Find(s: string, tok: string, from: nat): (p: int)
    ensures p == -1 || (from <= p && MatchAt(s, tok, p))
    ensures p == -1 ==> forall q :: from <= q ==> !MatchAt(s, tok, q)
    ensures 0 <= p ==> forall q :: from <= q < p ==> !MatchAt(s, tok, q)
    decreases |s| - from
  {
    if |s| < from + |tok| then -1
    else if MatchAt(s, tok, from) then from
    else Find(s, tok, from + 1)
  }

  /** `s.find(tok) != npos`. */
  predicate Contains(s: string, tok: string)
  {
    0 <= Find(s, tok, 0)
  }

  /** An occurrence inside a slice is an occurrence in the whole string, shifted by the slice's start. */
  lemma SliceMatch(s: string, tok: string, f: nat, e: nat, q: nat)
    requires f <= e <= |s| && MatchAt(s[f..e], tok, q)
    ensures MatchAt(s, tok, f + q) && f + q + |tok| <= e
  {
    var a, b := s[f..e][q..q + |tok|], s[f + q..f + q + |tok|];
    assert |a| == |b| && forall k :: 0 <= k < |a| ==> a[k] == b[k];
  }

  // ---------------------------------------------------------------- split

  /** The pieces joined back with the token between consecutive pieces. */
  function Join(pieces: seq<string>, tok: string): string
    decreases |pieces|
  {
    if |pieces| == 0 then ""
    else if |pieces| == 1 then pieces[0]
    else pieces[0] + tok + Join(pieces[1..], tok)
  }

  /**
    * The split loop from offset `f`: the text up to the next occurrence is a
    * piece and the search resumes after the occurrence; the rest of the
    * string after the last occurrence is the final piece.  The pieces join
    * back to `s[f..]` and none contains the token.
    */
  function Pieces(s: string, tok: string, f: nat): (r: seq<string>)
    requires 0 < |tok| && f <= |s|
    ensures 1 <= |r| && Join(r, tok) == s[f..]
    ensures forall i :: 0 <= i < |r| ==> !Contains(r[i], tok)
    decreases |s| - f
  {
    var p := Find(s, tok, f);
    if p < 0 then
      NoMatchInSlice(s, tok, f, |s|);
      assert s[f..|s|] == s[f..];
      [s[f..]]
    else
      NoMatchInSlice(s, tok, f, p);
      var rest := Pieces(s, tok, p + |tok|);
      assert ([s[f..p]] + rest)[1..] == rest;
      assert s[f..] == s[f..p] + tok + s[p + |tok|..];
      [s[f..p]] + rest
  }

  /** A slice holding no occurrence of the whole string's does not contain the token. */
  lemma NoMatchInSlice(s: string, tok: string, f: nat, e: nat)
    requires 0 < |tok| && f <= e <= |s|
    requires forall q :: f <= q && q + |tok| <= e ==> !MatchAt(s, tok, q)
    ensures !Contains(s[f..e], tok)
  {
    var q := Find(s[f..e], tok, 0);
    if 0 <= q {
      SliceMatch(s, tok, f, e, q);
    }
  }

  /**
    * `split(s, tok)`: the single piece `s` when the token is empty or does
    * not occur; otherwise the pieces between the occurrences, found left to
    * right without overlap.  Either way the pieces joined with the token give
    * back `s`, and with a non-empty token no piece contains it.
    */
  function Split(s: string, tok: string): (r: seq<string>)
    ensures 1 <= |r|
    ensures |tok| == 0 || !Contains(s, tok) ==> r == [s]
    ensures Join(r, tok) == s
    ensures 0 < |tok| ==> forall i :: 0 <= i < |r| ==> !Contains(r[i], tok)
  {
    if |tok| == 0 || !Contains(s, tok) then [s]
    else
      assert s[0..] == s;
      Pieces(s, tok, 0)
  }

  function TotalLength(pieces: seq<string>): nat
    decreases |pieces|
  {
    if |pieces| == 0 then 0 else |pieces[0]| + TotalLength(pieces[1..])
  }

  /**
    * Joining `n` pieces inserts the token `n - 1` times: with the round trip
    * of `Split`, the number of pieces is one more than the number of
    * occurrences the split consumed.
    */
  lemma {:induction false} JoinLength(pieces: seq<string>, tok: string)
    requires 1 <= |pieces|
    ensures |Join(pieces, tok)| == TotalLength(pieces) + (|pieces| - 1) * |tok|
    decreases |pieces|
  {
    if |pieces| > 1 {
      JoinLength(pieces[1..], tok);
      assert TotalLength(pieces[1..][1..]) + |pieces[1..][0]| == TotalLength(pieces[1..]);
    } else {
      assert TotalLength(pieces[1..]) == 0;
    }
  }

  /** The pieces of a split with a non-empty token account for the whole string, token occurrences included. */
  lemma SplitCount(s: string, tok: string)
    requires 0 < |tok|
    ensures var r := Split(s, tok);
            TotalLength(r) + (|r| - 1) * |tok| == |s|
  {
    JoinLength(Split(s, tok), tok);
  }

  // ---------------------------------------------------------------- trim

  /** `std::isspace` in the C locale. */
  predicate IsSpace(ch: char)
  {
    ch == ' ' || ch == '\t' || ch == '\n' || ch == '\U{0B}' || ch == '\U{0C}' || ch == '\r'
  }

  /** `ltrim`: the suffix left after erasing the leading whitespace. */
  function LTrim(s: string): (r: string)
    ensures |r| <= |s| && r == s[|s| - |r|..]
    ensures forall k :: 0 <= k < |s| - |r| ==> IsSpace(s[k])
    ensures |r| == 0 || !IsSpace(r[0])
    decreases |s|
  {
    if |s| == 0 || !IsSpace(s[0]) then s else LTrim(s[1..])
  }

  /** `rtrim`: the prefix left after erasing the trailing whitespace. */
  function RTrim(s: string): (r: string)
    ensures |r| <= |s| && r == s[..|r|]
    ensures forall k :: |r| <= k < |s| ==> IsSpace(s[k])
    ensures |r| == 0 || !IsSpace(r[|r| - 1])
    decreases |s|
  {
    if |s| == 0 || !IsSpace(s[|s| - 1]) then s else RTrim(s[..|s| - 1])
  }

  /** `trim`: `ltrim` and then `rtrim`. */
  function Trim(s: string): string
  {
    RTrim(LTrim(s))
  }

  /**
    * The trimmed string is a contiguous slice `s[i..j]`: everything before
    * `i` and from `j` on is whitespace, and the slice neither starts nor ends
    * with whitespace.
    */
  lemma TrimIsSlice(s: string) returns (i: nat, j: nat)
    ensures i <= j <= |s| && Trim(s) == s[i..j]
    ensures forall k :: 0 <= k < i ==> IsSpace(s[k])
    ensures forall k :: j <= k < |s| ==> IsSpace(s[k])
    ensures i < j ==> !IsSpace(s[i]) && !IsSpace(s[j - 1])
  {
    var l := LTrim(s);
    var t := RTrim(l);
    i := |s| - |l|;
    j := i + |t|;
    PrefixOfSuffix(s, l, t, i);
  }

  /** A prefix `t` of the suffix `l == s[i..]` is the slice `s[i..i + |t|]`, and the rest of `l` is the rest of `s`. */
  lemma PrefixOfSuffix(s: string, l: string, t: string, i: nat)
    requires i <= |s| && l == s[i..] && |t| <= |l| && t == l[..|t|]
    ensures t == s[i..i + |t|]
    ensures forall k :: i + |t| <= k < |s| ==> s[k] == l[k - i]
    ensures 0 < |t| ==> s[i] == t[0] && s[i + |t| - 1] == t[|t| - 1]
  {
  }

  /** Trimming a trimmed string changes nothing. */
  lemma TrimIdempotent(s: string)
    ensures Trim(Trim(s)) == Trim(s)
  {
    var l := LTrim(s);
    var t := RTrim(l);
    if |t| != 0 {
      assert t[0] == l[0];
    }
    assert LTrim(t) == t;
  }

  // ---------------------------------------------------------------- inverse_map

  /** `v` is first held by the entry at index `i`, whose key is `k`; no earlier entry holds `v`. */
  predicate FirstHolder<K(==), V(==)>(entries: seq<(K, V)>, i: int, k: K, v: V)
  {
    0 <= i < |entries| && entries[i] == (k, v) && forall j :: 0 <= j < i ==> entries[j].1 != v
  }

  /**
    * `inverse_map`: the map's entries visited in iteration order, each
    * inserted as (value, key); an insert whose value is already a key does
    * nothing.  Every value becomes a key, mapped to the key of the first
    * entry holding it.
    */
  method InverseMap<K(==), V(==)>(entries: seq<(K, V)>) returns (inv: map<V, K>)
    ensures |inv| <= |entries|
    ensures forall i :: 0 <= i < |entries| ==> entries[i].1 in inv
    ensures forall v :: v in inv ==> exists i :: FirstHolder(entries, i, inv[v], v)
  {
    inv := map[];
    ghost var first: map<V, int> := map[];
    var n := 0;
    while n < |entries|
      invariant 0 <= n <= |entries| && |inv| <= n
      invariant forall i :: 0 <= i < n ==> entries[i].1 in inv
      invariant forall v :: v in inv ==> v in first && first[v] < n && FirstHolder(entries, first[v], inv[v], v)
    {
      var (k, v) := entries[n];
      if v !in inv {
        assert FirstHolder(entries, n, k, v);
        inv := inv[v := k];
        first := first[v := n];
      }
      n := n + 1;
    }
    forall v | v in inv
      ensures exists i :: FirstHolder(entries, i, inv[v], v)
    {
      assert FirstHolder(entries, first[v], inv[v], v);
    }
  }

  /** The entries are listed in strictly ascending key order, as a `std::map` iterates. */
  predicate Ascending<K, V>(entries: seq<(K, V)>, less: (K, K) -> bool)
  {
    forall i, j :: 0 <= i < j < |entries| ==> less(entries[i].0, entries[j].0)
  }

  /** Over a `std::map`'s ascending iteration the inverse keeps, for every value, the smallest key holding it. */
  method InverseKeepsSmallestKey<K(==), V(==)>(entries: seq<(K, V)>, less: (K, K) -> bool) returns (inv: map<V, K>)
    requires Ascending(entries, less)
    ensures forall i :: 0 <= i < |entries| ==>
              entries[i].1 in inv && (inv[entries[i].1] == entries[i].0 || less(inv[entries[i].1], entries[i].0))
  {
    inv := InverseMap(entries);
    forall i | 0 <= i < |entries|
      ensures inv[entries[i].1] == entries[i].0 || less(inv[entries[i].1], entries[i].0)
    {
      var v := entries[i].1;
      var w :| FirstHolder(entries, w, inv[v], v);
      assert w <= i;
    }
  }

  // ---------------------------------------------------------------- cmp

  /**
    * `cmp(p1, p2)`: scan the first `|p1|` entries, true at the first entry
    * where `p1` is below and false at the first where it is above; `p2` must
    * have at least those entries.
    */
  method Cmp(p1: seq<Float>, p2: seq<Float>) returns (r: bool)
    requires |p1| <= |p2|
    ensures r == RegressionMemory.LexLess(p1, p2[..|p1|])
  {
    var q := p2[..|p1|];
    var i := 0;
    while i < |p1|
      invariant 0 <= i <= |p1|
      invariant RegressionMemory.LexLess(p1, q) == RegressionMemory.LexLess(p1[i..], q[i..])
    {
      assert p1[i..][1..] == p1[i + 1..] && q[i..][1..] == q[i + 1..];
      if RegressionMemory.Lt(p1[i], p2[i]) {
        return true;
      } else if RegressionMemory.Lt(p2[i], p1[i]) {
        return false;
      }
      i := i + 1;
    }
    return false;
  }

  /**
    * On NaN-free vectors of one length `cmp` is a strict order: irreflexive,
    * asymmetric, transitive, and total up to equality.
    */
  lemma CmpIsStrictOrder(a: seq<Float>, b: seq<Float>, c: seq<Float>)
    requires |a| == |b| == |c|
    requires RegressionMemory.NaNFree(a) && RegressionMemory.NaNFree(b) && RegressionMemory.NaNFree(c)
    ensures !RegressionMemory.LexLess(a, a[..|a|])
    ensures RegressionMemory.LexLess(a, b[..|a|]) ==> !RegressionMemory.LexLess(b, a[..|b|])
    ensures RegressionMemory.LexLess(a, b[..|a|]) && RegressionMemory.LexLess(b, c[..|b|])
            ==> RegressionMemory.LexLess(a, c[..|a|])
    ensures RegressionMemory.LexLess(a, b[..|a|]) || RegressionMemory.LexLess(b, a[..|b|]) || a == b
  {
    assert a[..|a|] == a && b[..|b|] == b && c[..|c|] == c;
    RegressionMemory.LexIrreflexive(a);
    RegressionMemory.LexAsymmetric(a, b);
    if RegressionMemory.LexLess(a, b) && RegressionMemory.LexLess(b, c) {
      RegressionMemory.LexTransitive(a, b, c);
    }
    RegressionMemory.LexTotal(a, b);
  }

  // ---------------------------------------------------------------- header copy

  function DigitChar(d: nat): (ch: char)
    requires d < 10
    ensures '0' <= ch <= '9'
  {
    ('0' as int + d) as char
  }

  /** A decimal digit character's value. */
  function DigitValue(ch: char): nat
  {
    if '0' <= ch <= '9' then ch as int - '0' as int else 0
  }

  /** The decimal text of `n` as a stream writes it: digits only, no leading zero. */
  function NatToString(n: nat): (s: string)
    ensures 1 <= |s|
    ensures forall k :: 0 <= k < |s| ==> '0' <= s[k] <= '9'
    ensures s[0] == '0' ==> n == 0
    decreases n
  {
    if n < 10 then [DigitChar(n)] else NatToString(n / 10) + [DigitChar(n % 10)]
  }

  /** The value of a digit string read most significant digit first. */
  function ParseNat(s: string): nat
    decreases |s|
  {
    if |s| == 0 then 0 else ParseNat(s[..|s| - 1]) * 10 + DigitValue(s[|s| - 1])
  }

  /** Reading back the decimal text gives the number. */
  lemma {:induction false} ParseNatToString(n: nat)
    ensures ParseNat(NatToString(n)) == n
    decreases n
  {
    if n >= 10 {
      ParseNatToString(n / 10);
      var s := NatToString(n);
      assert s[..|s| - 1] == NatToString(n / 10);
      assert DigitValue(s[|s| - 1]) == n % 10;
    }
  }

  /** The line written for a header line: the frame count replaces any line mentioning "Frames:". */
  function OutLine(line: string, total: nat): string
  {
    if Contains(line, "Frames:") then "Frames: " + NatToString(total) else line
  }

  /** A line naming a joint: it mentions "JOINT" or "ROOT". */
  predicate IsJointLine(line: string)
  {
    Contains(line, "JOINT") || Contains(line, "ROOT")
  }

  /** The joint name a line contributes: the second space-separated word of the trimmed line, if there is one. */
  function JointOf(line: string): seq<string>
  {
    var words := Split(Trim(line), " ");
    if IsJointLine(line) && 2 <= |words| then [words[1]] else []
  }

  /** The outputs of `f` over `xs`, concatenated in order. */
  function Collect<T, U>(xs: seq<T>, f: T -> seq<U>): seq<U>
    decreases |xs|
  {
    if |xs| == 0 then [] else Collect(xs[..|xs| - 1], f) + f(xs[|xs| - 1])
  }

  /** The joint names of a block of lines, in order. */
  function JointsOf(lines: seq<string>): seq<string>
  {
    Collect(lines, JointOf)
  }

  /**
    * What the header copy leaves: the lines written and the joint names
    * collected; or, when no line mentions "Time:", no end (the loop reads
    * past the end of the file and never breaks); or the index of a joint
    * line with no second word, where the name lookup is out of range.
    */
  datatype Header = Rewritten(lines: seq<string>, joints: seq<string>) | NoEnd | NoJointName(at: nat)

  /** What one pass of the loop does with a line: it names no joint it should, or it is written and may end the header. */
  datatype LineOutcome = BadJoint | Copied(out: string, last: bool)

  /**
    * One pass of the header copy loop: a joint line must have a second word;
    * the line is written as `OutLine`; a "Time:" line is the last.
    */
  function CopyLine(line: string, total: nat): (o: LineOutcome)
    ensures o.BadJoint? <==> IsJointLine(line) && |Split(Trim(line), " ")| < 2
    ensures o.Copied? ==> o.out == OutLine(line, total) && (o.last <==> Contains(line, "Time:"))
  {
    if IsJointLine(line) && |Split(Trim(line), " ")| < 2 then BadJoint
    else Copied(OutLine(line, total), Contains(line, "Time:"))
  }

  /**
    * The loop of the header copy over a per-line step and a per-line name
    * list: lines are written until the first that is the last or names no
    * joint, and the names of the lines passed are collected in order.
    */
  method CopyLines(lines: seq<string>, step: string -> LineOutcome, names: string -> seq<string>) returns (r: Header)
    ensures r.Rewritten? ==>
              1 <= |r.lines| <= |lines| && r.joints == Collect(lines[..|r.lines|], names)
              && forall j :: 0 <= j < |r.lines| ==>
                   step(lines[j]).Copied? && step(lines[j]).out == r.lines[j] && (step(lines[j]).last <==> j == |r.lines| - 1)
    ensures r.NoEnd? ==> forall j :: 0 <= j < |lines| ==> step(lines[j]).Copied? && !step(lines[j]).last
    ensures r.NoJointName? ==>
              r.at < |lines| && step(lines[r.at]).BadJoint?
              && forall j :: 0 <= j < r.at ==> step(lines[j]).Copied? && !step(lines[j]).last
  {
    var out: seq<string> := [];
    var joints: seq<string> := [];
    var i := 0;
    while i < |lines|
      invariant 0 <= i <= |lines| && |out| == i
      invariant forall j :: 0 <= j < i ==> step(lines[j]).Copied? && step(lines[j]).out == out[j] && !step(lines[j]).last
      invariant joints == Collect(lines[..i], names)
    {
      var o := step(lines[i]);
      if o.BadJoint? {
        return NoJointName(i);
      }
      out := out + [o.out];
      assert lines[..i + 1][..i] == lines[..i];
      joints := joints + names(lines[i]);
      if o.last {
        return Rewritten(out, joints);
      }
      i := i + 1;
    }
    return NoEnd;
  }

  /**
    * The header copy loop of `saveCurrentResult`: each line is written, with
    * "Frames:" lines replaced by the frame count; each joint line adds its
    * name; the loop stops after the first line mentioning "Time:".
    */
  method RewriteHeader(lines: seq<string>, total: nat) returns (r: Header)
    ensures r.Rewritten? ==>
              1 <= |r.lines| <= |lines| && r.joints == JointsOf(lines[..|r.lines|])
              && forall j :: 0 <= j < |r.lines| ==>
                   CopyLine(lines[j], total) == Copied(r.lines[j], j == |r.lines| - 1)
    ensures r.NoEnd? ==> forall j :: 0 <= j < |lines| ==> CopyLine(lines[j], total) == Copied(OutLine(lines[j], total), false)
    ensures r.NoJointName? ==>
              r.at < |lines| && CopyLine(lines[r.at], total) == BadJoint
              && forall j :: 0 <= j < r.at ==> CopyLine(lines[j], total) == Copied(OutLine(lines[j], total), false)
  {
    r := CopyLines(lines, line => CopyLine(line, total), JointOf);
  }

  /** Without a "Frames:" line the header is copied verbatim up to and including the "Time:" line. */
  method VerbatimWithoutFrames(lines: seq<string>, total: nat) returns (r: Header)
    requires forall j :: 0 <= j < |lines| ==> !Contains(lines[j], "Frames:")
    ensures r.Rewritten? ==> |r.lines| <= |lines| && r.lines == lines[..|r.lines|]
  {
    r := RewriteHeader(lines, total);
  }

  /** A header with a "Time:" line and well-formed joint lines up to it is always rewritten. */
  method RewrittenWhenWellFormed(lines: seq<string>, total: nat, k: nat) returns (r: Header)
    requires k < |lines| && Contains(lines[k], "Time:")
    requires forall j :: 0 <= j <= k && IsJointLine(lines[j]) ==> 2 <= |Split(Trim(lines[j]), " ")|
    ensures r.Rewritten? && |r.lines| <= k + 1
  {
    r := RewriteHeader(lines, total);
  }
}
